=== FILE: README.md ===
# Placy in Dafny

Placy rewrites placeholders in uploaded files. A client sends a file and a
map from placeholder keys to values. The service finds a processor for the
file by its name and MIME type, validates the map against that processor,
and returns the file with every key replaced by its value. This project
models the core of Placy and proves properties of the model.

The model covers these parts:

- **Replacement on text.** The placeholder engine has two strategies. The
  streaming strategy works in windows with an overlap. The parallel
  strategy works in chunks with an overlap. Both sort keys longest first,
  and both follow Java's `String.replace` on sequences of characters.
- **Processors and dispatch.** The text, image, document and archive
  processors, and the registry that picks one by priority with its two
  caches.
- **Transform services.** The upload-level `PlaceholderTransformService`
  and the older `FileTransformService` with its own file-type rules.
- **Archives.** ZIP/JAR/WAR/EAR entry copying and nesting, written as
  sequences of entry records.
- **Class files.** The constant-pool rewrite of `.class` entries, over
  bytes.
- **Content services.** The memoising document, image and class services
  and the text-sample detector.
- **Configuration and security.** The ".env" loader and the secret-key
  request filter.
- **Result records.** Processing, validation and transformation results,
  and the performance profiler.

Java's mutable objects become Dafny classes whose methods state their new
state. Loops become methods with invariants, proved against functions, and
those functions carry the lemmas. Java `null` becomes `Option`.
Collaborators outside the source become parameters, each a record of
functions:

- the ZIP codec,
- the charset,
- ASM,
- Apache POI,
- ImageIO,
- hash functions.

Two processors also receive, as functions, collaborators that the source
does define. The archive processor (`ArchiveProcessors.Services`) receives
the file-type detector and the image and document processors. The archive
file processor (`ArchiveFileProcessors.Platform.textStream`) receives the
engine's `processStream`. Those functions are not tied to the models of
the same classes elsewhere in this project.

The model's properties hold whatever these functions do, unless a lemma
states a requirement on them. Java's 32- and 64-bit arithmetic is written
out for signed bytes, the engine's metric totals and average, the profiler's
totals and the throughput figures. The operation counters and the parallel
chunk counts are unbounded integers (see "Left out"). The helpers are:

- `JavaLang.Signed` for signed bytes,
- `JavaLang.WrapLong` for `long` overflow,
- `JavaLang.JDiv` for division that truncates toward zero.

Observations on the source that are not errors:

- The "No processor found for file type" answer of `transformFile` is
  unreachable (`PlaceholderTransformServices.NoProcessorAnswerUnreachable`).
- `FileTransformService` rewrites text names outside its listed extensions
  but reports them as unsupported
  (`FileTransformServices.SupportedIffClassifiedOrListedText`).
- ".ppt" is a supported document that the dispatch returns untouched
  (`DocumentProcessors.PptSupportedButUntouched`).
- The memory estimate of the document processor turns negative past a third
  of `Long.MAX_VALUE` (`DocumentFileProcessors.HugeFileEstimateNegative`).

## Model

| member | source | states |
|---|---|---|
| Placeholders.SortByKeyLength | src/main/java/net/kyver/placy/service/document/DocumentProcessor.java:310-311 | the entries ordered by descending key length, as a permutation of the map (same multiset), so every key is still substituted |
| Placeholders.SortByKeyLengthStable | src/main/java/net/kyver/placy/service/document/DocumentProcessor.java:310-311 | the sort is stable: for every key length, the entries with keys of that length come out in their iteration order |
| Placeholders.SortKeepsEntries | src/main/java/net/kyver/placy/service/document/DocumentProcessor.java:310-311 | every entry of the map appears in the sorted list |
| Placeholders.SubstituteAllAbsent | src/main/java/net/kyver/placy/core/replacement/StreamingReplacementStrategy.java:186-194 | text in which no key occurs comes out of the null-checked chain unchanged, and the unchecked chain does not throw on it |
| Placeholders.SubstituteAllNullValues | src/main/java/net/kyver/placy/core/replacement/StreamingReplacementStrategy.java:190-193 | a map whose values are all null substitutes nothing |
| Placeholders.StrictAgrees | src/main/java/net/kyver/placy/service/document/DocumentProcessor.java:312-316 | without null values the chain with no null check never throws and equals the null-checked chain |
| Placeholders.StrictFailsOnNull | src/main/java/net/kyver/placy/service/document/DocumentProcessor.java:312-316 | the chain with no null check throws only when some value is null |
| Placeholders.StrictSomeAgrees | src/main/java/net/kyver/placy/service/document/DocumentProcessor.java:312-316 | whenever that chain does not throw, it computes what the null-checked chain computes |
| Placeholders.GuardIsRedundant | src/main/java/net/kyver/placy/core/replacement/StreamingReplacementStrategy.java:191-192 | the `contains` test before `replace` only saves work: with a non-null value the result equals an unconditional `replace` |
| Placeholders.NoKeyOccursSorted | src/main/java/net/kyver/placy/service/document/DocumentProcessor.java:310-311 | a text free of the map's keys is free of the sorted map's keys |
| Placeholders.ApplyPlaceholdersIsChain | src/main/java/net/kyver/placy/service/document/DocumentProcessor.java:304-318 | about `ApplyPlaceholders`: the empty-map early return only saves work: the result is the unchecked longest-key-first chain in every case |
| Placeholders.ApplyPlaceholdersKeyFree | src/main/java/net/kyver/placy/service/archive/ClassProcessor.java:169-183 | a text in which no key occurs is returned unchanged |
| Placeholders.ApplyPlaceholdersSucceeds | src/main/java/net/kyver/placy/service/image/ImageProcessor.java:189-203 | when it does not throw, the result is the null-checked longest-key-first chain |
| Placeholders.ApplyPlaceholdersFails | src/main/java/net/kyver/placy/service/image/ImageProcessor.java:189-203 | it throws (NullPointerException from `replace`) only when the map holds a null value |
| Placeholders.ApplyPlaceholdersNoNull | src/main/java/net/kyver/placy/service/archive/ClassProcessor.java:169-183 | without null values it never throws and returns the longest-key-first chain |
| JavaText.IndexOf | src/main/java/net/kyver/placy/core/replacement/StreamingReplacementStrategy.java:229-233 | `indexOf(key, from)` answers -1 or a position from `from` to the last start at which the key fits |
| JavaText.IndexOfSpec | src/main/java/net/kyver/placy/core/replacement/StreamingReplacementStrategy.java:229-233 | the answer is an occurrence, no earlier occurrence exists at or after `from`, and -1 means there is none |
| JavaText.LastIndexOf | src/main/java/net/kyver/placy/processor/FileProcessorRegistry.java:144 | `lastIndexOf('.')` holds the character when non-negative and no later index holds it |
| JavaText.ToLower | src/main/java/net/kyver/placy/processor/FileProcessorRegistry.java:31 | lower-casing keeps the length and folds each character on its own, A-Z to a-z (ASCII folding only) |
| JavaText.Trim | src/main/java/net/kyver/placy/config/EnvironmentSetup.java:19 | `trim()` is no longer than its input and neither starts nor ends with a character at or below U+0020 |
| JavaText.TrimStart | src/main/java/net/kyver/placy/config/EnvironmentSetup.java:19 | the leading part dropped by `trim()` holds only characters at or below U+0020 and what is kept is a suffix |
| JavaText.TrimEnd | src/main/java/net/kyver/placy/config/EnvironmentSetup.java:19 | the trailing part dropped by `trim()` holds only characters at or below U+0020 and what is kept is a prefix |
| JavaText.BlankIffTrimEmpty | src/main/java/net/kyver/placy/config/EnvironmentSetup.java:63 | a string is blank exactly when `trim()` leaves it empty |
| JavaText.CountMatchesFrom | src/main/java/net/kyver/placy/core/replacement/StreamingReplacementStrategy.java:229-233 | one turn of the counting loop: no match leaves nothing to count, a match adds one to the count of what follows it |
| JavaText.ReplaceMatchesFrom | src/main/java/net/kyver/placy/core/replacement/StreamingReplacementStrategy.java:205-208 | one turn of the replacing loop: no match leaves the rest as it is, a match is replaced and the search resumes after it |
| JavaText.ReplaceAllAbsent | src/main/java/net/kyver/placy/core/replacement/StreamingReplacementStrategy.java:191-192 | a key that does not occur is neither replaced nor counted |
| JavaText.ContainsIffMatches | src/main/java/net/kyver/placy/core/replacement/StreamingReplacementStrategy.java:191-192 | for a non-empty key, `contains` holds exactly when `replace` has an occurrence to substitute |
| JavaText.ReplaceAllLength | src/main/java/net/kyver/placy/core/replacement/StreamingReplacementStrategy.java:200-209 | each substitution changes the length by the value's length minus the key's |
| JavaText.ReplaceAllSelf | src/main/java/net/kyver/placy/core/replacement/StreamingReplacementStrategy.java:191-192 | replacing a non-empty key by itself changes nothing |
| JavaText.ContainsChar | src/main/java/net/kyver/placy/service/file/FileTypeDetector.java:75 | `contains` of a one-character string is membership of that character |
| JavaText.IndexOfChar | src/main/java/net/kyver/placy/config/EnvironmentSetup.java:21 | `indexOf('=')` is the first index holding the character, or -1 when none does |
| JavaText.StartsWithChar | src/main/java/net/kyver/placy/config/EnvironmentSetup.java:20 | `startsWith("#")` tests the first character of a non-empty string |
| JavaLang.Signed | src/main/java/net/kyver/placy/service/file/FileTypeDetector.java:122-126 | the value a Java `byte` holds: in -128..127, negative exactly for bit patterns from 0x80, congruent to the pattern modulo 256 |
| JavaLang.WrapLong | src/main/java/net/kyver/placy/processor/impl/DocumentFileProcessor.java:153-155 | `long` arithmetic wraps into the 64-bit range, leaves in-range values alone and stays congruent modulo 2^64 |
| JavaLang.JDiv | src/main/java/net/kyver/placy/processor/impl/ImageFileProcessor.java:101-103 | Java's truncating `/`: Euclidean division on non-negative operands, zero when the divisor is larger in magnitude, negative exactly when the signs differ |
| CacheKeys.NatToString | src/main/java/net/kyver/placy/service/file/FileTypeDetector.java:103 | the decimal numeral of a count: non-empty, digits only, one digit exactly below 10 |
| CacheKeys.IntToString | src/main/java/net/kyver/placy/service/archive/ClassProcessor.java:61 | `String.valueOf(int)`: non-empty, a leading '-' exactly for negative numbers, digits otherwise |
| CacheKeys.NatToStringInjective | src/main/java/net/kyver/placy/service/file/FileTypeDetector.java:103 | different numbers have different numerals |
| CacheKeys.IntToStringInjective | src/main/java/net/kyver/placy/service/archive/ClassProcessor.java:61 | different hashes have different numerals |
| CacheKeys.LastColonJoins | src/main/java/net/kyver/placy/service/document/DocumentProcessor.java:326-328 | in `a + ":" + s` with a colon-free `s`, the last ':' is the joining one |
| CacheKeys.SplitAtLastColon | src/main/java/net/kyver/placy/service/document/DocumentProcessor.java:326-328 | two such joins are equal only if both halves are |
| CacheKeys.NumeralHasNoColon | src/main/java/net/kyver/placy/service/archive/ClassProcessor.java:61 | a numeral holds no ':' |
| CacheKeys.NameLengthKeyInjective | src/main/java/net/kyver/placy/service/file/FileTypeDetector.java:103 | the key `filename + ":" + length` determines both the name and the length, even for names holding ':' |
| CacheKeys.NameLengthHashKeyInjective | src/main/java/net/kyver/placy/service/document/DocumentProcessor.java:326-328 | the key `filename:length:hash` determines the name, the length and the map's hash, and nothing else about the input |
| CacheKeys.HashPairKeyInjective | src/main/java/net/kyver/placy/service/archive/ClassProcessor.java:58-62 | the key `classHash:replacementHash` determines both hashes |
| FileNames.AfterLastDotSpec | src/main/java/net/kyver/placy/processor/FileProcessorRegistry.java:140-146 | the extension after the last dot holds no dot, and when non-empty the name ends in a dot followed by it |
| FileNames.AfterLastDotEmpty | src/main/java/net/kyver/placy/processor/FileProcessorRegistry.java:140-146 | that extension is empty exactly when the name has no dot or ends in one |
| FileNames.DottedIsLoweredAfterDot | src/main/java/net/kyver/placy/service/document/DocumentProcessor.java:320-324 | where the last dot is past the first character, the dotted lower-cased extension is the undotted one with the dot put back, lower-cased |
| FileNames.DottedIsLoweredArchive | src/main/java/net/kyver/placy/service/archive/ArchiveProcessor.java:541-550 | where the last dot is neither first nor last, the dotted rule is the archive rule lower-cased |
| FileNames.ImageFormatIsAfterDot | src/main/java/net/kyver/placy/service/image/ImageProcessor.java:174-183 | the image format is the lower-cased undotted extension, "jpg" read as "jpeg" |
| FileNames.ArchiveIsDotPlusAfterDot | src/main/java/net/kyver/placy/service/archive/ArchiveProcessor.java:541-550 | where text follows the last dot, the archive rule is the undotted one with the dot put back |
| FileNames.DotfileRulesDiffer | src/main/java/net/kyver/placy/service/file/FileTypeDetector.java:93-100 | for ".env" the undotted and archive rules see an extension and the dotted rule does not |
| FileNames.TrailingDotRulesDiffer | src/main/java/net/kyver/placy/service/archive/ArchiveProcessor.java:541-550 | for "lib." the dotted rule answers "." and the other two answer "" |
| FileNames.LoweredSuffix | src/main/java/net/kyver/placy/processor/impl/ArchiveFileProcessor.java:438-440 | `toLowerCase().endsWith("." + ext)` holds exactly when the lower-cased extension after the last dot is `ext` |
| MemoCaches.Kept | src/main/java/net/kyver/placy/service/document/DocumentProcessor.java:48-51 | the size check leaves the entries as they are up to the limit and otherwise empties the cache |
| MemoCaches.After | src/main/java/net/kyver/placy/service/document/DocumentProcessor.java:53 | after `computeIfAbsent` the key is present and holds the answer that was served |
| MemoCaches.SecondLookupServed | src/main/java/net/kyver/placy/service/image/ImageProcessor.java:40-45 | a second lookup under the same key is served the first answer, whatever it would compute |
| MemoCaches.MemoCache.constructor | src/main/java/net/kyver/placy/service/archive/ClassProcessor.java:17-18 | an empty cache with the given limit, key function and computation |
| MemoCaches.MemoCache.Lookup | src/main/java/net/kyver/placy/service/archive/ClassProcessor.java:25-45 | the size check then `computeIfAbsent`: the stored answer under the key or the one computed now, and the new entries |
| MemoCaches.MemoCache.Clear | src/main/java/net/kyver/placy/service/archive/ClassProcessor.java:64-67 | `clearCache` empties the cache |
| PriorityOrder.Insert | src/main/java/net/kyver/placy/processor/FileProcessorRegistry.java:26 | one insertion step keeps the list ordered by descending priority and adds exactly the one element |
| PriorityOrder.Sort | src/main/java/net/kyver/placy/processor/FileProcessorRegistry.java:26 | the processors ordered by descending priority, as a permutation of the input |
| PriorityOrder.InsertStable | src/main/java/net/kyver/placy/processor/FileProcessorRegistry.java:26 | an inserted element comes after every element of its own priority |
| PriorityOrder.SortStable | src/main/java/net/kyver/placy/processor/FileProcessorRegistry.java:26 | `List.sort` is stable: processors of equal priority keep their registration order |
| ProcessingResults.ProcessingResult.constructor | src/main/java/net/kyver/placy/core/ProcessingResult.java:16-22 | the three counts as given, no warnings, no errors |
| ProcessingResults.ProcessingResult.Counts | src/main/java/net/kyver/placy/core/ProcessingResult.java:24-34 | the getters answer the counts fixed at construction |
| ProcessingResults.ProcessingResult.SetProcessingTimeNanos | src/main/java/net/kyver/placy/core/ProcessingResult.java:40-42 | only the time changes |
| ProcessingResults.ProcessingResult.AddWarning | src/main/java/net/kyver/placy/core/ProcessingResult.java:55-57 | the warning is appended, `hasWarnings` holds and success is unaffected |
| ProcessingResults.ProcessingResult.AddError | src/main/java/net/kyver/placy/core/ProcessingResult.java:59-61 | the error is appended and the result is unsuccessful from then on (`isSuccessful` is `!hasErrors`) |
| ValidationResults.ValidationResult.constructor | src/main/java/net/kyver/placy/core/ValidationResult.java:12-15 | a fresh result has no messages and is valid |
| ValidationResults.ValidationResult.AddError | src/main/java/net/kyver/placy/core/ValidationResult.java:17-19 | the error is appended and the result is invalid from then on |
| ValidationResults.ValidationResult.AddWarning | src/main/java/net/kyver/placy/core/ValidationResult.java:21-23 | the warning is appended and validity is unchanged |
| TransformationResults.Success | src/main/java/net/kyver/placy/util/TransformationResult.java:24-26 | a successful result carrying the name, the content and the processing result, with no error message |
| TransformationResults.Error | src/main/java/net/kyver/placy/util/TransformationResult.java:28-30 | an unsuccessful result with the message and neither content nor processing result |
| TransformationResults.TransformationResult.GetContent | src/main/java/net/kyver/placy/util/TransformationResult.java:40-42 | the content (the copy equals it), absent on an error result |
| TransformationResults.TransformationResult.GetWarnings | src/main/java/net/kyver/placy/util/TransformationResult.java:52-54 | empty without a processing result, otherwise that result's warnings |
| TransformationResults.HasWarningsIffWarnings | src/main/java/net/kyver/placy/util/TransformationResult.java:52-58 | `hasWarnings` holds exactly when `getWarnings` is non-empty |
| Profiler.MinTimeIsMinimum | src/main/java/net/kyver/placy/util/PerformanceProfiler.java:30 | the running minimum lies at or below every recorded time and is one of them unless none lies below `Long.MAX_VALUE` |
| Profiler.MaxTimeIsMaximum | src/main/java/net/kyver/placy/util/PerformanceProfiler.java:31 | the running maximum is non-negative, at or above every recorded time, and one of them unless it is 0 |
| Profiler.MaxThroughputIgnoresZeroTime | src/main/java/net/kyver/placy/util/PerformanceProfiler.java:33-36 | samples without a positive time never move the maximum throughput |
| Profiler.ThroughputExactBelowWrap | src/main/java/net/kyver/placy/util/PerformanceProfiler.java:34 | with a positive time and at most `Long.MAX_VALUE / 10^9` bytes, a sample's throughput is the exact, non-negative quotient bytes × 10^9 / time |
| Profiler.TenGigabytesPerSecondNegative | src/main/java/net/kyver/placy/util/PerformanceProfiler.java:34 | ten gigabytes in one second give a negative throughput, because bytes × 10^9 wraps |
| Profiler.ThroughputNotMonotone | src/main/java/net/kyver/placy/util/PerformanceProfiler.java:33-35 | nine gigabytes in one second report a higher throughput than ten gigabytes in the same second, so the reported figure is not monotone in the bytes |
| Profiler.CorrectedThroughput | src/main/java/net/kyver/placy/util/PerformanceProfiler.java:33-35 | the throughput without the wrap: always a long, equal to the source's figure while bytes × 10^9 fits in a long, and never negative for a non-negative byte count |
| Profiler.CorrectedThroughputMonotone | src/main/java/net/kyver/placy/util/PerformanceProfiler.java:33-35 | over the same time, more bytes never report a lower corrected throughput |
| Profiler.PerformanceProfiler.constructor | src/main/java/net/kyver/placy/util/PerformanceProfiler.java:13-22 | an empty history and no operation counters, with the running figures at their initial values |
| Profiler.PerformanceProfiler.RecordProcessing | src/main/java/net/kyver/placy/util/PerformanceProfiler.java:24-37 | one more sample in the history and one more operation, the three `LongAdder` totals growing by wrapping `long` sums, with every running figure kept equal to its definition over the history; a sample's throughput is bytes × 10^9 wrapped to 64 bits, then divided by the time |
| Profiler.PerformanceProfiler.AddToTotals | src/main/java/net/kyver/placy/util/PerformanceProfiler.java:25-28 | one more operation, and each `LongAdder` total becomes its 64-bit wrapped sum with the new time, bytes or replacements |
| Profiler.PerformanceProfiler.UpdateExtremes | src/main/java/net/kyver/placy/util/PerformanceProfiler.java:30-36 | the minimum and maximum time take the new time into account, and after a positive time the best throughput is the larger of the old one and this sample's |
| Profiler.PerformanceProfiler.RecordOperation | src/main/java/net/kyver/placy/util/PerformanceProfiler.java:39-41 | the counter of that type goes up by one, created at 0 first, and no other counter changes |
| Profiler.PerformanceProfiler.OperationCount | src/main/java/net/kyver/placy/util/PerformanceProfiler.java:78-81 | 0 for a type never recorded |
| Profiler.PerformanceProfiler.AverageProcessingTimeNanos | src/main/java/net/kyver/placy/util/PerformanceProfiler.java:43-46 | the mean time truncated toward zero, for a negative (wrapped) total as for a non-negative one, or 0 before any operation |
| Profiler.PerformanceProfiler.AverageThroughputBytesPerSecond | src/main/java/net/kyver/placy/util/PerformanceProfiler.java:48-51 | 0 when no time has been recorded; the exact quotient total bytes × 10^9 / total time while that product fits in a long; always a long, since the product wraps |
| Profiler.PerformanceProfiler.MinProcessingTimeNanos | src/main/java/net/kyver/placy/util/PerformanceProfiler.java:65-68 | the running minimum, reported as 0 while it still holds the sentinel |
| Profiler.PerformanceProfiler.Reset | src/main/java/net/kyver/placy/util/PerformanceProfiler.java:83-96 | back to the state of a fresh profiler, every reported figure 0 |
| Profiler.EmptyProfilerReportsZero | src/main/java/net/kyver/placy/util/PerformanceProfiler.java:43-76 | with nothing recorded, the minimum, maximum, average time and average throughput are all 0 |
| Profiler.AverageThroughputWraps | src/main/java/net/kyver/placy/util/PerformanceProfiler.java:48-51 | a profiler holding ten gigabytes over one second of processing reports a negative average throughput |
| PlaceholderEngines.Strategy.ReplaceStream | src/main/java/net/kyver/placy/core/replacement/ReplacementStrategy.java:12-15 | the configured strategy's stream `replace`: an empty map copies every byte with zero counts, and the byte count is always the bytes read |
| PlaceholderEngines.Strategy.ReplaceBytes | src/main/java/net/kyver/placy/core/replacement/ReplacementStrategy.java:17-19 | the configured strategy's byte `replace`: an empty map returns the content itself |
| PlaceholderEngines.DefaultStrategy | src/main/java/net/kyver/placy/core/PlaceholderEngine.java:27-29 | `new PlaceholderEngine()` runs the streaming strategy with its default buffer |
| PlaceholderEngines.DefaultParallelStrategy | src/main/java/net/kyver/placy/core/replacement/ParallelReplacementStrategy.java:24-26 | the parallel strategy with its default chunk size |
| PlaceholderEngines.EntryErrors | src/main/java/net/kyver/placy/core/PlaceholderEngine.java:114-117 | an entry contributes exactly one error when its key is blank and none otherwise |
| PlaceholderEngines.ErrorsCountBlankKeys | src/main/java/net/kyver/placy/core/PlaceholderEngine.java:105-129 | one "Empty placeholder key found" error per blank key and no other error |
| PlaceholderEngines.ValidIffNoBlankKey | src/main/java/net/kyver/placy/core/PlaceholderEngine.java:105-129 | a map validates exactly when none of its keys is blank: null values and circular references only warn |
| PlaceholderEngines.BlankKeysOnlyErrors | src/main/java/net/kyver/placy/core/PlaceholderEngine.java:114-117 | when every key is blank there is one error per entry and no warning, since the loop skips the value checks |
| PlaceholderEngines.Merge | src/main/java/net/kyver/placy/core/PlaceholderEngine.java:163-164 | `merge(key, v, (a, b) -> (Long) a + (Long) b)`: the key is added, an existing value becomes the 64-bit wrapped sum with `v`, a new one starts at `v` wrapped to a `long`, other keys unchanged |
| PlaceholderEngines.UpdatedMetrics | src/main/java/net/kyver/placy/core/PlaceholderEngine.java:162-175 | after an update all four metrics are present, with the byte and replacement totals summed as `long`s and the average computed in `long` arithmetic |
| PlaceholderEngines.UpdateAddsTotals | src/main/java/net/kyver/placy/core/PlaceholderEngine.java:163-165 | each update adds the stream's bytes and its replacements to the totals as wrapping `long` sums, and one operation to the count |
| PlaceholderEngines.CountOperation | src/main/java/net/kyver/placy/core/PlaceholderEngine.java:165 | the operation count gains one, starting from one when absent; no other metric changes |
| PlaceholderEngines.FirstUpdateSetsAverage | src/main/java/net/kyver/placy/core/PlaceholderEngine.java:167-169 | the first update records its own time as the average and one operation |
| PlaceholderEngines.AverageFormula | src/main/java/net/kyver/placy/core/PlaceholderEngine.java:170-173 | a later update stores the weighted sum of the old average over n-1 operations and the new time, wrapped to a `long`, divided by n with truncation toward zero |
| PlaceholderEngines.WeightedMeanBetween | src/main/java/net/kyver/placy/core/PlaceholderEngine.java:172 | that weighted mean of values within a range stays within the range |
| PlaceholderEngines.AverageStaysInRange | src/main/java/net/kyver/placy/core/PlaceholderEngine.java:162-175 | while the largest recorded time times the operation count fits in a `long`, the running average never leaves the range of the recorded times |
| PlaceholderEngines.AverageWrapsNegative | src/main/java/net/kyver/placy/core/PlaceholderEngine.java:172 | an average of 2^62 over two operations followed by a zero time wraps the product and stores a negative average |
| PlaceholderEngines.PlaceholderEngine.constructor | src/main/java/net/kyver/placy/core/PlaceholderEngine.java:31-39 | the given strategy, a fresh profiler with no history, and no metrics |
| PlaceholderEngines.PlaceholderEngine.ProcessStream | src/main/java/net/kyver/placy/core/PlaceholderEngine.java:41-79 | a null map throws before any I/O; an empty map copies the input with zero counts and records nothing; otherwise the strategy's output, the elapsed time in the result, one more profiler sample and the updated metrics |
| PlaceholderEngines.PlaceholderEngine.UpdateMetrics | src/main/java/net/kyver/placy/core/PlaceholderEngine.java:162-175 | the metrics become their updated value for this result, totals and average in wrapping `long` arithmetic |
| PlaceholderEngines.PlaceholderEngine.ResetMetrics | src/main/java/net/kyver/placy/core/PlaceholderEngine.java:135-138 | no metrics and a profiler back in its initial state |
| PlaceholderEngines.PlaceholderEngine.ProcessBytes | src/main/java/net/kyver/placy/core/PlaceholderEngine.java:87-99 | a null content or map throws; an empty map gives an equal copy; otherwise the strategy's byte `replace` |
| PlaceholderEngines.PlaceholderEngine.ValidateEntry | src/main/java/net/kyver/placy/core/PlaceholderEngine.java:111-127 | one loop turn appends exactly this entry's errors and warnings |
| PlaceholderEngines.PlaceholderEngine.WarnValue | src/main/java/net/kyver/placy/core/PlaceholderEngine.java:121-127 | a null value warns once, a value containing its own key warns once as a circular reference |
| PlaceholderEngines.PlaceholderEngine.ValidatePlaceholders | src/main/java/net/kyver/placy/core/PlaceholderEngine.java:105-129 | a null map throws; otherwise the errors and warnings of every entry in iteration order, and the result is valid exactly when no key is blank |
| StreamingStrategy.ClampBufferSize | src/main/java/net/kyver/placy/core/replacement/StreamingReplacementStrategy.java:33 | the buffer is at least 256 KiB and otherwise the requested size |
| StreamingStrategy.OverlapFor | src/main/java/net/kyver/placy/core/replacement/StreamingReplacementStrategy.java:34 | the overlap is an eighth of the buffer capped at 64 KiB: positive and smaller than the buffer |
| StreamingStrategy.Create | src/main/java/net/kyver/placy/core/replacement/StreamingReplacementStrategy.java:32-41 | a strategy whose buffer is the clamped size and whose overlap lies strictly between 0 and the buffer |
| StreamingStrategy.SplitWindow | src/main/java/net/kyver/placy/core/replacement/StreamingReplacementStrategy.java:148-155 | the processed window splits into the text written now and the carry, which together are the window, the carry at most the overlap and empty after the last read |
| StreamingStrategy.DecodedReads | src/main/java/net/kyver/placy/core/replacement/StreamingReplacementStrategy.java:125-135 | each read is decoded on its own, one text per read |
| StreamingStrategy.RunInvariants | src/main/java/net/kyver/placy/core/replacement/StreamingReplacementStrategy.java:117-156 | the carry never exceeds the overlap and is empty after the last read, the bytes counted are exactly the bytes read, and nothing is dropped or duplicated at a window boundary: the text written plus the carry is the earlier output plus the whole substituted window |
| StreamingStrategy.PassThroughKeepsText | src/main/java/net/kyver/placy/core/replacement/StreamingReplacementStrategy.java:117-156 | when every value is null or no key occurs in the decoded text, the text written plus the carry is all the text decoded so far, so at the end every decoded character is written once and in order, however the reads split the input |
| StreamingStrategy.OneReadIsWhole | src/main/java/net/kyver/placy/core/replacement/StreamingReplacementStrategy.java:117-156 | a stream delivered in one read is substituted as one text and written encoded |
| StreamingStrategy.CarryResubstituted | src/main/java/net/kyver/placy/core/replacement/StreamingReplacementStrategy.java:128-150 | the carry is substituted text that the next window substitutes again: with keys BB→X then A→B, "y…yA" read before "B" writes "y…yX", while the same bytes in one read, and the substitution of the whole text, give "y…yBB" |
| StreamingStrategy.OccurrencesIffContains | src/main/java/net/kyver/placy/core/replacement/StreamingReplacementStrategy.java:223-236 | the count is 0 for an empty text or key, and otherwise positive exactly when the key occurs |
| StreamingStrategy.UntouchedWindowCountsZero | src/main/java/net/kyver/placy/core/replacement/StreamingReplacementStrategy.java:211-221 | a window without any key is left as it is and adds nothing to the replacement count |
| StreamingStrategy.CountOccurrencesOptimized | src/main/java/net/kyver/placy/core/replacement/StreamingReplacementStrategy.java:223-236 | the loop counts the non-overlapping occurrences scanned from the left |
| StreamingStrategy.ReplaceInStringBuilder | src/main/java/net/kyver/placy/core/replacement/StreamingReplacementStrategy.java:200-209 | the in-place builder loop computes `String.replace`, resuming after each inserted value so it never rescans a replacement and always ends |
| StreamingStrategy.BuilderStep | src/main/java/net/kyver/placy/core/replacement/StreamingReplacementStrategy.java:205-207 | one splice of the builder loop keeps the done prefix followed by the rest equal to the replaced text |
| StreamingStrategy.ProcessPlaceholdersOptimized | src/main/java/net/kyver/placy/core/replacement/StreamingReplacementStrategy.java:168-198 | both the builder path for long text and the `contains`/`replace` path give the null-checked chain in the map's order |
| StreamingStrategy.CountReplacementsDelta | src/main/java/net/kyver/placy/core/replacement/StreamingReplacementStrategy.java:211-221 | 0 for an unchanged text, else the per-key drop in occurrences summed over the keys |
| StreamingStrategy.CopyStreamDirect | src/main/java/net/kyver/placy/core/replacement/StreamingReplacementStrategy.java:238-257 | every read is written as it arrives, the byte count is the output length and nothing is replaced |
| StreamingStrategy.GreedyChunks | src/main/java/net/kyver/placy/core/replacement/StreamingReplacementStrategy.java:78-83 | reading an in-memory array in buffer-sized reads delivers the whole content in full chunks and one shorter last chunk |
| StreamingStrategy.StreamingReplacementStrategy.ProcessStreamOptimized | src/main/java/net/kyver/placy/core/replacement/StreamingReplacementStrategy.java:95-166 | the window loop's output, counts and carry are those of the specification run over all reads; the flush after the loop never runs because the last window clears the carry (what that run writes depends on how the reads split the input: see `CarryResubstituted`) |
| StreamingStrategy.StreamingReplacementStrategy.ReplaceStream | src/main/java/net/kyver/placy/core/replacement/StreamingReplacementStrategy.java:44-67 | an empty map copies the stream; otherwise the keys go longest first through the window loop, and the byte count is always the bytes read |
| StreamingStrategy.StreamingReplacementStrategy.ReplaceBytes | src/main/java/net/kyver/placy/core/replacement/StreamingReplacementStrategy.java:70-93 | an empty map gives a copy; content larger than the buffer takes the stream path; smaller content is decoded, substituted in the caller's order and re-encoded |
| StreamingStrategy.SmallPathKeepsUntouchedBytes | src/main/java/net/kyver/placy/core/replacement/StreamingReplacementStrategy.java:90-92 | the small-content path returns the bytes unchanged when no key occurs and the charset round-trips them |
| StreamingStrategy.CorrectedProcessStream | src/main/java/net/kyver/placy/core/replacement/StreamingReplacementStrategy.java:117-166 | gathering every decoded read and substituting the whole text once writes the substitution of the concatenated text, whatever the reads, with the bytes read and the replacement delta of that text as counts |
| Chunking.StartMonotone | src/main/java/net/kyver/placy/core/replacement/ParallelReplacementStrategy.java:120 | chunk starts advance by the positive step `chunkSize - overlapSize`, so they strictly increase |
| Chunking.CountCovers | src/main/java/net/kyver/placy/core/replacement/ParallelReplacementStrategy.java:116 | `numChunks` is the least count whose starts reach past the text: the last chunk starts inside it and the next start would not |
| Chunking.ChunkBounds | src/main/java/net/kyver/placy/core/replacement/ParallelReplacementStrategy.java:119-122 | every chunk is non-empty and inside the text, each chunk but the last reaches the start of the next, and the last ends at the end of the text |
| Chunking.ChunksCover | src/main/java/net/kyver/placy/core/replacement/ParallelReplacementStrategy.java:116-122 | the chunks start at 0 and together cover every position of the text |
| Chunking.TrimChunk | src/main/java/net/kyver/placy/core/replacement/ParallelReplacementStrategy.java:128-130 | a processed chunk loses its last `overlapSize` characters unless it is the last or no longer than the overlap, and what is kept is a prefix |
| Chunking.Pieces | src/main/java/net/kyver/placy/core/replacement/ParallelReplacementStrategy.java:119-134 | one output per chunk, each the trimmed substitution of its chunk, in chunk order |
| Chunking.UntouchedChunk | src/main/java/net/kyver/placy/core/replacement/ParallelReplacementStrategy.java:139-155 | a chunk of a key-free text is not changed by either chain |
| Chunking.PieceUntouched | src/main/java/net/kyver/placy/core/replacement/ParallelReplacementStrategy.java:125-133 | for a key-free text, task `i` returns its own chunk trimmed, a slice of the text |
| Chunking.FullChunks | src/main/java/net/kyver/placy/core/replacement/ParallelReplacementStrategy.java:128-130 | when the chunk before the last is full, every trimmed chunk ends exactly where the next one starts |
| Chunking.ConcatContiguous | src/main/java/net/kyver/placy/core/replacement/ParallelReplacementStrategy.java:99-102 | outputs that are consecutive slices from position 0 concatenate to the prefix they cover |
| Chunking.PiecesKeepText | src/main/java/net/kyver/placy/core/replacement/ParallelReplacementStrategy.java:112-137 | the trimmed outputs rebuild a key-free text when the chunk before the last is a full chunk |
| Chunking.ShortChunkLosesText | src/main/java/net/kyver/placy/core/replacement/ParallelReplacementStrategy.java:112-137 | with an overlap no longer than the step, a key-free text whose chunk before the last is cut short comes back shorter |
| Chunking.PiecesKeepTextExactly | src/main/java/net/kyver/placy/core/replacement/ParallelReplacementStrategy.java:112-137 | with an overlap no longer than the step, the trimmed outputs rebuild a key-free text exactly when the chunk before the last is a full chunk |
| Chunking.PiecesLength | src/main/java/net/kyver/placy/core/replacement/ParallelReplacementStrategy.java:99-102 | for a key-free text, the assembled length is the sum of the trimmed chunk lengths |
| Chunking.CorrectedPieces | src/main/java/net/kyver/placy/core/replacement/ParallelReplacementStrategy.java:128-130 | with the trim cut to the characters the next chunk shares, one output per chunk |
| Chunking.CorrectedPieceUntouched | src/main/java/net/kyver/placy/core/replacement/ParallelReplacementStrategy.java:128-130 | with that trim, each key-free chunk is returned up to the start of the next chunk |
| Chunking.CorrectedPiecesKeepText | src/main/java/net/kyver/placy/core/replacement/ParallelReplacementStrategy.java:112-137 | with that trim, a key-free text comes back unchanged whatever the geometry |
| Chunking.TrimLosesText | src/main/java/net/kyver/placy/core/replacement/ParallelReplacementStrategy.java:128-130 | a 2095204-character text with 1 MiB chunks and a 1024 overlap: the second chunk shares only 100 characters with the last but still loses 1024, so the output is 924 characters short |
| ParallelStrategy.Create | src/main/java/net/kyver/placy/core/replacement/ParallelReplacementStrategy.java:28-35 | the chunk size is at least 64 KiB, and the overlap, a quarter of it capped at 1024, lies strictly between 0 and the chunk size |
| ParallelStrategy.ProcessSequential | src/main/java/net/kyver/placy/core/replacement/ParallelReplacementStrategy.java:157-170 | the null-checked chain in the map's order |
| ParallelStrategy.ProcessChunk | src/main/java/net/kyver/placy/core/replacement/ParallelReplacementStrategy.java:139-155 | the null-checked chain over the entries sorted longest key first |
| ParallelStrategy.CountOccurrences | src/main/java/net/kyver/placy/core/replacement/ParallelReplacementStrategy.java:188-198 | the number of non-overlapping occurrences scanned from the left, positive exactly when the key occurs |
| ParallelStrategy.UnchangedDeltaIsZero | src/main/java/net/kyver/placy/core/replacement/ParallelReplacementStrategy.java:172-186 | comparing a text with itself reports no replacement |
| ParallelStrategy.CountReplacements | src/main/java/net/kyver/placy/core/replacement/ParallelReplacementStrategy.java:172-186 | both byte arrays decoded, then the per-key drop in occurrences summed over the keys |
| ParallelStrategy.ParallelReplacementStrategy.EffectiveChunkSize | src/main/java/net/kyver/placy/core/replacement/ParallelReplacementStrategy.java:89 | `max(length / parallelism, chunkSize)` is never below the chunk size, so the step between chunks is positive |
| ParallelStrategy.ParallelReplacementStrategy.GeometryFor | src/main/java/net/kyver/placy/core/replacement/ParallelReplacementStrategy.java:88-92 | a well-formed chunking of the whole text with the strategy's overlap |
| ParallelStrategy.ParallelReplacementStrategy.CreateProcessingTasks | src/main/java/net/kyver/placy/core/replacement/ParallelReplacementStrategy.java:112-137 | one task per chunk, task `i` holding chunk `i` substituted longest key first and trimmed unless it is the last |
| ParallelStrategy.ParallelReplacementStrategy.RunTask | src/main/java/net/kyver/placy/core/replacement/ParallelReplacementStrategy.java:125-133 | the body of one task: substitute the chunk, then trim it unless it is the last |
| ParallelStrategy.ParallelReplacementStrategy.ProcessParallel | src/main/java/net/kyver/placy/core/replacement/ParallelReplacementStrategy.java:87-109 | task outputs appended in chunk order |
| ParallelStrategy.ParallelReplacementStrategy.ReplaceBytes | src/main/java/net/kyver/placy/core/replacement/ParallelReplacementStrategy.java:63-85 | an empty map gives a copy; otherwise the decoded text goes sequentially when it fits one chunk or the parallel run fails, in parallel otherwise, and is re-encoded |
| ParallelStrategy.ParallelReplacementStrategy.ReplaceStream | src/main/java/net/kyver/placy/core/replacement/ParallelReplacementStrategy.java:38-60 | an empty map copies the input; otherwise the byte replacement is written and the replacements are counted by comparing input and output |
| ParallelStrategy.KeyFreeTextUnchanged | src/main/java/net/kyver/placy/core/replacement/ParallelReplacementStrategy.java:63-85 | a key-free text comes back unchanged from the sequential path, and from the parallel path when the chunk before the last is full |
| ParallelStrategy.ShortChunkTextShortened | src/main/java/net/kyver/placy/core/replacement/ParallelReplacementStrategy.java:63-85 | on the parallel path, a key-free text whose chunk before the last is cut short comes back shorter, since the overlap is at most a quarter of the chunk |
| ParallelStrategy.DefaultStrategyLosesText | src/main/java/net/kyver/placy/core/replacement/ParallelReplacementStrategy.java:24-26 | the default strategy on a two-thread pool returns a key-free 2095204-character text 924 characters shorter |
| StreamProcessor.MaxKeyLength | src/main/java/net/kyver/placy/service/file/StreamProcessor.java:61-64 | the overlap is the longest key length, at least every key's length and equal to one of them, or 100 for an empty map |
| StreamProcessor.ChunkSizeFor | src/main/java/net/kyver/placy/service/file/StreamProcessor.java:55 | the chunk size is at least 16 KiB and at least the text split evenly over the pool |
| StreamProcessor.NegativeStepNoTasks | src/main/java/net/kyver/placy/service/file/StreamProcessor.java:66-67 | when the overlap exceeds the chunk size the number of tasks is not positive |
| StreamProcessor.PositiveStepCount | src/main/java/net/kyver/placy/service/file/StreamProcessor.java:66-67 | with a positive step the number of tasks is the number of chunks that cover the text |
| StreamProcessor.SubstituteStrict | src/main/java/net/kyver/placy/service/file/StreamProcessor.java:40-46 | the `forEach` over the entries sorted longest key first is the chain with no null check |
| StreamProcessor.StrictStaysFailed | src/main/java/net/kyver/placy/service/file/StreamProcessor.java:40-46 | once `replace` has thrown on a null value, the whole chain throws |
| StreamProcessor.TransformTextStandard | src/main/java/net/kyver/placy/service/file/StreamProcessor.java:37-49 | decode, substitute longest key first with no null check, encode; it throws exactly when the chain does |
| StreamProcessor.RunTask | src/main/java/net/kyver/placy/service/file/StreamProcessor.java:75-87 | one task: the unchecked chain in map order, then the trim unless it is the last chunk; it throws exactly when the chain does |
| StreamProcessor.CreateTasks | src/main/java/net/kyver/placy/service/file/StreamProcessor.java:69-88 | chunk `i` spans `[i step, min(i step + chunkSize, length))`; no task throws exactly when every chunk's chain succeeds, and then the outputs are the trimmed pieces |
| StreamProcessor.AppendAll | src/main/java/net/kyver/placy/service/file/StreamProcessor.java:90-93 | every task output appended, in order |
| StreamProcessor.TransformTextParallel | src/main/java/net/kyver/placy/service/file/StreamProcessor.java:51-101 | the parallel text, re-encoded; any throw, a zero step or a negative task count falls back to the standard path |
| StreamProcessor.TransformTextStream | src/main/java/net/kyver/placy/service/file/StreamProcessor.java:25-35 | an empty map returns the input itself; more than 5 MiB with at least two keys goes parallel; anything else goes standard |
| StreamProcessor.StandardWithoutNulls | src/main/java/net/kyver/placy/service/file/StreamProcessor.java:37-49 | without null values the standard path never throws and computes the longest-first chain |
| StreamProcessor.ParallelEmptiesText | src/main/java/net/kyver/placy/service/file/StreamProcessor.java:66-67 | 6000000 characters over four threads with a 4500000-character key create no task, so the output is empty |
| StreamProcessor.CorrectedParallelKeepsText | src/main/java/net/kyver/placy/service/file/StreamProcessor.java:66-93 | with the number of tasks and trim corrected, a key-free text always comes back unchanged |
| ClassFile.U2 | src/main/java/net/kyver/placy/processor/impl/ArchiveFileProcessor.java:292 | `readUnsignedShort` reads a value below 65536 |
| ClassFile.U2Bytes | src/main/java/net/kyver/placy/processor/impl/ArchiveFileProcessor.java:295 | `writeShort` of a value below 65536 emits two bytes, big-endian |
| ClassFile.U2RoundTrip | src/main/java/net/kyver/placy/processor/impl/ArchiveFileProcessor.java:298-299 | writing back the value just read gives the same two bytes |
| ClassFile.PayloadSize | src/main/java/net/kyver/placy/processor/impl/ArchiveFileProcessor.java:344-394 | the payload size of each tag the switch accepts besides UTF8 (8 exactly for long and double), and no size for an unsupported tag |
| ClassFile.Slots | src/main/java/net/kyver/placy/processor/impl/ArchiveFileProcessor.java:350-355 | an entry takes two slots exactly when it is a long or a double, otherwise one |
| ClassFile.EntryBytes | src/main/java/net/kyver/placy/processor/impl/ArchiveFileProcessor.java:310-341 | an entry written in class-file form is at least its tag byte |
| ClassFile.ReadEntry | src/main/java/net/kyver/placy/processor/impl/ArchiveFileProcessor.java:309-394 | the entry at the cursor and where the next starts, strictly further on; none for an unsupported tag or truncated data |
| ClassFile.ReadEntryInverse | src/main/java/net/kyver/placy/processor/impl/ArchiveFileProcessor.java:309-394 | the bytes an entry was read from are exactly that entry written back |
| ClassFile.ReadEntryBytes | src/main/java/net/kyver/placy/processor/impl/ArchiveFileProcessor.java:309-394 | reading an entry from its own bytes gives the entry back, whatever follows |
| ClassFile.StepCount | src/main/java/net/kyver/placy/processor/impl/ArchiveFileProcessor.java:323-335 | the count for one placeholder is its number of occurrences, or 0 when the length does not change |
| ClassFile.QuotientIsCount | src/main/java/net/kyver/placy/processor/impl/ArchiveFileProcessor.java:331-333 | a length change of n times the per-occurrence change divides back to n under Java's `/` |
| ClassFile.RewriteUtf8Text | src/main/java/net/kyver/placy/processor/impl/ArchiveFileProcessor.java:318-337 | the UTF8 rewrite throws exactly when the chain with no null check does, and otherwise yields its text |
| ClassFile.RewriteUtf8Count | src/main/java/net/kyver/placy/processor/impl/ArchiveFileProcessor.java:319-337 | the count is the number of replaced occurrences of keys whose value changes the length; same-length replacements count nothing |
| ClassFile.RewriteUtf8Absent | src/main/java/net/kyver/placy/processor/impl/ArchiveFileProcessor.java:318-337 | a text without any key is kept with nothing counted |
| ClassFile.RewriteStaysFailed | src/main/java/net/kyver/placy/processor/impl/ArchiveFileProcessor.java:319-337 | once the rewrite has thrown it stays thrown |
| ClassFile.RewriteUtf8Next | src/main/java/net/kyver/placy/processor/impl/ArchiveFileProcessor.java:319-337 | one more placeholder of the loop is one more step of the rewrite |
| ClassFile.RewriteEntry | src/main/java/net/kyver/placy/processor/impl/ArchiveFileProcessor.java:310-394 | a UTF8 entry is rewritten; any other entry is copied byte for byte with no count |
| ClassFile.Utf8EntryFormat | src/main/java/net/kyver/placy/processor/impl/ArchiveFileProcessor.java:339-341 | a rewritten UTF8 entry is tag 1, the low 16 bits of the new encoded length and the encoded text; it fails exactly when the chain throws |
| ClassFile.ParsePool | src/main/java/net/kyver/placy/processor/impl/ArchiveFileProcessor.java:308-396 | the entries of the remaining slots and where they end, each one writable again; none when one cannot be read |
| ClassFile.ParseInverse | src/main/java/net/kyver/placy/processor/impl/ArchiveFileProcessor.java:308-396 | the bytes the pool was parsed from are its entries written back |
| ClassFile.ParseSlots | src/main/java/net/kyver/placy/processor/impl/ArchiveFileProcessor.java:308-355 | the walk reads entries until the slots are used up: exactly the remaining slots, or one more when the last entry is a long or a double |
| ClassFile.ClassFileRewrite | src/main/java/net/kyver/placy/processor/impl/ArchiveFileProcessor.java:279-412 | the whole rewrite; none when the file is shorter than the header |
| ClassFile.HeaderAndRestCopied | src/main/java/net/kyver/placy/processor/impl/ArchiveFileProcessor.java:291-299 | the header, and with it the slot count, is copied, and so is everything after the pool |
| ClassFile.RewriteParts | src/main/java/net/kyver/placy/processor/impl/ArchiveFileProcessor.java:291-401 | a readable pool whose entries all rewrite gives the header, the rewritten entries and the rest of the file |
| ClassFile.EntryStep | src/main/java/net/kyver/placy/processor/impl/ArchiveFileProcessor.java:309-394 | one turn of the loop moves the cursor strictly forward; none when the entry cannot be read or rewritten |
| ClassFile.WalkFails | src/main/java/net/kyver/placy/processor/impl/ArchiveFileProcessor.java:407-411 | a turn that fails ends the whole rewrite in failure |
| ClassFile.WalkMoves | src/main/java/net/kyver/placy/processor/impl/ArchiveFileProcessor.java:308-396 | a turn that succeeds keeps the loop invariant: what is written so far leads to the whole rewrite |
| ClassFile.WalkDone | src/main/java/net/kyver/placy/processor/impl/ArchiveFileProcessor.java:398-399 | when the slots are used up, only the rest of the input remains to be written |
| ClassFile.WalkIsRewrite | src/main/java/net/kyver/placy/processor/impl/ArchiveFileProcessor.java:291-308 | the loop starts after the header, with the header written, towards the whole rewrite |
| ClassFile.EntryRoundTrip | src/main/java/net/kyver/placy/processor/impl/ArchiveFileProcessor.java:310-394 | an entry without any key is emitted as it was read, counting nothing |
| ClassFile.RewriteAllUntouched | src/main/java/net/kyver/placy/processor/impl/ArchiveFileProcessor.java:308-396 | entries left alone are written back exactly as they were read |
| ClassFile.KeyFreeClassUnchanged | src/main/java/net/kyver/placy/processor/impl/ArchiveFileProcessor.java:279-412 | a class file whose constants hold no key (and whose UTF8 payloads round-trip) comes out byte for byte the same with no replacements, whenever the rewrite succeeds |
| ClassFile.KeyFreePoolUnchanged | src/main/java/net/kyver/placy/processor/impl/ArchiveFileProcessor.java:291-401 | the same for a pool already parsed |
| ClassFile.DynamicConstantFails | src/main/java/net/kyver/placy/processor/impl/ArchiveFileProcessor.java:392-394 | a key-free class file holding a dynamic constant (tag 17) makes the rewrite fail whatever the map |
| ClassFile.ClassEntryBytes | src/main/java/net/kyver/placy/processor/impl/ArchiveFileProcessor.java:407-411 | as written, a failed rewrite writes nothing: the input was already consumed before the copy in the catch block |
| ClassFile.ClassEntryLosesBytes | src/main/java/net/kyver/placy/processor/impl/ArchiveFileProcessor.java:407-411 | that key-free class file loses all its bytes as written, and is kept with the correction |
| ClassFile.CorrectedClassEntryBytes | src/main/java/net/kyver/placy/processor/impl/ArchiveFileProcessor.java:407-411 | with the correction, a failed rewrite copies the original class file through |
| ClassFile.CorrectedKeyFreeClassUnchanged | src/main/java/net/kyver/placy/processor/impl/ArchiveFileProcessor.java:279-412 | with the correction, a key-free class file is never changed, readable or not |
| ClassFileProcessor.ApplyPlaceholder | src/main/java/net/kyver/placy/processor/impl/ArchiveFileProcessor.java:320-336 | one placeholder applied to a UTF8 constant is one step of the rewrite |
| ClassFileProcessor.RewriteConstant | src/main/java/net/kyver/placy/processor/impl/ArchiveFileProcessor.java:318-337 | the inner loop of the UTF8 case computes the UTF8 rewrite |
| ClassFileProcessor.ProcessEntry | src/main/java/net/kyver/placy/processor/impl/ArchiveFileProcessor.java:309-394 | the loop body for one entry computes one step of the walk |
| ClassFileProcessor.PoolTurn | src/main/java/net/kyver/placy/processor/impl/ArchiveFileProcessor.java:308-396 | one turn of the pool loop advances the slot index and keeps the walk invariant, or fails the whole rewrite |
| ClassFileProcessor.RewritePool | src/main/java/net/kyver/placy/processor/impl/ArchiveFileProcessor.java:308-399 | the constant-pool loop computes the rewrite it was started towards |
| ClassFileProcessor.RewriteClass | src/main/java/net/kyver/placy/processor/impl/ArchiveFileProcessor.java:291-401 | the header copy followed by the pool loop computes the whole rewrite |
| ClassFileProcessor.ProcessClassFile | src/main/java/net/kyver/placy/processor/impl/ArchiveFileProcessor.java:279-412 | the bytes written and the statistics reported; a failed rewrite writes nothing and reports (0, 0, 0) |
| ClassProcessors.ClassComputed | src/main/java/net/kyver/placy/service/archive/ClassProcessor.java:32-45 | the cached value is the transformed class, or the input when the transform is null, empty or throws |
| ClassProcessors.OnlyStringsChange | src/main/java/net/kyver/placy/service/archive/ClassProcessor.java:85-117 | a constant keeps its kind, non-String constants are passed on as they are, String constants get the longest-first chain |
| ClassProcessors.EnumConstantsUntouched | src/main/java/net/kyver/placy/service/archive/ClassProcessor.java:138-167 | enum constants in annotations are not visited, so their names keep any key |
| ClassProcessors.OutsideTheVisitorsUntouched | src/main/java/net/kyver/placy/service/archive/ClassProcessor.java:69-99 | field and method names and instructions other than `ldc` are not rewritten |
| ClassProcessors.NoNullValuesTransform | src/main/java/net/kyver/placy/service/archive/ClassProcessor.java:48-56 | without null values no visitor throws and the transform writes back the mapped class |
| ClassProcessors.KeyFreeClassRewritten | src/main/java/net/kyver/placy/service/archive/ClassProcessor.java:48-56 | a class without any key in its visited strings is still read and written again, which drops debug information and recomputes frames |
| ClassProcessors.ClassKeyIsHashes | src/main/java/net/kyver/placy/service/archive/ClassProcessor.java:58-62 | equal cache keys mean equal class and map hashes |
| ClassProcessors.CollidingHashesShareEntry | src/main/java/net/kyver/placy/service/archive/ClassProcessor.java:25-45 | two inputs with the same pair of hashes share an entry: the second is served the first's bytes |
| ClassProcessors.ClassProcessor.constructor | src/main/java/net/kyver/placy/service/archive/ClassProcessor.java:17-18 | an empty class cache |
| ClassProcessors.ClassProcessor.ReplacePlaceholdersInClass | src/main/java/net/kyver/placy/service/archive/ClassProcessor.java:20-46 | the input itself for an empty map; otherwise the cached bytes under the hash key, computed and stored on a miss, after clearing a cache of more than 1000 entries |
| ClassProcessors.ClassProcessor.ClearCache | src/main/java/net/kyver/placy/service/archive/ClassProcessor.java:64-67 | the class cache is emptied |
| Archives.NameSet | src/main/java/net/kyver/placy/service/archive/ArchiveProcessor.java:122-167 | the set of names of the entries written so far |
| Archives.PutKeepsWellFormed | src/main/java/net/kyver/placy/service/archive/ArchiveProcessor.java:163 | `putNextEntry` succeeds exactly for a name neither preset (the manifest) nor already written, appends that entry and keeps one entry per name |
| Archives.FlattenParts | src/main/java/net/kyver/placy/service/archive/ArchiveProcessor.java:250-264 | the batches up to one index followed by the rest are all the batches |
| Archives.BatchSize | src/main/java/net/kyver/placy/service/archive/ArchiveProcessor.java:241-242 | `max(10, n / max(2, processors / 4))` is at least 10 |
| Archives.PartitionList | src/main/java/net/kyver/placy/service/archive/ArchiveProcessor.java:306-312 | consecutive slices of `batchSize` elements, all full but possibly the last, which together are the list |
| ArchiveProcessors.FamilyOf | src/main/java/net/kyver/placy/service/archive/ArchiveProcessor.java:54-64 | the switch picks a family exactly for the eleven archive extensions |
| ArchiveProcessors.CopiedEntry | src/main/java/net/kyver/placy/service/archive/ArchiveProcessor.java:500-524 | a new entry with the original's name, time, comment, extra field and, for a JAR, attributes; copying throws exactly for a JAR entry with attributes when the new entry's attribute map is null |
| ArchiveProcessors.ReassembledOut | src/main/java/net/kyver/placy/service/archive/ArchiveProcessor.java:141-167 | the entry the asynchronous path writes for an original entry keeps its name, and fails exactly as the metadata copy does |
| ArchiveProcessors.Files | src/main/java/net/kyver/placy/service/archive/ArchiveProcessor.java:135-137 | the non-directory entries, in order |
| ArchiveProcessors.SyncRunStops | src/main/java/net/kyver/placy/service/archive/ArchiveProcessor.java:314-332 | a synchronous loop that stopped at a prefix stops there for the whole archive |
| ArchiveProcessors.ResultsStop | src/main/java/net/kyver/placy/service/archive/ArchiveProcessor.java:250-266 | a batched pass that stopped at a prefix stops for the whole |
| ArchiveProcessors.ReassembleStops | src/main/java/net/kyver/placy/service/archive/ArchiveProcessor.java:141-167 | a reassembly that threw at a prefix throws for the whole |
| ArchiveProcessors.ProcessArchive | src/main/java/net/kyver/placy/service/archive/ArchiveProcessor.java:48-69 | the input for a null or empty map, a null name or a name outside both families; otherwise the family's result, or the input when it throws |
| ArchiveProcessors.ProcessNonEmpty | src/main/java/net/kyver/placy/service/archive/ArchiveProcessor.java:53-68 | with a non-empty map, the family's outcome for the name |
| ArchiveProcessors.ProcessFamily | src/main/java/net/kyver/placy/service/archive/ArchiveProcessor.java:71-120 | read the entries, run them synchronously or asynchronously, write the archive |
| ArchiveProcessors.ProcessEntriesSync | src/main/java/net/kyver/placy/service/archive/ArchiveProcessor.java:314-332 | the synchronous loop over every entry, in order |
| ArchiveProcessors.ProcessEntry | src/main/java/net/kyver/placy/service/archive/ArchiveProcessor.java:334-445 | one entry: a directory copied with its metadata, a file processed, then written |
| ArchiveProcessors.ProcessEntryContent | src/main/java/net/kyver/placy/service/archive/ArchiveProcessor.java:447-486 | empty data kept; nested archives recursed into; class, text, image and document files routed to their processor; anything else, or a throw, keeps the original data |
| ArchiveProcessors.ProcessEntriesAsync | src/main/java/net/kyver/placy/service/archive/ArchiveProcessor.java:122-236 | collect the entries, process the files in batches, then reassemble in the original order |
| ArchiveProcessors.ProcessBatchedEntries | src/main/java/net/kyver/placy/service/archive/ArchiveProcessor.java:238-304 | the batches run one after another, each file's processed bytes stored under its name |
| ArchiveProcessors.BatchStep | src/main/java/net/kyver/placy/service/archive/ArchiveProcessor.java:250-264 | running one more batch extends the pass over the batches before it |
| ArchiveProcessors.ProcessBatch | src/main/java/net/kyver/placy/service/archive/ArchiveProcessor.java:251-262 | one batch's task stores each file's processed bytes under its name |
| ArchiveProcessors.ReassembleEntries | src/main/java/net/kyver/placy/service/archive/ArchiveProcessor.java:141-167 | the writing loop of the asynchronous path |
| ArchiveProcessors.ContentWithoutNesting | src/main/java/net/kyver/placy/service/archive/ArchiveProcessor.java:447-486 | an entry without an archive name is always processed: only nesting is bounded |
| ArchiveProcessors.SyncWritesEachEntry | src/main/java/net/kyver/placy/service/archive/ArchiveProcessor.java:314-332 | a successful synchronous run over distinct names writes every entry once, in order, as that entry's processing describes |
| ArchiveProcessors.SyncRunSucceeds | src/main/java/net/kyver/placy/service/archive/ArchiveProcessor.java:314-332 | with copyable attributes, every file's content defined and distinct names, the synchronous run writes the archive, one entry per name |
| ArchiveProcessors.ResultsDefined | src/main/java/net/kyver/placy/service/archive/ArchiveProcessor.java:238-270 | with every file's content defined, the batched pass finishes |
| ArchiveProcessors.ResultsOfFiles | src/main/java/net/kyver/placy/service/archive/ArchiveProcessor.java:238-270 | the batched pass holds, under each file's name, that file's processed content, unless a later file has the same name |
| ArchiveProcessors.ReassembleKeepsOrder | src/main/java/net/kyver/placy/service/archive/ArchiveProcessor.java:141-167 | a successful reassembly writes every entry once, in order; a duplicate name would have thrown |
| ArchiveProcessors.ReassembleSucceeds | src/main/java/net/kyver/placy/service/archive/ArchiveProcessor.java:141-167 | with copyable attributes and distinct names, the reassembly writes the archive, one entry per name |
| ArchiveProcessors.AsyncWritesEachEntry | src/main/java/net/kyver/placy/service/archive/ArchiveProcessor.java:122-170 | a successful asynchronous run had distinct names and wrote each entry in order with its metadata, every file with its processed content |
| ArchiveProcessors.SelfContainingArchiveHasNoBound | src/main/java/net/kyver/placy/service/archive/ArchiveProcessor.java:454-458 | an archive holding itself under its own name never finishes at any depth: the recursion has no bound |
| ArchiveProcessors.AttributedJarUnchanged | src/main/java/net/kyver/placy/service/archive/ArchiveProcessor.java:366-368 | a JAR whose first entry carries attributes makes `putAll` run on the null attribute map of the new entry, so the archive comes back unchanged, placeholders and all |
| ArchiveProcessors.CorrectedJarKeepsAttributes | src/main/java/net/kyver/placy/service/archive/ArchiveProcessor.java:366-368 | with an attribute map to copy into, a JAR without nesting and with distinct names is written, and every entry keeps its attributes |
| ArchiveFileProcessors.ArchiveIsExtension | src/main/java/net/kyver/placy/processor/impl/ArchiveFileProcessor.java:423-427 | `isArchive` holds exactly when the lower-cased extension is one of the supported archive extensions |
| ArchiveFileProcessors.ClassIsExtension | src/main/java/net/kyver/placy/processor/impl/ArchiveFileProcessor.java:438-440 | `isClassFile` holds exactly when the lower-cased extension is "class" |
| ArchiveFileProcessors.DispatchExclusive | src/main/java/net/kyver/placy/processor/impl/ArchiveFileProcessor.java:238-276 | the archive, text and class tests never hold together, so the order of the dispatch does not matter |
| ArchiveFileProcessors.ArchiveNamesAccepted | src/main/java/net/kyver/placy/processor/impl/ArchiveFileProcessor.java:480-493 | every name treated as a nested archive is one `canProcess` accepts, whatever the MIME type |
| ArchiveFileProcessors.EstimateMemoryUsage | src/main/java/net/kyver/placy/processor/impl/ArchiveFileProcessor.java:525-528 | half the file, truncated, and never more than 200 MiB |
| ArchiveFileProcessors.Tasks | src/main/java/net/kyver/placy/processor/impl/ArchiveFileProcessor.java:104-125 | at most one task per entry read |
| ArchiveFileProcessors.TasksAreCollected | src/main/java/net/kyver/placy/processor/impl/ArchiveFileProcessor.java:108-125 | tasks are exactly the entries read minus directories and, in a JAR, the manifest entry |
| ArchiveFileProcessors.TasksConcat | src/main/java/net/kyver/placy/processor/impl/ArchiveFileProcessor.java:108-125 | two listings in a row give the first listing's tasks, then the second's |
| ArchiveFileProcessors.ClassResult | src/main/java/net/kyver/placy/processor/impl/ArchiveFileProcessor.java:264-272 | the class branch yields the rewritten class and its count; as written, nothing and 0 when the rewrite fails |
| ArchiveFileProcessors.TaskOutcome | src/main/java/net/kyver/placy/processor/impl/ArchiveFileProcessor.java:130-138 | a task never propagates an exception: its catch keeps the original bytes with 0 replacements |
| ArchiveFileProcessors.Results | src/main/java/net/kyver/placy/processor/impl/ArchiveFileProcessor.java:144-145 | the futures' results, one per task |
| ArchiveFileProcessors.ResultsStop | src/main/java/net/kyver/placy/processor/impl/ArchiveFileProcessor.java:144-145 | once a task fails, the whole collection fails the same way |
| ArchiveFileProcessors.NewEntry | src/main/java/net/kyver/placy/processor/impl/ArchiveFileProcessor.java:147-148 | the entry written for a task has that task's name and time and nothing else set |
| ArchiveFileProcessors.Outs | src/main/java/net/kyver/placy/processor/impl/ArchiveFileProcessor.java:144-154 | one entry written per task, in task order |
| ArchiveFileProcessors.NestedArchiveCopiedWithoutRecursion | src/main/java/net/kyver/placy/processor/impl/ArchiveFileProcessor.java:238-276 | without recursion an archive entry is neither text nor class, so it is copied unchanged |
| ArchiveFileProcessors.OtherEntryCopied | src/main/java/net/kyver/placy/processor/impl/ArchiveFileProcessor.java:273-276 | an entry that is no archive, text or class file is copied unchanged with 0 replacements |
| ArchiveFileProcessors.FailedNestedArchiveKept | src/main/java/net/kyver/placy/processor/impl/ArchiveFileProcessor.java:134-137 | a nested archive whose processing throws keeps its original bytes with 0 replacements |
| ArchiveFileProcessors.TextEntryEngine | src/main/java/net/kyver/placy/processor/impl/ArchiveFileProcessor.java:259-262 | a text entry goes to the parallel engine exactly when it is larger than 50 KiB |
| ArchiveFileProcessors.ResultsInOrder | src/main/java/net/kyver/placy/processor/impl/ArchiveFileProcessor.java:144-145 | results exist exactly when every task has one, and are then these tasks' outcomes in order |
| ArchiveFileProcessors.WriteAllSpec | src/main/java/net/kyver/placy/processor/impl/ArchiveFileProcessor.java:144-154 | the write loop succeeds exactly when task names are distinct and none is preset, and then holds one new entry per task, in order |
| ArchiveFileProcessors.ReassembledInOrder | src/main/java/net/kyver/placy/processor/impl/ArchiveFileProcessor.java:87-164 | once every task has a result, the archive is written exactly when the names are distinct and none is the manifest's; it then holds the manifest and one entry per task, in order |
| ArchiveFileProcessors.ManifestWrittenOnce | src/main/java/net/kyver/placy/processor/impl/ArchiveFileProcessor.java:98-112 | a JAR with a manifest never writes a second entry under the manifest's name |
| ArchiveFileProcessors.LargeValueWarnings | src/main/java/net/kyver/placy/processor/impl/ArchiveFileProcessor.java:496-507 | at most one warning per entry |
| ArchiveFileProcessors.LargeValueWarningsNameKeys | src/main/java/net/kyver/placy/processor/impl/ArchiveFileProcessor.java:496-507 | each warning names the key of a value longer than 1024 * 1024 characters, and every such key is named |
| ArchiveFileProcessors.ArchiveFileProcessor.constructor | src/main/java/net/kyver/placy/processor/impl/ArchiveFileProcessor.java:53-63 | a default engine for validation and the given collaborators |
| ArchiveFileProcessors.ArchiveFileProcessor.Process | src/main/java/net/kyver/placy/processor/impl/ArchiveFileProcessor.java:66-85 | the JAR path for a name ending in ".jar", otherwise the ZIP path; a failure is rethrown |
| ArchiveFileProcessors.ArchiveFileProcessor.ProcessArchiveFile | src/main/java/net/kyver/placy/processor/impl/ArchiveFileProcessor.java:87-230 | the archive's run: an unreadable archive throws; otherwise its file entries are processed as tasks, a task that throws or runs out of nesting depth ends the run, and the written archive holds the manifest and the results in entry order, with the bytes read and the replacements counted |
| ArchiveFileProcessors.ArchiveFileProcessor.CollectTasks | src/main/java/net/kyver/placy/processor/impl/ArchiveFileProcessor.java:108-125 | file entries kept in order, their bytes summed and counted |
| ArchiveFileProcessors.ArchiveFileProcessor.ProcessTasks | src/main/java/net/kyver/placy/processor/impl/ArchiveFileProcessor.java:128-141 | the futures, run one after another in task order |
| ArchiveFileProcessors.ArchiveFileProcessor.ProcessEntryTask | src/main/java/net/kyver/placy/processor/impl/ArchiveFileProcessor.java:232-277 | the outcome of one task, with its catch |
| ArchiveFileProcessors.ArchiveFileProcessor.WriteResults | src/main/java/net/kyver/placy/processor/impl/ArchiveFileProcessor.java:144-154 | each result written in task order with its replacements added; fails exactly when the writer refuses an entry |
| ArchiveFileProcessors.ArchiveFileProcessor.WriteStops | src/main/java/net/kyver/placy/processor/impl/ArchiveFileProcessor.java:144-154 | once the writer refuses an entry, the whole loop fails |
| ArchiveFileProcessors.ArchiveFileProcessor.Validate | src/main/java/net/kyver/placy/processor/impl/ArchiveFileProcessor.java:496-507 | the engine's validation, then one warning per large value, in iteration order |
| ArchiveFileProcessors.ArchiveFileProcessor.WarnLargeValues | src/main/java/net/kyver/placy/processor/impl/ArchiveFileProcessor.java:500-504 | the loop appends exactly the large-value warnings |
| DocumentProcessors.DocumentComputed | src/main/java/net/kyver/placy/service/document/DocumentProcessor.java:53-60 | the value stored for a document is its rewrite when the rewrite succeeds and the original bytes when it throws |
| DocumentProcessors.UnsupportedOrPdfUnchanged | src/main/java/net/kyver/placy/service/document/DocumentProcessor.java:63-80 | a PDF, or a file whose extension selects no office or text format, is returned byte for byte |
| DocumentProcessors.PptSupportedButUntouched | src/main/java/net/kyver/placy/service/document/DocumentProcessor.java:330-335 | ".ppt" counts as a supported document, yet the dispatch has no branch for it, so it comes back unchanged |
| DocumentProcessors.RewrittenIsSupported | src/main/java/net/kyver/placy/service/document/DocumentProcessor.java:63-80 | whenever the dispatch changes a document, its name has a supported extension |
| DocumentProcessors.ExtensionIgnoresCase | src/main/java/net/kyver/placy/service/document/DocumentProcessor.java:320-324 | the extension is taken from the last dot and lowercased, so "README.MD" is read as ".md" |
| DocumentProcessors.TextExtensionNotOffice | src/main/java/net/kyver/placy/service/document/DocumentProcessor.java:66-79 | the text extensions select neither an office format nor PDF, so text documents reach the text branch |
| DocumentProcessors.TextDocumentIsChain | src/main/java/net/kyver/placy/service/document/DocumentProcessor.java:298-318 | a text document is decoded, rewritten longest key first with every occurrence replaced, and encoded again |
| DocumentProcessors.KeyFreeTextDocumentUnchanged | src/main/java/net/kyver/placy/service/document/DocumentProcessor.java:298-302 | a text document containing no key comes back equal to the input when the charset round-trips |
| DocumentProcessors.TextDocumentFailsOnNull | src/main/java/net/kyver/placy/service/document/DocumentProcessor.java:304-318 | a text document falls back to the original bytes only when some placeholder value is null |
| DocumentProcessors.DocumentProcessor.constructor | src/main/java/net/kyver/placy/service/document/DocumentProcessor.java:28-29 | the processor starts with an empty document cache |
| DocumentProcessors.DocumentProcessor.ProcessDocument | src/main/java/net/kyver/placy/service/document/DocumentProcessor.java:41-61 | an empty map returns the input and leaves the cache alone; otherwise the answer and the new cache are the cached lookup under filename:length:mapHash, cleared above 500 entries, and the answer is the result for some document with the same name, length and map hash |
| DocumentProcessors.DocumentProcessor.ClearCache | src/main/java/net/kyver/placy/service/document/DocumentProcessor.java:337-340 | the document cache is empty afterwards |
| DocumentProcessors.SameNameAndLengthServedStale | src/main/java/net/kyver/placy/service/document/DocumentProcessor.java:326-328 | after "a.txt" holding "x" is rewritten with x→y, a different "a.txt" of the same length holding "z" is answered with "y" instead of "z" |
| DocumentProcessors.ContentKeyedDocumentProcessor.ProcessDocument | src/main/java/net/kyver/placy/service/document/DocumentProcessor.java:41-61 | with the cache keyed by the whole input, the answer is always the result for the document given |
| ImageProcessors.ImageFormatNeverJpg | src/main/java/net/kyver/placy/service/image/ImageProcessor.java:174-187 | "jpg" is mapped to "jpeg", so the format is never "jpg" and that entry of the format set is never consulted |
| ImageProcessors.ProcessText | src/main/java/net/kyver/placy/service/image/ImageProcessor.java:113-119 | the program's `getTextContent` read always fails; reading the node value, non-blank text is replaced by its rewrite and the step fails exactly when the rewrite throws |
| ImageProcessors.ProcessAttribute | src/main/java/net/kyver/placy/service/image/ImageProcessor.java:124-131 | one attribute: a null value is kept, a non-null one fails exactly when its rewrite throws, and is otherwise replaced by its rewrite |
| ImageProcessors.ProcessAttributes | src/main/java/net/kyver/placy/service/image/ImageProcessor.java:121-132 | every non-null attribute value is rewritten and null ones are kept; the loop fails exactly when some attribute's rewrite throws (as written the loop is never reached, because the text read before it throws) |
| ImageProcessors.ProcessMetadataNode | src/main/java/net/kyver/placy/service/image/ImageProcessor.java:112-140 | the walk fails exactly when the text read or some rewrite in the node or below it throws, so it always fails as written, and otherwise yields the tree rewritten everywhere |
| ImageProcessors.ProcessMetadata | src/main/java/net/kyver/placy/service/image/ImageProcessor.java:94-110 | each format's tree is replaced by its rewrite, and a format whose walk throws is left as it was |
| ImageProcessors.ProcessFormat | src/main/java/net/kyver/placy/service/image/ImageProcessor.java:99-105 | one format is rewritten, or kept when its walk throws |
| ImageProcessors.ProcessImageInternal | src/main/java/net/kyver/placy/service/image/ImageProcessor.java:55-92 | the result is the original bytes for an unsupported format, an unreadable image or a failed write, and otherwise the re-encoded image with the metadata as the walk leaves it (as read, for the program's text read) |
| ImageProcessors.MapNodeKeepsShape | src/main/java/net/kyver/placy/service/image/ImageProcessor.java:112-140 | the walk keeps attribute and child counts, null attributes, and absent or blank text |
| ImageProcessors.KeyFreeNodeKept | src/main/java/net/kyver/placy/service/image/ImageProcessor.java:112-140 | a tree without any key is left unchanged by the rewrite, and the walk that reads node values never fails on it |
| ImageProcessors.NoNullNodeSucceeds | src/main/java/net/kyver/placy/service/image/ImageProcessor.java:189-203 | without null values the walk that reads node values never throws |
| ImageProcessors.KeyFreeMetadataKept | src/main/java/net/kyver/placy/service/image/ImageProcessor.java:94-110 | formats without keys are set back unchanged, whichever way the text is read |
| ImageProcessors.MetadataNeverRewritten | src/main/java/net/kyver/placy/service/image/ImageProcessor.java:94-119 | as written, every format of every image is set back exactly as read, for every map |
| ImageProcessors.MetadataKeyKeptAsWritten | src/main/java/net/kyver/placy/service/image/ImageProcessor.java:113-119 | a root whose text is "${name}" under the map name→"Placy" is kept as read by the program, and becomes "Placy" when the node value is read |
| ImageProcessors.CorrectedFormatRewritten | src/main/java/net/kyver/placy/service/image/ImageProcessor.java:94-140 | reading node values, without null values a format's tree is rewritten everywhere, its non-blank root text becoming the longest-first substitution |
| ImageProcessors.ImageIgnoresMap | src/main/java/net/kyver/placy/service/image/ImageProcessor.java:55-92 | the processed image does not depend on the map: a readable image in a supported format is written back with its metadata as read |
| ImageProcessors.UnreadableUnchanged | src/main/java/net/kyver/placy/service/image/ImageProcessor.java:58-70 | an unsupported format, or bytes no reader accepts, come back unchanged |
| ImageProcessors.KeyFreeImageReencoded | src/main/java/net/kyver/placy/service/image/ImageProcessor.java:72-83 | an image whose metadata holds no key is still decoded and written again, so the result is the writer's output rather than the input |
| ImageProcessors.ImageProcessor.constructor | src/main/java/net/kyver/placy/service/image/ImageProcessor.java:25-26 | the processor starts with an empty image cache |
| ImageProcessors.ImageProcessor.ProcessImage | src/main/java/net/kyver/placy/service/image/ImageProcessor.java:33-53 | an empty map returns the input; otherwise the answer and the new cache are the cached lookup under filename:length:mapHash, cleared above 200 entries, and the answer is the result for some image with the same name, length and map hash (a result that, as written, carries the metadata as read: `ImageIgnoresMap`) |
| ImageProcessors.SameNameAndLengthServedStale | src/main/java/net/kyver/placy/service/image/ImageProcessor.java:205-207 | once one image is stored, a different image with the same name, length and map is answered with the first one's result |
| ImageProcessors.ContentKeyedImageProcessor.ProcessImage | src/main/java/net/kyver/placy/service/image/ImageProcessor.java:33-53 | with the cache keyed by the whole input, the answer is always the result for the image given |
| DocumentFileProcessors.KindOf | src/main/java/net/kyver/placy/processor/impl/DocumentFileProcessor.java:44-54 | `process` takes the PDF or office branch exactly when the lowercased extension after the last dot is one of the supported extensions |
| DocumentFileProcessors.DocumentKindsAccepted | src/main/java/net/kyver/placy/processor/impl/DocumentFileProcessor.java:104-117 | a name `process` treats as PDF or office is exactly a name `canProcess` accepts without a MIME type, and is accepted whatever the MIME type |
| DocumentFileProcessors.Process | src/main/java/net/kyver/placy/processor/impl/DocumentFileProcessor.java:37-86 | every branch, PDF, office or other, copies the input to the output whatever the map and reports the byte count with 0 replacements and 0 placeholders |
| DocumentFileProcessors.LargeValueWarningsNameKeys | src/main/java/net/kyver/placy/processor/impl/DocumentFileProcessor.java:128-133 | a large-value warning is given exactly for each key whose value is longer than 10000 characters |
| DocumentFileProcessors.Validate | src/main/java/net/kyver/placy/processor/impl/DocumentFileProcessor.java:120-135 | no errors; one limited-support warning when the map is non-empty, then one warning per value longer than 10000 characters, in iteration order |
| DocumentFileProcessors.EstimateMemoryUsage | src/main/java/net/kyver/placy/processor/impl/DocumentFileProcessor.java:153-155 | the estimate never exceeds 100 MiB and, for sizes whose triple fits in a long, is three times the size capped at 100 MiB |
| DocumentFileProcessors.HugeFileEstimateNegative | src/main/java/net/kyver/placy/processor/impl/DocumentFileProcessor.java:153-155 | past a third of the largest long the 64-bit product wraps and the estimate is negative |
| ImageFileProcessors.CanProcessIsMembership | src/main/java/net/kyver/placy/processor/impl/ImageFileProcessor.java:59-72 | a name or MIME type is accepted exactly when the lowercased extension or the lowercased MIME type is listed; the "image/" test adds nothing |
| ImageFileProcessors.Process | src/main/java/net/kyver/placy/processor/impl/ImageFileProcessor.java:29-46 | the input is copied verbatim whatever the map, with the byte count, 0 replacements and 0 placeholders |
| ImageFileProcessors.Validate | src/main/java/net/kyver/placy/processor/impl/ImageFileProcessor.java:75-83 | never an error, and exactly one warning that the placeholders are ignored iff the map is non-empty |
| ImageFileProcessors.EstimateMemoryUsage | src/main/java/net/kyver/placy/processor/impl/ImageFileProcessor.java:101-103 | a twentieth of the size rounded down, never more than 5 MiB |
| TextFileProcessors.MimeTypeAccepted | src/main/java/net/kyver/placy/processor/impl/TextFileProcessor.java:74-90 | by MIME type alone, exactly the "text/" types and the listed application types are accepted |
| TextFileProcessors.ListedTextMimeTypes | src/main/java/net/kyver/placy/processor/impl/TextFileProcessor.java:82-86 | every listed "text/" MIME type is already admitted by the prefix test |
| TextFileProcessors.TextMimeTypeAccepted | src/main/java/net/kyver/placy/processor/impl/TextFileProcessor.java:82-86 | any "text/" MIME type is accepted whatever the file name |
| TextFileProcessors.JsonNamesAccepted | src/main/java/net/kyver/placy/processor/impl/TextFileProcessor.java:96 | a name that `validate` treats as JSON is one `canProcess` accepts |
| TextFileProcessors.BreaksJsonIffSpecialChar | src/main/java/net/kyver/placy/processor/impl/TextFileProcessor.java:98-99 | a value breaks JSON exactly when it is non-null and holds a double quote, a line feed or a carriage return |
| TextFileProcessors.JsonWarningsNameKeys | src/main/java/net/kyver/placy/processor/impl/TextFileProcessor.java:97-102 | a JSON warning is given exactly for each key whose value breaks JSON |
| TextFileProcessors.EstimateMemoryUsage | src/main/java/net/kyver/placy/processor/impl/TextFileProcessor.java:124-126 | a tenth of the size, truncated toward zero for negative sizes as for positive ones |
| TextFileProcessors.TextFileProcessor.constructor | src/main/java/net/kyver/placy/processor/impl/TextFileProcessor.java:38-41 | a fresh engine with the default streaming strategy, no metrics and no profiler history |
| TextFileProcessors.TextFileProcessor.Process | src/main/java/net/kyver/placy/processor/impl/TextFileProcessor.java:44-61 | a null map is rethrown; an empty map copies the input with 0 replacements; otherwise the output and counts are the streaming strategy's, and the engine records one more sample and updates its metrics |
| TextFileProcessors.TextFileProcessor.Validate | src/main/java/net/kyver/placy/processor/impl/TextFileProcessor.java:93-106 | the engine's errors; its warnings followed, for a ".json" name, by one warning per value that breaks JSON; valid iff no key is blank |
| TextFileProcessors.TextFileProcessor.WarnJsonBreakers | src/main/java/net/kyver/placy/processor/impl/TextFileProcessor.java:97-102 | the loop appends exactly the JSON warnings of the map, in order, to the existing warnings |
| FileTypeDetection.PluralTestsAreRedundant | src/main/java/net/kyver/placy/service/file/FileTypeDetector.java:76-78 | a resource name containing a plural word also contains the singular, so the plural tests never decide the target set |
| FileTypeDetection.TextWinsOverOtherWords | src/main/java/net/kyver/placy/service/file/FileTypeDetector.java:74-80 | the first matching word wins: a name mentioning "text" feeds the text set whatever else it mentions |
| FileTypeDetection.WellFormedIsFixed | src/main/java/net/kyver/placy/service/file/FileTypeDetector.java:84-88 | a lower-case, trimmed entry with a leading dot normalises to itself |
| FileTypeDetection.NormalizeIdempotent | src/main/java/net/kyver/placy/service/file/FileTypeDetector.java:84-88 | normalising a normalised entry again changes nothing |
| FileTypeDetection.NormalizedWellFormed | src/main/java/net/kyver/placy/service/file/FileTypeDetector.java:84-89 | every entry kept from a resource is trimmed, lower-case, non-empty and starts with a dot |
| FileTypeDetection.LoadExtensionsFromStream | src/main/java/net/kyver/placy/service/file/FileTypeDetector.java:82-91 | the target set grows by exactly the normalised lines, blank and "//" lines skipped |
| FileTypeDetection.LoadedSetsWellFormed | src/main/java/net/kyver/placy/service/file/FileTypeDetector.java:50-72 | after loading all resources every entry of every set is well formed |
| FileTypeDetection.HighBytesAreControl | src/main/java/net/kyver/placy/service/file/FileTypeDetector.java:124-126 | bytes 0x80 to 0xFF are negative as Java bytes, so every one of them counts as a control character |
| FileTypeDetection.DetectTextContent | src/main/java/net/kyver/placy/service/file/FileTypeDetector.java:115-135 | about `LooksLikeText`: the loop's verdict equals the text test over the first 512 bytes: no NUL, the running control ratio never above one tenth, and the final ratio below one tenth |
| FileTypeDetection.NulMeansBinary | src/main/java/net/kyver/placy/service/file/FileTypeDetector.java:122 | a NUL anywhere in the sample makes the content binary |
| FileTypeDetection.PlainTextIsText | src/main/java/net/kyver/placy/service/file/FileTypeDetector.java:115-135 | a sample of printable ASCII, tabs and line breaks is text |
| FileTypeDetection.LeadingControlRejects | src/main/java/net/kyver/placy/service/file/FileTypeDetector.java:126-129 | a control character in first position rejects the content, although a single control character in a full sample is far below the final ratio |
| FileTypeDetection.OnlyTheSampleMatters | src/main/java/net/kyver/placy/service/file/FileTypeDetector.java:118 | two contents agreeing on their first 512 bytes and both at least that long get the same verdict |
| FileTypeDetection.CacheSoundStore | src/main/java/net/kyver/placy/service/file/FileTypeDetector.java:102-113 | storing a fresh verdict under its filename:length key keeps every cached verdict the verdict of some content of that name and length |
| FileTypeDetection.SameLengthSameAnswer | src/main/java/net/kyver/placy/service/file/FileTypeDetector.java:103-104 | after one call, a second call with the same name and other bytes of the same length gets the first call's answer |
| FileTypeDetection.StaleVerdict | src/main/java/net/kyver/placy/service/file/FileTypeDetector.java:103-104 | after the one-byte text "A" is classified as "data.bin", the one-byte NUL under the same name is reported as text although it is binary |
| FileTypeDetection.ContentKeyedAnswer | src/main/java/net/kyver/placy/service/file/FileTypeDetector.java:102-113 | with the memo keyed by the name and the whole content, every answer from a sound memo is the verdict for the bytes given |
| FileTypeDetection.ContentKeyedCacheAfter | src/main/java/net/kyver/placy/service/file/FileTypeDetector.java:102-113 | that memo after a call holds the key asked and stays sound |
| FileTypeDetection.ContentKeyedAlwaysFresh | src/main/java/net/kyver/placy/service/file/FileTypeDetector.java:103-104 | whatever was asked before under the same name, the content-keyed memo answers the verdict of the bytes given: the NUL after "A" is binary |
| FileTypeDetection.JarExtensionIffSuffix | src/main/java/net/kyver/placy/service/file/FileTypeDetector.java:93-100 | the dotted extension is ".jar" exactly when the lowercased name ends in ".jar" after at least one more character |
| FileTypeDetection.FileTypeDetector.constructor | src/main/java/net/kyver/placy/service/file/FileTypeDetector.java:37-48 | the five sets are those loaded from the resources and both caches start empty |
| FileTypeDetection.FileTypeDetector.GetFileExtension | src/main/java/net/kyver/placy/service/file/FileTypeDetector.java:93-100 | the answer is the lowercased text from the last dot when that dot is past index 0, else ""; it is memoised per name and a null name is not memoised |
| FileTypeDetection.FileTypeDetector.IsTextFile | src/main/java/net/kyver/placy/service/file/FileTypeDetector.java:102-113 | the answer and the new cache are the memo under filename:length, or on a miss the extension test and then the content test, stored under that key |
| FileTypeDetection.FileTypeDetector.ClassifyUncached | src/main/java/net/kyver/placy/service/file/FileTypeDetector.java:105-111 | a text extension answers true, otherwise the content test answers |
| FileTypeDetection.FileTypeDetector.IsArchiveFile | src/main/java/net/kyver/placy/service/file/FileTypeDetector.java:137-140 | true exactly when the dotted extension is in the archive set |
| FileTypeDetection.FileTypeDetector.IsJarFile | src/main/java/net/kyver/placy/service/file/FileTypeDetector.java:142-144 | true exactly when the name, lowercased, ends in ".jar" after at least one more character |
| FileTypeDetection.FileTypeDetector.IsSupportedFileType | src/main/java/net/kyver/placy/service/file/FileTypeDetector.java:146-154 | false for a null name, otherwise membership of the dotted extension in the union of the five sets |
| FileTypeDetection.FileTypeDetector.ClearCaches | src/main/java/net/kyver/placy/service/file/FileTypeDetector.java:186-189 | both caches are empty afterwards |
| FileProcessorRegistries.RegisteredOrder | src/main/java/net/kyver/placy/processor/FileProcessorRegistry.java:21-27 | the four processors, sorted by descending priority, come out as image, document, archive, text |
| FileProcessorRegistries.FirstMatchSpec | src/main/java/net/kyver/placy/processor/FileProcessorRegistry.java:47-61 | the scan answers a registered processor that accepts the file with no accepting processor before it, and answers nothing exactly when none accepts |
| FileProcessorRegistries.FirstMatchHighestPriority | src/main/java/net/kyver/placy/processor/FileProcessorRegistry.java:47-61 | over the priority-sorted list the scan picks an accepting processor of the highest priority among those that accept |
| FileProcessorRegistries.Scan | src/main/java/net/kyver/placy/processor/FileProcessorRegistry.java:47-61 | the loop answers the first processor in order whose `canProcess` holds |
| FileProcessorRegistries.FindStepRegistered | src/main/java/net/kyver/placy/processor/FileProcessorRegistry.java:29-66 | about `FindStep`: a lookup answers a registered processor or nothing, the caches only hold registered processors, and a miss answers what the scan answers |
| FileProcessorRegistries.FindStepIdempotent | src/main/java/net/kyver/placy/processor/FileProcessorRegistry.java:29-66 | asking twice gives the same answer and leaves the caches as the first lookup left them |
| FileProcessorRegistries.EmptyCachesScan | src/main/java/net/kyver/placy/processor/FileProcessorRegistry.java:29-66 | with empty caches a lookup is the scan |
| FileProcessorRegistries.ExtensionCacheIgnoresMimeType | src/main/java/net/kyver/placy/processor/FileProcessorRegistry.java:31-37 | "data.bin" asked as "image/png" caches the image processor under "bin", and "data.bin" asked as "application/pdf" is then answered with the image processor, which rejects it |
| FileProcessorRegistries.DataBinAcceptance | src/main/java/net/kyver/placy/processor/FileProcessorRegistry.java:47-52 | the image processor accepts "data.bin" as "image/png" but not as "application/pdf", which the document processor accepts |
| FileProcessorRegistries.SameKeySameMatch | src/main/java/net/kyver/placy/processor/FileProcessorRegistry.java:47-61 | two queries with the same extension and MIME type get the same scan answer |
| FileProcessorRegistries.CorrectedFindAgreesWithScan | src/main/java/net/kyver/placy/processor/FileProcessorRegistry.java:29-66 | with the cache keyed by extension and MIME type together, every lookup answers what the scan answers and the cache stays exact |
| FileProcessorRegistries.ListingSpec | src/main/java/net/kyver/placy/processor/FileProcessorRegistry.java:68-92 | a listing holds exactly the registered processors that list the key, none more often than registered |
| FileProcessorRegistries.ListingSorted | src/main/java/net/kyver/placy/processor/FileProcessorRegistry.java:68-92 | a listing taken from the priority-sorted processors is in priority order |
| FileProcessorRegistries.UnionOfSpec | src/main/java/net/kyver/placy/processor/FileProcessorRegistry.java:110-124 | a type is in the union exactly when some registered processor supports it |
| FileProcessorRegistries.ExpectedValidity | src/main/java/net/kyver/placy/processor/FileProcessorRegistry.java:94-104 | the text and archive processors reject a blank key; the image and document processors reject nothing |
| FileProcessorRegistries.FileProcessorRegistry.constructor | src/main/java/net/kyver/placy/processor/FileProcessorRegistry.java:21-27 | the processors are the given ones sorted stably by descending priority, and both caches start empty |
| FileProcessorRegistries.FileProcessorRegistry.FindProcessor | src/main/java/net/kyver/placy/processor/FileProcessorRegistry.java:29-66 | the answer and the new caches are the cache-then-scan step: the extension cache, then the MIME cache, then the first accepting processor, cached under both keys when found |
| FileProcessorRegistries.FileProcessorRegistry.GetProcessorsForExtension | src/main/java/net/kyver/placy/processor/FileProcessorRegistry.java:68-79 | the processors listing the lowercased extension, in priority order |
| FileProcessorRegistries.FileProcessorRegistry.GetProcessorsForMimeType | src/main/java/net/kyver/placy/processor/FileProcessorRegistry.java:81-92 | the processors listing the lowercased MIME type, in priority order |
| FileProcessorRegistries.FileProcessorRegistry.ValidateFile | src/main/java/net/kyver/placy/processor/FileProcessorRegistry.java:94-104 | exactly one error naming the file and MIME type when no processor is found, otherwise the found processor's validation |
| FileProcessorRegistries.FileProcessorRegistry.GetAllSupportedExtensions | src/main/java/net/kyver/placy/processor/FileProcessorRegistry.java:110-116 | the union of every processor's extensions |
| FileProcessorRegistries.FileProcessorRegistry.GetAllSupportedMimeTypes | src/main/java/net/kyver/placy/processor/FileProcessorRegistry.java:118-124 | the union of every processor's MIME types |
| FileProcessorRegistries.FileProcessorRegistry.ClearCache | src/main/java/net/kyver/placy/processor/FileProcessorRegistry.java:126-130 | both caches are empty afterwards and nothing else changes |
| PlaceholderTransformServices.ValidationFailureNeverProcesses | src/main/java/net/kyver/placy/util/PlaceholderTransformService.java:42-45 | a file that fails validation gets the validation error whatever the processor would do, so the processor is never invoked |
| PlaceholderTransformServices.SecondLookupAgrees | src/main/java/net/kyver/placy/util/PlaceholderTransformService.java:42-50 | the second lookup answers the processor the validating lookup chose and leaves the caches as that lookup left them |
| PlaceholderTransformServices.NoProcessorAnswerUnreachable | src/main/java/net/kyver/placy/util/PlaceholderTransformService.java:47-50 | a file passes validation only when a processor was found, so the "No processor found for file type" error is never returned |
| PlaceholderTransformServices.TransformSucceedsIff | src/main/java/net/kyver/placy/util/PlaceholderTransformService.java:34-69 | about `Transform`: the transformation succeeds exactly when a processor is found, the map passes its validation and its `process` returns; the result then wraps that output and that processing result |
| PlaceholderTransformServices.ProcessingFailureReported | src/main/java/net/kyver/placy/util/PlaceholderTransformService.java:63-68 | a processor that throws gives an error result whose message is "Processing failed: " followed by the exception's message |
| PlaceholderTransformServices.TextPlainSupported | src/test/java/net/kyver/placy/PlaceholderTransformServiceTest.java:80-84 | with the text processor alone and empty caches, "test.txt" as "text/plain" is supported |
| PlaceholderTransformServices.UnknownUnsupported | src/test/java/net/kyver/placy/PlaceholderTransformServiceTest.java:80-84 | with the text processor alone and empty caches, "test.unknown" as "application/unknown" is not supported |
| PlaceholderTransformServices.TextOnlyLookup | src/main/java/net/kyver/placy/util/PlaceholderTransformService.java:80-82 | with the text processor alone and empty caches, a file is supported exactly when the text processor accepts it |
| PlaceholderTransformServices.PlaceholderTransformService.constructor | src/main/java/net/kyver/placy/util/PlaceholderTransformService.java:27-32 | the service uses the given registry and a profiler of its own with no history |
| PlaceholderTransformServices.PlaceholderTransformService.TransformFile | src/main/java/net/kyver/placy/util/PlaceholderTransformService.java:34-69 | the result and the registry's caches afterwards are those of validation, the second lookup and the processor run |
| PlaceholderTransformServices.PlaceholderTransformService.ValidateTransformation | src/main/java/net/kyver/placy/util/PlaceholderTransformService.java:76-78 | the registry's validation: one error when no processor is found, else the chosen processor's errors and warnings |
| PlaceholderTransformServices.PlaceholderTransformService.IsFileSupported | src/main/java/net/kyver/placy/util/PlaceholderTransformService.java:80-82 | true exactly when the registry's lookup finds a processor |
| PlaceholderTransformServices.PlaceholderTransformService.GetSupportedExtensions | src/main/java/net/kyver/placy/util/PlaceholderTransformService.java:106-108 | exactly the extensions some registered processor lists |
| PlaceholderTransformServices.PlaceholderTransformService.GetSupportedMimeTypes | src/main/java/net/kyver/placy/util/PlaceholderTransformService.java:110-112 | exactly the MIME types some registered processor lists |
| PlaceholderTransformServices.PlaceholderTransformService.ResetPerformanceMetrics | src/main/java/net/kyver/placy/util/PlaceholderTransformService.java:100-104 | the profiler is back to its initial state and both registry caches are empty |
| FileTransformServices.ExtensionListsDisjoint | src/main/java/net/kyver/placy/service/FileTransformService.java:75-95 | no extension is listed under two kinds, so the order of the three tests does not matter |
| FileTransformServices.ListedTextIsText | src/main/java/net/kyver/placy/service/FileTransformService.java:105-116 | the 13 text extensions of the support test are all classified as text |
| FileTransformServices.FileTypeSpec | src/main/java/net/kyver/placy/service/FileTransformService.java:75-103 | about `DetermineFileType`: each kind is exactly the names whose lowercased extension after the last dot is in its list; text is everything else, a null name included |
| FileTransformServices.VisibleExtensionNotBlank | src/main/java/net/kyver/placy/service/FileTransformService.java:106 | a name whose extension ends in a visible character is not blank |
| FileTransformServices.ClassifiedFilesSupported | src/main/java/net/kyver/placy/service/FileTransformService.java:75-116 | every name routed to the archive, image or document processor passes the support test |
| FileTransformServices.SupportedIffClassifiedOrListedText | src/main/java/net/kyver/placy/service/FileTransformService.java:75-116 | the support test accepts exactly the archives, images and documents, plus the non-blank text names with one of the 13 listed text extensions |
| FileTransformServices.BlankNamesUnsupported | src/main/java/net/kyver/placy/service/FileTransformService.java:105-108 | a blank name is never supported, though it may be classified |
| FileTransformServices.ArchiveTypeHasFamily | src/main/java/net/kyver/placy/service/FileTransformService.java:81-83 | every name routed to the archive processor falls in one of that processor's archive families |
| FileTransformServices.UpperCaseArchiveExample | src/main/java/net/kyver/placy/service/FileTransformService.java:80 | classification ignores case: "APP.JAR" is an archive |
| FileTransformServices.DotfileImageExample | src/main/java/net/kyver/placy/service/FileTransformService.java:97-103 | a leading dot starts an extension: ".png" is an image |
| FileTransformServices.LastDotExample | src/main/java/net/kyver/placy/service/FileTransformService.java:97-103 | only the last dot counts: "report.tar.Docx" is a document |
| FileTransformServices.NoDotExample | src/main/java/net/kyver/placy/service/FileTransformService.java:97-103 | a name without a dot is text, even when it spells a listed extension |
| FileTransformServices.FileTransformService.constructor | src/main/java/net/kyver/placy/service/FileTransformService.java:30-41 | the service holds the given processors |
| FileTransformServices.FileTransformService.TransformFile | src/main/java/net/kyver/placy/service/FileTransformService.java:43-73 | archives, images and documents go to their processors and everything else to the text stream; an empty map returns the file; only the processor of the file's type touches its cache; a failure becomes "Failed to process file: " and the name |
| FileTransformServices.FileTransformService.ProcessArchive | src/main/java/net/kyver/placy/service/FileTransformService.java:52-55 | the archive processor's answer, or a failure when it throws |
| FileTransformServices.FileTransformService.TransformTextStream | src/main/java/net/kyver/placy/service/FileTransformService.java:64-67 | the text stream's answer, or a failure when it throws |
| FileTransformServices.FileTransformService.ProcessImage | src/main/java/net/kyver/placy/service/FileTransformService.java:56-59 | the image processor's cached answer, the document cache untouched |
| FileTransformServices.FileTransformService.ProcessDocument | src/main/java/net/kyver/placy/service/FileTransformService.java:60-63 | the document processor's cached answer, the image cache untouched |
| FileTransformServices.FileTransformService.IsSupported | src/main/java/net/kyver/placy/service/FileTransformService.java:105-116 | the support test: false for a null or blank name, else a whole match of the lowercased extension against the fixed list |
| DotEnvLines.ParseLineSpec | src/main/java/net/kyver/placy/config/EnvironmentSetup.java:19-24 | a line defines a setting exactly when, once trimmed, it is not empty, does not start with '#' or '=', and holds an '='; the key is then non-empty and holds no '=' |
| DotEnvLines.ParseTrimmedSome | src/main/java/net/kyver/placy/config/EnvironmentSetup.java:20-22 | a trimmed line defines a setting exactly when it is not empty, starts with neither '#' nor '=', and holds an '=' |
| DotEnvLines.ParseTrimmedKey | src/main/java/net/kyver/placy/config/EnvironmentSetup.java:21-23 | the key split at the first '=' is non-empty and holds no '=' |
| DotEnvLines.UnquoteSpec | src/main/java/net/kyver/placy/config/EnvironmentSetup.java:25-27 | surrounding double quotes are dropped exactly from a value of at least two characters that starts and ends with one; any other value is kept |
| DotEnvLines.ParsedAt | src/main/java/net/kyver/placy/config/EnvironmentSetup.java:18-27 | the i-th parsed setting is the one the i-th line defines |
| EnvironmentSetup.LoadedKeepsExisting | src/main/java/net/kyver/placy/config/EnvironmentSetup.java:28-30 | reading never changes a property that is already set and never sets a key the environment has |
| EnvironmentSetup.LoadedFirstWins | src/main/java/net/kyver/placy/config/EnvironmentSetup.java:18-31 | a key in neither the environment nor the properties is set exactly when some line defines it, and to the value of the first such line |
| EnvironmentSetup.LoadedOnlyDefinedKeys | src/main/java/net/kyver/placy/config/EnvironmentSetup.java:28-30 | reading adds no key but those the lines define |
| EnvironmentSetup.LoadedSettled | src/main/java/net/kyver/placy/config/EnvironmentSetup.java:28-30 | settings whose keys are all set already change nothing |
| EnvironmentSetup.FalseIsOff | src/main/java/net/kyver/placy/config/EnvironmentSetup.java:37 | "false" does not turn a flag on |
| EnvironmentSetup.PaddedUpperTrueIsOn | src/main/java/net/kyver/placy/config/EnvironmentSetup.java:37 | " TRUE " turns a flag on: case and surrounding blanks do not matter |
| EnvironmentSetup.YesIsOff | src/main/java/net/kyver/placy/config/EnvironmentSetup.java:71 | "yes" does not turn a flag on: only "true" and "1" do |
| EnvironmentSetup.FixedUpOthers | src/main/java/net/kyver/placy/config/EnvironmentSetup.java:33-46 | the fix-up changes no property but HTTPS_ENABLED and writes nothing there but "false" |
| EnvironmentSetup.FixedUpSettles | src/main/java/net/kyver/placy/config/EnvironmentSetup.java:33-46 | when the environment leaves HTTPS_ENABLED to the properties, HTTPS is never left on without a keystore path |
| EnvironmentSetup.FixedUpIdempotent | src/main/java/net/kyver/placy/config/EnvironmentSetup.java:33-46 | the fix-up applied twice is the fix-up applied once |
| EnvironmentSetup.LoadTwiceSameAsOnce | src/main/java/net/kyver/placy/config/EnvironmentSetup.java:11-51 | about `AfterLoad`: loading the same ".env" a second time changes nothing more |
| EnvironmentSetup.LoadedSecretKey | src/main/java/net/kyver/placy/config/EnvironmentSetup.java:53-59 | about `AfterLoad`: after loading, the secret key is the environment's, else a property set before, else the value of the first line defining it, and unset when none exists |
| EnvironmentSetup.SystemEnvironment.constructor | src/main/java/net/kyver/placy/config/EnvironmentSetup.java:11-15 | the store holds the given environment and properties |
| EnvironmentSetup.SystemEnvironment.LoadDotEnv | src/main/java/net/kyver/placy/config/EnvironmentSetup.java:11-51 | a missing or unreadable file leaves the properties alone; otherwise they become the lines read in order, then the HTTPS fix-up |
| EnvironmentSetup.SystemEnvironment.ReadLines | src/main/java/net/kyver/placy/config/EnvironmentSetup.java:18-31 | the properties become the result of reading every line in order |
| EnvironmentSetup.SystemEnvironment.PutSetting | src/main/java/net/kyver/placy/config/EnvironmentSetup.java:28-30 | a setting is added unless its key is already in the environment or the properties |
| EnvironmentSetup.SystemEnvironment.FixUpHttps | src/main/java/net/kyver/placy/config/EnvironmentSetup.java:33-46 | HTTPS_ENABLED is forced to "false" exactly when it is on and no non-blank keystore path is set |
| SecretKeyFilters.FieldsJoin | src/main/java/net/kyver/placy/filter/SecretKeyValidationFilter.java:73 | joining the comma fields back with commas gives the header again |
| SecretKeyFilters.FieldsAllEmpty | src/main/java/net/kyver/placy/filter/SecretKeyValidationFilter.java:73 | every field is empty exactly when every character is the separator |
| SecretKeyFilters.DropTrailingEmpty | src/main/java/net/kyver/placy/filter/SecretKeyValidationFilter.java:73 | the fields without their trailing empty ones: a prefix ending in a non-empty field, empty exactly when all fields are empty |
| SecretKeyFilters.JavaSplitSpec | src/main/java/net/kyver/placy/filter/SecretKeyValidationFilter.java:73 | Java's split is a prefix of the fields that starts with the first field when that is not empty, and is empty exactly for a non-empty header made only of commas |
| SecretKeyFilters.FirstField | src/main/java/net/kyver/placy/filter/SecretKeyValidationFilter.java:73 | the first field is the text before the first comma, or the whole header |
| SecretKeyFilters.ExemptPathScope | src/main/java/net/kyver/placy/filter/SecretKeyValidationFilter.java:63-68 | everything under "/actuator/health" is exempt whatever follows, while "/health" is exempt only as a whole path |
| SecretKeyFilters.ClientIpSpec | src/main/java/net/kyver/placy/filter/SecretKeyValidationFilter.java:70-82 | a non-empty X-Forwarded-For decides the address: its trimmed first field, or an exception when it is only commas; otherwise X-Real-IP when non-empty, else the peer address |
| SecretKeyFilters.PassesIff | src/main/java/net/kyver/placy/filter/SecretKeyValidationFilter.java:26-61 | about `DoFilter`: a request reaches the chain exactly when its path is exempt, no key is configured, or its header equals the key character for character |
| SecretKeyFilters.RejectionIsUnauthorized | src/main/java/net/kyver/placy/filter/SecretKeyValidationFilter.java:40-58 | every request that does not reach the chain gets 401 with the JSON error body, unless finding the client address throws |
| SecretKeyFilters.ThrowsIff | src/main/java/net/kyver/placy/filter/SecretKeyValidationFilter.java:42-53 | the filter throws exactly for a request it rejects whose X-Forwarded-For is made only of commas |
| SecretKeyFilters.PaddedKeyRefused | src/main/java/net/kyver/placy/filter/SecretKeyValidationFilter.java:51 | a header padded with a blank is refused although it trims to the key |
| SecretKeyFilters.CommaOnlyForwardedThrows | src/main/java/net/kyver/placy/filter/SecretKeyValidationFilter.java:73 | a keyless request for "/api/transform" behind a proxy that sent "," makes the filter throw instead of answering 401 |
| SecretKeyFilters.CorrectedClientIpAgrees | src/main/java/net/kyver/placy/filter/SecretKeyValidationFilter.java:70-82 | whenever the original lookup finds an address, the corrected lookup finds the same one |
| SecretKeyFilters.CorrectedFilterAnswers | src/main/java/net/kyver/placy/filter/SecretKeyValidationFilter.java:26-61 | the corrected filter never throws, passes exactly the requests the original passes, and answers 401 to every other request |
| SecretKeyFilters.CorrectedCommaOnlyForwardedRejected | src/main/java/net/kyver/placy/filter/SecretKeyValidationFilter.java:40-48 | the request that made the original filter throw gets 401 from the corrected filter |

## Left out

- Byte-level ZIP/JAR encoding is not modelled: deflate, local headers, `Manifest` parsing and CRC-32. An archive is a sequence of entry records read and written by a codec parameter, and CRC is a function parameter.
- Charset decoding and encoding are a pair of function parameters. Partial decoding of a split multi-byte character and malformed-input handling are not modelled. Round trips are stated as requirements where a lemma needs them.
- The JVM's "modified UTF-8" in class files is treated as the same charset parameter.
- ASM's `ClassReader`/`ClassWriter` pass is a function parameter. So is Apache POI's rewriting of Word, Excel and PowerPoint files (`DocumentProcessor.java` lines 82-291), and so are ImageIO's reader and writer. The DOM edits on metadata nodes are modelled as a value tree rewritten by a function, not updated in place.
- The image metadata walk is modelled with the text read as a parameter. `IIOMetadataNode.getTextContent`, which the program calls, always throws in the JDK, so as written no metadata is ever rewritten (see Findings); the walk that reads each node's value is the corrected version.
- JavaText.ToLower: folds only A-Z. Java's `toLowerCase` also maps other letters, such as U+0130 and U+212A. `JavaText.EqualsIgnoreCase` is ASCII-only in the same way.
- Strings are sequences of characters, and every index, length and `indexOf` result counts characters. Java counts UTF-16 code units, which differ for characters outside the Basic Multilingual Plane (surrogate pairs).
- The corrected stream replacement (`StreamingStrategy.CorrectedProcessStream`) holds the whole decoded text in memory instead of one window.
- `Arrays.hashCode` and `Map.hashCode` are function parameters, so their collisions are possible but unspecified.
- Concurrency is not modelled: thread pools, `CompletableFuture`, 30-second timeouts, `ConcurrentHashMap`, `ThreadLocal`. Parallel and asynchronous paths run their tasks one after another in order. A pool failure is a boolean parameter.
- `parallelism >= 1` is required wherever the source uses `Runtime.availableProcessors()`, which the JVM guarantees to be at least 1.
- Clocks are parameters: each `System.nanoTime` duration is passed in.
- Floating point is left out: `getProcessingTimeMillis`, `getThroughputMBps`, the MB/s and millisecond figures of `getPerformanceMetrics`, and the report text of `generateReport`. The integer counters behind them are modelled.
- `transformFileAsync` is not modelled. It only schedules `transformFile` on an executor.
- `getCacheStats`, `getAllProcessors`, `getProcessorName` and `supportsStreaming` are not modelled. They are reporting getters and constants.
- Logging is not modelled, and neither is the warning printed to standard error by the ".env" loader.
- The client's upload is a value. A failing `MultipartFile.getBytes`/`getInputStream` is not modelled.
- Parsing the placeholder map from JSON with Gson is outside the model. The map arrives as a sequence of key/value pairs in iteration order with no repeated key.
- The servlet container is not modelled: case-insensitive header names, path normalisation, and what happens to an exception that escapes the filter. Request headers arrive as `Option` values.
- The process environment is a fixed map, and the JVM system properties are a map field.
- The Spring plumbing (controllers, `SecurityConfig`, `AsyncConfig`, the application class) is not part of this model. Neither are the updater and the asynchronous file service.
- The recursive-archives and check-updates flags are boolean parameters. The source calls `EnvironmentSetup` methods for them that it does not define.
- ArchiveProcessors.ProcessArchive: nesting depth is bounded by a `fuel` parameter, and running out of fuel counts as the stack overflow the source would hit. An archive that contains itself has no bound (`ArchiveProcessors.SelfContainingArchiveHasNoBound`).
- ArchiveFileProcessors.TaskOutcome: nesting is bounded by a `fuel` parameter in the same way, and so is `ArchiveFileProcessors.ArchiveRun`; running out of fuel counts as a failed task.
- ParallelStrategy.CountOccurrences: requires a non-empty key. With an empty key the source's `indexOf` loop never advances and does not terminate. The parallel strategy's `ReplaceStream` and `CountReplacements` carry the same requirement for every key of the map.
- StreamingStrategy.StreamingReplacementStrategy.ProcessStreamOptimized: requires that no window long enough for the builder path meets an empty key. On such a window the source's `StringBuilder` loop inserts the value forever. `ReplaceStream`, `ReplaceBytes`, `PlaceholderEngines.Strategy.ReplaceStream`, `PlaceholderEngines.Strategy.ReplaceBytes`, `PlaceholderEngines.PlaceholderEngine.ProcessStream`, `PlaceholderEngines.PlaceholderEngine.ProcessBytes` and `TextFileProcessors.TextFileProcessor.Process` inherit the requirement.
- PlaceholderEngines.CountOperation: the operation count is not wrapped to a `long`. It grows by one per call and would need 2^63 - 1 calls to wrap; the byte and replacement totals and the average are wrapped.
- Profiler.PerformanceProfiler.RecordProcessing: the operation count (`totalOperations.increment()`) is not wrapped for the same reason; the three `LongAdder` sums are.
- StreamProcessor.TransformTextParallel: the chunk count at `StreamProcessor.java` lines 66-67 is computed in `int` arithmetic, whose numerator `length + step - 1` overflows for a text within one step of `Integer.MAX_VALUE` characters (about 2.1·10^9); the model computes it unbounded. `ParallelStrategy.ParallelReplacementStrategy.CreateProcessingTasks` has the same gap at `ParallelReplacementStrategy.java` line 116.
- The engine's empty-map path copies the input with its own `copyStream` loop (`PlaceholderEngine.java` lines 144-155). The model states that path through `StreamingStrategy.CopyStreamDirect`, whose output and byte count are the same.
- The end-to-end sentence of the text-file test ("Hello PLACEHOLDER_NAME, …") is not evaluated as a literal. It depends on the streaming run over the bytes a `MockMultipartFile` delivers. `TextFileProcessors.TextFileProcessor.Process` and `PlaceholderTransformServices.TransformSucceedsIff` state the general behaviour, and the empty-file test corresponds to `Process`'s empty-input clause.

## Findings

| source | as written | input that shows it | evidently intended | confidence | as-written member | corrected member |
|---|---|---|---|---|---|---|
| src/main/java/net/kyver/placy/core/replacement/ParallelReplacementStrategy.java:128-130 | every chunk but the last drops a full overlap from its end, even a chunk the end of the text already cut short, whose overlap with the next chunk is smaller | a text of 2095204 characters with no key in it, the default strategy on two threads: the output is 2094280 characters, 924 lost | each chunk drops exactly what it shares with the next chunk, so a key-free text comes back unchanged | not executed | Chunking.TrimLosesText, ParallelStrategy.DefaultStrategyLosesText | Chunking.CorrectedPieces, Chunking.CorrectedPiecesKeepText |
| src/main/java/net/kyver/placy/service/file/StreamProcessor.java:66-67 | the number of tasks is a quotient by `chunkSize - overlapSize`, which is negative when the longest key is longer than a chunk; Java's truncating division then gives 0 tasks | 6000000 characters on four threads with a key of 4500000 characters: the output is empty | fall back to the sequential rewrite when the step is not positive | not executed | StreamProcessor.ParallelEmptiesText | StreamProcessor.CorrectedParallelText, StreamProcessor.CorrectedParallelKeepsText |
| src/main/java/net/kyver/placy/processor/impl/ArchiveFileProcessor.java:407-411 | when the constant-pool walk throws, the fallback copies the already drained input stream and so writes nothing | a class file whose pool holds a CONSTANT_Dynamic entry (tag 17): every byte of the entry is lost | write the original class bytes when the rewrite fails | not executed | ClassFile.DynamicConstantFails, ClassFile.ClassEntryLosesBytes | ClassFile.CorrectedClassEntryBytes, ClassFile.CorrectedKeyFreeClassUnchanged |
| src/main/java/net/kyver/placy/service/document/DocumentProcessor.java:326-328 | the cache key is file name, length and map hash, not the content | "a.txt" holding "x" rewritten with x→y, then another "a.txt" holding "z": the answer is "y" | key the cache by the content as well | not executed | DocumentProcessors.SameNameAndLengthServedStale | DocumentProcessors.ContentKeyedDocumentProcessor.ProcessDocument |
| src/main/java/net/kyver/placy/service/image/ImageProcessor.java:205-207 | the cache key is file name, length and map hash, not the content | two images with the same name, length and map whose results differ: the second gets the first one's result | key the cache by the content as well | not executed | ImageProcessors.SameNameAndLengthServedStale | ImageProcessors.ContentKeyedImageProcessor.ProcessImage |
| src/main/java/net/kyver/placy/service/archive/ArchiveProcessor.java:366-368 | `putAll` on the attributes of a new `JarEntry`, which are null, throws, so the archive is returned unprocessed | a JAR whose first entry carries manifest attributes, as in a signed JAR: it comes back unchanged with every placeholder left in | copy the attributes into a map the new entry owns | not executed | ArchiveProcessors.AttributedJarUnchanged | ArchiveProcessors.CorrectedJarKeepsAttributes |
| src/main/java/net/kyver/placy/processor/FileProcessorRegistry.java:31-37 | the extension cache answers before the MIME type is looked at, though the MIME type helped choose the cached processor | "data.bin" as "image/png" caches the image processor under "bin"; "data.bin" as "application/pdf" then gets the image processor, which rejects it, instead of the document processor | cache under everything `canProcess` reads, so the cache never changes an answer | not executed | FileProcessorRegistries.ExtensionCacheIgnoresMimeType | FileProcessorRegistries.CorrectedFindAgreesWithScan |
| src/main/java/net/kyver/placy/filter/SecretKeyValidationFilter.java:73 | `split(",")[0]` on a header made only of commas indexes an empty array, because Java's split drops the trailing empty strings | a keyless request for "/api/transform" with X-Forwarded-For "," while a secret key is set: the filter throws instead of answering 401 | answer 401 with the JSON body whatever the client address header holds | not executed | SecretKeyFilters.CommaOnlyForwardedThrows, SecretKeyFilters.ThrowsIff | SecretKeyFilters.CorrectedFilterAnswers, SecretKeyFilters.CorrectedCommaOnlyForwardedRejected |
| src/main/java/net/kyver/placy/core/replacement/StreamingReplacementStrategy.java:128-150 | the carry kept for the next window is text already substituted, and the next window substitutes it again, so what is written depends on how the reads split the input | keys BB→X then A→B, a stream "y…yA" (as many y as the overlap) read before "B": it writes "y…yX", while one read of the same bytes, and the substitution of the whole text, give "y…yBB" | the output is the substitution of the whole decoded text, however the reads split it | not executed | StreamingStrategy.CarryResubstituted | StreamingStrategy.CorrectedProcessStream |
| src/main/java/net/kyver/placy/service/image/ImageProcessor.java:113 | `IIOMetadataNode.getTextContent` always throws `DOMException` in the JDK, and the catch for each format sets the tree back as read, so no image metadata is ever rewritten | a metadata root whose text is "${name}" with the map name→"Placy": it is written back as "${name}" | read the node's own value, so the walk rewrites text and attributes | not executed | ImageProcessors.MetadataNeverRewritten, ImageProcessors.MetadataKeyKeptAsWritten | ImageProcessors.CorrectedFormatRewritten |
| src/main/java/net/kyver/placy/util/PerformanceProfiler.java:34 | the throughput is `bytesProcessed * 1_000_000_000L / processingTimeNanos` in long arithmetic, and the product wraps once the bytes pass about 9.2 GB; `getAverageThroughputBytesPerSecond` (line 50) computes the same product over the totals | one sample of 10000000000 bytes in 1000000000 ns: the throughput is negative, and lower than that of 9000000000 bytes in the same time | the true rate, saturated at `Long.MAX_VALUE`, which grows with the bytes | not executed | Profiler.TenGigabytesPerSecondNegative, Profiler.ThroughputNotMonotone, Profiler.AverageThroughputWraps | Profiler.CorrectedThroughput, Profiler.CorrectedThroughputMonotone |
| src/main/java/net/kyver/placy/service/file/FileTypeDetector.java:103-104 | the text-file memo is keyed by the file name and the content length, not the content | "data.bin" holding "A" is classified (text), then "data.bin" holding a single NUL byte: the memo answers text, though a NUL makes content binary | key the memo by the content as well, so every answer is the verdict for the bytes given | not executed | FileTypeDetection.StaleVerdict, FileTypeDetection.SameLengthSameAnswer | FileTypeDetection.ContentKeyedAnswer, FileTypeDetection.ContentKeyedAlwaysFresh |

=== FILE: archive_file_processor.dfy ===
/**
 * The archive file processor: a ZIP, JAR, WAR or EAR read into entry
 * records, each file entry dispatched (a nested archive, text, a class file
 * or a plain copy), and the results written back in input order with only
 * their name and time, after the manifest of a JAR.
 */
module ArchiveFileProcessors {
  import opened JavaLang
  import opened JavaText
  import opened Placeholders
  import opened ProcessingResults
  import opened ValidationResults
  import opened Archives
  import opened FileNames
  import ClassFile
  import ClassFileProcessor
  import PlaceholderEngines

  const SUPPORTED_EXTENSIONS: set<string> := {"zip", "jar", "war", "ear"}
  const SUPPORTED_MIME_TYPES: set<string> :=
    {"application/zip", "application/java-archive", "application/x-zip-compressed", "application/octet-stream"}
  const TEXT_EXTENSIONS: set<string> :=
    {"txt", "json", "xml", "html", "css", "js", "java", "kt", "py", "yaml", "yml",
     "properties", "md", "conf", "config", "sql", "sh", "bat"}

  /** Entries larger than this go to the parallel engine. */
  const PARALLEL_THRESHOLD: int := 50 * 1024
  /** A placeholder value longer than this draws a warning. */
  const LARGE_VALUE: int := 1024 * 1024
  const LARGE_VALUE_WARNING: string := "Large placeholder value may impact archive processing performance: "
  const PRIORITY: int := 200
  const MEMORY_CAP: int := 200 * 1024 * 1024

  /** What a `JarInputStream` or `ZipInputStream` yields: the manifest it consumed, then the entries. */
  datatype Listing = Listing(manifest: Option<Bytes>, entries: seq<Entry>)

  /**
   * The collaborators passed in: the archive reader (`None` when it throws)
   * and writer for the JAR (`true`) or ZIP family, the charset of class
   * constants, and the recursive-archives switch, which lie outside this
   * model; and `processStream` of the default (`false`) or parallel (`true`)
   * engine as the bytes written and the replacement count. That engine is
   * `PlaceholderEngines.PlaceholderEngine.ProcessStream`, but here it is a
   * plain function, not tied to that method.
   */
  datatype Platform = Platform(
    read: (bool, Bytes) -> Option<Listing>,
    write: (bool, Option<Bytes>, seq<OutEntry>) -> Bytes,
    textStream: (bool, Bytes, PlaceholderMap) -> (Bytes, int),
    cs: Codec,
    recursive: bool)

  /** `ArchiveEntryResult` without its entry: the bytes to write and the replacements made. */
  datatype EntryResult = EntryResult(data: Bytes, replacements: int)

  /** What processing one entry task gives. */
  type TaskFn = Entry -> Run<EntryResult>

  /** The bytes written and the statistics returned. */
  datatype Output = Output(bytes: Bytes, stats: Stats)

  /** The writer's state after the entry loop, and the replacements summed on the way. */
  datatype Flushed = Flushed(written: Written, replacements: int)

  // ------------------------------------------------------------ names

  /** `isArchive`: the lower-cased name ends in one of the four archive extensions. */
  predicate IsArchive(name: string)
  {
    var lower := ToLower(name);
    EndsWith(lower, ".zip") || EndsWith(lower, ".jar") || EndsWith(lower, ".war") || EndsWith(lower, ".ear")
  }

  /** `isTextFile`: a non-empty name whose lower-cased extension is a text extension. */
  predicate IsTextFile(filename: Option<string>)
  {
    filename.Some? && filename.value != [] && ToLower(AfterLastDot(filename)) in TEXT_EXTENSIONS
  }

  /** `isClassFile`. */
  predicate IsClassFile(filename: Option<string>)
  {
    filename.Some? && EndsWith(ToLower(filename.value), ".class")
  }

  /** `process` picks the JAR reader and writer for a name ending in ".jar", any case. */
  predicate IsJarName(filename: Option<string>)
  {
    filename.Some? && EndsWith(ToLower(filename.value), ".jar")
  }

  /** `isArchive` is the extension test of `canProcess`, read on the lower-cased name. */
  lemma ArchiveIsExtension(name: string)
    ensures IsArchive(name) <==> ToLower(AfterLastDot(Some(name))) in SUPPORTED_EXTENSIONS
  {
    var ext := ToLower(AfterLastDot(Some(name)));
    var lower := ToLower(name);
    LoweredSuffix(name, "zip");
    assert "." + "zip" == ".zip";
    LoweredSuffix(name, "jar");
    assert "." + "jar" == ".jar";
    LoweredSuffix(name, "war");
    assert "." + "war" == ".war";
    LoweredSuffix(name, "ear");
    assert "." + "ear" == ".ear";
    assert IsArchive(name) <==> ext == "zip" || ext == "jar" || ext == "war" || ext == "ear";
    assert ext in SUPPORTED_EXTENSIONS <==> ext == "zip" || ext == "jar" || ext == "war" || ext == "ear";
  }

  /** `isClassFile` is an extension test as well. */
  lemma ClassIsExtension(name: string)
    ensures IsClassFile(Some(name)) <==> ToLower(AfterLastDot(Some(name))) == "class"
  {
    LoweredSuffix(name, "class");
    assert "." + "class" == ".class";
  }

  /** The three kinds of entry the dispatch tells apart never overlap, so its order does not matter. */
  lemma DispatchExclusive(name: string)
    ensures !(IsArchive(name) && IsTextFile(Some(name)))
    ensures !(IsArchive(name) && IsClassFile(Some(name)))
    ensures !(IsTextFile(Some(name)) && IsClassFile(Some(name)))
  {
    ArchiveIsExtension(name);
    ClassIsExtension(name);
    ExtensionSetsDisjoint(ToLower(AfterLastDot(Some(name))));
  }

  lemma ExtensionSetsDisjoint(ext: string)
    ensures ext in SUPPORTED_EXTENSIONS ==> ext !in TEXT_EXTENSIONS && ext != "class"
    ensures ext == "class" ==> ext !in TEXT_EXTENSIONS
  {
  }

  /** `canProcess`: a supported extension (dot excluded, any case) or a supported MIME type (any case). */
  predicate CanProcess(filename: Option<string>, mimeType: Option<string>)
  {
    || (filename.Some? && ToLower(AfterLastDot(filename)) in SUPPORTED_EXTENSIONS)
    || (mimeType.Some? && ToLower(mimeType.value) in SUPPORTED_MIME_TYPES)
  }

  /** Every name the processor treats as a nested archive is one it accepts, whatever the MIME type. */
  lemma ArchiveNamesAccepted(name: string, mimeType: Option<string>)
    ensures IsArchive(name) <==> CanProcess(Some(name), None)
    ensures IsArchive(name) ==> CanProcess(Some(name), mimeType)
  {
    ArchiveIsExtension(name);
  }

  /** `estimateMemoryUsage`: half the file, at most 200 MiB. */
  function EstimateMemoryUsage(fileSize: int): (r: int)
    ensures r <= MEMORY_CAP
    ensures fileSize >= 0 ==> 0 <= r <= fileSize
    ensures 0 <= fileSize <= 2 * MEMORY_CAP ==> r == fileSize / 2
  {
    Min(JDiv(fileSize, 2), MEMORY_CAP)
  }

  // ------------------------------------------------------------ entries

  /** An entry the collection loop keeps: a file, and in a JAR not the manifest. */
  predicate Collected(isJar: bool, e: Entry)
  {
    !(isJar && e.name == MANIFEST_NAME) && !e.isDirectory
  }

  /** The entry tasks, in input order. */
  function Tasks(isJar: bool, entries: seq<Entry>): (r: seq<Entry>)
    ensures |r| <= |entries|
  {
    if entries == [] then []
    else
      var rest := Tasks(isJar, entries[..|entries| - 1]);
      var e := entries[|entries| - 1];
      if Collected(isJar, e) then rest + [e] else rest
  }

  /** These tasks are exactly the collected entries: directories and a JAR's manifest entry are dropped, nothing else. */
  lemma {:induction false} TasksAreCollected(isJar: bool, entries: seq<Entry>)
    ensures forall e :: e in Tasks(isJar, entries) <==> e in entries && Collected(isJar, e)
    decreases |entries|
  {
    if entries != [] {
      var n := |entries| - 1;
      TasksAreCollected(isJar, entries[..n]);
      assert entries == entries[..n] + [entries[n]];
    }
  }

  /** These tasks of two listings in a row are the first's, then the second's. */
  lemma {:induction false} TasksConcat(isJar: bool, xs: seq<Entry>, ys: seq<Entry>)
    ensures Tasks(isJar, xs + ys) == Tasks(isJar, xs) + Tasks(isJar, ys)
    decreases |ys|
  {
    if ys == [] {
      assert xs + ys == xs;
    } else {
      var n := |ys| - 1;
      var e := ys[n];
      TasksConcat(isJar, xs, ys[..n]);
      assert (xs + ys)[..|xs + ys| - 1] == xs + ys[..n];
      assert (xs + ys)[|xs + ys| - 1] == e;
      if Collected(isJar, e) {
        calc {
          Tasks(isJar, xs + ys);
          Tasks(isJar, xs + ys[..n]) + [e];
          (Tasks(isJar, xs) + Tasks(isJar, ys[..n])) + [e];
          Tasks(isJar, xs) + (Tasks(isJar, ys[..n]) + [e]);
          Tasks(isJar, xs) + Tasks(isJar, ys);
        }
      }
    }
  }

  /** `totalBytesProcessed`: the lengths of these tasks' original data. */
  /** One entry more for the collection loop. */
  lemma TasksSnoc(isJar: bool, entries: seq<Entry>, i: nat)
    requires i < |entries|
    ensures Tasks(isJar, entries[..i + 1])
         == if Collected(isJar, entries[i]) then Tasks(isJar, entries[..i]) + [entries[i]] else Tasks(isJar, entries[..i])
  {
    assert entries[..i + 1][..i] == entries[..i];
  }

  lemma TotalDataSnoc(tasks: seq<Entry>, e: Entry)
    ensures TotalData(tasks + [e]) == TotalData(tasks) + |e.data|
  {
    assert (tasks + [e])[..|tasks|] == tasks;
  }

  function TotalData(tasks: seq<Entry>): nat
  {
    if tasks == [] then 0 else TotalData(tasks[..|tasks| - 1]) + |tasks[|tasks| - 1].data|
  }

  /** `totalReplacements`: the replacements of all results. */
  function TotalReplacements(results: seq<EntryResult>): int
  {
    if results == [] then 0 else TotalReplacements(results[..|results| - 1]) + results[|results| - 1].replacements
  }

  /** The class branch: the rewritten class and its count; as written, nothing and 0 when the rewrite fails. */
  function ClassResult(data: Bytes, m: PlaceholderMap, cs: Codec): (r: EntryResult)
    ensures r.data == ClassFile.ClassEntryBytes(data, m, cs)
    ensures ClassFile.ClassFileRewrite(data, m, cs).None? ==> r == EntryResult([], 0)
  {
    match ClassFile.ClassFileRewrite(data, m, cs)
    case None => EntryResult([], 0)
    case Some(em) => EntryResult(em.bytes, em.replacements)
  }

  /** The branches of `processEntryTask` after the nested-archive one. */
  function LeafResult(p: Platform, e: Entry, m: PlaceholderMap): EntryResult
  {
    if IsTextFile(Some(e.name)) then
      var (out, n) := p.textStream(|e.data| > PARALLEL_THRESHOLD, e.data, m);
      EntryResult(out, n)
    else if IsClassFile(Some(e.name)) then ClassResult(e.data, m, p.cs)
    else EntryResult(e.data, 0)
  }

  /**
   * `processEntryTask` inside a task's catch: a nested archive (when
   * recursion is on) goes through the outer archive's family, and an
   * exception there keeps the original bytes with 0 replacements.
   */
  function TaskOutcome(p: Platform, isJar: bool, e: Entry, m: PlaceholderMap, fuel: nat): (r: Run<EntryResult>)
    ensures !r.Threw?
    decreases fuel, 0
  {
    if IsArchive(e.name) && p.recursive then
      if fuel == 0 then Exhausted
      else
        match ArchiveRun(p, isJar, e.data, m, fuel - 1)
        case Ok(out) => Ok(EntryResult(out.bytes, out.stats.replacementCount))
        case Threw => Ok(EntryResult(e.data, 0))
        case Exhausted => Exhausted
    else Ok(LeafResult(p, e, m))
  }

  /** `processEntryTask` for every task of an archive processed with the map `m`. */
  function Task(p: Platform, isJar: bool, m: PlaceholderMap, fuel: nat): TaskFn
    decreases fuel, 1
  {
    (e: Entry) => TaskOutcome(p, isJar, e, m, fuel)
  }

  /** The results of these tasks, in task order. */
  function Results(task: TaskFn, tasks: seq<Entry>): (r: Run<seq<EntryResult>>)
    ensures r.Ok? ==> |r.value| == |tasks|
  {
    if tasks == [] then Ok([])
    else
      match Results(task, tasks[..|tasks| - 1])
      case Ok(rs) =>
        (match task(tasks[|tasks| - 1])
         case Ok(x) => Ok(rs + [x])
         case Threw => Threw
         case Exhausted => Exhausted)
      case Threw => Threw
      case Exhausted => Exhausted
  }

  /** Once a prefix of these tasks fails, all of them fail the same way. */
  lemma {:induction false} ResultsStop(task: TaskFn, tasks: seq<Entry>, i: nat)
    requires i <= |tasks| && !Results(task, tasks[..i]).Ok?
    ensures Results(task, tasks) == Results(task, tasks[..i])
    decreases |tasks|
  {
    if i < |tasks| {
      var n := |tasks| - 1;
      assert tasks[..n][..i] == tasks[..i];
      ResultsStop(task, tasks[..n], i);
    } else {
      assert tasks[..i] == tasks;
    }
  }

  /** The entry written for a task: a new entry with that task's name and time, nothing else set. */
  function NewEntry(e: Entry, data: Bytes): (r: OutEntry)
    ensures r.name == e.name && r.time == e.time && r.data == data
  {
    OutEntry(e.name, e.time, None, None, None, None, None, None, None, data)
  }

  /** The entries written for these tasks and their results, in order. */
  function Outs(tasks: seq<Entry>, results: seq<EntryResult>): (r: seq<OutEntry>)
    requires |tasks| == |results|
    ensures |r| == |tasks|
    ensures forall k :: 0 <= k < |tasks| ==> r[k] == NewEntry(tasks[k], results[k].data)
  {
    seq(|tasks|, k requires 0 <= k < |tasks| => NewEntry(tasks[k], results[k].data))
  }

  /** The write loop: each result put in task order; a ZipException on a repeated name. */
  function WriteAll(start: Written, tasks: seq<Entry>, results: seq<EntryResult>): Option<Written>
    requires |tasks| == |results|
  {
    if tasks == [] then Some(start)
    else
      var n := |tasks| - 1;
      match WriteAll(start, tasks[..n], results[..n])
      case None => None
      case Some(w) => Put(w, NewEntry(tasks[n], results[n].data))
  }

  /** The names a JAR writer holds before the loop: the manifest's, when there is one. */
  function Preset(isJar: bool, listing: Listing): set<string>
  {
    if isJar && listing.manifest.Some? then {MANIFEST_NAME} else {}
  }

  /** The manifest handed to the writer: only the JAR reader consumes one. */
  function ManifestOut(isJar: bool, listing: Listing): Option<Bytes>
  {
    if isJar then listing.manifest else None
  }

  /** `processJarFileOptimized` / `processZipFileOptimized`. */
  function ArchiveRun(p: Platform, isJar: bool, bytes: Bytes, m: PlaceholderMap, fuel: nat): Run<Output>
    decreases fuel, 2
  {
    match p.read(isJar, bytes)
    case None => Threw
    case Some(listing) =>
      var tasks := Tasks(isJar, listing.entries);
      match Results(Task(p, isJar, m, fuel), tasks)
      case Ok(rs) =>
        (match WriteAll(Written(Preset(isJar, listing), []), tasks, rs)
         case None => Threw
         case Some(w) =>
           Ok(Output(p.write(isJar, ManifestOut(isJar, listing), w.entries),
                     Stats(TotalData(tasks), TotalReplacements(rs), |m|))))
      case Threw => Threw
      case Exhausted => Exhausted
  }

  // ------------------------------------------------------------ properties

  /** Without recursion an archive entry is neither text nor a class file, so it is copied unchanged. */
  lemma NestedArchiveCopiedWithoutRecursion(p: Platform, isJar: bool, e: Entry, m: PlaceholderMap, fuel: nat)
    requires IsArchive(e.name) && !p.recursive
    ensures TaskOutcome(p, isJar, e, m, fuel) == Ok(EntryResult(e.data, 0))
  {
    DispatchExclusive(e.name);
  }

  /** An entry that is no archive, no text and no class file is copied unchanged with 0 replacements. */
  lemma OtherEntryCopied(p: Platform, isJar: bool, e: Entry, m: PlaceholderMap, fuel: nat)
    requires !IsArchive(e.name) && !IsTextFile(Some(e.name)) && !IsClassFile(Some(e.name))
    ensures TaskOutcome(p, isJar, e, m, fuel) == Ok(EntryResult(e.data, 0))
  {
  }

  /** A nested archive whose processing throws keeps its original bytes with 0 replacements. */
  lemma FailedNestedArchiveKept(p: Platform, isJar: bool, e: Entry, m: PlaceholderMap, fuel: nat)
    requires IsArchive(e.name) && p.recursive && fuel > 0
    requires p.read(isJar, e.data).None?
    ensures TaskOutcome(p, isJar, e, m, fuel) == Ok(EntryResult(e.data, 0))
  {
  }

  /** A text entry goes to the parallel engine exactly when it is larger than 50 KiB. */
  lemma TextEntryEngine(p: Platform, isJar: bool, e: Entry, m: PlaceholderMap, fuel: nat)
    requires IsTextFile(Some(e.name))
    ensures TaskOutcome(p, isJar, e, m, fuel)
         == Ok(EntryResult(p.textStream(|e.data| > PARALLEL_THRESHOLD, e.data, m).0,
                           p.textStream(|e.data| > PARALLEL_THRESHOLD, e.data, m).1))
  {
    DispatchExclusive(e.name);
  }

  /** Results are there exactly when every task has one, and then they are these tasks' outcomes in order. */
  lemma {:induction false} ResultsInOrder(task: TaskFn, tasks: seq<Entry>)
    ensures Results(task, tasks).Ok? <==> forall k :: 0 <= k < |tasks| ==> task(tasks[k]).Ok?
    ensures Results(task, tasks).Ok? ==> forall k :: 0 <= k < |tasks| ==> Results(task, tasks).value[k] == task(tasks[k]).value
    decreases |tasks|
  {
    if tasks != [] {
      var n := |tasks| - 1;
      ResultsInOrder(task, tasks[..n]);
      assert forall k :: 0 <= k < n ==> tasks[..n][k] == tasks[k];
    }
  }

  /**
   * The write loop succeeds exactly when task names are distinct and
   * none is preset, and then holds one new entry per task, in task order.
   */
  lemma {:induction false} WriteAllSpec(preset: set<string>, tasks: seq<Entry>, results: seq<EntryResult>)
    requires |tasks| == |results|
    ensures WriteAll(Written(preset, []), tasks, results).Some? <==> DistinctNames(tasks, preset)
    ensures WriteAll(Written(preset, []), tasks, results).Some? ==>
      && WriteAll(Written(preset, []), tasks, results).value.entries == Outs(tasks, results)
      && WrittenWellFormed(WriteAll(Written(preset, []), tasks, results).value, preset)
    decreases |tasks|
  {
    var start := Written(preset, []);
    if tasks == [] {
      assert preset + NameSet([]) == preset;
    } else {
      var n := |tasks| - 1;
      WriteAllSpec(preset, tasks[..n], results[..n]);
      DistinctSnoc(tasks, preset);
      var prefix := WriteAll(start, tasks[..n], results[..n]);
      if prefix.Some? {
        PutNext(preset, prefix.value, tasks, results);
      }
    }
  }

  /** Names stay distinct with one entry more exactly when its name is new. */
  lemma DistinctSnoc(entries: seq<Entry>, preset: set<string>)
    requires entries != []
    ensures var n := |entries| - 1;
      DistinctNames(entries, preset) <==>
        (DistinctNames(entries[..n], preset) && entries[n].name !in preset
         && forall k :: 0 <= k < n ==> entries[k].name != entries[n].name)
  {
    var n := |entries| - 1;
    assert forall k :: 0 <= k < n ==> entries[..n][k] == entries[k];
  }

  /** The step of the write loop, for a prefix that was written as one new entry per task. */
  lemma PutNext(preset: set<string>, w: Written, tasks: seq<Entry>, results: seq<EntryResult>)
    requires |tasks| == |results| > 0
    requires WrittenWellFormed(w, preset)
    requires w.entries == Outs(tasks[..|tasks| - 1], results[..|tasks| - 1])
    ensures var n := |tasks| - 1; var out := NewEntry(tasks[n], results[n].data);
      && (Put(w, out).Some? <==> tasks[n].name !in preset && forall k :: 0 <= k < n ==> tasks[k].name != tasks[n].name)
      && (Put(w, out).Some? ==> Put(w, out).value.entries == Outs(tasks, results) && WrittenWellFormed(Put(w, out).value, preset))
  {
    var n := |tasks| - 1;
    var out := NewEntry(tasks[n], results[n].data);
    PutKeepsWellFormed(w, preset, out);
    assert forall k :: 0 <= k < n ==> w.entries[k].name == tasks[k].name;
    OutsSnoc(tasks, results);
  }

  lemma OutsSnoc(tasks: seq<Entry>, results: seq<EntryResult>)
    requires |tasks| == |results| > 0
    ensures var n := |tasks| - 1;
      Outs(tasks, results) == Outs(tasks[..n], results[..n]) + [NewEntry(tasks[n], results[n].data)]
  {
    var n := |tasks| - 1;
    var r := Outs(tasks[..n], results[..n]) + [NewEntry(tasks[n], results[n].data)];
    assert forall k :: 0 <= k < |tasks| ==> Outs(tasks, results)[k] == r[k];
  }

  /**
   * Reassembly: once every task has a result, the archive is written exactly
   * when task names are distinct (and, in a JAR with a manifest, none is
   * the manifest's); it then holds the manifest and one entry per file
   * entry, in input order, with the name, time and processed bytes, and the
   * statistics count the original bytes and the replacements.
   */
  lemma ReassembledInOrder(p: Platform, isJar: bool, bytes: Bytes, m: PlaceholderMap, fuel: nat,
                           listing: Listing, rs: seq<EntryResult>)
    requires p.read(isJar, bytes) == Some(listing)
    requires Results(Task(p, isJar, m, fuel), Tasks(isJar, listing.entries)) == Ok(rs)
    ensures ArchiveRun(p, isJar, bytes, m, fuel).Ok? <==> DistinctNames(Tasks(isJar, listing.entries), Preset(isJar, listing))
    ensures ArchiveRun(p, isJar, bytes, m, fuel).Ok? ==>
      ArchiveRun(p, isJar, bytes, m, fuel).value
        == Output(p.write(isJar, ManifestOut(isJar, listing), Outs(Tasks(isJar, listing.entries), rs)),
                  Stats(TotalData(Tasks(isJar, listing.entries)), TotalReplacements(rs), |m|))
  {
    WriteAllSpec(Preset(isJar, listing), Tasks(isJar, listing.entries), rs);
  }

  /** A JAR with a manifest never writes a second entry under the manifest's name. */
  lemma ManifestWrittenOnce(isJar: bool, listing: Listing)
    requires isJar && listing.manifest.Some?
    ensures DistinctNames(Tasks(isJar, listing.entries), Preset(isJar, listing))
        <==> forall j, k :: 0 <= j < k < |Tasks(isJar, listing.entries)| ==>
               Tasks(isJar, listing.entries)[j].name != Tasks(isJar, listing.entries)[k].name
  {
    var tasks := Tasks(isJar, listing.entries);
    TasksAreCollected(isJar, listing.entries);
    forall k | 0 <= k < |tasks| ensures tasks[k].name !in Preset(isJar, listing) {
      assert tasks[k] in tasks;
    }
  }

  // ------------------------------------------------------------ the processor

  class ArchiveFileProcessor {
    const engine: PlaceholderEngines.PlaceholderEngine
    const platform: Platform

    /** `new ArchiveFileProcessor()`: a default engine for validation, and the collaborators. */
    constructor (platform: Platform)
      ensures this.platform == platform && fresh(engine)
    {
      this.platform := platform;
      engine := new PlaceholderEngines.PlaceholderEngine(PlaceholderEngines.DefaultStrategy());
    }

    /** `process`: the JAR family for a ".jar" name, otherwise the ZIP family; a failure is rethrown (`Threw`). */
    method Process(input: Bytes, m: PlaceholderMap, filename: Option<string>, fuel: nat) returns (r: Run<Output>)
      ensures r == ArchiveRun(platform, IsJarName(filename), input, m, fuel)
    {
      var isJar := IsJarName(filename);
      r := ProcessArchiveFile(isJar, input, m, fuel);
    }

    /** `processJarFileOptimized` / `processZipFileOptimized`. */
    method ProcessArchiveFile(isJar: bool, input: Bytes, m: PlaceholderMap, fuel: nat) returns (r: Run<Output>)
      ensures r == ArchiveRun(platform, isJar, input, m, fuel)
      decreases fuel, 2
    {
      var listing := platform.read(isJar, input);
      if listing.None? {
        return Threw;
      }
      var tasks, totalBytesProcessed, filesProcessed := CollectTasks(isJar, listing.value.entries);
      var results := ProcessTasks(isJar, tasks, m, fuel);
      if !results.Ok? {
        return if results.Threw? then Threw else Exhausted;
      }
      var flushed := WriteResults(Written(Preset(isJar, listing.value), []), tasks, results.value);
      if flushed.None? {
        return Threw;
      }
      var bytes := platform.write(isJar, ManifestOut(isJar, listing.value), flushed.value.written.entries);
      r := Ok(Output(bytes, Stats(totalBytesProcessed, flushed.value.replacements, |m|)));
    }

    /** The collection loop: file entries kept in order, their bytes summed and counted. */
    static method CollectTasks(isJar: bool, entries: seq<Entry>) returns (tasks: seq<Entry>, totalBytesProcessed: int, filesProcessed: int)
      ensures tasks == Tasks(isJar, entries)
      ensures totalBytesProcessed == TotalData(tasks) && filesProcessed == |tasks|
    {
      tasks := [];
      totalBytesProcessed := 0;
      filesProcessed := 0;
      var i := 0;
      while i < |entries|
        invariant 0 <= i <= |entries|
        invariant tasks == Tasks(isJar, entries[..i])
        invariant totalBytesProcessed == TotalData(tasks) && filesProcessed == |tasks|
      {
        TasksSnoc(isJar, entries, i);
        var entry := entries[i];
        if !(isJar && entry.name == MANIFEST_NAME) && !entry.isDirectory {
          TotalDataSnoc(tasks, entry);
          tasks := tasks + [entry];
          totalBytesProcessed := totalBytesProcessed + |entry.data|;
          filesProcessed := filesProcessed + 1;
        }
        i := i + 1;
      }
      assert entries[..i] == entries;
    }

    /** The futures, run one after the other in task order. */
    method ProcessTasks(isJar: bool, tasks: seq<Entry>, m: PlaceholderMap, fuel: nat) returns (r: Run<seq<EntryResult>>)
      ensures r == Results(Task(platform, isJar, m, fuel), tasks)
      decreases fuel, 1
    {
      var task := Task(platform, isJar, m, fuel);
      var results := [];
      var i := 0;
      while i < |tasks|
        invariant 0 <= i <= |tasks|
        invariant Results(task, tasks[..i]) == Ok(results)
      {
        assert tasks[..i + 1][..i] == tasks[..i];
        var result := ProcessEntryTask(isJar, tasks[i], m, fuel);
        assert task(tasks[i]) == result;
        if !result.Ok? {
          ResultsStop(task, tasks, i + 1);
          return if result.Threw? then Threw else Exhausted;
        }
        results := results + [result.value];
        i := i + 1;
      }
      assert tasks[..i] == tasks;
      r := Ok(results);
    }

    /** `processEntryTask`, with a task's catch. */
    method ProcessEntryTask(isJar: bool, e: Entry, m: PlaceholderMap, fuel: nat) returns (r: Run<EntryResult>)
      ensures r == TaskOutcome(platform, isJar, e, m, fuel)
      decreases fuel, 0
    {
      if IsArchive(e.name) && platform.recursive {
        if fuel == 0 {
          return Exhausted;
        }
        var nested := ProcessArchiveFile(isJar, e.data, m, fuel - 1);
        match nested {
          case Ok(out) => return Ok(EntryResult(out.bytes, out.stats.replacementCount));
          case Threw => return Ok(EntryResult(e.data, 0));
          case Exhausted => return Exhausted;
        }
      }
      if IsTextFile(Some(e.name)) {
        var (out, n) := platform.textStream(|e.data| > PARALLEL_THRESHOLD, e.data, m);
        return Ok(EntryResult(out, n));
      }
      if IsClassFile(Some(e.name)) {
        var out, stats := ClassFileProcessor.ProcessClassFile(e.data, m, platform.cs);
        return Ok(EntryResult(out, stats.replacementCount));
      }
      r := Ok(EntryResult(e.data, 0));
    }

    /** The write loop: each result put in task order, its replacements added. */
    static method WriteResults(start: Written, tasks: seq<Entry>, results: seq<EntryResult>) returns (r: Option<Flushed>)
      requires |tasks| == |results|
      ensures r.None? <==> WriteAll(start, tasks, results).None?
      ensures r.Some? ==> r.value == Flushed(WriteAll(start, tasks, results).value, TotalReplacements(results))
    {
      var w := start;
      var totalReplacements := 0;
      var i := 0;
      while i < |tasks|
        invariant 0 <= i <= |tasks|
        invariant WriteAll(start, tasks[..i], results[..i]) == Some(w)
        invariant totalReplacements == TotalReplacements(results[..i])
      {
        assert tasks[..i + 1][..i] == tasks[..i] && results[..i + 1][..i] == results[..i];
        var put := Put(w, NewEntry(tasks[i], results[i].data));
        if put.None? {
          WriteStops(start, tasks, results, i + 1);
          return None;
        }
        w := put.value;
        totalReplacements := totalReplacements + results[i].replacements;
        i := i + 1;
      }
      assert tasks[..i] == tasks && results[..i] == results;
      r := Some(Flushed(w, totalReplacements));
    }

    /** Once the writer refuses an entry, the whole loop fails. */
    static lemma WriteStops(start: Written, tasks: seq<Entry>, results: seq<EntryResult>, i: nat)
      requires |tasks| == |results| && i <= |tasks|
      requires WriteAll(start, tasks[..i], results[..i]).None?
      ensures WriteAll(start, tasks, results).None?
      decreases |tasks| - i
    {
      if i < |tasks| {
        assert tasks[..i + 1][..i] == tasks[..i] && results[..i + 1][..i] == results[..i];
        WriteStops(start, tasks, results, i + 1);
      } else {
        assert tasks[..i] == tasks && results[..i] == results;
      }
    }

    /**
     * `validate`: the engine's validation, then one warning per value longer
     * than 1024 * 1024 characters, in iteration order.
     */
    method Validate(m: PlaceholderMap) returns (result: ValidationResult)
      ensures fresh(result)
      ensures result.errors == PlaceholderEngines.ValidationErrors(m)
      ensures result.warnings == PlaceholderEngines.ValidationWarnings(m) + LargeValueWarnings(m)
      ensures result.IsValid() <==> forall i :: 0 <= i < |m| ==> !IsBlank(m[i].key)
    {
      var validated := engine.ValidatePlaceholders(Some(m));
      result := validated;
      WarnLargeValues(result, m);
    }

    /** The loop over the map that adds a warning per large value. */
    static method WarnLargeValues(result: ValidationResult, m: PlaceholderMap)
      modifies result`warnings
      ensures result.warnings == old(result.warnings) + LargeValueWarnings(m)
    {
      ghost var start := result.warnings;
      var i := 0;
      while i < |m|
        invariant 0 <= i <= |m|
        invariant result.warnings == start + LargeValueWarnings(m[..i])
      {
        LargeValueWarningsSnoc(m, i);
        var value := m[i].value;
        if value.Some? && |value.value| > LARGE_VALUE {
          result.AddWarning(LARGE_VALUE_WARNING + m[i].key);
        }
        i := i + 1;
      }
      assert m[..i] == m;
    }
  }

  /** The warnings `validate` adds after the engine's: one per large value, in iteration order. */
  function LargeValueWarnings(m: PlaceholderMap): (r: seq<string>)
    ensures |r| <= |m|
  {
    if m == [] then []
    else
      LargeValueWarnings(m[..|m| - 1]) + LargeValueWarning(m[|m| - 1])
  }

  lemma LargeValueWarningsSnoc(m: PlaceholderMap, i: nat)
    requires i < |m|
    ensures LargeValueWarnings(m[..i + 1]) == LargeValueWarnings(m[..i]) + LargeValueWarning(m[i])
  {
    assert m[..i + 1][..i] == m[..i];
  }

  /** A value `validate` warns about: longer than 1024 * 1024 characters. */
  predicate IsLarge(p: Placeholder)
  {
    p.value.Some? && |p.value.value| > LARGE_VALUE
  }

  function LargeValueWarning(p: Placeholder): seq<string>
  {
    if IsLarge(p) then [LARGE_VALUE_WARNING + p.key] else []
  }

  /** Each warning names the key of a large value, and each large value's key is named. */
  lemma {:induction false} LargeValueWarningsNameKeys(m: PlaceholderMap)
    ensures forall w :: w in LargeValueWarnings(m) <==> exists i :: 0 <= i < |m| && IsLarge(m[i]) && w == LARGE_VALUE_WARNING + m[i].key
    decreases |m|
  {
    if m != [] {
      var n := |m| - 1;
      LargeValueWarningsNameKeys(m[..n]);
      assert forall i :: 0 <= i < n ==> m[..n][i] == m[i];
    }
  }
}

=== FILE: archive_processor.dfy ===
/**
 * The archive service: a JAR- or ZIP-family archive is read into entries,
 * each file entry's content is sent to the collaborator its name and data
 * select (a nested archive back to this service), and the entries are
 * written again, one after another or after a batched pass over all files.
 * The ZIP/JAR codec and the collaborators are parameters.
 */
module ArchiveProcessors {
  import opened JavaLang
  import opened JavaText
  import opened Placeholders
  import opened FileNames
  import opened Archives
  import DocumentProcessors

  const JAR_FAMILY: set<string> := {".jar", ".war", ".ear", ".aar"}
  const ZIP_FAMILY: set<string> := {".zip", ".apk", ".xpi", ".crx", ".vsix", ".nupkg", ".snupkg"}

  datatype Family = Jar | Zip

  /** What the JAR or ZIP reader yields: the manifest (JAR only) and the entries after it. */
  datatype Contents = Contents(manifest: Option<Bytes>, entries: seq<Entry>)

  /**
   * `java.util.zip`/`java.util.jar`: the reader (`None` when it throws),
   * the writer of a manifest and entries, and CRC-32.
   */
  datatype ArchiveCodec = ArchiveCodec(
    read: (Family, Bytes) -> Option<Contents>,
    write: (Family, Option<Bytes>, seq<OutEntry>) -> Bytes,
    crc: Bytes -> int)

  /**
   * The collaborators: the type detector's text test and image extension
   * set, and the class, text, image and document services. A `None` from
   * the text service is an exception.
   */
  datatype Services = Services(
    isTextFile: (string, Bytes) -> bool,
    imageExtensions: set<string>,
    classRewrite: (Bytes, PlaceholderMap) -> Bytes,
    textTransform: (Bytes, PlaceholderMap) -> Option<Bytes>,
    processImage: (Bytes, string, PlaceholderMap) -> Bytes,
    processDocument: (Bytes, string, PlaceholderMap) -> Bytes)

  /**
   * Everything the service depends on: the codec, the collaborators, the
   * asynchronous-processing flag, the processor count, and what
   * `getAttributes()` returns on a `JarEntry` made from a name.
   */
  datatype Setup = Setup(
    codec: ArchiveCodec,
    services: Services,
    asyncEnabled: bool,
    processors: int,
    freshAttributes: Option<Attributes>)

  /** A `JarEntry` made from a name has no attributes: `getAttributes()` returns null. */
  const JDK_FRESH_ATTRIBUTES: Option<Attributes> := None

  // ------------------------------------------------------------ names

  /** `getFileExtension(filename).toLowerCase()`. */
  function ExtensionOf(name: string): string
  {
    ToLower(ArchiveExtension(Some(name)))
  }

  /** `isArchiveFile`. */
  predicate IsArchiveName(name: string)
  {
    ExtensionOf(name) in JAR_FAMILY || ExtensionOf(name) in ZIP_FAMILY
  }

  /** The `switch` of `processArchive`. */
  function FamilyOf(name: string): (r: Option<Family>)
    ensures r.Some? <==> IsArchiveName(name)
  {
    var ext := ExtensionOf(name);
    if ext in JAR_FAMILY then Some(Jar) else if ext in ZIP_FAMILY then Some(Zip) else None
  }

  // ------------------------------------------------------------ entry records

  /** `getAttributes().putAll(source)` on a new entry whose attributes are `blank`; `None` when that is null. */
  function CopyAttributes(source: Option<Attributes>, blank: Option<Attributes>): Option<Option<Attributes>>
  {
    if source.None? then Some(blank)
    else if blank.None? then None
    else Some(Some(blank.value + source.value))
  }

  /** A new entry with the original's name, time, comment, extra field and (JAR) attributes; `None` when copying throws. */
  function CopiedEntry(st: Setup, f: Family, e: Entry, storage: Option<StorageMethod>, data: Bytes): (r: Option<OutEntry>)
    ensures r.None? <==> f == Jar && e.attributes.Some? && st.freshAttributes.None?
    ensures r.Some? ==> r.value.name == e.name && r.value.data == data && r.value.storage == storage
  {
    var attributes := if f == Jar then CopyAttributes(e.attributes, st.freshAttributes) else Some(None);
    if attributes.None? then None
    else Some(OutEntry(e.name, e.time, e.comment, e.extra, attributes.value, storage, None, None, None, data))
  }

  /** A ZIP file entry of the asynchronous path: STORED stays STORED only at equal length, with CRC and sizes of the new bytes. */
  function ZipOut(crc: Bytes -> int, e: Entry, processed: Bytes): OutEntry
  {
    if e.storage == Stored && |processed| == |e.data| then
      OutEntry(e.name, e.time, e.comment, e.extra, None, Some(Stored), Some(crc(processed)), Some(|processed|), Some(|processed|), processed)
    else if e.storage == Stored then
      OutEntry(e.name, e.time, e.comment, e.extra, None, Some(Deflated), None, None, None, processed)
    else
      OutEntry(e.name, e.time, e.comment, e.extra, None, Some(e.storage), None, None, None, processed)
  }

  /** The entry the asynchronous path writes for `e`, given the processed files. */
  function ReassembledOut(st: Setup, f: Family, e: Entry, results: map<string, Bytes>): (r: Option<OutEntry>)
    ensures r.None? <==> f == Jar && e.attributes.Some? && st.freshAttributes.None?
    ensures r.Some? ==> r.value.name == e.name
  {
    if e.isDirectory then CopiedEntry(st, f, e, None, [])
    else
      var processed := if e.name in results then results[e.name] else e.data;
      if f == Zip then Some(ZipOut(st.codec.crc, e, processed))
      else
        // the new JarEntry's method is unset (-1), so the STORED branch never runs
        match CopiedEntry(st, f, e, None, processed)
        case None => None
        case Some(out) => Some(out.(size := Some(|processed|)))
  }

  /** The non-directory entries, in order. */
  function Files(entries: seq<Entry>): (r: seq<Entry>)
    ensures |r| <= |entries|
    ensures forall e :: e in r ==> e in entries && !e.isDirectory
  {
    if entries == [] then []
    else if entries[|entries| - 1].isDirectory then Files(entries[..|entries| - 1])
    else Files(entries[..|entries| - 1]) + [entries[|entries| - 1]]
  }

  /** The names the writer holds before the first entry: the manifest's, when a JAR writer was given one. */
  function Preset(f: Family, manifest: Option<Bytes>): set<string>
  {
    if f == Jar && manifest.Some? then {MANIFEST_NAME} else {}
  }

  /** The asynchronous reassembly loop: every entry in input order, each put once. */
  function Reassemble(st: Setup, f: Family, entries: seq<Entry>, results: map<string, Bytes>, start: Written): Run<Written>
  {
    if entries == [] then Ok(start)
    else
      match Reassemble(st, f, entries[..|entries| - 1], results, start)
      case Ok(w) =>
        (match ReassembledOut(st, f, entries[|entries| - 1], results)
         case None => Threw
         case Some(out) => if Put(w, out).None? then Threw else Ok(Put(w, out).value))
      case Threw => Threw
      case Exhausted => Exhausted
  }

  // ------------------------------------------------------------ the service, as functions

  /** What becomes of a file entry's bytes, given its name; `None` when nesting goes deeper than the model follows. */
  type ContentFn = (string, Bytes) -> Option<Bytes>

  /** One entry of the synchronous loop: a directory copied, a file processed and written DEFLATED. */
  function SyncEntry(st: Setup, f: Family, content: ContentFn, e: Entry, w: Written): Run<Written>
  {
    if e.isDirectory then
      match CopiedEntry(st, f, e, None, [])
      case None => Threw
      case Some(out) => if Put(w, out).None? then Threw else Ok(Put(w, out).value)
    else
      match content(e.name, e.data)
      case None => Exhausted
      case Some(processed) =>
        match CopiedEntry(st, f, e, Some(Deflated), processed)
        case None => Threw
        // a refused name is refused again for the minimal entry: the entry is skipped
        case Some(out) => if Put(w, out).None? then Ok(w) else Ok(Put(w, out).value)
  }

  /** The synchronous loop over the entries. */
  function SyncRun(st: Setup, f: Family, content: ContentFn, entries: seq<Entry>, start: Written): Run<Written>
  {
    if entries == [] then Ok(start)
    else
      match SyncRun(st, f, content, entries[..|entries| - 1], start)
      case Ok(w) => SyncEntry(st, f, content, entries[|entries| - 1], w)
      case Threw => Threw
      case Exhausted => Exhausted
  }

  /** The batched pass: each file's processed bytes stored under its name, a later file replacing an earlier one of the same name. */
  function ResultsFrom(content: ContentFn, acc: map<string, Bytes>, files: seq<Entry>): Option<map<string, Bytes>>
  {
    if files == [] then Some(acc)
    else
      match ResultsFrom(content, acc, files[..|files| - 1])
      case None => None
      case Some(results) =>
        var e := files[|files| - 1];
        match content(e.name, e.data)
        case None => None
        case Some(processed) => Some(results[e.name := processed])
  }

  /** The asynchronous path: nothing for no entries, else the batched pass and the reassembly. */
  function AsyncRun(st: Setup, f: Family, content: ContentFn, entries: seq<Entry>, start: Written): Run<Written>
  {
    if entries == [] then Ok(start)
    else
      match ResultsFrom(content, map[], Files(entries))
      case None => Exhausted
      case Some(results) => Reassemble(st, f, entries, results, start)
  }

  /** The entries of one archive, asynchronously or not as the flag says. */
  function EntriesRun(st: Setup, f: Family, content: ContentFn, entries: seq<Entry>, start: Written): Run<Written>
  {
    if st.asyncEnabled then AsyncRun(st, f, content, entries, start) else SyncRun(st, f, content, entries, start)
  }

  /**
   * `processEntryContent`: empty data as it is; otherwise the first that
   * applies of nested archive, `.class`, text, image, document, and else
   * the data unchanged; a failing collaborator leaves the data unchanged.
   */
  function EntryContent(st: Setup, name: string, data: Bytes, m: PlaceholderMap, fuel: nat): Option<Bytes>
    decreases fuel, 0
  {
    if |data| == 0 then Some(data)
    else if IsArchiveName(name) then
      if fuel == 0 then None else ArchiveOutcome(st, data, name, m, fuel - 1)
    else Some(LeafContent(st.services, name, data, m))
  }

  /** The branches of `processEntryContent` after the nested-archive one: a class, text, an image, a document, or the bytes kept. */
  function LeafContent(s: Services, name: string, data: Bytes, m: PlaceholderMap): Bytes
  {
    if EndsWith(name, ".class") then
      var processed := s.classRewrite(data, m);
      if |processed| == 0 then data else processed
    else if s.isTextFile(name, data) then
      match s.textTransform(data, m) case Some(t) => t case None => data
    else if ExtensionOf(name) in s.imageExtensions then s.processImage(data, name, m)
    else if DocumentProcessors.IsSupportedDocument(name) then s.processDocument(data, name, m)
    else data
  }

  /** `processEntryContent` for every entry of an archive processed with the map `m`. */
  function Content(st: Setup, m: PlaceholderMap, fuel: nat): ContentFn
    decreases fuel, 1
  {
    (name: string, data: Bytes) => EntryContent(st, name, data, m, fuel)
  }

  /** `processJarArchive` / `processZipArchive`. */
  function FamilyOutcome(st: Setup, f: Family, bytes: Bytes, m: PlaceholderMap, fuel: nat): Run<Bytes>
    decreases fuel, 2
  {
    match st.codec.read(f, bytes)
    case None => Threw
    case Some(c) =>
      match EntriesRun(st, f, Content(st, m, fuel), c.entries, Written(Preset(f, c.manifest), []))
      case Ok(w) => Ok(st.codec.write(f, if f == Jar then c.manifest else None, w.entries))
      case Threw => Threw
      case Exhausted => Exhausted
  }

  /** `processArchive` for a non-empty map: the family's result, or the input for another extension or an exception. */
  function ArchiveOutcome(st: Setup, bytes: Bytes, name: string, m: PlaceholderMap, fuel: nat): Option<Bytes>
    decreases fuel, 3
  {
    match FamilyOf(name)
    case None => Some(bytes)
    case Some(f) =>
      match FamilyOutcome(st, f, bytes, m, fuel)
      case Ok(out) => Some(out)
      case Threw => Some(bytes)
      case Exhausted => None
  }

  // ------------------------------------------------------------ a run split in two

  lemma {:induction false} SyncRunConcat(st: Setup, f: Family, content: ContentFn, xs: seq<Entry>, ys: seq<Entry>, start: Written)
    ensures SyncRun(st, f, content, xs + ys, start)
         == match SyncRun(st, f, content, xs, start)
            case Ok(w) => SyncRun(st, f, content, ys, w)
            case Threw => Threw
            case Exhausted => Exhausted
    decreases |ys|
  {
    if ys == [] {
      assert xs + ys == xs;
    } else {
      var n := |ys| - 1;
      assert (xs + ys)[..|xs + ys| - 1] == xs + ys[..n];
      assert (xs + ys)[|xs + ys| - 1] == ys[n];
      SyncRunConcat(st, f, content, xs, ys[..n], start);
    }
  }

  lemma {:induction false} ResultsConcat(content: ContentFn, acc: map<string, Bytes>, xs: seq<Entry>, ys: seq<Entry>)
    ensures ResultsFrom(content, acc, xs + ys)
         == match ResultsFrom(content, acc, xs)
            case Some(results) => ResultsFrom(content, results, ys)
            case None => None
    decreases |ys|
  {
    if ys == [] {
      assert xs + ys == xs;
    } else {
      var n := |ys| - 1;
      assert (xs + ys)[..|xs + ys| - 1] == xs + ys[..n];
      assert (xs + ys)[|xs + ys| - 1] == ys[n];
      ResultsConcat(content, acc, xs, ys[..n]);
    }
  }

  lemma {:induction false} ReassembleConcat(st: Setup, f: Family, xs: seq<Entry>, ys: seq<Entry>, results: map<string, Bytes>, start: Written)
    ensures Reassemble(st, f, xs + ys, results, start)
         == match Reassemble(st, f, xs, results, start)
            case Ok(w) => Reassemble(st, f, ys, results, w)
            case Threw => Threw
            case Exhausted => Exhausted
    decreases |ys|
  {
    if ys == [] {
      assert xs + ys == xs;
    } else {
      var n := |ys| - 1;
      assert (xs + ys)[..|xs + ys| - 1] == xs + ys[..n];
      assert (xs + ys)[|xs + ys| - 1] == ys[n];
      ReassembleConcat(st, f, xs, ys[..n], results, start);
    }
  }

  /** One entry more for the synchronous loop. */
  lemma SyncRunSnoc(st: Setup, f: Family, content: ContentFn, entries: seq<Entry>, i: nat, start: Written)
    requires i < |entries|
    ensures SyncRun(st, f, content, entries[..i + 1], start)
         == match SyncRun(st, f, content, entries[..i], start)
            case Ok(w) => SyncEntry(st, f, content, entries[i], w)
            case Threw => Threw
            case Exhausted => Exhausted
  {
    assert entries[..i + 1][..i] == entries[..i];
  }

  /** A synchronous loop that stopped at a prefix stops there for the whole. */
  lemma SyncRunStops(st: Setup, f: Family, content: ContentFn, entries: seq<Entry>, i: nat, start: Written)
    requires i <= |entries| && !SyncRun(st, f, content, entries[..i], start).Ok?
    ensures SyncRun(st, f, content, entries, start) == SyncRun(st, f, content, entries[..i], start)
  {
    SyncRunConcat(st, f, content, entries[..i], entries[i..], start);
    assert entries[..i] + entries[i..] == entries;
  }

  /** One file more for the batched pass. */
  lemma ResultsSnoc(content: ContentFn, acc: map<string, Bytes>, files: seq<Entry>, j: nat)
    requires j < |files|
    ensures ResultsFrom(content, acc, files[..j + 1])
         == match ResultsFrom(content, acc, files[..j])
            case None => None
            case Some(results) =>
              match content(files[j].name, files[j].data)
              case None => None
              case Some(processed) => Some(results[files[j].name := processed])
  {
    assert files[..j + 1][..j] == files[..j];
  }

  /** A batched pass that stopped at a prefix stops for the whole. */
  lemma ResultsStop(content: ContentFn, acc: map<string, Bytes>, files: seq<Entry>, j: nat)
    requires j <= |files| && ResultsFrom(content, acc, files[..j]).None?
    ensures ResultsFrom(content, acc, files).None?
  {
    ResultsConcat(content, acc, files[..j], files[j..]);
    assert files[..j] + files[j..] == files;
  }

  /** One entry more for the reassembly. */
  lemma ReassembleSnoc(st: Setup, f: Family, entries: seq<Entry>, i: nat, results: map<string, Bytes>, start: Written)
    requires i < |entries|
    ensures Reassemble(st, f, entries[..i + 1], results, start)
         == match Reassemble(st, f, entries[..i], results, start)
            case Ok(w) =>
              (match ReassembledOut(st, f, entries[i], results)
               case None => Threw
               case Some(out) => if Put(w, out).None? then Threw else Ok(Put(w, out).value))
            case Threw => Threw
            case Exhausted => Exhausted
  {
    assert entries[..i + 1][..i] == entries[..i];
  }

  /** A reassembly that threw at a prefix throws for the whole. */
  lemma ReassembleStops(st: Setup, f: Family, entries: seq<Entry>, i: nat, results: map<string, Bytes>, start: Written)
    requires i <= |entries| && Reassemble(st, f, entries[..i], results, start) == Threw
    ensures Reassemble(st, f, entries, results, start) == Threw
  {
    ReassembleConcat(st, f, entries[..i], entries[i..], results, start);
    assert entries[..i] + entries[i..] == entries;
  }

  // ------------------------------------------------------------ the service

  /**
   * `processArchive`: the input for a null or empty map or a name outside
   * both families; otherwise the family's result, or the input when it
   * throws.
   */
  method ProcessArchive(st: Setup, archiveBytes: Bytes, filename: Option<string>, m: Option<PlaceholderMap>, fuel: nat)
    returns (r: Option<Bytes>)
    ensures m.None? || m == Some([]) || filename.None? ==> r == Some(archiveBytes)
    ensures filename.Some? && !IsArchiveName(filename.value) ==> r == Some(archiveBytes)
    ensures m.Some? && m.value != [] && filename.Some? ==> r == ArchiveOutcome(st, archiveBytes, filename.value, m.value, fuel)
  {
    if m.None? || m.value == [] || filename.None? {
      return Some(archiveBytes);
    }
    r := ProcessNonEmpty(st, archiveBytes, filename.value, m.value, fuel);
  }

  method ProcessNonEmpty(st: Setup, bytes: Bytes, name: string, m: PlaceholderMap, fuel: nat) returns (r: Option<Bytes>)
    ensures r == ArchiveOutcome(st, bytes, name, m, fuel)
    decreases fuel, 3, 0
  {
    var family := FamilyOf(name);
    if family.None? {
      return Some(bytes);
    }
    var run := ProcessFamily(st, family.value, bytes, m, fuel);
    match run {
      case Ok(out) => r := Some(out);
      case Threw => r := Some(bytes);
      case Exhausted => r := None;
    }
  }

  /** `processJarArchive` / `processZipArchive`: read, run the entries, write. */
  method ProcessFamily(st: Setup, f: Family, bytes: Bytes, m: PlaceholderMap, fuel: nat) returns (r: Run<Bytes>)
    ensures r == FamilyOutcome(st, f, bytes, m, fuel)
    decreases fuel, 2, 0
  {
    var contents := st.codec.read(f, bytes);
    if contents.None? {
      return Threw;
    }
    var c := contents.value;
    var start := Written(Preset(f, c.manifest), []);
    var run: Run<Written>;
    if st.asyncEnabled {
      run := ProcessEntriesAsync(st, f, c.entries, m, fuel, start);
    } else {
      run := ProcessEntriesSync(st, f, c.entries, m, fuel, start);
    }
    match run {
      case Ok(w) => r := Ok(st.codec.write(f, if f == Jar then c.manifest else None, w.entries));
      case Threw => r := Threw;
      case Exhausted => r := Exhausted;
    }
  }

  /** `processJarEntriesSync` / `processZipEntriesSync`. */
  method ProcessEntriesSync(st: Setup, f: Family, entries: seq<Entry>, m: PlaceholderMap, fuel: nat, start: Written)
    returns (r: Run<Written>)
    ensures r == SyncRun(st, f, Content(st, m, fuel), entries, start)
    decreases fuel, 1, 1
  {
    var content := Content(st, m, fuel);
    var w := start;
    var i := 0;
    while i < |entries|
      invariant 0 <= i <= |entries|
      invariant SyncRun(st, f, content, entries[..i], start) == Ok(w)
    {
      SyncRunSnoc(st, f, content, entries, i, start);
      var next := ProcessEntry(st, f, entries[i], m, fuel, w);
      if !next.Ok? {
        SyncRunStops(st, f, content, entries, i + 1, start);
        return next;
      }
      w := next.value;
      i := i + 1;
    }
    assert entries[..i] == entries;
    r := Ok(w);
  }

  /** `processJarEntry` / `processZipEntry`. */
  method ProcessEntry(st: Setup, f: Family, e: Entry, m: PlaceholderMap, fuel: nat, w: Written) returns (r: Run<Written>)
    ensures r == SyncEntry(st, f, Content(st, m, fuel), e, w)
    decreases fuel, 1, 0
  {
    if e.isDirectory {
      var out := CopiedEntry(st, f, e, None, []);
      if out.None? {
        return Threw;
      }
      var put := Put(w, out.value);
      if put.None? {
        return Threw;
      }
      return Ok(put.value);
    }
    var processed := ProcessEntryContent(st, e.name, e.data, m, fuel);
    if processed.None? {
      return Exhausted;
    }
    var out := CopiedEntry(st, f, e, Some(Deflated), processed.value);
    if out.None? {
      return Threw;
    }
    var put := Put(w, out.value);
    if put.None? {
      // the minimal fallback entry has the same name and is refused as well
      return Ok(w);
    }
    r := Ok(put.value);
  }

  /** `processEntryContent`. */
  method ProcessEntryContent(st: Setup, name: string, data: Bytes, m: PlaceholderMap, fuel: nat) returns (r: Option<Bytes>)
    ensures r == EntryContent(st, name, data, m, fuel)
    decreases fuel, 0, 0
  {
    var s := st.services;
    if |data| == 0 {
      return Some(data);
    }
    if IsArchiveName(name) {
      if fuel == 0 {
        return None;
      }
      r := ProcessNonEmpty(st, data, name, m, fuel - 1);
      return;
    }
    if EndsWith(name, ".class") {
      var processed := s.classRewrite(data, m);
      if |processed| == 0 {
        return Some(data);
      }
      return Some(processed);
    }
    if s.isTextFile(name, data) {
      var t := s.textTransform(data, m);
      if t.None? {
        return Some(data);
      }
      return t;
    }
    if ExtensionOf(name) in s.imageExtensions {
      return Some(s.processImage(data, name, m));
    }
    if DocumentProcessors.IsSupportedDocument(name) {
      return Some(s.processDocument(data, name, m));
    }
    r := Some(data);
  }

  /** `processJarEntriesAsync` / `processZipEntriesAsync`. */
  method ProcessEntriesAsync(st: Setup, f: Family, entries: seq<Entry>, m: PlaceholderMap, fuel: nat, start: Written)
    returns (r: Run<Written>)
    ensures r == AsyncRun(st, f, Content(st, m, fuel), entries, start)
    decreases fuel, 1, 2
  {
    if entries == [] {
      return Ok(start);
    }
    var results := ProcessBatchedEntries(st, Files(entries), m, fuel);
    if results.None? {
      return Exhausted;
    }
    r := ReassembleEntries(st, f, entries, results.value, start);
  }

  /** `processBatchedEntries` / `processBatchedZipEntries`, the batches run one after another. */
  method ProcessBatchedEntries(st: Setup, files: seq<Entry>, m: PlaceholderMap, fuel: nat) returns (r: Option<map<string, Bytes>>)
    ensures r == ResultsFrom(Content(st, m, fuel), map[], files)
    decreases fuel, 1, 1
  {
    var content := Content(st, m, fuel);
    var batches := PartitionList(files, BatchSize(|files|, st.processors));
    var results: map<string, Bytes> := map[];
    var b := 0;
    while b < |batches|
      invariant 0 <= b <= |batches|
      invariant ResultsFrom(content, map[], Flatten(batches[..b])) == Some(results)
    {
      BatchStep(content, batches, b);
      var next := ProcessBatch(st, results, batches[b], m, fuel);
      if next.None? {
        FlattenParts(batches, b + 1);
        ResultsConcat(content, map[], Flatten(batches[..b + 1]), Flatten(batches[b + 1..]));
        return None;
      }
      results := next.value;
      b := b + 1;
    }
    assert batches[..b] == batches;
    r := Some(results);
  }

  /** The batches up to `b`, and then batch `b`, are the batches up to `b + 1`. */
  lemma BatchStep(content: ContentFn, batches: seq<seq<Entry>>, b: nat)
    requires b < |batches|
    ensures ResultsFrom(content, map[], Flatten(batches[..b + 1]))
         == match ResultsFrom(content, map[], Flatten(batches[..b]))
            case Some(results) => ResultsFrom(content, results, batches[b])
            case None => None
  {
    assert batches[..b + 1] == batches[..b] + [batches[b]];
    FlattenSnoc(batches[..b], batches[b]);
    ResultsConcat(content, map[], Flatten(batches[..b]), batches[b]);
  }

  /** One batch's task: each file's processed bytes put under its name. */
  method ProcessBatch(st: Setup, acc: map<string, Bytes>, batch: seq<Entry>, m: PlaceholderMap, fuel: nat)
    returns (r: Option<map<string, Bytes>>)
    ensures r == ResultsFrom(Content(st, m, fuel), acc, batch)
    decreases fuel, 1, 0
  {
    var content := Content(st, m, fuel);
    var results := acc;
    var j := 0;
    while j < |batch|
      invariant 0 <= j <= |batch|
      invariant ResultsFrom(content, acc, batch[..j]) == Some(results)
    {
      ResultsSnoc(content, acc, batch, j);
      var processed := ProcessEntryContent(st, batch[j].name, batch[j].data, m, fuel);
      assert content(batch[j].name, batch[j].data) == processed;
      if processed.None? {
        ResultsStop(content, acc, batch, j + 1);
        return None;
      }
      results := results[batch[j].name := processed.value];
      j := j + 1;
    }
    assert batch[..j] == batch;
    r := Some(results);
  }

  /** The writing loop of the asynchronous path. */
  method ReassembleEntries(st: Setup, f: Family, entries: seq<Entry>, results: map<string, Bytes>, start: Written)
    returns (r: Run<Written>)
    ensures r == Reassemble(st, f, entries, results, start)
  {
    var w := start;
    var i := 0;
    while i < |entries|
      invariant 0 <= i <= |entries|
      invariant Reassemble(st, f, entries[..i], results, start) == Ok(w)
    {
      ReassembleSnoc(st, f, entries, i, results, start);
      var out := ReassembledOut(st, f, entries[i], results);
      var put := if out.Some? then Put(w, out.value) else None;
      if put.None? {
        ReassembleStops(st, f, entries, i + 1, results, start);
        return Threw;
      }
      w := put.value;
      i := i + 1;
    }
    assert entries[..i] == entries;
    r := Ok(w);
  }

  // ------------------------------------------------------------ properties

  /** Every file's content is defined: nothing nested deeper than the model follows. */
  predicate Defined(content: ContentFn, entries: seq<Entry>)
  {
    forall e :: e in entries ==> content(e.name, e.data).Some?
  }

  /** An entry without an archive name is always processed: the fuel only bounds nesting. */
  lemma {:induction false} ContentWithoutNesting(st: Setup, m: PlaceholderMap, fuel: nat, entries: seq<Entry>)
    requires forall e :: e in entries ==> !IsArchiveName(e.name)
    ensures Defined(Content(st, m, fuel), entries)
  {
    forall e | e in entries ensures Content(st, m, fuel)(e.name, e.data).Some? {
      assert !IsArchiveName(e.name);
    }
  }

  /** Copying an entry's metadata cannot throw: a ZIP, or a JAR whose new entries have an attribute map. */
  predicate AttributesCopyable(st: Setup, f: Family)
  {
    f == Zip || st.freshAttributes.Some?
  }

  /** The new entry keeps what the original says about itself, and for a JAR with a map to copy into, its attributes. */
  predicate KeepsMetadata(st: Setup, f: Family, e: Entry, out: OutEntry)
  {
    && out.name == e.name && out.time == e.time && out.comment == e.comment && out.extra == e.extra
    && (f == Zip ==> out.attributes == None)
    && (f == Jar && st.freshAttributes == Some(map[]) && e.attributes.Some? ==> out.attributes == e.attributes)
  }

  /** What the synchronous path writes for `e`: a directory without data, a file DEFLATED with its processed content. */
  predicate SyncWrote(st: Setup, f: Family, content: ContentFn, e: Entry, out: OutEntry)
  {
    && KeepsMetadata(st, f, e, out)
    && (e.isDirectory ==> out.storage == None && out.data == [])
    && (!e.isDirectory ==> out.storage == Some(Deflated) && content(e.name, e.data) == Some(out.data))
  }

  /**
   * What the asynchronous path writes for `e`: a file's processed bytes or
   * its own, a JAR entry with no storage method set, and a ZIP file STORED
   * exactly when it was and its length did not change, then with the CRC
   * and sizes of the bytes written.
   */
  predicate AsyncWrote(st: Setup, f: Family, e: Entry, results: map<string, Bytes>, out: OutEntry)
  {
    && KeepsMetadata(st, f, e, out)
    && out.data == (if e.isDirectory then [] else if e.name in results then results[e.name] else e.data)
    && (f == Jar || e.isDirectory ==> out.storage == None)
    && (f == Zip && !e.isDirectory ==> (out.storage == Some(Stored) <==> e.storage == Stored && |out.data| == |e.data|))
    && (f == Zip && out.storage == Some(Stored) ==>
          out.crc == Some(st.codec.crc(out.data)) && out.size == Some(|out.data|) && out.compressedSize == Some(|out.data|))
  }

  /** The names of a prefix are distinct, as the whole's are. */
  lemma DistinctPrefix(entries: seq<Entry>, preset: set<string>, n: nat)
    requires n <= |entries| && DistinctNames(entries, preset)
    ensures DistinctNames(entries[..n], preset)
  {
    assert forall k :: 0 <= k < n ==> entries[..n][k] == entries[k];
  }

  /** Distinct names, read off a well-formed writer holding one entry per name. */
  lemma DistinctFromWritten(entries: seq<Entry>, preset: set<string>, w: Written)
    requires WrittenWellFormed(w, preset) && |w.entries| == |entries|
    requires forall k :: 0 <= k < |entries| ==> w.entries[k].name == entries[k].name
    ensures DistinctNames(entries, preset)
  {
    forall j, k | 0 <= j < k < |entries| ensures entries[j].name != entries[k].name {
      assert w.entries[j].name != w.entries[k].name;
    }
  }

  /** The last of distinct names is new to a writer holding the names before it. */
  lemma NewNameAfter(entries: seq<Entry>, preset: set<string>, w0: Written)
    requires entries != [] && DistinctNames(entries, preset)
    requires SameNames(w0.entries, entries[..|entries| - 1])
    ensures entries[|entries| - 1].name !in preset
    ensures forall k :: 0 <= k < |w0.entries| ==> w0.entries[k].name != entries[|entries| - 1].name
  {
    forall k | 0 <= k < |w0.entries| ensures w0.entries[k].name != entries[|entries| - 1].name {
      assert entries[..|entries| - 1][k] == entries[k];
    }
  }

  /** The last of distinct names differs from every name written for the ones before it. */
  lemma LastNameIsNew(entries: seq<Entry>, preset: set<string>, w0: Written)
    requires entries != [] && DistinctNames(entries, preset)
    requires |w0.entries| == |entries| - 1
    requires forall k :: 0 <= k < |w0.entries| ==> w0.entries[k].name == entries[k].name
    ensures entries[|entries| - 1].name !in preset
    ensures forall k :: 0 <= k < |w0.entries| ==> w0.entries[k].name != entries[|entries| - 1].name
  {
  }

  /** What was written for a prefix, and for the last entry, is what was written for all. */
  lemma SyncWroteExtends(st: Setup, f: Family, content: ContentFn, entries: seq<Entry>, outs0: seq<OutEntry>, outs: seq<OutEntry>)
    requires entries != [] && |outs0| == |entries| - 1 && |outs| == |entries| && outs[..|outs0|] == outs0
    requires forall k :: 0 <= k < |outs0| ==> SyncWrote(st, f, content, entries[..|outs0|][k], outs0[k])
    requires SyncWrote(st, f, content, entries[|outs0|], outs[|outs0|])
    ensures forall k :: 0 <= k < |entries| ==> SyncWrote(st, f, content, entries[k], outs[k])
  {
    forall k | 0 <= k < |outs0| ensures SyncWrote(st, f, content, entries[k], outs[k]) {
      assert entries[..|outs0|][k] == entries[k] && outs0[k] == outs[k];
    }
  }

  /** What was written for a prefix, and for the last entry, is what was written for all. */
  lemma AsyncWroteExtends(st: Setup, f: Family, entries: seq<Entry>, results: map<string, Bytes>, outs0: seq<OutEntry>, outs: seq<OutEntry>)
    requires entries != [] && |outs0| == |entries| - 1 && |outs| == |entries| && outs[..|outs0|] == outs0
    requires forall k :: 0 <= k < |outs0| ==> AsyncWrote(st, f, entries[..|outs0|][k], results, outs0[k])
    requires AsyncWrote(st, f, entries[|outs0|], results, outs[|outs0|])
    ensures forall k :: 0 <= k < |entries| ==> AsyncWrote(st, f, entries[k], results, outs[k])
  {
    forall k | 0 <= k < |outs0| ensures AsyncWrote(st, f, entries[k], results, outs[k]) {
      assert entries[..|outs0|][k] == entries[k] && outs0[k] == outs[k];
    }
  }

  /** The entries written carry the entries' names, one for one. */
  predicate SameNames(outs: seq<OutEntry>, entries: seq<Entry>)
  {
    |outs| == |entries| && forall k :: 0 <= k < |entries| ==> outs[k].name == entries[k].name
  }

  lemma SameNamesExtend(outs0: seq<OutEntry>, out: OutEntry, entries: seq<Entry>)
    requires entries != [] && SameNames(outs0, entries[..|entries| - 1]) && out.name == entries[|entries| - 1].name
    ensures SameNames(outs0 + [out], entries)
  {
    forall k | 0 <= k < |entries| - 1 ensures (outs0 + [out])[k].name == entries[k].name {
      assert entries[..|entries| - 1][k] == entries[k];
    }
  }

  /** One step of the synchronous loop, for a name not yet written. */
  lemma SyncEntryStep(st: Setup, f: Family, content: ContentFn, e: Entry, preset: set<string>, w0: Written, w: Written)
    requires SyncEntry(st, f, content, e, w0) == Ok(w)
    requires WrittenWellFormed(w0, preset)
    requires e.name !in preset && forall k :: 0 <= k < |w0.entries| ==> w0.entries[k].name != e.name
    ensures WrittenWellFormed(w, preset) && |w.entries| == |w0.entries| + 1 && w.entries[..|w0.entries|] == w0.entries
    ensures SyncWrote(st, f, content, e, w.entries[|w0.entries|])
  {
    var storage := if e.isDirectory then None else Some(Deflated);
    var data := if e.isDirectory then [] else content(e.name, e.data).value;
    var out := CopiedEntry(st, f, e, storage, data).value;
    PutKeepsWellFormed(w0, preset, out);
    assert w.entries == w0.entries + [out];
    if e.attributes.Some? {
      assert map[] + e.attributes.value == e.attributes.value;
    }
  }

  /** A successful synchronous run over distinct names writes every entry once, in order. */
  lemma {:induction false} SyncWritesEachEntry(st: Setup, f: Family, content: ContentFn, entries: seq<Entry>, preset: set<string>, w: Written)
    requires SyncRun(st, f, content, entries, Written(preset, [])) == Ok(w)
    requires DistinctNames(entries, preset)
    ensures WrittenWellFormed(w, preset) && |w.entries| == |entries|
    ensures forall k :: 0 <= k < |entries| ==> SyncWrote(st, f, content, entries[k], w.entries[k])
    decreases |entries|
  {
    if entries != [] {
      var n := |entries| - 1;
      var prefix := entries[..n];
      DistinctPrefix(entries, preset, n);
      assert SyncRun(st, f, content, prefix, Written(preset, [])).Ok?;
      var w0 := SyncRun(st, f, content, prefix, Written(preset, [])).value;
      SyncWritesEachEntry(st, f, content, prefix, preset, w0);
      LastNameIsNew(entries, preset, w0);
      SyncEntryStep(st, f, content, entries[n], preset, w0, w);
      SyncWroteExtends(st, f, content, entries, w0.entries, w.entries);
    }
  }

  /** With attributes that can be copied, every file's content defined and distinct names, the synchronous run writes the archive, one entry per name. */
  lemma {:induction false} SyncRunSucceeds(st: Setup, f: Family, content: ContentFn, entries: seq<Entry>, preset: set<string>)
    requires AttributesCopyable(st, f) && Defined(content, entries) && DistinctNames(entries, preset)
    ensures SyncRun(st, f, content, entries, Written(preset, [])).Ok?
    ensures var w := SyncRun(st, f, content, entries, Written(preset, [])).value;
      WrittenWellFormed(w, preset) && SameNames(w.entries, entries)
    decreases |entries|
  {
    if entries != [] {
      var n := |entries| - 1;
      DistinctPrefix(entries, preset, n);
      assert Defined(content, entries[..n]) by {
        assert forall e :: e in entries[..n] ==> e in entries;
      }
      SyncRunSucceeds(st, f, content, entries[..n], preset);
      var w0 := SyncRun(st, f, content, entries[..n], Written(preset, [])).value;
      NewNameAfter(entries, preset, w0);
      var e := entries[n];
      assert e in entries;
      var storage := if e.isDirectory then None else Some(Deflated);
      var data := if e.isDirectory then [] else content(e.name, e.data).value;
      var out := CopiedEntry(st, f, e, storage, data).value;
      PutKeepsWellFormed(w0, preset, out);
      SameNamesExtend(w0.entries, out, entries);
    }
  }

  /** With every file's content defined, the batched pass finishes. */
  lemma {:induction false} ResultsDefined(content: ContentFn, acc: map<string, Bytes>, files: seq<Entry>)
    requires Defined(content, files)
    ensures ResultsFrom(content, acc, files).Some?
    decreases |files|
  {
    if files != [] {
      var n := |files| - 1;
      assert files[n] in files;
      ResultsDefined(content, acc, files[..n]);
    }
  }

  /** No entry after the `k`th has its name. */
  predicate LastOfName(entries: seq<Entry>, k: int)
    requires 0 <= k < |entries|
  {
    forall j :: k < j < |entries| ==> entries[j].name != entries[k].name
  }

  /** `results` holds, under each file's name, that file's content, unless a later entry has the same name. */
  predicate HoldsContents(content: ContentFn, entries: seq<Entry>, results: map<string, Bytes>)
  {
    forall k :: 0 <= k < |entries| && !entries[k].isDirectory && LastOfName(entries, k)
      ==> entries[k].name in results && content(entries[k].name, entries[k].data) == Some(results[entries[k].name])
  }

  /** Adding the last entry's content to what the earlier ones hold. */
  lemma HoldsContentsExtend(content: ContentFn, entries: seq<Entry>, r0: map<string, Bytes>, results: map<string, Bytes>)
    requires entries != [] && HoldsContents(content, entries[..|entries| - 1], r0)
    requires var e := entries[|entries| - 1];
      if e.isDirectory then results == r0
      else content(e.name, e.data).Some? && results == r0[e.name := content(e.name, e.data).value]
    ensures HoldsContents(content, entries, results)
  {
    var n := |entries| - 1;
    forall k | 0 <= k < |entries| && !entries[k].isDirectory && LastOfName(entries, k)
      ensures entries[k].name in results && content(entries[k].name, entries[k].data) == Some(results[entries[k].name])
    {
      if k < n {
        assert entries[..n][k] == entries[k];
        assert LastOfName(entries[..n], k) by {
          assert forall j :: k < j < n ==> entries[..n][j] == entries[j];
        }
      }
    }
  }

  /**
   * The batched pass over an archive's files holds, under each file's name,
   * that file's processed content, unless a later file has the same name.
   */
  lemma {:induction false} ResultsOfFiles(content: ContentFn, acc: map<string, Bytes>, entries: seq<Entry>, results: map<string, Bytes>)
    requires ResultsFrom(content, acc, Files(entries)) == Some(results)
    ensures HoldsContents(content, entries, results)
    decreases |entries|
  {
    if entries != [] {
      var n := |entries| - 1;
      var prefix := entries[..n];
      if entries[n].isDirectory {
        ResultsOfFiles(content, acc, prefix, results);
        HoldsContentsExtend(content, entries, results, results);
      } else {
        var fs := Files(entries);
        assert fs[..|fs| - 1] == Files(prefix);
        var r0 := ResultsFrom(content, acc, Files(prefix)).value;
        ResultsOfFiles(content, acc, prefix, r0);
        HoldsContentsExtend(content, entries, r0, results);
      }
    }
  }

  /** One step of the reassembly: the entry written is the one described. */
  lemma ReassembleStep(st: Setup, f: Family, e: Entry, results: map<string, Bytes>, preset: set<string>, w0: Written, w: Written)
    requires ReassembledOut(st, f, e, results).Some?
    requires WrittenWellFormed(w0, preset)
    requires Put(w0, ReassembledOut(st, f, e, results).value) == Some(w)
    ensures WrittenWellFormed(w, preset) && |w.entries| == |w0.entries| + 1 && w.entries[..|w0.entries|] == w0.entries
    ensures e.name !in preset && forall k :: 0 <= k < |w0.entries| ==> w0.entries[k].name != e.name
    ensures AsyncWrote(st, f, e, results, w.entries[|w0.entries|])
  {
    var out := ReassembledOut(st, f, e, results).value;
    PutKeepsWellFormed(w0, preset, out);
    assert w.entries == w0.entries + [out];
    if e.attributes.Some? {
      assert map[] + e.attributes.value == e.attributes.value;
    }
  }

  /** A successful reassembly writes every entry once, in order; a duplicate name would have thrown. */
  lemma {:induction false} ReassembleKeepsOrder(st: Setup, f: Family, entries: seq<Entry>, results: map<string, Bytes>, preset: set<string>, w: Written)
    requires Reassemble(st, f, entries, results, Written(preset, [])) == Ok(w)
    ensures WrittenWellFormed(w, preset) && |w.entries| == |entries|
    ensures forall k :: 0 <= k < |entries| ==> AsyncWrote(st, f, entries[k], results, w.entries[k])
    ensures DistinctNames(entries, preset)
    decreases |entries|
  {
    if entries != [] {
      var n := |entries| - 1;
      var prefix := entries[..n];
      assert Reassemble(st, f, prefix, results, Written(preset, [])).Ok?;
      var w0 := Reassemble(st, f, prefix, results, Written(preset, [])).value;
      ReassembleKeepsOrder(st, f, prefix, results, preset, w0);
      ReassembleStep(st, f, entries[n], results, preset, w0, w);
      AsyncWroteExtends(st, f, entries, results, w0.entries, w.entries);
    }
    DistinctFromWritten(entries, preset, w);
  }

  /** With attributes that can be copied and distinct names, the reassembly writes the archive, one entry per name. */
  lemma {:induction false} ReassembleSucceeds(st: Setup, f: Family, entries: seq<Entry>, results: map<string, Bytes>, preset: set<string>)
    requires AttributesCopyable(st, f) && DistinctNames(entries, preset)
    ensures Reassemble(st, f, entries, results, Written(preset, [])).Ok?
    ensures var w := Reassemble(st, f, entries, results, Written(preset, [])).value;
      WrittenWellFormed(w, preset) && SameNames(w.entries, entries)
    decreases |entries|
  {
    if entries != [] {
      var n := |entries| - 1;
      DistinctPrefix(entries, preset, n);
      ReassembleSucceeds(st, f, entries[..n], results, preset);
      var w0 := Reassemble(st, f, entries[..n], results, Written(preset, [])).value;
      NewNameAfter(entries, preset, w0);
      var out := ReassembledOut(st, f, entries[n], results).value;
      PutKeepsWellFormed(w0, preset, out);
      SameNamesExtend(w0.entries, out, entries);
    }
  }

  /**
   * A successful asynchronous run had distinct names and wrote each entry in
   * order, every file with its processed content.
   */
  lemma AsyncWritesEachEntry(st: Setup, f: Family, content: ContentFn, entries: seq<Entry>, preset: set<string>, w: Written)
    requires AsyncRun(st, f, content, entries, Written(preset, [])) == Ok(w)
    ensures DistinctNames(entries, preset) && |w.entries| == |entries|
    ensures forall k :: 0 <= k < |entries| ==> KeepsMetadata(st, f, entries[k], w.entries[k])
    ensures forall k :: 0 <= k < |entries| && !entries[k].isDirectory ==> content(entries[k].name, entries[k].data) == Some(w.entries[k].data)
  {
    if entries != [] {
      var results := ResultsFrom(content, map[], Files(entries)).value;
      ReassembleKeepsOrder(st, f, entries, results, preset, w);
      ResultsOfFiles(content, map[], entries, results);
    }
  }

  /**
   * An archive holding itself under its own name, as its only entry, is
   * never finished at any depth: the source recurses until the stack is
   * exhausted.
   */
  lemma {:induction false} SelfContainingArchiveHasNoBound(st: Setup, bytes: Bytes, name: string, f: Family, manifest: Option<Bytes>, e: Entry, m: PlaceholderMap, fuel: nat)
    requires FamilyOf(name) == Some(f)
    requires st.codec.read(f, bytes) == Some(Contents(manifest, [e]))
    requires e.name == name && !e.isDirectory && e.data == bytes && |bytes| > 0
    ensures ArchiveOutcome(st, bytes, name, m, fuel) == None
    decreases fuel
  {
    if fuel > 0 {
      SelfContainingArchiveHasNoBound(st, bytes, name, f, manifest, e, m, fuel - 1);
    }
    assert IsArchiveName(name);
    assert EntryContent(st, name, bytes, m, fuel) == None;
    var content := Content(st, m, fuel);
    assert content(name, bytes) == None;
    assert content(e.name, e.data) == None;
    assert [e][..0] == [];
    var start := Written(Preset(f, manifest), []);
    if st.asyncEnabled {
      assert Files([e]) == [e];
      assert ResultsFrom(content, map[], [e]) == None;
    } else {
      assert SyncRun(st, f, content, [e], start) == SyncEntry(st, f, content, e, start);
    }
    assert EntriesRun(st, f, content, [e], start) == Exhausted;
  }

  /**
   * As written: a JAR whose first entry carries manifest attributes (as in a
   * signed JAR) makes `putAll` run on the null attributes of the new entry,
   * and the archive comes back unchanged, its placeholders all left in.
   */
  lemma AttributedJarUnchanged(st: Setup, bytes: Bytes, name: string, m: PlaceholderMap, fuel: nat, c: Contents)
    requires st.freshAttributes == JDK_FRESH_ATTRIBUTES
    requires FamilyOf(name) == Some(Jar)
    requires st.codec.read(Jar, bytes) == Some(c)
    requires |c.entries| > 0 && c.entries[0].attributes.Some?
    requires forall e :: e in c.entries ==> !IsArchiveName(e.name)
    ensures ArchiveOutcome(st, bytes, name, m, fuel) == Some(bytes)
  {
    var es := c.entries;
    var content := Content(st, m, fuel);
    var start := Written(Preset(Jar, c.manifest), []);
    ContentWithoutNesting(st, m, fuel, es);
    assert es[..1] + es[1..] == es;
    assert [es[0]][..0] == [];
    assert es[0] in es;
    if st.asyncEnabled {
      assert Defined(content, Files(es));
      ResultsDefined(content, map[], Files(es));
      var results := ResultsFrom(content, map[], Files(es)).value;
      ReassembleConcat(st, Jar, es[..1], es[1..], results, start);
    } else {
      SyncRunConcat(st, Jar, content, es[..1], es[1..], start);
    }
    assert EntriesRun(st, Jar, content, es, start) == Threw;
  }

  /**
   * Corrected: when a new JAR entry has an attribute map to copy into, a JAR
   * without nesting and with distinct names is written, and every entry keeps
   * its attributes.
   */
  lemma CorrectedJarKeepsAttributes(st: Setup, bytes: Bytes, m: PlaceholderMap, fuel: nat, c: Contents)
    requires st.freshAttributes == Some(map[])
    requires st.codec.read(Jar, bytes) == Some(c)
    requires forall e :: e in c.entries ==> !IsArchiveName(e.name)
    requires DistinctNames(c.entries, Preset(Jar, c.manifest))
    ensures EntriesRun(st, Jar, Content(st, m, fuel), c.entries, Written(Preset(Jar, c.manifest), [])).Ok?
    ensures var w := EntriesRun(st, Jar, Content(st, m, fuel), c.entries, Written(Preset(Jar, c.manifest), [])).value;
      && FamilyOutcome(st, Jar, bytes, m, fuel) == Ok(st.codec.write(Jar, c.manifest, w.entries))
      && |w.entries| == |c.entries|
      && forall k :: 0 <= k < |c.entries| && c.entries[k].attributes.Some? ==> w.entries[k].attributes == c.entries[k].attributes
  {
    var preset := Preset(Jar, c.manifest);
    var content := Content(st, m, fuel);
    ContentWithoutNesting(st, m, fuel, c.entries);
    if st.asyncEnabled {
      if c.entries != [] {
        assert Defined(content, Files(c.entries));
        ResultsDefined(content, map[], Files(c.entries));
        var results := ResultsFrom(content, map[], Files(c.entries)).value;
        ReassembleSucceeds(st, Jar, c.entries, results, preset);
        ReassembleKeepsOrder(st, Jar, c.entries, results, preset, Reassemble(st, Jar, c.entries, results, Written(preset, [])).value);
      }
    } else {
      SyncRunSucceeds(st, Jar, content, c.entries, preset);
      SyncWritesEachEntry(st, Jar, content, c.entries, preset, SyncRun(st, Jar, content, c.entries, Written(preset, [])).value);
    }
  }
}

=== FILE: archives.dfy ===
/**
 * Archives as the two archive services see them: a sequence of entry
 * records read from a ZIP or JAR stream, the entries handed back to the
 * writer, the writer's refusal of a duplicate name, and the partition of a
 * list into batches.
 */
module Archives {
  import opened JavaLang

  datatype StorageMethod = Stored | Deflated

  /** A JAR entry's manifest attributes. */
  type Attributes = map<string, string>

  /** An entry as the ZIP or JAR reader yields it, with its data. */
  datatype Entry = Entry(
    name: string,
    isDirectory: bool,
    storage: StorageMethod,
    time: int,
    comment: Option<string>,
    extra: Option<Bytes>,
    attributes: Option<Attributes>,
    data: Bytes)

  /**
   * An entry as handed to the writer. A setting left `None` was never set:
   * the writer then uses DEFLATED and computes size and CRC itself.
   */
  datatype OutEntry = OutEntry(
    name: string,
    time: int,
    comment: Option<string>,
    extra: Option<Bytes>,
    attributes: Option<Attributes>,
    storage: Option<StorageMethod>,
    crc: Option<int>,
    size: Option<int>,
    compressedSize: Option<int>,
    data: Bytes)

  /** How a run over an archive ends: a value, an exception, or nesting deeper than the model follows. */
  datatype Run<T> = Ok(value: T) | Threw | Exhausted

  /** The name under which a JAR writer stores the manifest. */
  const MANIFEST_NAME: string := "META-INF/MANIFEST.MF"

  /** The writer's state: the names put so far and the entries written. */
  datatype Written = Written(names: set<string>, entries: seq<OutEntry>)

  /** The names of the entries written. */
  function NameSet(es: seq<OutEntry>): (r: set<string>)
    ensures forall x :: x in r <==> exists k :: 0 <= k < |es| && es[k].name == x
  {
    if es == [] then {}
    else
      var r := NameSet(es[..|es| - 1]) + {es[|es| - 1].name};
      assert forall k :: 0 <= k < |es| - 1 ==> es[..|es| - 1][k] == es[k];
      r
  }

  /** Every name put is either one of the preset names or an entry's, and entries have distinct names. */
  predicate WrittenWellFormed(w: Written, preset: set<string>)
  {
    && (forall k :: 0 <= k < |w.entries| ==> w.entries[k].name !in preset)
    && (forall j, k :: 0 <= j < k < |w.entries| ==> w.entries[j].name != w.entries[k].name)
    && w.names == preset + NameSet(w.entries)
  }

  /** Entry names are pairwise distinct and none is a name the writer already holds. */
  predicate DistinctNames(entries: seq<Entry>, preset: set<string>)
  {
    && (forall k :: 0 <= k < |entries| ==> entries[k].name !in preset)
    && (forall j, k :: 0 <= j < k < |entries| ==> entries[j].name != entries[k].name)
  }

  /** `putNextEntry`: a ZipException ("duplicate entry") when the name was put before. */
  function Put(w: Written, e: OutEntry): Option<Written>
  {
    if e.name in w.names then None else Some(Written(w.names + {e.name}, w.entries + [e]))
  }

  /** The writer never holds two entries of one name, nor one under a preset name. */
  lemma PutKeepsWellFormed(w: Written, preset: set<string>, e: OutEntry)
    requires WrittenWellFormed(w, preset)
    ensures Put(w, e).Some? <==> e.name !in preset && forall k :: 0 <= k < |w.entries| ==> w.entries[k].name != e.name
    ensures Put(w, e).Some? ==> WrittenWellFormed(Put(w, e).value, preset) && Put(w, e).value.entries == w.entries + [e]
  {
    if e.name !in w.names {
      var w' := Put(w, e).value;
      assert NameSet(w'.entries) == NameSet(w.entries) + {e.name} by {
        assert w'.entries[..|w.entries|] == w.entries;
      }
    }
  }

  // ------------------------------------------------------------ batches

  function Flatten<T>(ss: seq<seq<T>>): seq<T>
  {
    if ss == [] then [] else Flatten(ss[..|ss| - 1]) + ss[|ss| - 1]
  }

  lemma FlattenSnoc<T>(ss: seq<seq<T>>, s: seq<T>)
    ensures Flatten(ss + [s]) == Flatten(ss) + s
  {
    assert (ss + [s])[..|ss|] == ss;
  }

  /** The batches up to `b`, then the rest: together, all of them. */
  lemma {:induction false} FlattenParts<T>(ss: seq<seq<T>>, b: nat)
    requires b <= |ss|
    ensures Flatten(ss) == Flatten(ss[..b]) + Flatten(ss[b..])
    decreases |ss|
  {
    if b == |ss| {
      assert ss[..b] == ss;
      assert ss[b..] == [];
    } else {
      var n := |ss| - 1;
      FlattenParts(ss[..n], b);
      assert ss[..n][..b] == ss[..b];
      assert ss[b..][..|ss[b..]| - 1] == ss[..n][b..];
      assert ss[b..][|ss[b..]| - 1] == ss[n];
    }
  }

  /** `batchSize = max(10, n / max(2, processors / 4))`. */
  function BatchSize(n: nat, processors: int): (r: int)
    ensures r >= 10
  {
    Max(10, JDiv(n, Max(2, JDiv(processors, 4))))
  }

  /**
   * `partitionList`: consecutive slices of `batchSize` elements, the last
   * one possibly shorter, which together are the list.
   */
  method PartitionList<T>(list: seq<T>, batchSize: int) returns (partitions: seq<seq<T>>)
    requires batchSize > 0
    ensures Flatten(partitions) == list
    ensures forall k :: 0 <= k < |partitions| ==> 0 < |partitions[k]| <= batchSize
    ensures forall k :: 0 <= k < |partitions| - 1 ==> |partitions[k]| == batchSize
    ensures list == [] <==> partitions == []
  {
    partitions := [];
    var i := 0;
    while i < |list|
      invariant 0 <= i <= |list|
      invariant Flatten(partitions) == list[..i]
      invariant forall k :: 0 <= k < |partitions| ==> 0 < |partitions[k]| <= batchSize
      invariant forall k :: 0 <= k < |partitions| - 1 ==> |partitions[k]| == batchSize
      invariant |partitions| > 0 && i < |list| ==> |partitions[|partitions| - 1]| == batchSize
      invariant i == 0 <==> partitions == []
      decreases |list| - i
    {
      var end := Min(i + batchSize, |list|);
      FlattenSnoc(partitions, list[i..end]);
      assert list[..i] + list[i..end] == list[..end];
      partitions := partitions + [list[i..end]];
      i := end;
    }
    assert list[..i] == list;
  }
}

=== FILE: cache_keys.dfy ===
/**
 * The string keys of the memo caches: `String.valueOf` of integers joined
 * with ':'. Decimal numerals never contain ':', so each key determines the
 * values it was built from; a collision can come only from the hash values
 * themselves.
 */
module CacheKeys {
  import opened JavaLang
  import opened JavaText

  function Digit(d: nat): (c: char)
    requires d < 10
    ensures '0' <= c <= '9'
  {
    ('0' as int + d) as char
  }

  /** The decimal numeral of a natural number, without leading zeros. */
  function NatToString(n: nat): (r: string)
    ensures r != []
    ensures forall k :: 0 <= k < |r| ==> '0' <= r[k] <= '9'
    ensures n < 10 <==> |r| == 1
  {
    if n < 10 then [Digit(n)] else NatToString(n / 10) + [Digit(n % 10)]
  }

  /** `String.valueOf(int)`: a '-' in front of a negative number's digits. */
  function IntToString(i: int): (r: string)
    ensures r != []
    ensures forall k :: 0 <= k < |r| ==> r[k] == '-' || '0' <= r[k] <= '9'
    ensures r[0] == '-' <==> i < 0
  {
    if i < 0 then "-" + NatToString(-i) else NatToString(i)
  }

  /** Different numbers have different numerals. */
  lemma {:induction false} NatToStringInjective(a: nat, b: nat)
    requires NatToString(a) == NatToString(b)
    ensures a == b
  {
    if a >= 10 && b >= 10 {
      var sa, sb := NatToString(a), NatToString(b);
      assert sa[..|sa| - 1] == NatToString(a / 10);
      assert sb[..|sb| - 1] == NatToString(b / 10);
      NatToStringInjective(a / 10, b / 10);
      assert Digit(a % 10) == sa[|sa| - 1] == sb[|sb| - 1] == Digit(b % 10);
    }
  }

  lemma IntToStringInjective(a: int, b: int)
    requires IntToString(a) == IntToString(b)
    ensures a == b
  {
    if a < 0 {
      assert IntToString(a)[1..] == NatToString(-a);
      assert IntToString(b)[1..] == NatToString(-b);
      NatToStringInjective(-a, -b);
    } else {
      NatToStringInjective(a, b);
    }
  }

  predicate NoColon(s: string)
  {
    forall k :: 0 <= k < |s| ==> s[k] != ':'
  }

  /** The ':' in front of a colon-free right half is the last one. */
  lemma LastColonJoins(a: string, s: string)
    requires NoColon(s)
    ensures LastIndexOf(a + ":" + s, ':') == |a|
  {
    var x := a + ":" + s;
    assert x[|a|] == ':';
    assert forall j :: |a| < j < |x| ==> x[j] == s[j - |a| - 1];
  }

  /** Two joins agree only if both halves do, when the right halves contain no ':'. */
  lemma SplitAtLastColon(a: string, s: string, b: string, t: string)
    requires NoColon(s) && NoColon(t)
    requires a + ":" + s == b + ":" + t
    ensures a == b && s == t
  {
    var x := a + ":" + s;
    LastColonJoins(a, s);
    LastColonJoins(b, t);
    assert |a| == |b|;
    assert a == x[..|a|] && b == x[..|b|];
    assert s == x[|a| + 1..] && t == x[|b| + 1..];
  }

  lemma NumeralHasNoColon(i: int)
    ensures NoColon(IntToString(i))
  {
  }

  /** `filename + ":" + bytes.length`, the text-detection key. */
  function NameLengthKey(name: string, len: nat): string
  {
    name + ":" + IntToString(len)
  }

  /** `filename + ":" + bytes.length + ":" + placeholders.hashCode()`. */
  function NameLengthHashKey(name: string, len: nat, mapHash: int): string
  {
    NameLengthKey(name, len) + ":" + IntToString(mapHash)
  }

  /** `classHash + ":" + replacementHash`. */
  function HashPairKey(bytesHash: int, mapHash: int): string
  {
    IntToString(bytesHash) + ":" + IntToString(mapHash)
  }

  lemma NameLengthKeyInjective(n1: string, l1: nat, n2: string, l2: nat)
    requires NameLengthKey(n1, l1) == NameLengthKey(n2, l2)
    ensures n1 == n2 && l1 == l2
  {
    NumeralHasNoColon(l1);
    NumeralHasNoColon(l2);
    SplitAtLastColon(n1, IntToString(l1), n2, IntToString(l2));
    IntToStringInjective(l1, l2);
  }

  lemma NameLengthHashKeyInjective(n1: string, l1: nat, h1: int, n2: string, l2: nat, h2: int)
    requires NameLengthHashKey(n1, l1, h1) == NameLengthHashKey(n2, l2, h2)
    ensures n1 == n2 && l1 == l2 && h1 == h2
  {
    NumeralHasNoColon(h1);
    NumeralHasNoColon(h2);
    SplitAtLastColon(NameLengthKey(n1, l1), IntToString(h1), NameLengthKey(n2, l2), IntToString(h2));
    IntToStringInjective(h1, h2);
    NameLengthKeyInjective(n1, l1, n2, l2);
  }

  lemma HashPairKeyInjective(a1: int, b1: int, a2: int, b2: int)
    requires HashPairKey(a1, b1) == HashPairKey(a2, b2)
    ensures a1 == a2 && b1 == b2
  {
    NumeralHasNoColon(b1);
    NumeralHasNoColon(b2);
    SplitAtLastColon(IntToString(a1), IntToString(b1), IntToString(a2), IntToString(b2));
    IntToStringInjective(a1, a2);
    IntToStringInjective(b1, b2);
  }
}

=== FILE: chunking.dfy ===
/**
 * The chunk geometry shared by the two chunk-parallel rewriters. A text of
 * `len` characters is cut into chunks of `eff` characters whose starts are
 * `eff - overlap` apart, so adjacent chunks share up to `overlap`
 * characters; each chunk is substituted on its own, every chunk but the last
 * loses its final `overlap` characters, and the outputs are concatenated in
 * chunk order.
 */
module Chunking {
  import opened JavaLang
  import opened JavaText
  import opened Placeholders

  datatype Geometry = Geometry(len: nat, eff: nat, overlap: nat)
  {
    /** The step between chunk starts is positive. */
    predicate Valid()
    {
      overlap < eff
    }

    function Step(): (s: nat)
      requires Valid()
      ensures s > 0
    {
      eff - overlap
    }

    /** `(len + step - 1) / step`: the number of chunks, `len / step` rounded up. */
    function Count(): nat
      requires Valid()
    {
      (len + Step() - 1) / Step()
    }

    /** `i * step`, written as repeated addition; `StartIsProduct` states the product. */
    function Start(i: nat): nat
      requires Valid()
    {
      if i == 0 then 0 else Start(i - 1) + Step()
    }

    function End(i: nat): nat
      requires Valid()
    {
      Min(Start(i) + eff, len)
    }

    /** The characters chunk `i` shares with chunk `i + 1`. */
    function Shared(i: nat): int
      requires Valid()
    {
      End(i) - Start(i + 1)
    }
  }

  lemma {:induction false} StartIsProduct(g: Geometry, i: nat)
    requires g.Valid()
    ensures g.Start(i) == i * g.Step()
  {
    if i > 0 {
      StartIsProduct(g, i - 1);
      assert i * g.Step() == (i - 1) * g.Step() + g.Step();
    }
  }

  lemma {:induction false} StartMonotone(g: Geometry, i: nat, j: nat)
    requires g.Valid() && i <= j
    ensures g.Start(i) + (j - i) * g.Step() == g.Start(j)
    ensures i < j ==> g.Start(i) + g.Step() <= g.Start(j)
  {
    StartIsProduct(g, i);
    StartIsProduct(g, j);
    assert j * g.Step() == i * g.Step() + (j - i) * g.Step();
    if i < j {
      MulMono(g.Step(), j - i);
    }
  }

  /** The chunk count is the least `n` whose chunk starts reach past the text: `Start(n - 1) < len <= Start(n)`. */
  lemma {:induction false} CountCovers(g: Geometry)
    requires g.Valid()
    ensures g.len == 0 ==> g.Count() == 0
    ensures g.len > 0 ==> g.Count() >= 1 && g.Start(g.Count() - 1) < g.len <= g.Start(g.Count())
  {
    var s := g.Step();
    var q, r := (g.len + s - 1) / s, (g.len + s - 1) % s;
    assert g.len + s - 1 == q * s + r;
    if g.len > 0 {
      if q == 0 {
        assert false;
      }
      StartIsProduct(g, q);
      StartIsProduct(g, q - 1);
      assert q * s == (q - 1) * s + s;
    } else {
      NatDiv(s - 1, s);
    }
  }

  /**
   * Every chunk lies inside the text and is non-empty; each chunk but the
   * last reaches at least the start of the next one; the last chunk ends at
   * the end of the text.
   */
  lemma ChunkBounds(g: Geometry, i: nat)
    requires g.Valid() && i < g.Count()
    ensures g.Start(i) < g.End(i) <= g.len
    ensures g.Start(i + 1) == g.Start(i) + g.Step()
    ensures i + 1 < g.Count() ==> g.Start(i) < g.Start(i + 1) <= g.End(i) && g.Start(i + 1) < g.len
    ensures i + 1 < g.Count() ==> g.Shared(i) == Min(g.overlap, g.len - g.Start(i + 1))
    ensures i + 1 == g.Count() ==> g.End(i) == g.len
  {
    CountCovers(g);
    StartMonotone(g, i, g.Count() - 1);
    if i + 1 < g.Count() {
      StartMonotone(g, i + 1, g.Count() - 1);
    }
  }

  /** The chunks start at 0, follow each other in order and together cover every position of the text. */
  lemma ChunksCover(g: Geometry, k: nat)
    requires g.Valid() && k < g.len
    ensures g.Start(0) == 0
    ensures exists i :: 0 <= i < g.Count() && g.Start(i) <= k < g.End(i)
  {
    CountCovers(g);
    var i := k / g.Step();
    assert k == i * g.Step() + k % g.Step();
    StartIsProduct(g, i);
    if i >= g.Count() {
      StartMonotone(g, g.Count(), i);
      assert false;
    }
    assert g.Start(i) <= k < g.End(i);
  }

  /** A processed chunk, cut short by `overlap` characters unless it is the last or no longer than the overlap. */
  function TrimChunk(processed: string, isLast: bool, overlap: nat): (r: string)
    ensures !isLast && |processed| > overlap ==> |r| == |processed| - overlap
    ensures |r| <= |processed| && r == processed[..|r|]
  {
    if !isLast && |processed| > overlap then processed[..|processed| - overlap] else processed
  }

  function Chunk(content: string, g: Geometry, i: nat): string
    requires g.Valid() && g.len == |content| && i < g.Count()
  {
    ChunkBounds(g, i);
    content[g.Start(i)..g.End(i)]
  }

  /** What chunk `i`'s task returns. */
  function Piece(content: string, m: PlaceholderMap, g: Geometry, i: nat): string
    requires g.Valid() && g.len == |content| && i < g.Count()
  {
    TrimChunk(SubstituteAll(Chunk(content, g, i), m), i == g.Count() - 1, g.overlap)
  }

  /** The outputs of these tasks, in chunk order. */
  function Pieces(content: string, m: PlaceholderMap, g: Geometry): (r: seq<string>)
    requires g.Valid() && g.len == |content|
    ensures |r| == g.Count()
    ensures forall i :: 0 <= i < |r| ==> r[i] == Piece(content, m, g, i)
  {
    seq(g.Count(), i requires 0 <= i < g.Count() => Piece(content, m, g, i))
  }

  /** A chunk of a text in which no key occurs is not changed by the substitution. */
  lemma UntouchedChunk(content: string, m: PlaceholderMap, g: Geometry, i: nat)
    requires g.Valid() && g.len == |content| && i < g.Count()
    requires NoKeyOccurs(content, m)
    ensures SubstituteAll(Chunk(content, g, i), m) == Chunk(content, g, i)
    ensures SubstituteAllStrict(Chunk(content, g, i), m) == Some(Chunk(content, g, i))
  {
    ChunkBounds(g, i);
    forall j | 0 <= j < |m|
      ensures !Contains(Chunk(content, g, i), m[j].key)
    {
      if Contains(Chunk(content, g, i), m[j].key) {
        ContainsInSlice(content, g.Start(i), g.End(i), m[j].key);
      }
    }
    SubstituteAllAbsent(Chunk(content, g, i), m);
  }

  /** Where the text that task `i` returns ends, when no key occurs. */
  function PieceEnd(g: Geometry, i: nat): int
    requires g.Valid() && i < g.Count()
  {
    var size := g.End(i) - g.Start(i);
    if i != g.Count() - 1 && size > g.overlap then g.End(i) - g.overlap else g.End(i)
  }

  /** What task `i` returns for a text in which no key occurs: its chunk, trimmed. */
  lemma PieceUntouched(content: string, m: PlaceholderMap, g: Geometry, i: nat)
    requires g.Valid() && g.len == |content| && i < g.Count()
    requires NoKeyOccurs(content, m)
    ensures g.Start(i) <= PieceEnd(g, i) <= g.len
    ensures Piece(content, m, g, i) == content[g.Start(i)..PieceEnd(g, i)]
  {
    ChunkBounds(g, i);
    UntouchedChunk(content, m, g, i);
    var c := Chunk(content, g, i);
    assert |c| == g.End(i) - g.Start(i);
    var r := TrimChunk(c, i == g.Count() - 1, g.overlap);
    assert |r| == PieceEnd(g, i) - g.Start(i);
    assert r == c[..|r|] == content[g.Start(i)..PieceEnd(g, i)];
  }

  /** The length of what task `i` returns for a text in which no key occurs. */
  lemma PieceLength(content: string, m: PlaceholderMap, g: Geometry, i: nat)
    requires g.Valid() && g.len == |content| && i < g.Count()
    requires NoKeyOccurs(content, m)
    ensures |Piece(content, m, g, i)| == PieceEnd(g, i) - g.Start(i)
  {
    ChunkBounds(g, i);
    UntouchedChunk(content, m, g, i);
  }

  /** When the chunk before the last is a full chunk, every trimmed chunk ends where the next one starts. */
  lemma FullChunks(g: Geometry, i: nat)
    requires g.Valid() && i + 1 < g.Count()
    requires g.Start(g.Count() - 2) + g.eff <= g.len
    ensures PieceEnd(g, i) == g.Start(i + 1)
  {
    ChunkBounds(g, i);
    StartMonotone(g, i, g.Count() - 2);
  }

  predicate IsSlice(content: string, piece: string, a: int, b: int)
  {
    0 <= a <= b <= |content| && piece == content[a..b]
  }

  /** Pieces that are consecutive slices of `content`, from 0 on, concatenate to the prefix they cover. */
  lemma {:induction false} ConcatContiguous(content: string, cuts: seq<int>, pieces: seq<string>)
    requires |cuts| == |pieces| + 1 && cuts[0] == 0
    requires forall i :: 0 <= i < |pieces| ==> IsSlice(content, pieces[i], cuts[i], cuts[i + 1])
    ensures 0 <= cuts[|pieces|] <= |content|
    ensures ConcatStrings(pieces) == content[..cuts[|pieces|]]
    decreases |pieces|
  {
    var n := |pieces|;
    if n > 0 {
      ConcatContiguous(content, cuts[..n], pieces[..n - 1]);
      var a, b := cuts[n - 1], cuts[n];
      assert ConcatStrings(pieces) == ConcatStrings(pieces[..n - 1]) + content[a..b];
      assert content[..a] + content[a..b] == content[..b];
    }
  }

  /** The cut points of the text: the chunk starts, then the end of the text. */
  function Cuts(g: Geometry): (r: seq<int>)
    requires g.Valid()
    ensures |r| == g.Count() + 1
    ensures forall i :: 0 <= i < |r| ==> r[i] == if i < g.Count() then g.Start(i) else g.len
  {
    seq(g.Count() + 1, i requires 0 <= i <= g.Count() => if i < g.Count() then g.Start(i) else g.len)
  }

  /**
   * The trimmed outputs put the text back together when the chunk before
   * the last one is a full chunk (it ends `overlap` characters past the
   * start of the last), provided no key occurs.
   */
  lemma PiecesKeepText(content: string, m: PlaceholderMap, g: Geometry)
    requires g.Valid() && g.len == |content|
    requires NoKeyOccurs(content, m)
    requires g.Count() <= 1 || g.Start(g.Count() - 2) + g.eff <= g.len
    ensures ConcatStrings(Pieces(content, m, g)) == content
  {
    var pieces, cuts := Pieces(content, m, g), Cuts(g);
    CountCovers(g);
    forall i | 0 <= i < |pieces|
      ensures IsSlice(content, pieces[i], cuts[i], cuts[i + 1])
    {
      PieceUntouched(content, m, g, i);
      ChunkBounds(g, i);
      if i + 1 < g.Count() {
        FullChunks(g, i);
      }
    }
    if pieces != [] {
      assert cuts[0] == g.Start(0) == 0;
    }
    ConcatContiguous(content, cuts, pieces);
  }

  /**
   * When the overlap is no longer than the step, a trimmed chunk that is not
   * the last is at most one step long, and shorter when the end of the text
   * cut the chunk short.
   */
  lemma PieceAtMostStep(g: Geometry, i: nat)
    requires g.Valid() && g.overlap <= g.Step() && i + 1 < g.Count()
    ensures PieceEnd(g, i) - g.Start(i) <= g.Step()
    ensures g.Start(i) + g.eff > g.len ==> PieceEnd(g, i) - g.Start(i) < g.Step()
  {
    ChunkBounds(g, i);
  }

  /** The first `k` trimmed chunks together are no longer than the distance to chunk `k`, and shorter once one was cut short. */
  lemma {:induction false} TrimmedAtMostStart(g: Geometry, k: nat)
    requires g.Valid() && g.overlap <= g.Step() && k < g.Count()
    ensures TrimmedLength(g, k) <= g.Start(k)
    ensures k >= 1 && g.Start(k - 1) + g.eff > g.len ==> TrimmedLength(g, k) < g.Start(k)
  {
    if k > 0 {
      TrimmedAtMostStart(g, k - 1);
      PieceAtMostStep(g, k - 1);
    }
  }

  /**
   * The converse of `PiecesKeepText` for an overlap no longer than the step:
   * when the chunk before the last is cut short, the output of a text in
   * which no key occurs is shorter than the text.
   */
  lemma ShortChunkLosesText(content: string, m: PlaceholderMap, g: Geometry)
    requires g.Valid() && g.len == |content| && g.overlap <= g.Step()
    requires NoKeyOccurs(content, m)
    requires g.Count() >= 2 && g.Start(g.Count() - 2) + g.eff > g.len
    ensures |ConcatStrings(Pieces(content, m, g))| < |content|
  {
    var c := g.Count();
    PiecesLength(content, m, g, c);
    assert Pieces(content, m, g)[..c] == Pieces(content, m, g);
    TrimmedAtMostStart(g, c - 1);
    ChunkBounds(g, c - 1);
  }

  /** For an overlap no longer than the step, a text in which no key occurs comes back unchanged exactly when the chunk before the last is full. */
  lemma PiecesKeepTextExactly(content: string, m: PlaceholderMap, g: Geometry)
    requires g.Valid() && g.len == |content| && g.overlap <= g.Step()
    requires NoKeyOccurs(content, m)
    ensures ConcatStrings(Pieces(content, m, g)) == content
        <==> (g.Count() <= 1 || g.Start(g.Count() - 2) + g.eff <= g.len)
  {
    if g.Count() <= 1 || g.Start(g.Count() - 2) + g.eff <= g.len {
      PiecesKeepText(content, m, g);
    } else {
      ShortChunkLosesText(content, m, g);
    }
  }

  /** How long the assembled output is when no key occurs: the chunk lengths, each trimmed. */
  lemma {:induction false} PiecesLength(content: string, m: PlaceholderMap, g: Geometry, k: nat)
    requires g.Valid() && g.len == |content| && k <= g.Count()
    requires NoKeyOccurs(content, m)
    ensures TotalLength(Pieces(content, m, g)[..k]) == TrimmedLength(g, k)
  {
    if k > 0 {
      PiecesLength(content, m, g, k - 1);
      PieceLength(content, m, g, k - 1);
      assert Pieces(content, m, g)[..k][..k - 1] == Pieces(content, m, g)[..k - 1];
    }
  }

  /** The total length of the first `k` chunks after trimming. */
  function TrimmedLength(g: Geometry, k: nat): int
    requires g.Valid() && k <= g.Count()
  {
    if k == 0 then 0 else TrimmedLength(g, k - 1) + PieceEnd(g, k - 1) - g.Start(k - 1)
  }

  /**
   * The corrected trim: every chunk but the last drops exactly the
   * characters it shares with the next chunk, which is fewer than `overlap`
   * when the chunk was cut short by the end of the text.
   */
  function CorrectedPiece(content: string, m: PlaceholderMap, g: Geometry, i: nat): string
    requires g.Valid() && g.len == |content| && i < g.Count()
  {
    var processed := SubstituteAll(Chunk(content, g, i), m);
    if i == g.Count() - 1 then processed
    else processed[..Max(0, |processed| - Max(0, g.Shared(i)))]
  }

  function CorrectedPieces(content: string, m: PlaceholderMap, g: Geometry): (r: seq<string>)
    requires g.Valid() && g.len == |content|
    ensures |r| == g.Count()
    ensures forall i :: 0 <= i < |r| ==> r[i] == CorrectedPiece(content, m, g, i)
  {
    seq(g.Count(), i requires 0 <= i < g.Count() => CorrectedPiece(content, m, g, i))
  }

  /** With the corrected trim, task `i` returns its chunk up to the start of the next one. */
  lemma CorrectedPieceUntouched(content: string, m: PlaceholderMap, g: Geometry, i: nat)
    requires g.Valid() && g.len == |content| && i < g.Count()
    requires NoKeyOccurs(content, m)
    ensures var next := if i + 1 < g.Count() then g.Start(i + 1) else g.len;
            g.Start(i) <= next <= g.len && CorrectedPiece(content, m, g, i) == content[g.Start(i)..next]
  {
    ChunkBounds(g, i);
    UntouchedChunk(content, m, g, i);
  }

  /** With the corrected trim, a text in which no key occurs comes back unchanged, whatever the geometry. */
  lemma CorrectedPiecesKeepText(content: string, m: PlaceholderMap, g: Geometry)
    requires g.Valid() && g.len == |content|
    requires NoKeyOccurs(content, m)
    ensures ConcatStrings(CorrectedPieces(content, m, g)) == content
  {
    var pieces, cuts := CorrectedPieces(content, m, g), Cuts(g);
    CountCovers(g);
    forall i | 0 <= i < |pieces|
      ensures IsSlice(content, pieces[i], cuts[i], cuts[i + 1])
    {
      CorrectedPieceUntouched(content, m, g, i);
      ChunkBounds(g, i);
    }
    if pieces != [] {
      assert cuts[0] == g.Start(0) == 0;
    }
    ConcatContiguous(content, cuts, pieces);
  }

  /**
   * With 1 MiB chunks, a 1024-character overlap and a text of 2095204
   * characters, the second chunk is cut short by the end of the text (it
   * shares 100 characters with the third) but still loses 1024: when no key
   * occurs the output is 2094280 characters long, 924 fewer than the text.
   */
  lemma TrimLosesText(content: string, m: PlaceholderMap)
    requires |content| == 2095204 && NoKeyOccurs(content, m)
    ensures var g := Geometry(2095204, 1048576, 1024);
            g.Valid() && g.Count() == 3 && |ConcatStrings(Pieces(content, m, g))| == 2094280
  {
    var g := Geometry(2095204, 1048576, 1024);
    assert g.Start(1) == 1047552 && g.Start(2) == 2095104;
    assert g.Count() == 3;
    PiecesLength(content, m, g, 3);
    assert Pieces(content, m, g)[..3] == Pieces(content, m, g);
  }
}

=== FILE: class_file.dfy ===
/**
 * The constant-pool rewriter for `.class` entries of an archive
 * (`processClassFileOptimized`). A class file starts with a 10-byte header
 * (magic, minor and major version, constant-pool count, all big-endian),
 * then `count - 1` constant-pool slots, then the rest of the file. Each
 * entry is a one-byte tag and a payload whose size the tag fixes, except a
 * CONSTANT_Utf8 entry (tag 1), whose payload is prefixed by a two-byte
 * length; long and double entries (tags 5 and 6) take two slots (section
 * 4.4 of the Java Virtual Machine Specification).
 *
 * The walk copies every entry verbatim except UTF8 entries: those are
 * decoded, have every key replaced longest key first, and are re-encoded
 * with a new two-byte length (only the low 16 bits of it). Everything after
 * the pool is copied. An unknown tag, a truncated file or an exception in
 * the replacement aborts the rewrite: the method then reports `(0, 0, 0)`
 * and, because the input stream was already drained, writes nothing.
 */
module ClassFile {
  import opened JavaLang
  import opened JavaText
  import opened Placeholders
  import opened ProcessingResults

  const HEADER_SIZE: nat := 10

  /** A big-endian unsigned 16-bit value (`readUnsignedShort`). */
  function U2(b: Bytes, p: nat): (r: nat)
    requires p + 2 <= |b|
    ensures r < 65536
  {
    (b[p] as int) * 256 + b[p + 1] as int
  }

  /** The two bytes `writeShort` emits for a value below 65536. */
  function U2Bytes(n: nat): (r: Bytes)
    requires n < 65536
    ensures |r| == 2 && (r[0] as int) * 256 + r[1] as int == n
  {
    [n / 256, n % 256]
  }

  /** Writing back what was read gives the same two bytes. */
  lemma U2RoundTrip(b: Bytes, p: nat)
    requires p + 2 <= |b|
    ensures U2Bytes(U2(b, p)) == b[p..p + 2]
  {
    var hi, lo := b[p] as int, b[p + 1] as int;
    var n := hi * 256 + lo;
    assert n / 256 == hi && n % 256 == lo by {
      var q, r := n / 256, n % 256;
      assert (hi - q) * 256 == r - lo;
      if hi - q >= 1 {
        MulMono(256, hi - q);
      } else if hi - q <= -1 {
        MulMono(256, hi - q);
      }
    }
  }

  /** One constant-pool entry as the walk reads it. */
  datatype PoolEntry =
    | Utf8(payload: Bytes)
    | Other(tag: byte, payload: Bytes)

  /** The payload size of every tag the walk accepts besides UTF8; `None` for any other tag. */
  function PayloadSize(tag: byte): (r: Option<nat>)
    ensures tag == 1 ==> r.None?
    ensures r.Some? ==> r.value in {2, 3, 4, 8}
    ensures r.Some? && r.value == 8 <==> tag == 5 || tag == 6
  {
    if tag == 3 || tag == 4 then Some(4)
    else if tag == 5 || tag == 6 then Some(8)
    else if tag == 7 || tag == 8 || tag == 16 then Some(2)
    else if 9 <= tag <= 12 || tag == 18 then Some(4)
    else if tag == 15 then Some(3)
    else None
  }

  /** The slots an entry takes: two for long and double constants. */
  function Slots(e: PoolEntry): (r: nat)
    ensures 1 <= r <= 2
    ensures r == 2 <==> e.Other? && PayloadSize(e.tag) == Some(8)
  {
    if e.Other? && (e.tag == 5 || e.tag == 6) then 2 else 1
  }

  /** Whether an entry can be written in its own format: a UTF8 payload fits its length field. */
  predicate Encodable(e: PoolEntry)
  {
    match e
    case Utf8(p) => |p| < 65536
    case Other(tag, p) => PayloadSize(tag) == Some(|p|)
  }

  /** An entry in class-file form; `writeShort` keeps the low 16 bits of a UTF8 length. */
  function EntryBytes(e: PoolEntry): (r: Bytes)
    ensures |r| >= 1
  {
    match e
    case Utf8(p) => [1] + U2Bytes(|p| % 65536) + p
    case Other(tag, p) => [tag] + p
  }

  /** An entry read from the pool, and the offset where the next one starts. */
  datatype Read = Read(entry: PoolEntry, next: nat)

  /** The entry at `pos`, and where the next one starts; `None` for an unknown tag or truncated data. */
  function ReadEntry(b: Bytes, pos: nat): (r: Option<Read>)
    ensures r.Some? ==> pos < r.value.next <= |b| && Encodable(r.value.entry)
  {
    if pos >= |b| then None
    else if b[pos] == 1 then
      if pos + 3 > |b| then None
      else
        var len := U2(b, pos + 1);
        if pos + 3 + len > |b| then None
        else Some(Read(Utf8(b[pos + 3..pos + 3 + len]), pos + 3 + len))
    else
      match PayloadSize(b[pos])
      case None => None
      case Some(k) =>
        if pos + 1 + k > |b| then None
        else Some(Read(Other(b[pos], b[pos + 1..pos + 1 + k]), pos + 1 + k))
  }

  /** The bytes an entry was read from are the entry written back. */
  lemma ReadEntryInverse(b: Bytes, pos: nat)
    requires ReadEntry(b, pos).Some?
    ensures b[pos..ReadEntry(b, pos).value.next] == EntryBytes(ReadEntry(b, pos).value.entry)
  {
    if b[pos] == 1 {
      var len := U2(b, pos + 1);
      U2RoundTrip(b, pos + 1);
      assert b[pos..pos + 3 + len] == [b[pos]] + b[pos + 1..pos + 3] + b[pos + 3..pos + 3 + len];
    } else {
      var k := PayloadSize(b[pos]).value;
      assert b[pos..pos + 1 + k] == [b[pos]] + b[pos + 1..pos + 1 + k];
    }
  }

  /** Reading an entry back from its own bytes gives the entry: the two directions of the format. */
  lemma ReadEntryBytes(e: PoolEntry, rest: Bytes)
    requires Encodable(e)
    ensures ReadEntry(EntryBytes(e) + rest, 0) == Some(Read(e, |EntryBytes(e)|))
  {
    var b := EntryBytes(e) + rest;
    match e {
      case Utf8(p) =>
        assert b[1..3] == U2Bytes(|p|);
        assert U2(b, 1) == |p|;
        assert b[3..3 + |p|] == p;
      case Other(tag, p) =>
        assert b[1..1 + |p|] == p;
    }
  }

  /** The text of a UTF8 entry while the placeholders are applied, and the count so far. */
  datatype Rewritten = Rewritten(text: string, replacements: int)

  /**
   * What one replacement adds to the count: the length change divided by the
   * per-occurrence change, or by the key length when the latter is zero;
   * `None` where Java would divide by zero.
   */
  function LengthCount(before: int, after: int, key: string, value: string): Option<int>
  {
    if before == after then Some(0)
    else if |value| - |key| != 0 then Some(JDiv(after - before, |value| - |key|))
    else if |key| != 0 then Some(JDiv(before - after, |key|))
    else None
  }

  /** One placeholder applied to a UTF8 entry: guarded by `contains`, unchecked for a null value. */
  function RewriteStep(acc: Rewritten, p: Placeholder): Option<Rewritten>
  {
    if !Contains(acc.text, p.key) then Some(acc)
    else if p.value.None? then None
    else
      var t := ReplaceAll(acc.text, p.key, p.value.value);
      match LengthCount(|acc.text|, |t|, p.key, p.value.value)
      case None => None
      case Some(c) => Some(Rewritten(t, acc.replacements + c))
  }

  /** The placeholders applied in the given order to the text of one UTF8 entry. */
  function RewriteUtf8(s: string, sorted: PlaceholderMap): Option<Rewritten>
    decreases |sorted|
  {
    if sorted == [] then Some(Rewritten(s, 0))
    else
      match RewriteUtf8(s, sorted[..|sorted| - 1])
      case None => None
      case Some(acc) => RewriteStep(acc, sorted[|sorted| - 1])
  }

  /**
   * Reference count: the occurrences replaced, counted only for keys whose
   * value has a different length.
   */
  function ChangedOccurrences(s: string, m: PlaceholderMap): nat
    decreases |m|
  {
    if m == [] then 0
    else
      var p := m[|m| - 1];
      var t := SubstituteAll(s, m[..|m| - 1]);
      ChangedOccurrences(s, m[..|m| - 1])
        + (if p.value.Some? && Contains(t, p.key) && |p.value.value| != |p.key| then MatchCount(t, p.key) else 0)
  }

  /** `(n * x) / x == n` for a positive divisor. */
  lemma MulDivCancel(n: nat, x: int)
    requires x > 0
    ensures (n * x) / x == n
  {
    var q, r := (n * x) / x, (n * x) % x;
    assert (n - q) * x == r;
    if n - q >= 1 || n - q <= -1 {
      MulMono(x, n - q);
    }
  }

  /** The count for one replacement is its number of occurrences, or 0 when the length does not change. */
  lemma StepCount(s: string, key: string, value: string)
    ensures LengthCount(|s|, |ReplaceAll(s, key, value)|, key, value)
         == Some(if |value| == |key| then 0 else MatchCount(s, key))
  {
    ReplaceAllLength(s, key, value);
    var n, d := MatchCount(s, key), |value| - |key|;
    if d != 0 && n != 0 {
      QuotientIsCount(n, d);
    }
  }

  /** A length change of `n` times the per-occurrence change `d` divides back to `n` under Java's `/`. */
  lemma QuotientIsCount(n: nat, d: int)
    requires d != 0
    ensures JDiv(n * d, d) == n
  {
    if d > 0 {
      MulDivCancel(n, d);
    } else {
      MulDivCancel(n, -d);
      assert n * d == -(n * -d);
      if n != 0 {
        MulMono(-d, n);
      }
      assert Abs(n * d) == n * -d;
    }
  }

  /** The rewrite throws exactly when the unchecked chain does, and otherwise yields its text. */
  lemma {:induction false} RewriteUtf8Text(s: string, m: PlaceholderMap)
    ensures RewriteUtf8(s, m).None? <==> SubstituteAllStrict(s, m).None?
    ensures RewriteUtf8(s, m).Some? ==> SubstituteAllStrict(s, m) == Some(RewriteUtf8(s, m).value.text)
    decreases |m|
  {
    if m != [] {
      RewriteUtf8Text(s, m[..|m| - 1]);
      var acc := RewriteUtf8(s, m[..|m| - 1]);
      if acc.Some? {
        var p := m[|m| - 1];
        if Contains(acc.value.text, p.key) && p.value.Some? {
          StepCount(acc.value.text, p.key, p.value.value);
        }
      }
    }
  }

  /** When it does not throw, the count is the number of replaced occurrences of length-changing keys. */
  lemma {:induction false} RewriteUtf8Count(s: string, m: PlaceholderMap)
    requires RewriteUtf8(s, m).Some?
    ensures RewriteUtf8(s, m).value.replacements == ChangedOccurrences(s, m)
    decreases |m|
  {
    if m != [] {
      var init := m[..|m| - 1];
      RewriteUtf8Count(s, init);
      RewriteUtf8Text(s, init);
      StrictSomeAgrees(s, init);
      var acc := RewriteUtf8(s, init).value;
      var p := m[|m| - 1];
      if Contains(acc.text, p.key) {
        StepCount(acc.text, p.key, p.value.value);
      }
    }
  }

  /** A text in which no key occurs is left as it is, with nothing counted. */
  lemma {:induction false} RewriteUtf8Absent(s: string, m: PlaceholderMap)
    requires NoKeyOccurs(s, m)
    ensures RewriteUtf8(s, m) == Some(Rewritten(s, 0))
    decreases |m|
  {
    if m != [] {
      RewriteUtf8Absent(s, m[..|m| - 1]);
      assert !Contains(s, m[|m| - 1].key);
    }
  }

  /** Once the rewrite has thrown it stays thrown. */
  lemma {:induction false} RewriteStaysFailed(s: string, m: PlaceholderMap, i: nat)
    requires i <= |m| && RewriteUtf8(s, m[..i]).None?
    ensures RewriteUtf8(s, m).None?
    decreases |m| - i
  {
    if i < |m| {
      assert m[..i + 1][..i] == m[..i];
      RewriteStaysFailed(s, m, i + 1);
    } else {
      assert m[..i] == m;
    }
  }

  /** One more placeholder of the loop is one more step of the rewrite. */
  lemma RewriteUtf8Next(s: string, sorted: PlaceholderMap, i: nat, acc: Rewritten)
    requires i < |sorted| && RewriteUtf8(s, sorted[..i]) == Some(acc)
    ensures RewriteStep(acc, sorted[i]).None? ==> RewriteUtf8(s, sorted[..i + 1]).None?
    ensures RewriteStep(acc, sorted[i]).Some? ==>
      RewriteUtf8(s, sorted[..i + 1]).Some?
      && RewriteUtf8(s, sorted[..i + 1]).value.text == RewriteStep(acc, sorted[i]).value.text
      && RewriteUtf8(s, sorted[..i + 1]).value.replacements == RewriteStep(acc, sorted[i]).value.replacements
  {
    assert sorted[..i + 1][..i] == sorted[..i];
  }

  /** What one entry, or a run of entries, contributes to the output and to the count. */
  datatype Emitted = Emitted(bytes: Bytes, replacements: int)

  /** A UTF8 entry is rewritten and re-emitted with the low 16 bits of its new length; any other entry is copied. */
  function RewriteEntry(e: PoolEntry, sorted: PlaceholderMap, cs: Codec): (r: Option<Emitted>)
    ensures e.Other? ==> r == Some(Emitted([e.tag] + e.payload, 0))
  {
    match e
    case Other(tag, p) => Some(Emitted([tag] + p, 0))
    case Utf8(p) =>
      match RewriteUtf8(cs.decode(p), sorted)
      case None => None
      case Some(w) =>
        var newBytes := cs.encode(w.text);
        Some(Emitted([1 as byte] + U2Bytes(|newBytes| % 65536) + newBytes, w.replacements))
  }

  /**
   * A rewritten UTF8 entry is tag 1, the low 16 bits of the new encoded
   * length, and the encoded text with every key replaced; it fails exactly
   * when the replacement chain throws.
   */
  lemma Utf8EntryFormat(payload: Bytes, sorted: PlaceholderMap, cs: Codec)
    ensures RewriteEntry(Utf8(payload), sorted, cs).None? <==> SubstituteAllStrict(cs.decode(payload), sorted).None?
    ensures RewriteEntry(Utf8(payload), sorted, cs).Some? ==>
      var out := RewriteEntry(Utf8(payload), sorted, cs).value.bytes;
      var text := SubstituteAllStrict(cs.decode(payload), sorted).value;
      |out| >= 3 && out[0] == 1 && out[3..] == cs.encode(text) && U2(out, 1) == |cs.encode(text)| % 65536
  {
    RewriteUtf8Text(cs.decode(payload), sorted);
    var w := RewriteUtf8(cs.decode(payload), sorted);
    if w.Some? {
      var newBytes := cs.encode(w.value.text);
      var out := [1 as byte] + U2Bytes(|newBytes| % 65536) + newBytes;
      assert out[3..] == newBytes;
      assert out[1..3] == U2Bytes(|newBytes| % 65536);
    }
  }

  /** The entries read for a run of slots, and the offset just past the last one. */
  datatype Parsed = Parsed(entries: seq<PoolEntry>, end: nat)

  /** The entries of the `remaining` slots from `pos` on, and where they end; `None` when one cannot be read. */
  function ParsePool(b: Bytes, pos: nat, remaining: int): (r: Option<Parsed>)
    requires pos <= |b|
    ensures r.Some? ==> pos <= r.value.end <= |b|
    ensures r.Some? ==> forall i :: 0 <= i < |r.value.entries| ==> Encodable(r.value.entries[i])
    decreases |b| - pos
  {
    if remaining <= 0 then Some(Parsed([], pos))
    else
      match ReadEntry(b, pos)
      case None => None
      case Some(Read(e, next)) =>
        match ParsePool(b, next, remaining - Slots(e))
        case None => None
        case Some(Parsed(es, end)) => Some(Parsed([e] + es, end))
  }

  /** Entries in class-file form, one after the other. */
  function SerializeAll(es: seq<PoolEntry>): Bytes
  {
    if es == [] then [] else EntryBytes(es[0]) + SerializeAll(es[1..])
  }

  /** The bytes the pool was parsed from are its entries written back. */
  lemma {:induction false} ParseInverse(b: Bytes, pos: nat, remaining: int, p: Parsed)
    requires pos <= |b| && ParsePool(b, pos, remaining) == Some(p)
    ensures pos <= p.end <= |b| && SerializeAll(p.entries) == b[pos..p.end]
    decreases |b| - pos
  {
    if remaining > 0 {
      var r := ReadEntry(b, pos).value;
      var rest := ParsePool(b, r.next, remaining - Slots(r.entry)).value;
      assert p.entries == [r.entry] + rest.entries && p.end == rest.end;
      ReadEntryInverse(b, pos);
      ParseInverse(b, r.next, remaining - Slots(r.entry), rest);
      SerializeJoin(b, pos, r.next, rest.end, r.entry, rest.entries);
    }
  }

  /** An entry's bytes followed by the bytes of the entries after it, as one slice of the input. */
  lemma SerializeJoin(b: Bytes, pos: nat, next: nat, end: nat, e: PoolEntry, es: seq<PoolEntry>)
    requires pos <= next <= end <= |b|
    requires b[pos..next] == EntryBytes(e) && b[next..end] == SerializeAll(es)
    ensures SerializeAll([e] + es) == b[pos..end]
  {
    SerializeCons(e, es);
    SliceJoin(b, pos, next, end);
  }

  /** Two adjacent slices make up the slice that spans them. */
  lemma SliceJoin(b: Bytes, pos: nat, next: nat, end: nat)
    requires pos <= next <= end <= |b|
    ensures b[pos..end] == b[pos..next] + b[next..end]
  {
  }

  /** An entry's bytes followed by the bytes of the entries after it. */
  lemma SerializeCons(e: PoolEntry, es: seq<PoolEntry>)
    ensures SerializeAll([e] + es) == EntryBytes(e) + SerializeAll(es)
  {
    assert ([e] + es)[0] == e && ([e] + es)[1..] == es;
  }

  /** The slots a run of entries takes. */
  function SlotCount(es: seq<PoolEntry>): nat
  {
    if es == [] then 0 else Slots(es[0]) + SlotCount(es[1..])
  }

  /**
   * The walk reads entries until the slots are used up: exactly the
   * remaining slots, or one more when the last entry is a long or a double.
   */
  lemma {:induction false} ParseSlots(b: Bytes, pos: nat, remaining: int)
    requires pos <= |b| && ParsePool(b, pos, remaining).Some?
    ensures var es := ParsePool(b, pos, remaining).value.entries;
      (remaining <= 0 ==> es == [])
      && (remaining > 0 ==>
            es != [] && (SlotCount(es) == remaining || (SlotCount(es) == remaining + 1 && Slots(es[|es| - 1]) == 2)))
    decreases |b| - pos
  {
    if remaining > 0 {
      var Read(e, next) := ReadEntry(b, pos).value;
      ParseSlots(b, next, remaining - Slots(e));
      var es := ParsePool(b, next, remaining - Slots(e)).value.entries;
      assert ([e] + es)[1..] == es;
    }
  }

  /** How each entry of the pool is rewritten. */
  type EntryRewrite = PoolEntry -> Option<Emitted>

  /** The rewrite of one entry with the sorted placeholders and the charset. */
  function EntryRewriter(sorted: PlaceholderMap, cs: Codec): (rw: EntryRewrite)
  {
    e => RewriteEntry(e, sorted, cs)
  }

  /** The entries rewritten in order, their outputs concatenated and their counts summed. */
  function RewriteAll(es: seq<PoolEntry>, rw: EntryRewrite): Option<Emitted>
  {
    if es == [] then Some(Emitted([], 0))
    else
      match rw(es[0])
      case None => None
      case Some(em) =>
        match RewriteAll(es[1..], rw)
        case None => None
        case Some(rest) => Some(Emitted(em.bytes + rest.bytes, em.replacements + rest.replacements))
  }

  /**
   * The whole rewrite: the header copied, the pool's entries rewritten, the
   * rest of the file copied; `None` when the method throws.
   */
  function ClassFileRewrite(b: Bytes, m: PlaceholderMap, cs: Codec): (r: Option<Emitted>)
    ensures |b| < HEADER_SIZE ==> r.None?
  {
    if |b| < HEADER_SIZE then None
    else
      match ParsePool(b, HEADER_SIZE, U2(b, 8) - 1)
      case None => None
      case Some(Parsed(es, end)) =>
        match RewriteAll(es, EntryRewriter(SortByKeyLength(m), cs))
        case None => None
        case Some(em) => Some(Emitted(b[..HEADER_SIZE] + em.bytes + b[end..], em.replacements))
  }

  /**
   * The header (magic, versions, pool count) is copied, so the slot count
   * never changes, and so is everything after the pool.
   */
  lemma HeaderAndRestCopied(b: Bytes, m: PlaceholderMap, cs: Codec)
    requires ClassFileRewrite(b, m, cs).Some?
    ensures var out := ClassFileRewrite(b, m, cs).value.bytes;
      |out| >= HEADER_SIZE && out[..HEADER_SIZE] == b[..HEADER_SIZE] && U2(out, 8) == U2(b, 8)
    ensures ParsePool(b, HEADER_SIZE, U2(b, 8) - 1).Some?
    ensures var out := ClassFileRewrite(b, m, cs).value.bytes;
      var end := ParsePool(b, HEADER_SIZE, U2(b, 8) - 1).value.end;
      |out| >= |b| - end && out[|out| - (|b| - end)..] == b[end..]
  {
    var Parsed(es, end) := ParsePool(b, HEADER_SIZE, U2(b, 8) - 1).value;
    var em := RewriteAll(es, EntryRewriter(SortByKeyLength(m), cs)).value;
    var out := b[..HEADER_SIZE] + em.bytes + b[end..];
    assert out[..HEADER_SIZE] == b[..HEADER_SIZE];
    assert out[8] == b[8] && out[9] == b[9];
    assert out[|out| - (|b| - end)..] == b[end..];
  }

  /** The rewrite of a readable pool whose entries all rewrite. */
  lemma RewriteParts(b: Bytes, m: PlaceholderMap, cs: Codec, es: seq<PoolEntry>, end: nat, em: Emitted)
    requires |b| >= HEADER_SIZE
    requires ParsePool(b, HEADER_SIZE, U2(b, 8) - 1) == Some(Parsed(es, end))
    requires RewriteAll(es, EntryRewriter(SortByKeyLength(m), cs)) == Some(em)
    ensures ClassFileRewrite(b, m, cs) == Some(Emitted(b[..HEADER_SIZE] + em.bytes + b[end..], em.replacements))
  {
  }

  /** One turn of the loop: the entry read at `pos`, what it emits, and where the cursor goes. */
  datatype Step = Step(entry: PoolEntry, emitted: Emitted, next: nat)

  /** The turn of the loop at `pos`; `None` when the entry cannot be read or rewritten. */
  function EntryStep(b: Bytes, pos: nat, rw: EntryRewrite): (r: Option<Step>)
    ensures r.Some? ==> pos < r.value.next <= |b|
  {
    match ReadEntry(b, pos)
    case None => None
    case Some(Read(e, next)) =>
      match rw(e)
      case None => None
      case Some(em) => Some(Step(e, em, next))
  }

  /** The pool parsed from an entry on is that entry followed by the pool parsed from the next one. */
  lemma ParseCons(b: Bytes, pos: nat, left: int)
    requires pos <= |b| && left > 0 && ReadEntry(b, pos).Some?
    ensures var e, next := ReadEntry(b, pos).value.entry, ReadEntry(b, pos).value.next;
      && ParsePool(b, pos, left).Some? == ParsePool(b, next, left - Slots(e)).Some?
      && (ParsePool(b, pos, left).Some? ==>
            && ParsePool(b, pos, left).value.entries == [e] + ParsePool(b, next, left - Slots(e)).value.entries
            && ParsePool(b, pos, left).value.end == ParsePool(b, next, left - Slots(e)).value.end)
  {
  }

  /** Rewriting a run of entries is rewriting its first entry, then the others. */
  lemma RewriteAllCons(e: PoolEntry, es: seq<PoolEntry>, rw: EntryRewrite)
    ensures RewriteAll([e] + es, rw).Some? <==> rw(e).Some? && RewriteAll(es, rw).Some?
    ensures RewriteAll([e] + es, rw).Some? ==>
      && RewriteAll([e] + es, rw).value.bytes == rw(e).value.bytes + RewriteAll(es, rw).value.bytes
      && RewriteAll([e] + es, rw).value.replacements == rw(e).value.replacements + RewriteAll(es, rw).value.replacements
  {
    assert ([e] + es)[0] == e && ([e] + es)[1..] == es;
  }

  /** Parsed entries rewritten, followed by the input from `end` on. */
  function Finish(b: Bytes, rw: EntryRewrite, es: seq<PoolEntry>, end: nat): Option<Emitted>
    requires end <= |b|
  {
    match RewriteAll(es, rw)
    case None => None
    case Some(em) => Some(Emitted(em.bytes + b[end..], em.replacements))
  }

  /**
   * What the loop still has to write from a cursor with `left` slots to go:
   * the remaining entries rewritten, then the rest of the input, and their
   * count; `None` when the remaining slots do not parse or an entry fails.
   */
  function RestOfPool(b: Bytes, rw: EntryRewrite, pos: nat, left: int): Option<Emitted>
    requires pos <= |b|
  {
    match ParsePool(b, pos, left)
    case None => None
    case Some(Parsed(es, end)) => Finish(b, rw, es, end)
  }

  /** With no slot left, only the rest of the input remains. */
  lemma RestOfPoolDone(b: Bytes, rw: EntryRewrite, pos: nat, left: int)
    requires pos <= |b| && left <= 0
    ensures RestOfPool(b, rw, pos, left) == Some(Emitted(b[pos..], 0))
  {
    assert [] + b[pos..] == b[pos..];
  }

  /** Finishing after one more entry: that entry's output first, then the others'. */
  lemma FinishCons(b: Bytes, rw: EntryRewrite, e: PoolEntry, es: seq<PoolEntry>, end: nat)
    requires end <= |b|
    ensures Finish(b, rw, [e] + es, end).None? <==> rw(e).None? || Finish(b, rw, es, end).None?
    ensures Finish(b, rw, [e] + es, end).Some? ==>
      && Finish(b, rw, [e] + es, end).value.bytes == rw(e).value.bytes + Finish(b, rw, es, end).value.bytes
      && Finish(b, rw, [e] + es, end).value.replacements
         == rw(e).value.replacements + Finish(b, rw, es, end).value.replacements
  {
    RewriteAllCons(e, es, rw);
    if rw(e).Some? && RewriteAll(es, rw).Some? {
      var em, tail := rw(e).value, RewriteAll(es, rw).value;
      assert em.bytes + tail.bytes + b[end..] == em.bytes + (tail.bytes + b[end..]);
    }
  }

  /** An entry that cannot be read or rewritten makes the rest fail. */
  lemma RestOfPoolFails(b: Bytes, rw: EntryRewrite, pos: nat, left: int, r: Option<Step>)
    requires pos <= |b| && left > 0
    requires r == EntryStep(b, pos, rw) && r.None?
    ensures RestOfPool(b, rw, pos, left).None?
  {
    if ReadEntry(b, pos).Some? {
      var e, next := ReadEntry(b, pos).value.entry, ReadEntry(b, pos).value.next;
      ParseCons(b, pos, left);
      var p := ParsePool(b, next, left - Slots(e));
      if p.Some? {
        FinishCons(b, rw, e, p.value.entries, p.value.end);
      }
    }
  }

  /** An entry that is read and rewritten comes first, then what remains from the next cursor. */
  lemma RestOfPoolMoves(b: Bytes, rw: EntryRewrite, pos: nat, left: int, r: Option<Step>)
    requires pos <= |b| && left > 0
    requires r == EntryStep(b, pos, rw) && r.Some?
    ensures r.value.next <= |b|
    ensures var rest := RestOfPool(b, rw, r.value.next, left - Slots(r.value.entry));
      && RestOfPool(b, rw, pos, left).None? == rest.None?
      && (rest.Some? ==>
            && RestOfPool(b, rw, pos, left).value.bytes == r.value.emitted.bytes + rest.value.bytes
            && RestOfPool(b, rw, pos, left).value.replacements == r.value.emitted.replacements + rest.value.replacements)
  {
    var e, next := r.value.entry, r.value.next;
    assert ReadEntry(b, pos) == Some(Read(e, next)) && rw(e) == Some(r.value.emitted);
    ParseCons(b, pos, left);
    var p := ParsePool(b, next, left - Slots(e));
    if p.Some? {
      FinishCons(b, rw, e, p.value.entries, p.value.end);
    }
  }

  /**
   * The loop invariant: from this cursor, with these bytes written and this
   * count, the loop ends in `target`.
   */
  predicate WalkReaches(b: Bytes, rw: EntryRewrite, pos: nat, left: int, dos: Bytes, replacements: int,
                        target: Option<Emitted>)
  {
    && pos <= |b|
    && target.None? == RestOfPool(b, rw, pos, left).None?
    && (target.Some? ==>
          && target.value.bytes == dos + RestOfPool(b, rw, pos, left).value.bytes
          && target.value.replacements == replacements + RestOfPool(b, rw, pos, left).value.replacements)
  }

  /** A turn of the loop that fails ends the walk in failure. */
  lemma WalkFails(b: Bytes, rw: EntryRewrite, pos: nat, left: int, dos: Bytes, replacements: int,
                  target: Option<Emitted>, r: Option<Step>)
    requires left > 0 && WalkReaches(b, rw, pos, left, dos, replacements, target)
    requires r == EntryStep(b, pos, rw) && r.None?
    ensures target.None?
  {
    RestOfPoolFails(b, rw, pos, left, r);
  }

  /** A turn of the loop that succeeds keeps the invariant. */
  lemma WalkMoves(b: Bytes, rw: EntryRewrite, pos: nat, left: int, dos: Bytes, replacements: int,
                  target: Option<Emitted>, r: Option<Step>, pos': nat, left': int, dos': Bytes, replacements': int)
    requires left > 0 && WalkReaches(b, rw, pos, left, dos, replacements, target)
    requires r == EntryStep(b, pos, rw) && r.Some?
    requires pos' == r.value.next && left' == left - Slots(r.value.entry)
    requires dos' == dos + r.value.emitted.bytes && replacements' == replacements + r.value.emitted.replacements
    ensures WalkReaches(b, rw, pos', left', dos', replacements', target)
  {
    RestOfPoolMoves(b, rw, pos, left, r);
    var rest := RestOfPool(b, rw, pos', left');
    if rest.Some? {
      assert dos + (r.value.emitted.bytes + rest.value.bytes) == dos' + rest.value.bytes;
    }
  }

  /** When the slots are used up, the loop has written everything but the rest of the input. */
  lemma WalkDone(b: Bytes, rw: EntryRewrite, pos: nat, left: int, dos: Bytes, replacements: int,
                 target: Option<Emitted>)
    requires left <= 0 && WalkReaches(b, rw, pos, left, dos, replacements, target)
    ensures target == Some(Emitted(dos + b[pos..], replacements))
  {
    RestOfPoolDone(b, rw, pos, left);
  }

  /** The loop starts after the header, with the header written, towards the whole rewrite. */
  lemma WalkIsRewrite(b: Bytes, m: PlaceholderMap, cs: Codec)
    requires |b| >= HEADER_SIZE
    ensures WalkReaches(b, EntryRewriter(SortByKeyLength(m), cs), HEADER_SIZE, U2(b, 8) - 1, b[..HEADER_SIZE], 0,
                        ClassFileRewrite(b, m, cs))
  {
    var rw := EntryRewriter(SortByKeyLength(m), cs);
    var p := ParsePool(b, HEADER_SIZE, U2(b, 8) - 1);
    if p.Some? && RewriteAll(p.value.entries, rw).Some? {
      var em := RewriteAll(p.value.entries, rw).value;
      assert b[..HEADER_SIZE] + em.bytes + b[p.value.end..] == b[..HEADER_SIZE] + (em.bytes + b[p.value.end..]);
    }
  }

  /** A UTF8 entry is left alone when its payload round-trips and contains no key. */
  predicate EntryUntouched(e: PoolEntry, m: PlaceholderMap, cs: Codec)
  {
    e.Utf8? ==> RoundTrips(cs, e.payload) && NoKeyOccurs(cs.decode(e.payload), m)
  }

  /** Every entry of the pool is left alone (an unreadable pool is not constrained). */
  predicate ClassUntouched(b: Bytes, m: PlaceholderMap, cs: Codec)
  {
    |b| >= HEADER_SIZE ==>
      match ParsePool(b, HEADER_SIZE, U2(b, 8) - 1)
      case None => true
      case Some(Parsed(es, _)) => forall i :: 0 <= i < |es| ==> EntryUntouched(es[i], m, cs)
  }

  /** An entry left alone is emitted as it was read, counting nothing. */
  lemma EntryRoundTrip(e: PoolEntry, m: PlaceholderMap, cs: Codec)
    requires Encodable(e) && EntryUntouched(e, m, cs)
    ensures RewriteEntry(e, SortByKeyLength(m), cs) == Some(Emitted(EntryBytes(e), 0))
  {
    match e {
      case Other(_, _) =>
      case Utf8(p) =>
        var s := cs.decode(p);
        NoKeyOccursSorted(s, m);
        RewriteUtf8Absent(s, SortByKeyLength(m));
        assert cs.encode(s) == p;
        assert |p| % 65536 == |p|;
        assert RewriteEntry(e, SortByKeyLength(m), cs) == Some(Emitted([1 as byte] + U2Bytes(|p|) + p, 0));
    }
  }

  /** Entries left alone are written back exactly as they were read. */
  lemma {:induction false} RewriteAllUntouched(es: seq<PoolEntry>, m: PlaceholderMap, cs: Codec)
    requires forall i :: 0 <= i < |es| ==> Encodable(es[i]) && EntryUntouched(es[i], m, cs)
    ensures RewriteAll(es, EntryRewriter(SortByKeyLength(m), cs)) == Some(Emitted(SerializeAll(es), 0))
    decreases |es|
  {
    if es != [] {
      RewriteAllUntouched(es[1..], m, cs);
      EntryRoundTrip(es[0], m, cs);
    }
  }

  /**
   * A class file whose constants contain no key (and whose UTF8 payloads
   * round-trip through the charset) comes out byte for byte the same, with
   * no replacements, whenever the rewrite succeeds.
   */
  lemma KeyFreeClassUnchanged(b: Bytes, m: PlaceholderMap, cs: Codec)
    requires ClassUntouched(b, m, cs)
    requires ClassFileRewrite(b, m, cs).Some?
    ensures ClassFileRewrite(b, m, cs) == Some(Emitted(b, 0))
  {
    var p := ParsePool(b, HEADER_SIZE, U2(b, 8) - 1).value;
    KeyFreePoolUnchanged(b, m, cs, p);
  }

  /** The same, for the pool as read. */
  lemma KeyFreePoolUnchanged(b: Bytes, m: PlaceholderMap, cs: Codec, p: Parsed)
    requires |b| >= HEADER_SIZE && ParsePool(b, HEADER_SIZE, U2(b, 8) - 1) == Some(p)
    requires forall i :: 0 <= i < |p.entries| ==> EntryUntouched(p.entries[i], m, cs)
    ensures ClassFileRewrite(b, m, cs) == Some(Emitted(b, 0))
  {
    ParseInverse(b, HEADER_SIZE, U2(b, 8) - 1, p);
    RewriteAllUntouched(p.entries, m, cs);
    RewriteParts(b, m, cs, p.entries, p.end, Emitted(SerializeAll(p.entries), 0));
    ThreeSlices(b, HEADER_SIZE, p.end);
  }

  lemma ThreeSlices(b: Bytes, i: nat, j: nat)
    requires i <= j <= |b|
    ensures b[..i] + b[i..j] + b[j..] == b
  {
  }

  /**
   * A class-file prefix whose pool holds one CONSTANT_Dynamic entry
   * (tag 17), which the walk does not know.
   */
  const DYNAMIC_CONSTANT_CLASS: Bytes :=
    [0xCA, 0xFE, 0xBA, 0xBE, 0, 0, 0, 55, 0, 2, 17, 0, 1, 0, 2]

  /** As written, such a file makes the rewrite fail whatever the map. */
  lemma DynamicConstantFails(m: PlaceholderMap, cs: Codec)
    ensures ClassUntouched(DYNAMIC_CONSTANT_CLASS, m, cs)
    ensures ClassFileRewrite(DYNAMIC_CONSTANT_CLASS, m, cs).None?
  {
    var b := DYNAMIC_CONSTANT_CLASS;
    assert U2(b, 8) == 2;
    assert PayloadSize(17).None?;
    assert ReadEntry(b, HEADER_SIZE).None?;
  }

  /** The bytes an archive entry gets from the class rewriter, as written: nothing when it fails. */
  function ClassEntryBytes(b: Bytes, m: PlaceholderMap, cs: Codec): (r: Bytes)
    ensures ClassFileRewrite(b, m, cs).None? ==> r == []
  {
    match ClassFileRewrite(b, m, cs)
    case None => []
    case Some(em) => em.bytes
  }

  /** The evident intent of the failure path: copy the original class file through. */
  function CorrectedClassEntryBytes(b: Bytes, m: PlaceholderMap, cs: Codec): (r: Bytes)
    ensures ClassFileRewrite(b, m, cs).None? ==> r == b
  {
    match ClassFileRewrite(b, m, cs)
    case None => b
    case Some(em) => em.bytes
  }

  /** With the correction, a class file in which no key occurs is never changed, readable or not. */
  lemma CorrectedKeyFreeClassUnchanged(b: Bytes, m: PlaceholderMap, cs: Codec)
    requires ClassUntouched(b, m, cs)
    ensures CorrectedClassEntryBytes(b, m, cs) == b
  {
    if ClassFileRewrite(b, m, cs).Some? {
      KeyFreeClassUnchanged(b, m, cs);
    }
  }

  /** As written, the same key-free class file loses all its bytes; corrected, it is kept. */
  lemma ClassEntryLosesBytes(m: PlaceholderMap, cs: Codec)
    ensures ClassUntouched(DYNAMIC_CONSTANT_CLASS, m, cs)
    ensures ClassEntryBytes(DYNAMIC_CONSTANT_CLASS, m, cs) == []
    ensures CorrectedClassEntryBytes(DYNAMIC_CONSTANT_CLASS, m, cs) == DYNAMIC_CONSTANT_CLASS
  {
    DynamicConstantFails(m, cs);
  }
}

=== FILE: class_file_processor.dfy ===
/**
 * The statements of `processClassFileOptimized`: the loop over the
 * placeholders inside one UTF8 constant, the step that reads and re-emits
 * one constant-pool entry, the loop over the pool, and the method that
 * wraps them. Each is proved to compute the functions of `ClassFile`.
 */
module ClassFileProcessor {
  import opened JavaLang
  import opened JavaText
  import opened Placeholders
  import opened ProcessingResults
  import opened ClassFile

  /**
   * One placeholder applied to the text of a UTF8 constant: `replace` when
   * the text contains the key, and the count by length change.
   */
  method ApplyPlaceholder(newS: string, replacements: int, p: Placeholder) returns (r: Option<Rewritten>)
    ensures r == RewriteStep(Rewritten(newS, replacements), p)
  {
    var oldValue, newValue := p.key, p.value;
    if !Contains(newS, oldValue) {
      return Some(Rewritten(newS, replacements));
    }
    if newValue.None? {
      return None;
    }
    var beforeLength := |newS|;
    var t := ReplaceAll(newS, oldValue, newValue.value);
    var afterLength := |t|;
    if beforeLength == afterLength {
      return Some(Rewritten(t, replacements));
    }
    var lengthDiff := |newValue.value| - |oldValue|;
    if lengthDiff != 0 {
      return Some(Rewritten(t, replacements + JDiv(afterLength - beforeLength, lengthDiff)));
    } else if |oldValue| == 0 {
      return None;
    }
    return Some(Rewritten(t, replacements + JDiv(beforeLength - afterLength, |oldValue|)));
  }

  /** The inner loop of the UTF8 case: each placeholder in turn, counting by length change. */
  method RewriteConstant(s: string, sorted: PlaceholderMap) returns (r: Option<Rewritten>)
    ensures r == RewriteUtf8(s, sorted)
  {
    var newS := s;
    var replacements := 0;
    var i := 0;
    while i < |sorted|
      invariant 0 <= i <= |sorted|
      invariant RewriteUtf8(s, sorted[..i]) == Some(Rewritten(newS, replacements))
    {
      var st := ApplyPlaceholder(newS, replacements, sorted[i]);
      RewriteUtf8Next(s, sorted, i, Rewritten(newS, replacements));
      if st.None? {
        RewriteStaysFailed(s, sorted, i + 1);
        return None;
      }
      newS, replacements := st.value.text, st.value.replacements;
      i := i + 1;
    }
    assert sorted[..i] == sorted;
    return Some(Rewritten(newS, replacements));
  }

  /** The cursor step of the loop body: read the tag, dispatch on it, emit. */
  method ProcessEntry(b: Bytes, pos: nat, sorted: PlaceholderMap, cs: Codec) returns (r: Option<Step>)
    ensures r == EntryStep(b, pos, EntryRewriter(sorted, cs))
  {
    if pos >= |b| {
      return None;
    }
    var tag := b[pos];
    if tag == 1 {
      if pos + 3 > |b| {
        return None;
      }
      var len := U2(b, pos + 1);
      if pos + 3 + len > |b| {
        return None;
      }
      var bytes := b[pos + 3..pos + 3 + len];
      var newS := RewriteConstant(cs.decode(bytes), sorted);
      if newS.None? {
        return None;
      }
      var newBytes := cs.encode(newS.value.text);
      var out := [tag] + U2Bytes(|newBytes| % 65536) + newBytes;
      return Some(Step(Utf8(bytes), Emitted(out, newS.value.replacements), pos + 3 + len));
    }
    var size := PayloadSize(tag);
    if size.None? || pos + 1 + size.value > |b| {
      return None;
    }
    var payload := b[pos + 1..pos + 1 + size.value];
    return Some(Step(Other(tag, payload), Emitted([tag] + payload, 0), pos + 1 + size.value));
  }

  /**
   * One turn of the constant-pool loop at slot `i`: the entry at `pos` read
   * and re-emitted, its output appended to the bytes written so far, and
   * the slot index moved past it (two slots for a long or a double).
   */
  method PoolTurn(b: Bytes, sorted: PlaceholderMap, cs: Codec, cpCount: int, i: int, pos: nat, dos: Bytes,
                  replacements: int, ghost target: Option<Emitted>)
    returns (ok: bool, i': int, pos': nat, dos': Bytes, replacements': int)
    requires i < cpCount && WalkReaches(b, EntryRewriter(sorted, cs), pos, cpCount - i, dos, replacements, target)
    ensures !ok ==> target.None?
    ensures ok ==> i < i' && WalkReaches(b, EntryRewriter(sorted, cs), pos', cpCount - i', dos', replacements', target)
  {
    ghost var rw := EntryRewriter(sorted, cs);
    var st := ProcessEntry(b, pos, sorted, cs);
    if st.None? {
      WalkFails(b, rw, pos, cpCount - i, dos, replacements, target, st);
      return false, i, pos, dos, replacements;
    }
    var step := st.value;
    dos' := dos + step.emitted.bytes;
    replacements' := replacements + step.emitted.replacements;
    pos' := step.next;
    i' := i;
    if step.entry.Other? && (step.entry.tag == 5 || step.entry.tag == 6) {
      i' := i' + 1;
    }
    i' := i' + 1;
    WalkMoves(b, rw, pos, cpCount - i, dos, replacements, target, st, pos', cpCount - i', dos', replacements');
    ok := true;
  }

  /**
   * The constant-pool loop of `processClassFileOptimized`: slots `1 ..
   * cpCount - 1` read from `start` on, each entry's output appended to the
   * bytes written so far; `None` when an entry cannot be read or rewritten.
   */
  method RewritePool(b: Bytes, m: PlaceholderMap, cs: Codec, start: nat, cpCount: int, header: Bytes,
                     ghost target: Option<Emitted>)
    returns (r: Option<Emitted>)
    requires WalkReaches(b, EntryRewriter(SortByKeyLength(m), cs), start, cpCount - 1, header, 0, target)
    ensures r == target
  {
    var sorted := SortByKeyLength(m);
    var dos := header;
    var pos: nat := start;
    var replacements := 0;
    var i := 1;
    while i < cpCount
      invariant WalkReaches(b, EntryRewriter(sorted, cs), pos, cpCount - i, dos, replacements, target)
      decreases cpCount - i
    {
      var ok;
      ok, i, pos, dos, replacements := PoolTurn(b, sorted, cs, cpCount, i, pos, dos, replacements, target);
      if !ok {
        return None;
      }
    }
    WalkDone(b, EntryRewriter(sorted, cs), pos, cpCount - i, dos, replacements, target);
    return Some(Emitted(dos + b[pos..], replacements));
  }

  /** The rewrite of a class file whose header could be read: the header copied, then the pool loop. */
  method RewriteClass(classBytes: Bytes, m: PlaceholderMap, cs: Codec) returns (r: Option<Emitted>)
    requires |classBytes| >= HEADER_SIZE
    ensures r == ClassFileRewrite(classBytes, m, cs)
  {
    WalkIsRewrite(classBytes, m, cs);
    r := RewritePool(classBytes, m, cs, HEADER_SIZE, U2(classBytes, 8), classBytes[..HEADER_SIZE],
                     ClassFileRewrite(classBytes, m, cs));
  }

  /**
   * `processClassFileOptimized`: the bytes written and the statistics
   * reported. A failed rewrite writes nothing and reports `(0, 0, 0)`.
   */
  method ProcessClassFile(classBytes: Bytes, m: PlaceholderMap, cs: Codec) returns (out: Bytes, stats: Stats)
    ensures ClassFileRewrite(classBytes, m, cs).None? ==> out == [] && stats == Stats(0, 0, 0)
    ensures ClassFileRewrite(classBytes, m, cs).Some? ==>
      out == ClassFileRewrite(classBytes, m, cs).value.bytes
      && stats == Stats(|out|, ClassFileRewrite(classBytes, m, cs).value.replacements, |m|)
  {
    if |classBytes| < HEADER_SIZE {
      return [], Stats(0, 0, 0);
    }
    var r := RewriteClass(classBytes, m, cs);
    if r.None? {
      return [], Stats(0, 0, 0);
    }
    return r.value.bytes, Stats(|r.value.bytes|, r.value.replacements, |m|);
  }
}

=== FILE: class_processor.dfy ===
/**
 * The bytecode-level class rewriter of the archive service. ASM's reader and
 * writer are a pair of opaque functions between bytes and a class model; the
 * visitors' rule is modelled on that class model: every String constant
 * reachable through a field initial value, an `ldc` operand or an
 * annotation visited by the wrapping visitors is run through the
 * longest-key-first chain, and nothing else changes.
 */
module ClassProcessors {
  import opened JavaLang
  import opened JavaText
  import opened Placeholders
  import opened CacheKeys
  import opened MemoCaches

  const MAX_CACHE_SIZE: nat := 1000

  /** A constant as ASM hands it over: a `String`, or any other boxed value. */
  datatype Constant = Str(s: string) | NonString(encoded: Bytes)

  /** An annotation value: a constant, a nested annotation, an array, or an enum constant. */
  datatype AnnotationValue =
    | Simple(c: Constant)
    | Nested(annotation: Annotation)
    | ArrayOf(elements: seq<AnnotationValue>)
    | EnumConst(descriptor: string, constName: string)

  datatype Member = Member(name: string, value: AnnotationValue)

  datatype Annotation = Annotation(descriptor: string, members: seq<Member>)

  datatype Instruction = Ldc(c: Constant) | OtherInsn(opcode: int)

  datatype Field = Field(name: string, value: Option<Constant>, annotations: seq<Annotation>)

  datatype Method = Method(
    name: string,
    annotations: seq<Annotation>,
    parameterAnnotations: seq<seq<Annotation>>,
    annotationDefault: Option<AnnotationValue>,
    code: seq<Instruction>)

  datatype ClassModel = ClassModel(annotations: seq<Annotation>, fields: seq<Field>, methods: seq<Method>)

  /** ASM's `ClassReader` (`None` when it throws) and `ClassWriter` (`None` when frame computation throws). */
  datatype ClassCodec = ClassCodec(read: Bytes -> Option<ClassModel>, write: ClassModel -> Option<Bytes>)

  // ------------------------------------------------------------ the string rule

  /** A string after `applyReplacements`, or unchanged where that throws (the failure is tracked separately). */
  function MapString(s: string, m: PlaceholderMap): string
  {
    match ApplyPlaceholders(s, m)
    case Some(t) => t
    case None => s
  }

  predicate StringFails(s: string, m: PlaceholderMap)
  {
    ApplyPlaceholders(s, m).None?
  }

  function MapConstant(c: Constant, m: PlaceholderMap): Constant
  {
    match c
    case Str(s) => Str(MapString(s, m))
    case NonString(_) => c
  }

  predicate ConstantFails(c: Constant, m: PlaceholderMap)
  {
    c.Str? && StringFails(c.s, m)
  }

  // ------------------------------------------------------------ annotations

  /** `PlaceholderAnnotationVisitor`: `visit` maps strings; nested annotations and arrays are wrapped again; `visitEnum` is not overridden. */
  function MapValue(v: AnnotationValue, m: PlaceholderMap): AnnotationValue
    decreases v
  {
    match v
    case Simple(c) => Simple(MapConstant(c, m))
    case Nested(a) => Nested(MapAnnotation(a, m))
    case ArrayOf(es) => ArrayOf(seq(|es|, k requires 0 <= k < |es| => MapValue(es[k], m)))
    case EnumConst(_, _) => v
  }

  function MapAnnotation(a: Annotation, m: PlaceholderMap): Annotation
    decreases a
  {
    Annotation(a.descriptor,
      seq(|a.members|, k requires 0 <= k < |a.members| => Member(a.members[k].name, MapValue(a.members[k].value, m))))
  }

  function MapAnnotations(as_: seq<Annotation>, m: PlaceholderMap): seq<Annotation>
  {
    seq(|as_|, k requires 0 <= k < |as_| => MapAnnotation(as_[k], m))
  }

  predicate ValueFails(v: AnnotationValue, m: PlaceholderMap)
    decreases v
  {
    match v
    case Simple(c) => ConstantFails(c, m)
    case Nested(a) => AnnotationFails(a, m)
    case ArrayOf(es) => exists k :: 0 <= k < |es| && ValueFails(es[k], m)
    case EnumConst(_, _) => false
  }

  predicate AnnotationFails(a: Annotation, m: PlaceholderMap)
    decreases a
  {
    exists k :: 0 <= k < |a.members| && ValueFails(a.members[k].value, m)
  }

  predicate AnnotationsFail(as_: seq<Annotation>, m: PlaceholderMap)
  {
    exists k :: 0 <= k < |as_| && AnnotationFails(as_[k], m)
  }

  // ------------------------------------------------------------ fields, methods, classes

  /** `visitField`: a String initial value is mapped; the returned field visitor is not wrapped, so field annotations stay. */
  function MapField(f: Field, m: PlaceholderMap): Field
  {
    f.(value := if f.value.Some? then Some(MapConstant(f.value.value, m)) else None)
  }

  predicate FieldFails(f: Field, m: PlaceholderMap)
  {
    f.value.Some? && ConstantFails(f.value.value, m)
  }

  function MapInstruction(insn: Instruction, m: PlaceholderMap): Instruction
  {
    if insn.Ldc? then Ldc(MapConstant(insn.c, m)) else insn
  }

  predicate InstructionFails(insn: Instruction, m: PlaceholderMap)
  {
    insn.Ldc? && ConstantFails(insn.c, m)
  }

  /** `PlaceholderMethodVisitor`: `ldc` operands, method and parameter annotations, and the annotation default. */
  function MapMethod(md: Method, m: PlaceholderMap): Method
  {
    Method(
      md.name,
      MapAnnotations(md.annotations, m),
      seq(|md.parameterAnnotations|, k requires 0 <= k < |md.parameterAnnotations| => MapAnnotations(md.parameterAnnotations[k], m)),
      if md.annotationDefault.Some? then Some(MapValue(md.annotationDefault.value, m)) else None,
      seq(|md.code|, k requires 0 <= k < |md.code| => MapInstruction(md.code[k], m)))
  }

  predicate MethodFails(md: Method, m: PlaceholderMap)
  {
    || AnnotationsFail(md.annotations, m)
    || (exists k :: 0 <= k < |md.parameterAnnotations| && AnnotationsFail(md.parameterAnnotations[k], m))
    || (md.annotationDefault.Some? && ValueFails(md.annotationDefault.value, m))
    || (exists k :: 0 <= k < |md.code| && InstructionFails(md.code[k], m))
  }

  /** The class after the visitor chain. */
  function MapClass(c: ClassModel, m: PlaceholderMap): ClassModel
  {
    ClassModel(
      MapAnnotations(c.annotations, m),
      seq(|c.fields|, k requires 0 <= k < |c.fields| => MapField(c.fields[k], m)),
      seq(|c.methods|, k requires 0 <= k < |c.methods| => MapMethod(c.methods[k], m)))
  }

  /** Some visited string throws, which aborts the whole visit. */
  predicate ClassFails(c: ClassModel, m: PlaceholderMap)
  {
    || AnnotationsFail(c.annotations, m)
    || (exists k :: 0 <= k < |c.fields| && FieldFails(c.fields[k], m))
    || (exists k :: 0 <= k < |c.methods| && MethodFails(c.methods[k], m))
  }

  /** `transformClass`: read, visit, write; `None` where any step throws. */
  function TransformClass(classBytes: Bytes, m: PlaceholderMap, codec: ClassCodec): Option<Bytes>
  {
    match codec.read(classBytes)
    case None => None
    case Some(c) => if ClassFails(c, m) then None else codec.write(MapClass(c, m))
  }

  /** The `computeIfAbsent` body: the transformed bytes, or the input when they are null, empty or the transform throws. */
  function ClassComputed(classBytes: Bytes, m: PlaceholderMap, codec: ClassCodec): (r: Bytes)
    ensures r == classBytes || TransformClass(classBytes, m, codec) == Some(r)
    ensures r == [] ==> classBytes == []
  {
    match TransformClass(classBytes, m, codec)
    case Some(t) => if |t| > 0 then t else classBytes
    case None => classBytes
  }

  // ------------------------------------------------------------ properties of the rule

  /** Only strings change: a constant keeps its kind, and a non-String constant is kept as is. */
  lemma OnlyStringsChange(c: Constant, m: PlaceholderMap)
    ensures MapConstant(c, m).Str? <==> c.Str?
    ensures c.NonString? ==> MapConstant(c, m) == c
    ensures c.Str? && !ConstantFails(c, m) ==> MapConstant(c, m) == Str(LongestFirst(c.s, m))
  {
    if c.Str? && !ConstantFails(c, m) {
      ApplyPlaceholdersSucceeds(c.s, m);
    }
  }

  /** Enum constants in annotations are not visited, so their names keep any key. */
  lemma EnumConstantsUntouched(descriptor: string, constName: string, m: PlaceholderMap)
    ensures MapValue(EnumConst(descriptor, constName), m) == EnumConst(descriptor, constName)
    ensures !ValueFails(EnumConst(descriptor, constName), m)
  {
  }

  /** Field annotations and names, method names and non-`ldc` instructions are not rewritten. */
  lemma OutsideTheVisitorsUntouched(c: ClassModel, m: PlaceholderMap)
    ensures |MapClass(c, m).fields| == |c.fields| && |MapClass(c, m).methods| == |c.methods|
    ensures forall k :: 0 <= k < |c.fields| ==>
      MapClass(c, m).fields[k].annotations == c.fields[k].annotations && MapClass(c, m).fields[k].name == c.fields[k].name
    ensures forall k :: 0 <= k < |c.methods| ==>
      && MapClass(c, m).methods[k].name == c.methods[k].name
      && |MapClass(c, m).methods[k].code| == |c.methods[k].code|
      && (forall j :: 0 <= j < |c.methods[k].code| && c.methods[k].code[j].OtherInsn? ==>
            MapClass(c, m).methods[k].code[j] == c.methods[k].code[j])
  {
  }

  lemma NoNullConstantSucceeds(c: Constant, m: PlaceholderMap)
    requires NoNullValues(m)
    ensures !ConstantFails(c, m)
  {
    if c.Str? && ConstantFails(c, m) {
      ApplyPlaceholdersFails(c.s, m);
    }
  }

  lemma {:induction false} NoNullValueSucceeds(v: AnnotationValue, m: PlaceholderMap)
    requires NoNullValues(m)
    ensures !ValueFails(v, m)
    decreases v, 1
  {
    match v
    case Simple(c) => NoNullConstantSucceeds(c, m);
    case Nested(a) => NoNullAnnotationSucceeds(a, m);
    case ArrayOf(es) =>
      forall k | 0 <= k < |es|
        ensures !ValueFails(es[k], m)
      {
        NoNullValueSucceeds(es[k], m);
      }
    case EnumConst(_, _) =>
  }

  lemma {:induction false} NoNullAnnotationSucceeds(a: Annotation, m: PlaceholderMap)
    requires NoNullValues(m)
    ensures !AnnotationFails(a, m)
    decreases a, 0
  {
    forall k | 0 <= k < |a.members|
      ensures !ValueFails(a.members[k].value, m)
    {
      NoNullValueSucceeds(a.members[k].value, m);
    }
  }

  lemma NoNullAnnotationsSucceed(as_: seq<Annotation>, m: PlaceholderMap)
    requires NoNullValues(m)
    ensures !AnnotationsFail(as_, m)
  {
    forall k | 0 <= k < |as_|
      ensures !AnnotationFails(as_[k], m)
    {
      NoNullAnnotationSucceeds(as_[k], m);
    }
  }

  lemma NoNullMethodSucceeds(md: Method, m: PlaceholderMap)
    requires NoNullValues(m)
    ensures !MethodFails(md, m)
  {
    NoNullAnnotationsSucceed(md.annotations, m);
    forall k | 0 <= k < |md.parameterAnnotations|
      ensures !AnnotationsFail(md.parameterAnnotations[k], m)
    {
      NoNullAnnotationsSucceed(md.parameterAnnotations[k], m);
    }
    if md.annotationDefault.Some? {
      NoNullValueSucceeds(md.annotationDefault.value, m);
    }
    forall k | 0 <= k < |md.code| && md.code[k].Ldc?
      ensures !ConstantFails(md.code[k].c, m)
    {
      NoNullConstantSucceeds(md.code[k].c, m);
    }
  }

  /** Without null values the visit never throws: the class is rewritten and written back. */
  lemma NoNullValuesTransform(classBytes: Bytes, m: PlaceholderMap, codec: ClassCodec)
    requires NoNullValues(m) && codec.read(classBytes).Some?
    ensures TransformClass(classBytes, m, codec) == codec.write(MapClass(codec.read(classBytes).value, m))
  {
    var c := codec.read(classBytes).value;
    NoNullAnnotationsSucceed(c.annotations, m);
    forall k | 0 <= k < |c.fields| && c.fields[k].value.Some?
      ensures !ConstantFails(c.fields[k].value.value, m)
    {
      NoNullConstantSucceeds(c.fields[k].value.value, m);
    }
    forall k | 0 <= k < |c.methods|
      ensures !MethodFails(c.methods[k], m)
    {
      NoNullMethodSucceeds(c.methods[k], m);
    }
  }

  /** A string constant, where the visitors see it, holds no key. */
  predicate ConstantKeyFree(c: Constant, m: PlaceholderMap)
  {
    c.Str? ==> NoKeyOccurs(c.s, m)
  }

  predicate ValueKeyFree(v: AnnotationValue, m: PlaceholderMap)
    decreases v
  {
    match v
    case Simple(c) => ConstantKeyFree(c, m)
    case Nested(a) => AnnotationKeyFree(a, m)
    case ArrayOf(es) => forall k :: 0 <= k < |es| ==> ValueKeyFree(es[k], m)
    case EnumConst(_, _) => true
  }

  predicate AnnotationKeyFree(a: Annotation, m: PlaceholderMap)
    decreases a
  {
    forall k :: 0 <= k < |a.members| ==> ValueKeyFree(a.members[k].value, m)
  }

  predicate AnnotationsKeyFree(as_: seq<Annotation>, m: PlaceholderMap)
  {
    forall k :: 0 <= k < |as_| ==> AnnotationKeyFree(as_[k], m)
  }

  predicate MethodKeyFree(md: Method, m: PlaceholderMap)
  {
    && AnnotationsKeyFree(md.annotations, m)
    && (forall k :: 0 <= k < |md.parameterAnnotations| ==> AnnotationsKeyFree(md.parameterAnnotations[k], m))
    && (md.annotationDefault.Some? ==> ValueKeyFree(md.annotationDefault.value, m))
    && (forall k :: 0 <= k < |md.code| && md.code[k].Ldc? ==> ConstantKeyFree(md.code[k].c, m))
  }

  /** No visited String constant of the class contains a key. */
  predicate ClassKeyFree(c: ClassModel, m: PlaceholderMap)
  {
    && AnnotationsKeyFree(c.annotations, m)
    && (forall k :: 0 <= k < |c.fields| && c.fields[k].value.Some? ==> ConstantKeyFree(c.fields[k].value.value, m))
    && (forall k :: 0 <= k < |c.methods| ==> MethodKeyFree(c.methods[k], m))
  }

  lemma ConstantKeyFreeKept(c: Constant, m: PlaceholderMap)
    requires ConstantKeyFree(c, m)
    ensures MapConstant(c, m) == c && !ConstantFails(c, m)
  {
    if c.Str? {
      ApplyPlaceholdersKeyFree(c.s, m);
    }
  }

  lemma {:induction false} ValueKeyFreeKept(v: AnnotationValue, m: PlaceholderMap)
    requires ValueKeyFree(v, m)
    ensures MapValue(v, m) == v && !ValueFails(v, m)
    decreases v, 1
  {
    match v
    case Simple(c) => ConstantKeyFreeKept(c, m);
    case Nested(a) => AnnotationKeyFreeKept(a, m);
    case ArrayOf(es) =>
      forall k | 0 <= k < |es|
        ensures MapValue(es[k], m) == es[k] && !ValueFails(es[k], m)
      {
        ValueKeyFreeKept(es[k], m);
      }
      assert MapValue(v, m).elements == es;
    case EnumConst(_, _) =>
  }

  lemma {:induction false} AnnotationKeyFreeKept(a: Annotation, m: PlaceholderMap)
    requires AnnotationKeyFree(a, m)
    ensures MapAnnotation(a, m) == a && !AnnotationFails(a, m)
    decreases a, 0
  {
    forall k | 0 <= k < |a.members|
      ensures MapValue(a.members[k].value, m) == a.members[k].value && !ValueFails(a.members[k].value, m)
    {
      ValueKeyFreeKept(a.members[k].value, m);
    }
    assert MapAnnotation(a, m).members == a.members;
  }

  lemma AnnotationsKeyFreeKept(as_: seq<Annotation>, m: PlaceholderMap)
    requires AnnotationsKeyFree(as_, m)
    ensures MapAnnotations(as_, m) == as_ && !AnnotationsFail(as_, m)
  {
    forall k | 0 <= k < |as_|
      ensures MapAnnotation(as_[k], m) == as_[k] && !AnnotationFails(as_[k], m)
    {
      AnnotationKeyFreeKept(as_[k], m);
    }
  }

  lemma MethodKeyFreeKept(md: Method, m: PlaceholderMap)
    requires MethodKeyFree(md, m)
    ensures MapMethod(md, m) == md && !MethodFails(md, m)
  {
    AnnotationsKeyFreeKept(md.annotations, m);
    forall k | 0 <= k < |md.parameterAnnotations|
      ensures MapAnnotations(md.parameterAnnotations[k], m) == md.parameterAnnotations[k]
      ensures !AnnotationsFail(md.parameterAnnotations[k], m)
    {
      AnnotationsKeyFreeKept(md.parameterAnnotations[k], m);
    }
    if md.annotationDefault.Some? {
      ValueKeyFreeKept(md.annotationDefault.value, m);
    }
    forall k | 0 <= k < |md.code| && md.code[k].Ldc?
      ensures MapConstant(md.code[k].c, m) == md.code[k].c && !ConstantFails(md.code[k].c, m)
    {
      ConstantKeyFreeKept(md.code[k].c, m);
    }
    assert MapMethod(md, m).parameterAnnotations == md.parameterAnnotations;
    assert MapMethod(md, m).code == md.code;
  }

  /**
   * A class none of whose visited strings holds a key is not left as it was:
   * it is read and written again, which drops debug information and
   * recomputes frames.
   */
  lemma KeyFreeClassRewritten(classBytes: Bytes, m: PlaceholderMap, codec: ClassCodec)
    requires codec.read(classBytes).Some? && ClassKeyFree(codec.read(classBytes).value, m)
    ensures TransformClass(classBytes, m, codec) == codec.write(codec.read(classBytes).value)
  {
    var c := codec.read(classBytes).value;
    AnnotationsKeyFreeKept(c.annotations, m);
    forall k | 0 <= k < |c.fields| && c.fields[k].value.Some?
      ensures MapConstant(c.fields[k].value.value, m) == c.fields[k].value.value
      ensures !ConstantFails(c.fields[k].value.value, m)
    {
      ConstantKeyFreeKept(c.fields[k].value.value, m);
    }
    forall k | 0 <= k < |c.methods|
      ensures MapMethod(c.methods[k], m) == c.methods[k] && !MethodFails(c.methods[k], m)
    {
      MethodKeyFreeKept(c.methods[k], m);
    }
    assert MapClass(c, m).fields == c.fields;
    assert MapClass(c, m).methods == c.methods;
  }

  // ------------------------------------------------------------ the cache wrapper

  /** The class bytes and the map, as `computeIfAbsent` sees them. */
  datatype ClassInput = ClassInput(classBytes: Bytes, m: PlaceholderMap)

  /** `createCacheKey`: `Arrays.hashCode(bytes) + ":" + map.hashCode()`. */
  function ClassKey(i: ClassInput, bytesHash: Bytes -> int, mapHash: PlaceholderMap -> int): string
  {
    HashPairKey(bytesHash(i.classBytes), mapHash(i.m))
  }

  /** Equal keys mean equal hashes: the key loses nothing but what the hashes lose. */
  lemma ClassKeyIsHashes(i: ClassInput, j: ClassInput, bytesHash: Bytes -> int, mapHash: PlaceholderMap -> int)
    requires ClassKey(i, bytesHash, mapHash) == ClassKey(j, bytesHash, mapHash)
    ensures bytesHash(i.classBytes) == bytesHash(j.classBytes) && mapHash(i.m) == mapHash(j.m)
  {
    HashPairKeyInjective(bytesHash(i.classBytes), mapHash(i.m), bytesHash(j.classBytes), mapHash(j.m));
  }

  class ClassProcessor {
    const codec: ClassCodec
    /** `Arrays.hashCode` and `Map.hashCode`, left uninterpreted. */
    const bytesHash: Bytes -> int
    const mapHash: PlaceholderMap -> int
    const classCache: MemoCache<ClassInput, string, Bytes>

    ghost predicate Valid()
      reads this, classCache
    {
      && classCache.Valid()
      && classCache.maxSize == MAX_CACHE_SIZE
      && (forall i :: classCache.keyOf(i) == ClassKey(i, bytesHash, mapHash))
      && (forall i :: classCache.compute(i) == ClassComputed(i.classBytes, i.m, codec))
    }

    constructor (codec: ClassCodec, bytesHash: Bytes -> int, mapHash: PlaceholderMap -> int)
      ensures Valid() && fresh(classCache)
      ensures this.codec == codec && this.bytesHash == bytesHash && this.mapHash == mapHash
      ensures classCache.entries == map[]
    {
      this.codec := codec;
      this.bytesHash := bytesHash;
      this.mapHash := mapHash;
      classCache := new MemoCache(MAX_CACHE_SIZE,
        (i: ClassInput) => ClassKey(i, bytesHash, mapHash),
        (i: ClassInput) => ClassComputed(i.classBytes, i.m, codec));
    }

    /**
     * `replacePlaceholdersInClass`: the input for an empty map; otherwise the
     * cached bytes under the hash key, computed and stored on a miss, after
     * clearing a cache of more than 1000 entries. The answer is the
     * transformation of some class and map with the same two hashes.
     */
    method ReplacePlaceholdersInClass(classBytes: Bytes, m: PlaceholderMap) returns (r: Bytes)
      requires Valid()
      modifies classCache`entries, classCache`sources
      ensures Valid()
      ensures m == [] ==> r == classBytes && classCache.entries == old(classCache.entries)
      ensures m != [] ==>
        var key := HashPairKey(bytesHash(classBytes), mapHash(m));
        var computed := ClassComputed(classBytes, m, codec);
        && r == Served(old(classCache.entries), MAX_CACHE_SIZE, key, computed)
        && classCache.entries == After(old(classCache.entries), MAX_CACHE_SIZE, key, computed)
      ensures m != [] ==> exists j: ClassInput ::
        && bytesHash(j.classBytes) == bytesHash(classBytes) && mapHash(j.m) == mapHash(m)
        && r == ClassComputed(j.classBytes, j.m, codec)
    {
      if m == [] {
        return classBytes;
      }
      var input := ClassInput(classBytes, m);
      r := classCache.Lookup(input);
      ghost var j: ClassInput :| classCache.keyOf(j) == classCache.keyOf(input) && r == classCache.compute(j);
      ClassKeyIsHashes(j, input, bytesHash, mapHash);
    }

    /** `clearCache`. */
    method ClearCache()
      requires Valid()
      modifies classCache`entries, classCache`sources
      ensures Valid() && classCache.entries == map[]
    {
      classCache.Clear();
    }
  }

  /**
   * Two inputs with the same pair of hashes share a cache entry: once the
   * first is stored, the second is answered with the first's bytes.
   */
  lemma CollidingHashesShareEntry(codec: ClassCodec, bytesHash: Bytes -> int, mapHash: PlaceholderMap -> int,
                                  b1: Bytes, b2: Bytes, m: PlaceholderMap)
    requires bytesHash(b1) == bytesHash(b2)
    ensures var key := HashPairKey(bytesHash(b1), mapHash(m));
            var cache := After(map[], MAX_CACHE_SIZE, key, ClassComputed(b1, m, codec));
            Served(cache, MAX_CACHE_SIZE, HashPairKey(bytesHash(b2), mapHash(m)), ClassComputed(b2, m, codec))
              == ClassComputed(b1, m, codec)
  {
    SecondLookupServed(map[], MAX_CACHE_SIZE, HashPairKey(bytesHash(b1), mapHash(m)),
      ClassComputed(b1, m, codec), ClassComputed(b2, m, codec));
  }
}

=== FILE: document_file_processor.dfy ===
/**
 * The document file processor: PDF, Word, Excel, PowerPoint and
 * OpenDocument files, accepted by extension or MIME type, and copied
 * unchanged on every branch of `process`.
 */
module DocumentFileProcessors {
  import opened JavaLang
  import opened JavaText
  import opened Placeholders
  import opened ProcessingResults
  import opened ValidationResults
  import opened FileNames

  const SUPPORTED_EXTENSIONS: set<string> := {"pdf", "doc", "docx", "xls", "xlsx", "ppt", "pptx", "odt", "ods", "odp"}
  const SUPPORTED_MIME_TYPES: set<string> :=
    {"application/pdf",
     "application/msword",
     "application/vnd.openxmlformats-officedocument.wordprocessingml.document",
     "application/vnd.ms-excel",
     "application/vnd.openxmlformats-officedocument.spreadsheetml.sheet",
     "application/vnd.ms-powerpoint",
     "application/vnd.openxmlformats-officedocument.presentationml.presentation",
     "application/vnd.oasis.opendocument.text",
     "application/vnd.oasis.opendocument.spreadsheet",
     "application/vnd.oasis.opendocument.presentation"}
  /** `isOfficeDocument`. */
  const OFFICE_EXTENSIONS: set<string> := {"doc", "docx", "xls", "xlsx", "ppt", "pptx", "odt", "ods", "odp"}
  const LIMITED_SUPPORT_WARNING: string := "Document content processing not yet fully implemented - limited placeholder support"
  const LARGE_VALUE_WARNING: string := "Large placeholder value may impact document processing: "
  /** A placeholder value longer than this draws a warning. */
  const LARGE_VALUE: int := 10000
  const PRIORITY: int := 250
  const MEMORY_CAP: int := 100 * 1024 * 1024

  /** The branches of `process`. */
  datatype Kind = Pdf | Office | Other

  /** The branch `process` takes on the lower-cased extension. */
  function KindOf(filename: Option<string>): (k: Kind)
    ensures k != Other <==> ToLower(AfterLastDot(filename)) in SUPPORTED_EXTENSIONS
  {
    var extension := ToLower(AfterLastDot(filename));
    assert extension in SUPPORTED_EXTENSIONS <==> extension == "pdf" || extension in OFFICE_EXTENSIONS;
    if extension == "pdf" then Pdf
    else if extension in OFFICE_EXTENSIONS then Office
    else Other
  }

  /** `canProcess`: a supported extension (after the last dot, any case) or a listed MIME type (any case). */
  predicate CanProcess(filename: Option<string>, mimeType: Option<string>)
  {
    || (filename.Some? && ToLower(AfterLastDot(filename)) in SUPPORTED_EXTENSIONS)
    || (mimeType.Some? && ToLower(mimeType.value) in SUPPORTED_MIME_TYPES)
  }

  /** A name `process` treats as a PDF or office document is one the processor accepts. */
  lemma DocumentKindsAccepted(filename: string, mimeType: Option<string>)
    ensures KindOf(Some(filename)) != Other <==> CanProcess(Some(filename), None)
    ensures KindOf(Some(filename)) != Other ==> CanProcess(Some(filename), mimeType)
  {
  }

  /**
   * `process` with `processPdfDocument` and `processOfficeDocument`: every
   * branch copies the input, whatever the map, and reports `transferTo`'s
   * count with 0 replacements and 0 placeholders.
   */
  method Process(input: Bytes, m: Option<PlaceholderMap>, filename: Option<string>) returns (out: Bytes, result: ProcessingResult)
    ensures out == input
    ensures fresh(result) && result.Counts() == Stats(|input|, 0, 0)
  {
    match KindOf(filename)
    case Pdf =>
      out := input;
      result := new ProcessingResult(|input|, 0, 0);
    case Office =>
      out := input;
      result := new ProcessingResult(|input|, 0, 0);
    case Other =>
      out := input;
      result := new ProcessingResult(|input|, 0, 0);
  }

  /** A value `validate` warns about: longer than 10000 characters. */
  predicate IsLarge(p: Placeholder)
  {
    p.value.Some? && |p.value.value| > LARGE_VALUE
  }

  function LargeValueWarning(p: Placeholder): seq<string>
  {
    if IsLarge(p) then [LARGE_VALUE_WARNING + p.key] else []
  }

  /** The large-value warnings, in iteration order. */
  function LargeValueWarnings(m: PlaceholderMap): (r: seq<string>)
    ensures |r| <= |m|
  {
    if m == [] then [] else LargeValueWarnings(m[..|m| - 1]) + LargeValueWarning(m[|m| - 1])
  }

  lemma LargeValueWarningsSnoc(m: PlaceholderMap, i: nat)
    requires i < |m|
    ensures LargeValueWarnings(m[..i + 1]) == LargeValueWarnings(m[..i]) + LargeValueWarning(m[i])
  {
    assert m[..i + 1][..i] == m[..i];
  }

  /** Each warning names the key of a large value, and each large value's key is named. */
  lemma {:induction false} LargeValueWarningsNameKeys(m: PlaceholderMap)
    ensures forall w :: w in LargeValueWarnings(m) <==> exists i :: 0 <= i < |m| && IsLarge(m[i]) && w == LARGE_VALUE_WARNING + m[i].key
    decreases |m|
  {
    if m != [] {
      var n := |m| - 1;
      LargeValueWarningsNameKeys(m[..n]);
      assert forall i :: 0 <= i < n ==> m[..n][i] == m[i];
    }
  }

  /**
   * `validate`: no errors; a limited-support warning for a non-empty map,
   * then one warning per large value, in iteration order.
   */
  method Validate(filename: Option<string>, m: PlaceholderMap) returns (result: ValidationResult)
    ensures fresh(result)
    ensures result.errors == []
    ensures result.warnings == (if |m| > 0 then [LIMITED_SUPPORT_WARNING] else []) + LargeValueWarnings(m)
  {
    result := new ValidationResult();
    if |m| > 0 {
      result.AddWarning(LIMITED_SUPPORT_WARNING);
    }
    ghost var start := result.warnings;
    var i := 0;
    while i < |m|
      invariant 0 <= i <= |m|
      invariant result.errors == []
      invariant result.warnings == start + LargeValueWarnings(m[..i])
    {
      LargeValueWarningsSnoc(m, i);
      var value := m[i].value;
      if value.Some? && |value.value| > LARGE_VALUE {
        result.AddWarning(LARGE_VALUE_WARNING + m[i].key);
      }
      i := i + 1;
    }
    assert m[..i] == m;
  }

  /**
   * `estimateMemoryUsage`: three times the file, at most 100 MiB, with the
   * product taken in a 64-bit `long`.
   */
  function EstimateMemoryUsage(fileSize: int): (r: int)
    requires LONG_MIN <= fileSize <= LONG_MAX
    ensures r <= MEMORY_CAP
    ensures 0 <= fileSize <= LONG_MAX / 3 ==> 0 <= r <= 3 * fileSize && (r < MEMORY_CAP ==> r == 3 * fileSize)
  {
    Min(WrapLong(fileSize * 3), MEMORY_CAP)
  }

  /** Past a third of `Long.MAX_VALUE` the product wraps, and the estimate is negative. */
  lemma HugeFileEstimateNegative()
    ensures EstimateMemoryUsage(LONG_MAX / 3 + 1) < 0
  {
    assert LONG_MAX / 3 + 1 == 3074457345618258603;
    assert WrapLong(3074457345618258603 * 3) == -9223372036854775807;
  }
}

=== FILE: document_processor.dfy ===
/**
 * The document service: a dispatch on the lower-cased extension to an
 * opaque office rewrite, an unchanged PDF, a UTF-8 text rewrite, or the
 * input; wrapped in a memo cache keyed by name, length and map hash.
 */
module DocumentProcessors {
  import opened JavaLang
  import opened JavaText
  import opened Placeholders
  import opened FileNames
  import opened CacheKeys
  import opened MemoCaches

  const MAX_CACHE_SIZE: nat := 500

  const OFFICE_EXTENSIONS: set<string> := {".docx", ".doc", ".xlsx", ".xls", ".pptx", ".ppt"}
  const TEXT_DOCUMENT_EXTENSIONS: set<string> :=
    {".txt", ".md", ".json", ".xml", ".html", ".css", ".js", ".properties", ".yml", ".yaml"}
  const PDF_EXTENSIONS: set<string> := {".pdf"}

  /** The five office formats the dispatch hands to Apache POI. */
  datatype OfficeFormat = Docx | Doc | Xlsx | Xls | Pptx

  /** Apache POI's read-rewrite-write of one format; `None` when it throws. */
  type OfficeRewrite = (OfficeFormat, Bytes, PlaceholderMap) -> Option<Bytes>

  datatype DocumentInput = DocumentInput(documentBytes: Bytes, filename: string, m: PlaceholderMap)

  /** `getFileExtension` followed by the dispatch's own `toLowerCase`. */
  function DocumentExtension(filename: string): string
  {
    ToLower(DottedExtension(Some(filename)))
  }

  /** The office format an extension selects, if any; ".ppt" selects none. */
  function OfficeFormatOf(extension: string): Option<OfficeFormat>
  {
    if extension == ".docx" then Some(Docx)
    else if extension == ".doc" then Some(Doc)
    else if extension == ".xlsx" then Some(Xlsx)
    else if extension == ".xls" then Some(Xls)
    else if extension == ".pptx" then Some(Pptx)
    else None
  }

  /** `processTextDocument`: decode, replace, encode; `None` when a null value makes `replace` throw. */
  function ProcessTextDocument(documentBytes: Bytes, m: PlaceholderMap, cs: Codec): Option<Bytes>
  {
    match ApplyPlaceholders(cs.decode(documentBytes), m)
    case Some(t) => Some(cs.encode(t))
    case None => None
  }

  /** `processDocumentInternal`; `None` when it throws. */
  function ProcessDocumentInternal(i: DocumentInput, office: OfficeRewrite, cs: Codec): Option<Bytes>
  {
    var extension := DocumentExtension(i.filename);
    var format := OfficeFormatOf(extension);
    if format.Some? then office(format.value, i.documentBytes, i.m)
    else if extension in PDF_EXTENSIONS then Some(i.documentBytes)
    else if extension in TEXT_DOCUMENT_EXTENSIONS then ProcessTextDocument(i.documentBytes, i.m, cs)
    else Some(i.documentBytes)
  }

  /** The `computeIfAbsent` body: the rewrite, or the input when it throws. */
  function DocumentComputed(i: DocumentInput, office: OfficeRewrite, cs: Codec): (r: Bytes)
    ensures r == i.documentBytes || ProcessDocumentInternal(i, office, cs) == Some(r)
  {
    match ProcessDocumentInternal(i, office, cs)
    case Some(b) => b
    case None => i.documentBytes
  }

  /** `isSupportedDocument`. */
  predicate IsSupportedDocument(filename: string)
  {
    DocumentExtension(filename) in OFFICE_EXTENSIONS + TEXT_DOCUMENT_EXTENSIONS + PDF_EXTENSIONS
  }

  /** `createCacheKey`: `filename:length:mapHash`, which does not look at the content. */
  function DocumentKey(i: DocumentInput, mapHash: PlaceholderMap -> int): string
  {
    NameLengthHashKey(i.filename, |i.documentBytes|, mapHash(i.m))
  }

  // ------------------------------------------------------------ properties

  /** Only office, text and PDF extensions are dispatched; everything else, and PDF, is returned as is. */
  lemma UnsupportedOrPdfUnchanged(i: DocumentInput, office: OfficeRewrite, cs: Codec)
    requires !IsSupportedDocument(i.filename) || DocumentExtension(i.filename) in PDF_EXTENSIONS
    ensures DocumentComputed(i, office, cs) == i.documentBytes
  {
  }

  /** ".ppt" counts as supported but is not dispatched: the document comes back unchanged. */
  lemma PptSupportedButUntouched(i: DocumentInput, office: OfficeRewrite, cs: Codec)
    requires DocumentExtension(i.filename) == ".ppt"
    ensures IsSupportedDocument(i.filename)
    ensures DocumentComputed(i, office, cs) == i.documentBytes
  {
  }

  /** Everything the dispatch rewrites is a supported document. */
  lemma RewrittenIsSupported(i: DocumentInput, office: OfficeRewrite, cs: Codec)
    requires DocumentComputed(i, office, cs) != i.documentBytes
    ensures IsSupportedDocument(i.filename)
  {
  }

  /** The extension is read case-insensitively: "README.MD" is a text document. */
  lemma ExtensionIgnoresCase()
    ensures DocumentExtension("README.MD") == ".md"
  {
    var name := "README.MD";
    assert name[6] == '.' && name[7] != '.' && name[8] != '.';
    assert LastIndexOf(name, '.') == 6;
    assert name[6..] == ".MD";
  }

  /** The text extensions select neither an office format nor PDF. */
  lemma TextExtensionNotOffice(extension: string)
    requires extension in TEXT_DOCUMENT_EXTENSIONS
    ensures OfficeFormatOf(extension).None? && extension !in PDF_EXTENSIONS
  {
  }

  /** A text document is the longest-first chain over its decoded text, encoded again. */
  lemma TextDocumentIsChain(i: DocumentInput, office: OfficeRewrite, cs: Codec)
    requires DocumentExtension(i.filename) in TEXT_DOCUMENT_EXTENSIONS && NoNullValues(i.m)
    ensures DocumentComputed(i, office, cs) == cs.encode(LongestFirst(cs.decode(i.documentBytes), i.m))
  {
    TextExtensionNotOffice(DocumentExtension(i.filename));
    ApplyPlaceholdersNoNull(cs.decode(i.documentBytes), i.m);
  }

  /** A text document with no key in it comes back as its re-encoding, which is the input when the charset round-trips. */
  lemma KeyFreeTextDocumentUnchanged(i: DocumentInput, office: OfficeRewrite, cs: Codec)
    requires DocumentExtension(i.filename) in TEXT_DOCUMENT_EXTENSIONS
    requires NoKeyOccurs(cs.decode(i.documentBytes), i.m) && RoundTrips(cs, i.documentBytes)
    ensures DocumentComputed(i, office, cs) == i.documentBytes
  {
    TextExtensionNotOffice(DocumentExtension(i.filename));
    ApplyPlaceholdersKeyFree(cs.decode(i.documentBytes), i.m);
  }

  /** A text document fails, and is returned unchanged, only because of a null value. */
  lemma TextDocumentFailsOnNull(i: DocumentInput, cs: Codec)
    requires ProcessTextDocument(i.documentBytes, i.m, cs).None?
    ensures exists k :: 0 <= k < |i.m| && i.m[k].value.None?
  {
    ApplyPlaceholdersFails(cs.decode(i.documentBytes), i.m);
  }

  // ------------------------------------------------------------ the cache wrapper

  class DocumentProcessor {
    const office: OfficeRewrite
    const cs: Codec
    /** `Map.hashCode`, left uninterpreted. */
    const mapHash: PlaceholderMap -> int
    const documentCache: MemoCache<DocumentInput, string, Bytes>

    ghost predicate Valid()
      reads this, documentCache
    {
      && documentCache.Valid()
      && documentCache.maxSize == MAX_CACHE_SIZE
      && (forall i :: documentCache.keyOf(i) == DocumentKey(i, mapHash))
      && (forall i :: documentCache.compute(i) == DocumentComputed(i, office, cs))
    }

    constructor (office: OfficeRewrite, cs: Codec, mapHash: PlaceholderMap -> int)
      ensures Valid() && fresh(documentCache)
      ensures this.office == office && this.cs == cs && this.mapHash == mapHash
      ensures documentCache.entries == map[]
    {
      this.office := office;
      this.cs := cs;
      this.mapHash := mapHash;
      documentCache := new MemoCache(MAX_CACHE_SIZE,
        (i: DocumentInput) => DocumentKey(i, mapHash),
        (i: DocumentInput) => DocumentComputed(i, office, cs));
    }

    /**
     * `processDocument`: the input for an empty map; otherwise the cached
     * bytes under `filename:length:mapHash`, computed and stored on a miss,
     * after clearing a cache of more than 500 entries. The answer is the
     * rewrite of some document with the same name and length.
     */
    method ProcessDocument(documentBytes: Bytes, filename: string, m: PlaceholderMap) returns (r: Bytes)
      requires Valid()
      modifies documentCache`entries, documentCache`sources
      ensures Valid()
      ensures m == [] ==> r == documentBytes && documentCache.entries == old(documentCache.entries)
      ensures m != [] ==>
        var input := DocumentInput(documentBytes, filename, m);
        var key := DocumentKey(input, mapHash);
        && r == Served(old(documentCache.entries), MAX_CACHE_SIZE, key, DocumentComputed(input, office, cs))
        && documentCache.entries == After(old(documentCache.entries), MAX_CACHE_SIZE, key, DocumentComputed(input, office, cs))
      ensures m != [] ==> exists j: DocumentInput ::
        && j.filename == filename && |j.documentBytes| == |documentBytes| && mapHash(j.m) == mapHash(m)
        && r == DocumentComputed(j, office, cs)
    {
      if m == [] {
        return documentBytes;
      }
      var input := DocumentInput(documentBytes, filename, m);
      r := documentCache.Lookup(input);
      ghost var j: DocumentInput :| documentCache.keyOf(j) == documentCache.keyOf(input) && r == documentCache.compute(j);
      NameLengthHashKeyInjective(j.filename, |j.documentBytes|, mapHash(j.m), filename, |documentBytes|, mapHash(m));
    }

    /** `clearCache`. */
    method ClearCache()
      requires Valid()
      modifies documentCache`entries, documentCache`sources
      ensures Valid() && documentCache.entries == map[]
    {
      documentCache.Clear();
    }
  }

  /**
   * The key ignores the content: after "a.txt" holding "x" is rewritten with
   * x -> y, a different "a.txt" of the same length, holding "z", is answered
   * with the first document's result "y" instead of its own "z".
   */
  lemma SameNameAndLengthServedStale(office: OfficeRewrite, cs: Codec, mapHash: PlaceholderMap -> int)
    requires cs.decode([0x78]) == "x" && cs.decode([0x7A]) == "z"
    requires cs.encode("y") == [0x79] && cs.encode("z") == [0x7A]
    ensures var m := [Placeholder("x", Some("y"))];
            var first := DocumentInput([0x78], "a.txt", m);
            var second := DocumentInput([0x7A], "a.txt", m);
            var cache := After(map[], MAX_CACHE_SIZE, DocumentKey(first, mapHash), DocumentComputed(first, office, cs));
            && DocumentComputed(second, office, cs) == [0x7A]
            && Served(cache, MAX_CACHE_SIZE, DocumentKey(second, mapHash), DocumentComputed(second, office, cs)) == [0x79]
  {
    var m := [Placeholder("x", Some("y"))];
    var first := DocumentInput([0x78], "a.txt", m);
    var second := DocumentInput([0x7A], "a.txt", m);
    TextFileExample();
    TextExtensionNotOffice(".txt");
    SingleReplacementExample();
    assert ProcessTextDocument([0x78], m, cs) == Some([0x79]);
    assert ProcessTextDocument([0x7A], m, cs) == Some([0x7A]);
    SecondLookupServed(map[], MAX_CACHE_SIZE, DocumentKey(first, mapHash),
      DocumentComputed(first, office, cs), DocumentComputed(second, office, cs));
  }

  lemma TextFileExample()
    ensures DocumentExtension("a.txt") == ".txt"
  {
    var name := "a.txt";
    assert name[1] == '.' && name[2] != '.' && name[3] != '.' && name[4] != '.';
    assert LastIndexOf(name, '.') == 1;
    assert name[1..] == ".txt";
  }

  lemma SingleReplacementExample()
    ensures ApplyPlaceholders("x", [Placeholder("x", Some("y"))]) == Some("y")
    ensures ApplyPlaceholders("z", [Placeholder("x", Some("y"))]) == Some("z")
  {
    var m := [Placeholder("x", Some("y"))];
    assert SortByKeyLength(m) == m;
    assert OccursAt("x", "x", 0);
    assert ReplaceAll("x", "x", "y") == "y" by {
      assert IndexOf("x", "x", 0) == 0;
      ReplaceMatchesAt("x", "x", "y", 0);
      assert ReplaceMatches("x"[1..], "x", "y") == [];
    }
    assert !OccursAt("z", "x", 0) by {
      assert "z"[0..1] == "z";
    }
  }

  /**
   * A cache keyed by the whole input: its answer is always the rewrite of
   * the document given, whatever it held before.
   */
  class ContentKeyedDocumentProcessor {
    const office: OfficeRewrite
    const cs: Codec
    const documentCache: MemoCache<DocumentInput, DocumentInput, Bytes>

    ghost predicate Valid()
      reads this, documentCache
    {
      && documentCache.Valid()
      && documentCache.maxSize == MAX_CACHE_SIZE
      && (forall i :: documentCache.keyOf(i) == i)
      && (forall i :: documentCache.compute(i) == DocumentComputed(i, office, cs))
    }

    constructor (office: OfficeRewrite, cs: Codec)
      ensures Valid() && fresh(documentCache)
      ensures this.office == office && this.cs == cs
    {
      this.office := office;
      this.cs := cs;
      documentCache := new MemoCache(MAX_CACHE_SIZE,
        (i: DocumentInput) => i,
        (i: DocumentInput) => DocumentComputed(i, office, cs));
    }

    method ProcessDocument(documentBytes: Bytes, filename: string, m: PlaceholderMap) returns (r: Bytes)
      requires Valid()
      modifies documentCache`entries, documentCache`sources
      ensures Valid()
      ensures r == if m == [] then documentBytes else DocumentComputed(DocumentInput(documentBytes, filename, m), office, cs)
    {
      if m == [] {
        return documentBytes;
      }
      r := documentCache.Lookup(DocumentInput(documentBytes, filename, m));
    }
  }
}

=== FILE: dot_env_lines.dfy ===
/**
 * One line of a ".env" file: blank lines and '#' comments define nothing;
 * otherwise the line splits at its first '=' into a trimmed key and a
 * trimmed value with surrounding double quotes removed.
 */
module DotEnvLines {
  import opened JavaLang
  import opened JavaText

  /** One `KEY=value` setting. */
  datatype Setting = Setting(key: string, value: string)

  /** Surrounding double quotes are dropped from a value of at least two characters. */
  function Unquote(value: string): string
  {
    if StartsWith(value, "\"") && EndsWith(value, "\"") && |value| >= 2 then value[1..|value| - 1] else value
  }

  /**
   * The setting a line of ".env" defines: none for a blank line, a comment
   * or a line without an '=' past its first character; otherwise the
   * trimmed text before the first '=' and the trimmed, unquoted text after it.
   */
  function ParseLine(rawLine: string): Option<Setting>
  {
    ParseTrimmed(Trim(rawLine))
  }

  /** `ParseLine` after the line's own `trim`. */
  function ParseTrimmed(line: string): Option<Setting>
  {
    if line == [] || StartsWith(line, "#") then None
    else
      var eq := IndexOf(line, "=", 0);
      if eq <= 0 then None else Some(SplitAt(line, eq))
  }

  /** The setting of a line whose first '=' is at `eq`. */
  function SplitAt(line: string, eq: int): Setting
    requires 0 <= eq < |line|
  {
    Setting(Trim(line[..eq]), Unquote(Trim(line[eq + 1..])))
  }

  /** A trimmed line defines a setting exactly when it is not empty, starts with neither '#' nor '=', and holds an '='. */
  lemma ParseTrimmedSome(line: string)
    ensures ParseTrimmed(line).Some? <==> line != [] && line[0] != '#' && line[0] != '=' && '=' in line
  {
    StartsWithChar(line, '#');
    IndexOfChar(line, '=');
  }

  /** The key of a line that starts with a visible character is not empty and holds no '='. */
  lemma ParseTrimmedKey(line: string)
    requires ParseTrimmed(line).Some? && line[0] > ' '
    ensures ParseTrimmed(line).value.key != [] && '=' !in ParseTrimmed(line).value.key
  {
    var eq := IndexOf(line, "=", 0);
    IndexOfChar(line, '=');
    var before := line[..eq];
    assert ParseTrimmed(line).value.key == Trim(before);
    assert before[0] == line[0];
    TrimKeepsNonBlank(before);
    TrimInside(before);
  }

  /**
   * A line defines a setting exactly when, once trimmed, it is not empty,
   * does not start with '#' or '=', and holds an '='; the key then is not
   * empty and holds no '='.
   */
  lemma ParseLineSpec(rawLine: string)
    ensures var line := Trim(rawLine);
            ParseLine(rawLine).Some? <==> line != [] && line[0] != '#' && line[0] != '=' && '=' in line
    ensures ParseLine(rawLine).Some? ==> ParseLine(rawLine).value.key != [] && '=' !in ParseLine(rawLine).value.key
  {
    var line := Trim(rawLine);
    ParseTrimmedSome(line);
    if ParseTrimmed(line).Some? {
      ParseTrimmedKey(line);
    }
  }

  /** A string whose first character is visible keeps it through `trim`. */
  lemma TrimKeepsNonBlank(s: string)
    requires s != [] && s[0] > ' '
    ensures Trim(s) != []
  {
    assert TrimStart(s) == s;
  }

  /** `trim` keeps a piece of its input. */
  lemma TrimInside(s: string)
    ensures forall c :: c in Trim(s) ==> c in s
  {
    var t := TrimStart(s);
    var r := TrimEnd(t);
    var start := |s| - |t|;
    forall c | c in r ensures c in s {
      var k :| 0 <= k < |r| && r[k] == c;
      assert t[k] == c;
      assert s[start + k] == c;
    }
  }

  /** Quotes are dropped exactly from a value of two or more characters that starts and ends with one. */
  lemma UnquoteSpec(value: string)
    ensures |value| >= 2 && value[0] == '"' && value[|value| - 1] == '"' ==> Unquote(value) == value[1..|value| - 1]
    ensures !(|value| >= 2 && value[0] == '"' && value[|value| - 1] == '"') ==> Unquote(value) == value
  {
    if |value| >= 1 {
      assert StartsWith(value, "\"") <==> value[0] == '"' by {
        assert value[..1][0] == value[0];
      }
      assert EndsWith(value, "\"") <==> value[|value| - 1] == '"' by {
        assert value[|value| - 1..][0] == value[|value| - 1];
      }
    }
  }

  /** The lines of the file, each as the setting it defines. */
  function Parsed(lines: seq<string>): (r: seq<Option<Setting>>)
    ensures |r| == |lines|
  {
    if lines == [] then [] else Parsed(lines[..|lines| - 1]) + [ParseLine(lines[|lines| - 1])]
  }

  /** The i-th parsed setting is the one the i-th line defines. */
  lemma {:induction false} ParsedAt(lines: seq<string>, i: nat)
    requires i < |lines|
    ensures Parsed(lines)[i] == ParseLine(lines[i])
    decreases |lines|
  {
    var n := |lines| - 1;
    var front := lines[..n];
    var rest := Parsed(front);
    var last := ParseLine(lines[n]);
    assert Parsed(lines) == rest + [last];
    if i < n {
      ParsedAt(front, i);
      assert rest[i] == ParseLine(lines[i]) by {
        assert front[i] == lines[i];
      }
      assert (rest + [last])[i] == rest[i];
    } else {
      assert i == n;
      assert (rest + [last])[i] == last;
    }
  }

  /** One more line read is one more parsed setting. */
  lemma ParsedSnoc(lines: seq<string>, i: nat)
    requires i < |lines|
    ensures Parsed(lines[..i + 1]) == Parsed(lines[..i]) + [ParseLine(lines[i])]
  {
    assert lines[..i + 1][..i] == lines[..i];
  }
}

=== FILE: environment_setup.dfy ===
/**
 * Start-up configuration: the ".env" file is read line by line into the JVM
 * system properties, never overriding a variable of the process environment
 * or a property already set; HTTPS is switched off when it is requested
 * without a keystore; and the feature flags are read environment first,
 * properties second.
 */
module EnvironmentSetup {
  import opened JavaLang
  import opened JavaText
  import opened DotEnvLines

  const HTTPS_ENABLED: string := "HTTPS_ENABLED"
  const SSL_KEYSTORE_PATH: string := "SSL_KEYSTORE_PATH"
  const SECRET_KEY: string := "SECRET_KEY"
  const ASYNC_PROCESSING: string := "ASYNC_PROCESSING"
  const DEBUG_MODE: string := "DEBUG_MODE"

  /** What reading ".env" yields: no file, an I/O error while reading it, or its lines. */
  datatype DotEnvFile = Missing | Unreadable | Lines(lines: seq<string>)

  // ------------------------------------------------------------ the properties

  /** A variable seen the way the getters see it: the environment first, then the properties. */
  function Resolve(env: map<string, string>, properties: map<string, string>, name: string): Option<string>
  {
    if name in env then Some(env[name])
    else if name in properties then Some(properties[name])
    else None
  }

  /** A setting read into the properties, unless its key is already in the environment or the properties. */
  function Step(env: map<string, string>, properties: map<string, string>, setting: Option<Setting>): map<string, string>
  {
    match setting
    case None => properties
    case Some(s) => if s.key in env || s.key in properties then properties else properties[s.key := s.value]
  }

  /** The properties after reading the settings in order. */
  function Loaded(env: map<string, string>, properties: map<string, string>, settings: seq<Option<Setting>>): map<string, string>
  {
    if settings == [] then properties
    else Step(env, Loaded(env, properties, settings[..|settings| - 1]), settings[|settings| - 1])
  }

  /** The setting is for `key`. */
  predicate Defines(setting: Option<Setting>, key: string)
  {
    setting.Some? && setting.value.key == key
  }

  /** The first of the settings for `key`. */
  predicate FirstDefinition(settings: seq<Option<Setting>>, key: string, i: int)
  {
    0 <= i < |settings| && Defines(settings[i], key) && forall j :: 0 <= j < i ==> !Defines(settings[j], key)
  }

  /** Reading never changes a property that is already set, and never sets a key of the environment. */
  lemma {:induction false} LoadedKeepsExisting(env: map<string, string>, properties: map<string, string>, settings: seq<Option<Setting>>)
    ensures forall k :: k in properties ==> k in Loaded(env, properties, settings) && Loaded(env, properties, settings)[k] == properties[k]
    ensures forall k :: k in env && k !in properties ==> k !in Loaded(env, properties, settings)
    decreases |settings|
  {
    if settings != [] {
      LoadedKeepsExisting(env, properties, settings[..|settings| - 1]);
    }
  }

  /**
   * For a key in neither the environment nor the properties, reading sets it
   * exactly when some line defines it, and to the value of the first such line.
   */
  lemma {:induction false} LoadedFirstWins(env: map<string, string>, properties: map<string, string>,
                                           settings: seq<Option<Setting>>, key: string)
    requires key !in env && key !in properties
    ensures key in Loaded(env, properties, settings) <==> exists i :: 0 <= i < |settings| && Defines(settings[i], key)
    ensures forall i :: FirstDefinition(settings, key, i) ==>
              key in Loaded(env, properties, settings) && Loaded(env, properties, settings)[key] == settings[i].value.value
    decreases |settings|
  {
    if settings != [] {
      var n := |settings| - 1;
      var front := settings[..n];
      LoadedFirstWins(env, properties, front, key);
      assert forall i :: 0 <= i < n ==> front[i] == settings[i];
      forall i | FirstDefinition(settings, key, i)
        ensures key in Loaded(env, properties, settings) && Loaded(env, properties, settings)[key] == settings[i].value.value
      {
        if i < n {
          assert FirstDefinition(front, key, i);
        } else {
          assert key !in Loaded(env, properties, front);
        }
      }
    }
  }

  /** Reading adds no key but those the lines define. */
  lemma {:induction false} LoadedOnlyDefinedKeys(env: map<string, string>, properties: map<string, string>,
                                                 settings: seq<Option<Setting>>)
    ensures forall k :: k in Loaded(env, properties, settings) ==>
              k in properties || exists i :: 0 <= i < |settings| && Defines(settings[i], k)
    decreases |settings|
  {
    if settings != [] {
      var n := |settings| - 1;
      LoadedOnlyDefinedKeys(env, properties, settings[..n]);
      assert forall i :: 0 <= i < n ==> settings[..n][i] == settings[i];
    }
  }

  /** Reading one more setting is one more step. */
  lemma LoadedSnoc(env: map<string, string>, properties: map<string, string>, settings: seq<Option<Setting>>, setting: Option<Setting>)
    ensures Loaded(env, properties, settings + [setting]) == Step(env, Loaded(env, properties, settings), setting)
  {
    assert (settings + [setting])[..|settings|] == settings;
  }

  /** Settings whose keys are all set already change nothing. */
  lemma {:induction false} LoadedSettled(env: map<string, string>, properties: map<string, string>, settings: seq<Option<Setting>>)
    requires forall i :: 0 <= i < |settings| && settings[i].Some? ==> settings[i].value.key in env || settings[i].value.key in properties
    ensures Loaded(env, properties, settings) == properties
    decreases |settings|
  {
    if settings != [] {
      LoadedSettled(env, properties, settings[..|settings| - 1]);
    }
  }

  // ------------------------------------------------------------ the HTTPS fix-up

  /** A flag's value counts as on: "true" in any case or "1", once trimmed. */
  predicate IsTrueFlag(value: string)
  {
    EqualsIgnoreCase("true", Trim(value)) || Trim(value) == "1"
  }

  /** HTTPS is on as the fix-up sees it, and no keystore path (or a blank one) is set. */
  predicate HttpsWithoutKeystore(env: map<string, string>, properties: map<string, string>)
  {
    var https := Resolve(env, properties, HTTPS_ENABLED);
    var keystore := Resolve(env, properties, SSL_KEYSTORE_PATH);
    https.Some? && IsTrueFlag(https.value) && (keystore.None? || IsBlank(keystore.value))
  }

  /** The fix-up after the lines: HTTPS_ENABLED set to "false" when HTTPS is on without a keystore. */
  function FixedUp(env: map<string, string>, properties: map<string, string>): map<string, string>
  {
    if HttpsWithoutKeystore(env, properties) then properties[HTTPS_ENABLED := "false"] else properties
  }

  /** `loadDotEnv` as a whole: nothing for a missing or unreadable file; the lines, then the fix-up, otherwise. */
  function AfterLoad(env: map<string, string>, properties: map<string, string>, file: DotEnvFile): map<string, string>
  {
    match file
    case Lines(lines) => FixedUp(env, Loaded(env, properties, Parsed(lines)))
    case _ => properties
  }

  /** "false" is off. */
  lemma FalseIsOff()
    ensures !IsTrueFlag("false")
  {
    assert TrimStart("false") == "false";
    assert TrimEnd("false") == "false";
    assert ToLower("false")[0] == 'f';
  }

  /** " TRUE " is on: case and surrounding blanks do not matter. */
  lemma PaddedUpperTrueIsOn()
    ensures IsTrueFlag(" TRUE ")
  {
    assert TrimStart(" TRUE ") == "TRUE " by {
      assert " TRUE "[1..] == "TRUE ";
    }
    assert TrimEnd("TRUE ") == "TRUE" by {
      assert "TRUE "[..4] == "TRUE";
    }
    assert ToLower("TRUE") == "true";
  }

  /** "yes" is off: only "true" and "1" turn a flag on. */
  lemma YesIsOff()
    ensures !IsTrueFlag("yes")
  {
    assert TrimStart("yes") == "yes";
    assert TrimEnd("yes") == "yes";
    assert ToLower("yes")[0] == 'y';
  }

  /** The fix-up changes no property but HTTPS_ENABLED, and writes nothing there but "false". */
  lemma FixedUpOthers(env: map<string, string>, properties: map<string, string>)
    ensures var p := FixedUp(env, properties);
            && p.Keys <= properties.Keys + {HTTPS_ENABLED}
            && (forall k :: k != HTTPS_ENABLED ==> (k in p <==> k in properties))
            && (forall k :: k in p && k != HTTPS_ENABLED ==> p[k] == properties[k])
            && (p != properties ==> HTTPS_ENABLED in p && p[HTTPS_ENABLED] == "false")
  {
  }

  /** When the environment leaves HTTPS_ENABLED to the properties, the fix-up never leaves HTTPS on without a keystore. */
  lemma FixedUpSettles(env: map<string, string>, properties: map<string, string>)
    requires HTTPS_ENABLED !in env
    ensures !HttpsWithoutKeystore(env, FixedUp(env, properties))
  {
    if HttpsWithoutKeystore(env, properties) {
      var p := properties[HTTPS_ENABLED := "false"];
      assert Resolve(env, p, HTTPS_ENABLED) == Some("false");
      FalseIsOff();
    }
  }

  /** The fix-up applied twice is the fix-up applied once. */
  lemma FixedUpIdempotent(env: map<string, string>, properties: map<string, string>)
    ensures FixedUp(env, FixedUp(env, properties)) == FixedUp(env, properties)
  {
    var p := FixedUp(env, properties);
    if HttpsWithoutKeystore(env, properties) {
      assert p[HTTPS_ENABLED := "false"] == p;
    }
  }

  /** Loading the same ".env" a second time changes nothing more. */
  lemma LoadTwiceSameAsOnce(env: map<string, string>, properties: map<string, string>, file: DotEnvFile)
    ensures AfterLoad(env, AfterLoad(env, properties, file), file) == AfterLoad(env, properties, file)
  {
    if file.Lines? {
      var settings := Parsed(file.lines);
      var once := Loaded(env, properties, settings);
      var p := FixedUp(env, once);
      LoadedKeepsExisting(env, properties, settings);
      forall i | 0 <= i < |settings| && settings[i].Some?
        ensures settings[i].value.key in env || settings[i].value.key in p
      {
        var k := settings[i].value.key;
        if k !in env && k !in properties {
          LoadedFirstWins(env, properties, settings, k);
          assert Defines(settings[i], k);
        }
      }
      LoadedSettled(env, p, settings);
      FixedUpIdempotent(env, once);
    }
  }

  /** A secret key guards the API when it is set and not blank. */
  predicate KeyEnabled(secretKey: Option<string>)
  {
    secretKey.Some? && !IsBlank(secretKey.value)
  }

  // ------------------------------------------------------------ the store and the getters

  /**
   * The process environment, fixed for the life of the process, and the JVM
   * system properties, which the ".env" loader writes.
   */
  class SystemEnvironment {
    const env: map<string, string>
    var properties: map<string, string>

    constructor (env: map<string, string>, properties: map<string, string>)
      ensures this.env == env && this.properties == properties
    {
      this.env := env;
      this.properties := properties;
    }

    /**
     * `loadDotEnv`: a missing or unreadable file changes nothing; otherwise
     * each line in turn, then the HTTPS fix-up.
     */
    method LoadDotEnv(file: DotEnvFile)
      modifies this
      ensures properties == AfterLoad(env, old(properties), file)
      ensures !file.Lines? ==> properties == old(properties)
    {
      if !file.Lines? {
        return;
      }
      ReadLines(file.lines);
      FixUpHttps();
    }

    /** The loop over the lines of ".env". */
    method ReadLines(lines: seq<string>)
      modifies this
      ensures properties == Loaded(env, old(properties), Parsed(lines))
    {
      var i := 0;
      while i < |lines|
        invariant 0 <= i <= |lines|
        invariant properties == Loaded(env, old(properties), Parsed(lines[..i]))
      {
        ParsedSnoc(lines, i);
        LoadedSnoc(env, old(properties), Parsed(lines[..i]), ParseLine(lines[i]));
        var setting := ParseLine(lines[i]);
        PutSetting(setting);
        i := i + 1;
      }
      assert lines[..i] == lines;
    }

    /** A setting is added unless its key is already in the environment or the properties. */
    method PutSetting(setting: Option<Setting>)
      modifies this
      ensures properties == Step(env, old(properties), setting)
    {
      if setting.Some? && setting.value.key !in env && setting.value.key !in properties {
        properties := properties[setting.value.key := setting.value.value];
      }
    }

    /** HTTPS_ENABLED forced to "false" when it is on and no keystore path is set. */
    method FixUpHttps()
      modifies this
      ensures properties == FixedUp(env, old(properties))
    {
      var https := Resolve(env, properties, HTTPS_ENABLED);
      if https.Some? && IsTrueFlag(https.value) {
        var keystore := Resolve(env, properties, SSL_KEYSTORE_PATH);
        if keystore.None? || IsBlank(keystore.value) {
          properties := properties[HTTPS_ENABLED := "false"];
        }
      }
    }

    /** `getSecretKey`. */
    function SecretKey(): Option<string>
      reads this
    {
      Resolve(env, properties, SECRET_KEY)
    }

    /** `isSecretKeyEnabled`. */
    predicate IsSecretKeyEnabled()
      reads this
    {
      KeyEnabled(SecretKey())
    }

    /** `isAsyncProcessingEnabled`. */
    predicate IsAsyncProcessingEnabled()
      reads this
    {
      var value := Resolve(env, properties, ASYNC_PROCESSING);
      value.Some? && IsTrueFlag(value.value)
    }

    /** `isDebugModeEnabled`. */
    predicate IsDebugModeEnabled()
      reads this
    {
      var value := Resolve(env, properties, DEBUG_MODE);
      value.Some? && IsTrueFlag(value.value)
    }
  }

  /**
   * After the ".env" is loaded, the secret key is the environment's when it
   * has one, else a property set before, else the value of the first line
   * defining SECRET_KEY, and is unset when none of these exists.
   */
  lemma LoadedSecretKey(env: map<string, string>, properties: map<string, string>, lines: seq<string>)
    ensures var p := AfterLoad(env, properties, Lines(lines));
            var settings := Parsed(lines);
            && (SECRET_KEY in env ==> Resolve(env, p, SECRET_KEY) == Some(env[SECRET_KEY]))
            && (SECRET_KEY !in env && SECRET_KEY in properties ==> Resolve(env, p, SECRET_KEY) == Some(properties[SECRET_KEY]))
            && (SECRET_KEY !in env && SECRET_KEY !in properties ==>
                  && (forall i :: FirstDefinition(settings, SECRET_KEY, i) ==> Resolve(env, p, SECRET_KEY) == Some(settings[i].value.value))
                  && ((forall i :: 0 <= i < |lines| ==> !Defines(settings[i], SECRET_KEY)) ==> Resolve(env, p, SECRET_KEY) == None))
  {
    var settings := Parsed(lines);
    var loaded := Loaded(env, properties, settings);
    assert AfterLoad(env, properties, Lines(lines)) == FixedUp(env, loaded);
    LoadedKeepsExisting(env, properties, settings);
    if SECRET_KEY !in env && SECRET_KEY !in properties {
      LoadedFirstWins(env, properties, settings, SECRET_KEY);
    }
    assert SECRET_KEY != HTTPS_ENABLED by {
      assert SECRET_KEY[0] != HTTPS_ENABLED[0];
    }
    FixedUpOthers(env, loaded);
  }
}

=== FILE: file_names.dfy ===
/**
 * The file-name extension rules. The components disagree on three points:
 * whether the dot belongs to the extension, whether a dot in first position
 * (a dotfile) starts an extension, and whether the result is lower-cased.
 */
module FileNames {
  import opened JavaLang
  import opened JavaText

  /** No '.' in `s`. */
  predicate DotFree(s: string)
  {
    forall k :: 0 <= k < |s| ==> s[k] != '.'
  }

  /**
   * `getFileExtension` of the four file processors, the processor registry
   * and the transform service: the text after the last dot, "" for a null
   * or empty name or a name without a dot.
   */
  function AfterLastDot(filename: Option<string>): string
  {
    if filename.None? || filename.value == [] then ""
    else
      var lastDot := LastIndexOf(filename.value, '.');
      if lastDot == -1 then "" else filename.value[lastDot + 1..]
  }

  /**
   * `getFileExtension` of the type detector and the document service: from
   * the last dot, dot included, lower-cased; "" when there is no dot or the
   * only candidate is the first character.
   */
  function DottedExtension(filename: Option<string>): string
  {
    if filename.None? then ""
    else
      var lastDot := LastIndexOf(filename.value, '.');
      if lastDot > 0 then ToLower(filename.value[lastDot..]) else ""
  }

  /**
   * `getFileExtension` of the archive service: from the last dot, dot
   * included, case kept; "" when there is no dot or the name ends in one.
   */
  function ArchiveExtension(filename: Option<string>): string
  {
    if filename.None? || filename.value == [] then ""
    else
      var lastDot := LastIndexOf(filename.value, '.');
      if lastDot == -1 || lastDot == |filename.value| - 1 then "" else filename.value[lastDot..]
  }

  /** `getImageFormat`: the lower-cased text after a last dot past index 0, with "jpg" read as "jpeg". */
  function ImageFormat(filename: Option<string>): string
  {
    if filename.None? then ""
    else
      var lastDot := LastIndexOf(filename.value, '.');
      if lastDot > 0 then
        var ext := ToLower(filename.value[lastDot + 1..]);
        if ext == "jpg" then "jpeg" else ext
      else ""
  }

  /** The undotted extension contains no dot and ends the name right after a dot. */
  lemma AfterLastDotSpec(name: string)
    ensures DotFree(AfterLastDot(Some(name)))
    ensures AfterLastDot(Some(name)) != [] ==> EndsWith(name, "." + AfterLastDot(Some(name)))
  {
    var lastDot := LastIndexOf(name, '.');
    if name != [] && lastDot != -1 {
      var r := name[lastDot + 1..];
      assert AfterLastDot(Some(name)) == r;
      forall k | 0 <= k < |r| ensures r[k] != '.' {
        assert r[k] == name[lastDot + 1 + k];
      }
      assert name[|name| - |r| - 1..] == "." + r;
    }
  }

  /** The undotted extension is empty exactly when the name has no dot or ends in one. */
  lemma AfterLastDotEmpty(name: string)
    ensures AfterLastDot(Some(name)) == [] <==> DotFree(name) || (name != [] && name[|name| - 1] == '.')
  {
    var lastDot := LastIndexOf(name, '.');
    if DotFree(name) {
      assert lastDot == -1;
    }
    if name != [] && name[|name| - 1] == '.' {
      assert lastDot == |name| - 1;
    }
    if lastDot == -1 {
      assert DotFree(name);
    }
  }

  /**
   * Where the last dot is past the first character, the dotted rule is the
   * undotted one with the dot put back and lower-cased.
   */
  lemma DottedIsLoweredAfterDot(name: string)
    requires LastIndexOf(name, '.') > 0
    ensures DottedExtension(Some(name)) == ToLower("." + AfterLastDot(Some(name)))
  {
    var lastDot := LastIndexOf(name, '.');
    var after := name[lastDot + 1..];
    assert name[lastDot..] == "." + after;
    assert AfterLastDot(Some(name)) == after;
  }

  /** Past the first character and before the last, the dotted rule is the archive rule lower-cased. */
  lemma DottedIsLoweredArchive(name: string)
    requires 0 < LastIndexOf(name, '.') < |name| - 1
    ensures DottedExtension(Some(name)) == ToLower(ArchiveExtension(Some(name)))
  {
  }

  /** The image format is the lower-cased undotted extension, "jpg" read as "jpeg". */
  lemma ImageFormatIsAfterDot(name: string)
    requires LastIndexOf(name, '.') > 0
    ensures var ext := ToLower(AfterLastDot(Some(name)));
            ImageFormat(Some(name)) == if ext == "jpg" then "jpeg" else ext
  {
  }

  /** Where text follows the last dot, the archive rule is the undotted one with the dot put back. */
  lemma ArchiveIsDotPlusAfterDot(name: string)
    requires AfterLastDot(Some(name)) != []
    ensures ArchiveExtension(Some(name)) == "." + AfterLastDot(Some(name))
  {
    var lastDot := LastIndexOf(name, '.');
    assert name[lastDot..] == "." + name[lastDot + 1..];
  }

  /** A dotfile: only the undotted and the archive rules see an extension in ".env". */
  lemma DotfileRulesDiffer()
    ensures AfterLastDot(Some(".env")) == "env"
    ensures ArchiveExtension(Some(".env")) == ".env"
    ensures DottedExtension(Some(".env")) == ""
    ensures ImageFormat(Some(".env")) == ""
  {
    var name := ".env";
    assert name[0] == '.' && name[1] != '.' && name[2] != '.' && name[3] != '.';
    assert LastIndexOf(name, '.') == 0;
    assert name[1..] == "env";
  }

  /** A trailing dot: the dotted rule answers ".", the archive rule "". */
  lemma TrailingDotRulesDiffer()
    ensures AfterLastDot(Some("lib.")) == ""
    ensures ArchiveExtension(Some("lib.")) == ""
    ensures DottedExtension(Some("lib.")) == "."
  {
    var name := "lib.";
    assert name[3] == '.';
    assert LastIndexOf(name, '.') == 3;
    assert ToLower(name[3..]) == ".";
  }

  lemma ToLowerCharDot(c: char)
    ensures ToLowerChar(c) == '.' <==> c == '.'
  {
  }

  /**
   * The lower-cased name ends in a dot and `ext` exactly when the lower-cased
   * text after the last dot is `ext`.
   */
  lemma LoweredSuffix(name: string, ext: string)
    requires ext != [] && DotFree(ext)
    ensures EndsWith(ToLower(name), "." + ext) <==> ToLower(AfterLastDot(Some(name))) == ext
  {
    if EndsWith(ToLower(name), "." + ext) {
      SuffixGivesExtension(name, ext);
    }
    if ToLower(AfterLastDot(Some(name))) == ext {
      ExtensionGivesSuffix(name, ext);
    }
  }

  lemma SuffixGivesExtension(name: string, ext: string)
    requires DotFree(ext) && EndsWith(ToLower(name), "." + ext)
    ensures ToLower(AfterLastDot(Some(name))) == ext
  {
    var lower := ToLower(name);
    var after := AfterLastDot(Some(name));
    {
      var i := |name| - |ext| - 1;
      assert lower[i] == ("." + ext)[0] == '.';
      ToLowerCharDot(name[i]);
      forall j | i < j < |name| ensures name[j] != '.' {
        assert lower[j] == ("." + ext)[j - i] == ext[j - i - 1];
        ToLowerCharDot(name[j]);
      }
      assert LastIndexOf(name, '.') == i;
      assert after == name[i + 1..];
      assert ToLower(after) == ext by {
        forall k | 0 <= k < |ext| ensures ToLower(after)[k] == ext[k] {
          assert after[k] == name[i + 1 + k];
          assert lower[i + 1 + k] == ("." + ext)[k + 1];
        }
      }
    }
  }

  lemma ExtensionGivesSuffix(name: string, ext: string)
    requires ext != [] && ToLower(AfterLastDot(Some(name))) == ext
    ensures EndsWith(ToLower(name), "." + ext)
  {
    var lower := ToLower(name);
    var after := AfterLastDot(Some(name));
    {
      AfterLastDotSpec(name);
      var i := |name| - |after| - 1;
      assert name[i..] == "." + after;
      assert lower[i..] == "." + ext by {
        forall k | 0 <= k < |name| - i ensures lower[i..][k] == ("." + ext)[k] {
          assert name[i + k] == ("." + after)[k];
          if k > 0 {
            assert ToLower(after)[k - 1] == ToLowerChar(after[k - 1]);
          }
        }
      }
    }
  }
}

=== FILE: file_processor_registry.dfy ===
/**
 * The processor registry: the registered file processors sorted once by
 * descending priority, a lookup that consults an extension cache and a
 * MIME-type cache before scanning for the first processor that accepts the
 * file, the per-extension and per-MIME-type listings, validation through
 * the chosen processor, and the supported-type unions.
 */
module FileProcessorRegistries {
  import opened JavaLang
  import opened JavaText
  import opened Placeholders
  import opened ValidationResults
  import opened FileNames
  import PlaceholderEngines
  import TextFileProcessors
  import ImageFileProcessors
  import DocumentFileProcessors
  import ArchiveFileProcessors
  import PriorityOrder

  /** A registered processor; the two that own an engine carry their object. */
  datatype Processor =
    | Text(text: TextFileProcessors.TextFileProcessor)
    | Image
    | Document
    | Archive(archive: ArchiveFileProcessors.ArchiveFileProcessor)

  /** `getPriority`. */
  function Priority(p: Processor): int
  {
    match p
    case Text(_) => TextFileProcessors.PRIORITY
    case Image => ImageFileProcessors.PRIORITY
    case Document => DocumentFileProcessors.PRIORITY
    case Archive(_) => ArchiveFileProcessors.PRIORITY
  }

  /** `getSupportedExtensions`. */
  function SupportedExtensions(p: Processor): set<string>
  {
    match p
    case Text(_) => TextFileProcessors.SUPPORTED_EXTENSIONS
    case Image => ImageFileProcessors.SUPPORTED_EXTENSIONS
    case Document => DocumentFileProcessors.SUPPORTED_EXTENSIONS
    case Archive(_) => ArchiveFileProcessors.SUPPORTED_EXTENSIONS
  }

  /** `getSupportedMimeTypes`. */
  function SupportedMimeTypes(p: Processor): set<string>
  {
    match p
    case Text(_) => TextFileProcessors.SUPPORTED_MIME_TYPES
    case Image => ImageFileProcessors.SUPPORTED_MIME_TYPES
    case Document => DocumentFileProcessors.SUPPORTED_MIME_TYPES
    case Archive(_) => ArchiveFileProcessors.SUPPORTED_MIME_TYPES
  }

  /** `canProcess`. */
  predicate CanProcess(p: Processor, filename: Option<string>, mimeType: Option<string>)
  {
    match p
    case Text(_) => TextFileProcessors.CanProcess(filename, mimeType)
    case Image => ImageFileProcessors.CanProcess(filename, mimeType)
    case Document => DocumentFileProcessors.CanProcess(filename, mimeType)
    case Archive(_) => ArchiveFileProcessors.CanProcess(filename, mimeType)
  }

  // ------------------------------------------------------------ priority order

  /**
   * Spring registers the four components in class-name order; sorted, the
   * image processor comes first and the text processor last.
   */
  lemma RegisteredOrder(t: TextFileProcessors.TextFileProcessor, a: ArchiveFileProcessors.ArchiveFileProcessor)
    ensures PriorityOrder.Sort(Priority, [Archive(a), Document, Image, Text(t)]) == [Image, Document, Archive(a), Text(t)]
  {
    SortLastInserted(t, a);
    SortedFirstThree(a);
    InsertTextLast(t, a);
  }

  lemma SortLastInserted(t: TextFileProcessors.TextFileProcessor, a: ArchiveFileProcessors.ArchiveFileProcessor)
    ensures PriorityOrder.Sort(Priority, [Archive(a), Document, Image, Text(t)])
         == PriorityOrder.Insert(Priority, Text(t), PriorityOrder.Sort(Priority, [Archive(a), Document, Image]))
  {
    assert [Archive(a), Document, Image, Text(t)][..3] == [Archive(a), Document, Image];
  }

  lemma InsertTextLast(t: TextFileProcessors.TextFileProcessor, a: ArchiveFileProcessors.ArchiveFileProcessor)
    ensures PriorityOrder.Sorted(Priority, [Image, Document, Archive(a)])
    ensures PriorityOrder.Insert(Priority, Text(t), [Image, Document, Archive(a)]) == [Image, Document, Archive(a), Text(t)]
  {
    TextBelowTheRest(t, a);
    PriorityOrder.InsertLowest(Priority, Text(t), [Image, Document, Archive(a)]);
  }

  lemma TextBelowTheRest(t: TextFileProcessors.TextFileProcessor, a: ArchiveFileProcessors.ArchiveFileProcessor)
    ensures PriorityOrder.Sorted(Priority, [Image, Document, Archive(a)])
    ensures forall i :: 0 <= i < 3 ==> Priority(Text(t)) <= Priority([Image, Document, Archive(a)][i])
  {
  }

  lemma SortedFirstThree(a: ArchiveFileProcessors.ArchiveFileProcessor)
    ensures PriorityOrder.Sort(Priority, [Archive(a), Document, Image]) == [Image, Document, Archive(a)]
  {
    assert [Archive(a), Document, Image][..2] == [Archive(a), Document];
    assert [Archive(a), Document][..1] == [Archive(a)];
    assert [Archive(a)][..0] == [];
    assert PriorityOrder.Sort(Priority, [Archive(a)]) == [Archive(a)];
    assert PriorityOrder.Sort(Priority, [Archive(a), Document]) == [Document, Archive(a)];
  }

  // ------------------------------------------------------------ lookup

  /** The scan of `findProcessor`: the first processor, in list order, that accepts the file. */
  function FirstMatch(ps: seq<Processor>, filename: Option<string>, mimeType: Option<string>): Option<Processor>
  {
    if ps == [] then None
    else if CanProcess(ps[0], filename, mimeType) then Some(ps[0])
    else FirstMatch(ps[1..], filename, mimeType)
  }

  /**
   * The scan answers a registered processor that accepts the file, with no
   * accepting processor before it; it answers nothing exactly when no
   * registered processor accepts the file.
   */
  lemma FirstMatchSpec(ps: seq<Processor>, filename: Option<string>, mimeType: Option<string>)
    ensures FirstMatch(ps, filename, mimeType).None? <==> forall i :: 0 <= i < |ps| ==> !CanProcess(ps[i], filename, mimeType)
    ensures FirstMatch(ps, filename, mimeType).Some? ==>
      exists i :: 0 <= i < |ps| && ps[i] == FirstMatch(ps, filename, mimeType).value && CanProcess(ps[i], filename, mimeType)
        && forall j :: 0 <= j < i ==> !CanProcess(ps[j], filename, mimeType)
  {
    MatchIndexSpec(ps, filename, mimeType);
  }

  /** The position of the first accepting processor, or the list's length when none accepts. */
  function MatchIndex(ps: seq<Processor>, filename: Option<string>, mimeType: Option<string>): (i: nat)
    ensures i <= |ps|
  {
    if ps == [] then 0
    else if CanProcess(ps[0], filename, mimeType) then 0
    else 1 + MatchIndex(ps[1..], filename, mimeType)
  }

  lemma {:induction false} MatchIndexSpec(ps: seq<Processor>, filename: Option<string>, mimeType: Option<string>)
    ensures var i := MatchIndex(ps, filename, mimeType);
      && (forall j :: 0 <= j < i ==> !CanProcess(ps[j], filename, mimeType))
      && (i < |ps| ==> CanProcess(ps[i], filename, mimeType) && FirstMatch(ps, filename, mimeType) == Some(ps[i]))
      && (i == |ps| ==> FirstMatch(ps, filename, mimeType).None?)
  {
    if ps != [] && !CanProcess(ps[0], filename, mimeType) {
      MatchIndexSpec(ps[1..], filename, mimeType);
      forall j | 0 < j < |ps| ensures ps[j] == ps[1..][j - 1] {}
    }
  }

  /** Over the priority-sorted list, the scan picks a processor of the highest priority among those that accept the file. */
  lemma {:induction false} FirstMatchHighestPriority(ps: seq<Processor>, filename: Option<string>, mimeType: Option<string>)
    requires PriorityOrder.Sorted(Priority, ps)
    ensures FirstMatch(ps, filename, mimeType).Some? ==>
      forall i :: 0 <= i < |ps| && CanProcess(ps[i], filename, mimeType) ==> Priority(ps[i]) <= Priority(FirstMatch(ps, filename, mimeType).value)
  {
    FirstMatchSpec(ps, filename, mimeType);
    if FirstMatch(ps, filename, mimeType).Some? {
      var k :| 0 <= k < |ps| && ps[k] == FirstMatch(ps, filename, mimeType).value && CanProcess(ps[k], filename, mimeType)
        && forall j :: 0 <= j < k ==> !CanProcess(ps[j], filename, mimeType);
      forall i | 0 <= i < |ps| && CanProcess(ps[i], filename, mimeType)
        ensures Priority(ps[i]) <= Priority(ps[k])
      {
        assert i >= k;
      }
    }
  }

  /** The loop of `findProcessor` over the sorted processors: the first that accepts the file. */
  method Scan(ps: seq<Processor>, filename: Option<string>, mimeType: Option<string>) returns (r: Option<Processor>)
    ensures r == FirstMatch(ps, filename, mimeType)
  {
    var i := 0;
    while i < |ps|
      invariant 0 <= i <= |ps|
      invariant FirstMatch(ps[i..], filename, mimeType) == FirstMatch(ps, filename, mimeType)
    {
      if CanProcess(ps[i], filename, mimeType) {
        return Some(ps[i]);
      }
      assert ps[i..][1..] == ps[i + 1..];
      i := i + 1;
    }
    return None;
  }

  /** The two caches of `findProcessor`, keyed by lower-cased extension and lower-cased MIME type. */
  datatype Caches = Caches(byExtension: map<string, Processor>, byMimeType: map<string, Processor>)

  /** The extension key: the lower-cased text after the last dot. */
  function ExtensionKey(filename: Option<string>): string
  {
    ToLower(AfterLastDot(filename))
  }

  /**
   * `findProcessor` on a cache state: a hit in the extension cache (for a
   * non-empty extension), then in the MIME-type cache, answers without a
   * scan; otherwise the scan's answer, cached under the extension (when
   * non-empty) and the MIME type (when given). No match caches nothing.
   */
  function FindStep(c: Caches, ps: seq<Processor>, filename: Option<string>, mimeType: Option<string>): (Option<Processor>, Caches)
  {
    var extension := ExtensionKey(filename);
    if extension != [] && extension in c.byExtension then (Some(c.byExtension[extension]), c)
    else if mimeType.Some? && ToLower(mimeType.value) in c.byMimeType then (Some(c.byMimeType[ToLower(mimeType.value)]), c)
    else
      match FirstMatch(ps, filename, mimeType)
      case None => (None, c)
      case Some(p) =>
        (Some(p), Caches(
          if extension != [] then c.byExtension[extension := p] else c.byExtension,
          if mimeType.Some? then c.byMimeType[ToLower(mimeType.value) := p] else c.byMimeType))
  }

  /** Every cached processor is a registered one. */
  predicate Registered(c: Caches, ps: seq<Processor>)
  {
    && (forall e :: e in c.byExtension ==> c.byExtension[e] in ps)
    && (forall t :: t in c.byMimeType ==> c.byMimeType[t] in ps)
  }

  lemma FirstMatchRegistered(ps: seq<Processor>, filename: Option<string>, mimeType: Option<string>)
    ensures FirstMatch(ps, filename, mimeType).Some? ==> FirstMatch(ps, filename, mimeType).value in ps
  {
    FirstMatchSpec(ps, filename, mimeType);
  }

  /**
   * A lookup answers a registered processor or nothing, and the caches only
   * ever hold registered processors; a miss answers what the scan answers.
   */
  lemma FindStepRegistered(c: Caches, ps: seq<Processor>, filename: Option<string>, mimeType: Option<string>)
    requires Registered(c, ps)
    ensures Registered(FindStep(c, ps, filename, mimeType).1, ps)
    ensures FindStep(c, ps, filename, mimeType).0.Some? ==> FindStep(c, ps, filename, mimeType).0.value in ps
    ensures FindStep(c, ps, filename, mimeType).1 == c || FindStep(c, ps, filename, mimeType).0 == FirstMatch(ps, filename, mimeType)
  {
    FirstMatchRegistered(ps, filename, mimeType);
  }

  /** Asking twice gives the same answer and leaves the caches as the first lookup left them. */
  lemma FindStepIdempotent(c: Caches, ps: seq<Processor>, filename: Option<string>, mimeType: Option<string>)
    ensures var (r, c') := FindStep(c, ps, filename, mimeType);
      FindStep(c', ps, filename, mimeType) == (r, c')
  {
  }

  /** With empty caches a lookup is the scan. */
  lemma EmptyCachesScan(ps: seq<Processor>, filename: Option<string>, mimeType: Option<string>)
    ensures FindStep(Caches(map[], map[]), ps, filename, mimeType).0 == FirstMatch(ps, filename, mimeType)
  {
  }

  lemma DataBinExtension()
    ensures ExtensionKey(Some("data.bin")) == "bin"
  {
    var name := "data.bin";
    assert name[4] == '.' && name[5] != '.' && name[6] != '.' && name[7] != '.';
    assert LastIndexOf(name, '.') == 4;
    assert name[5..] == "bin";
    assert ToLower("bin") == "bin";
  }

  /**
   * As written, the extension cache ignores the MIME type that chose the
   * processor: "data.bin" as "image/png" caches the image processor under
   * "bin", and "data.bin" as "application/pdf" is then served the image
   * processor, though the scan chooses the document processor.
   */
  lemma ExtensionCacheIgnoresMimeType(t: TextFileProcessors.TextFileProcessor, a: ArchiveFileProcessors.ArchiveFileProcessor)
    ensures var ps := [Image, Document, Archive(a), Text(t)];
      var (first, c) := FindStep(Caches(map[], map[]), ps, Some("data.bin"), Some("image/png"));
      && first == Some(Image)
      && FindStep(c, ps, Some("data.bin"), Some("application/pdf")).0 == Some(Image)
      && FirstMatch(ps, Some("data.bin"), Some("application/pdf")) == Some(Document)
  {
    var ps := [Image, Document, Archive(a), Text(t)];
    DataBinAcceptance();
    assert ps[1..] == [Document, Archive(a), Text(t)];
  }

  /** Who accepts "data.bin": the image processor as "image/png"; as "application/pdf", the document processor and not the image processor. */
  lemma DataBinAcceptance()
    ensures CanProcess(Image, Some("data.bin"), Some("image/png"))
    ensures !CanProcess(Image, Some("data.bin"), Some("application/pdf"))
    ensures CanProcess(Document, Some("data.bin"), Some("application/pdf"))
    ensures ExtensionKey(Some("data.bin")) == "bin"
  {
    DataBinExtension();
    DataBinImage();
    DataBinDocument();
  }

  lemma DataBinImage()
    ensures ImageFileProcessors.CanProcess(Some("data.bin"), Some("image/png"))
    ensures !ImageFileProcessors.CanProcess(Some("data.bin"), Some("application/pdf"))
  {
    DataBinExtension();
    assert ToLower("image/png") == "image/png";
    assert ToLower("application/pdf") == "application/pdf";
    assert StartsWith("image/png", "image/");
    assert !StartsWith("application/pdf", "image/") by {
      assert "application/pdf"[0] != "image/"[0];
    }
  }

  lemma DataBinDocument()
    ensures DocumentFileProcessors.CanProcess(Some("data.bin"), Some("application/pdf"))
  {
    assert ToLower("application/pdf") == "application/pdf";
  }

  // ------------------------------------------------------------ corrected lookup

  /** What every processor's `canProcess` reads of a query: the lower-cased extension and the lower-cased MIME type. */
  datatype QueryKey = QueryKey(extension: Option<string>, mimeType: Option<string>)

  function KeyOf(filename: Option<string>, mimeType: Option<string>): QueryKey
  {
    QueryKey(
      if filename.Some? then Some(ExtensionKey(filename)) else None,
      if mimeType.Some? then Some(ToLower(mimeType.value)) else None)
  }

  /** Two queries with one key are accepted by the same processors. */
  lemma SameKeySameAnswer(p: Processor, f1: Option<string>, m1: Option<string>, f2: Option<string>, m2: Option<string>)
    requires KeyOf(f1, m1) == KeyOf(f2, m2)
    ensures CanProcess(p, f1, m1) == CanProcess(p, f2, m2)
  {
  }

  lemma {:induction false} SameKeySameMatch(ps: seq<Processor>, f1: Option<string>, m1: Option<string>, f2: Option<string>, m2: Option<string>)
    requires KeyOf(f1, m1) == KeyOf(f2, m2)
    ensures FirstMatch(ps, f1, m1) == FirstMatch(ps, f2, m2)
    decreases |ps|
  {
    if ps != [] {
      SameKeySameAnswer(ps[0], f1, m1, f2, m2);
      SameKeySameMatch(ps[1..], f1, m1, f2, m2);
    }
  }

  /** A cache entry holds what the scan answers for every query with its key. */
  ghost predicate CacheExact(cache: map<QueryKey, Processor>, ps: seq<Processor>)
  {
    forall f: Option<string>, m: Option<string> :: KeyOf(f, m) in cache ==> FirstMatch(ps, f, m) == Some(cache[KeyOf(f, m)])
  }

  /** The lookup with one cache keyed by extension and MIME type together. */
  function CorrectedFindStep(cache: map<QueryKey, Processor>, ps: seq<Processor>, filename: Option<string>, mimeType: Option<string>)
    : (Option<Processor>, map<QueryKey, Processor>)
  {
    var key := KeyOf(filename, mimeType);
    if key in cache then (Some(cache[key]), cache)
    else
      match FirstMatch(ps, filename, mimeType)
      case None => (None, cache)
      case Some(p) => (Some(p), cache[key := p])
  }

  /** Keyed by everything `canProcess` reads, the cache never changes an answer: every lookup is the scan. */
  lemma CorrectedFindAgreesWithScan(cache: map<QueryKey, Processor>, ps: seq<Processor>, filename: Option<string>, mimeType: Option<string>)
    requires CacheExact(cache, ps)
    ensures CorrectedFindStep(cache, ps, filename, mimeType).0 == FirstMatch(ps, filename, mimeType)
    ensures CacheExact(CorrectedFindStep(cache, ps, filename, mimeType).1, ps)
  {
    var key := KeyOf(filename, mimeType);
    if key !in cache && FirstMatch(ps, filename, mimeType).Some? {
      var cache' := cache[key := FirstMatch(ps, filename, mimeType).value];
      forall f: Option<string>, m: Option<string> | KeyOf(f, m) in cache'
        ensures FirstMatch(ps, f, m) == Some(cache'[KeyOf(f, m)])
      {
        if KeyOf(f, m) == key {
          SameKeySameMatch(ps, f, m, filename, mimeType);
        }
      }
    }
  }

  // ------------------------------------------------------------ listings

  /**
   * The listings of `getProcessorsForExtension` and `getProcessorsForMimeType`
   * on a lower-cased key: the processors whose set of supported types
   * (`sets` is SupportedExtensions or SupportedMimeTypes) holds the key, in
   * list order.
   */
  function Listing(ps: seq<Processor>, sets: Processor -> set<string>, key: string): seq<Processor>
  {
    if ps == [] then []
    else Listing(ps[..|ps| - 1], sets, key) + (if key in sets(ps[|ps| - 1]) then [ps[|ps| - 1]] else [])
  }

  /** Exactly the processors listing the key, and no more of each than registered. */
  lemma {:induction false} ListingSpec(ps: seq<Processor>, sets: Processor -> set<string>, key: string)
    ensures forall p :: p in Listing(ps, sets, key) ==> p in ps && key in sets(p)
    ensures forall p :: p in ps && key in sets(p) ==> p in Listing(ps, sets, key)
    ensures multiset(Listing(ps, sets, key)) <= multiset(ps)
    decreases |ps|
  {
    if ps != [] {
      var n := |ps| - 1;
      ListingSpec(ps[..n], sets, key);
      assert ps == ps[..n] + [ps[n]];
    }
  }

  /** A listing of processors of priority at least `bound` has only such processors. */
  lemma {:induction false} ListingBounded(ps: seq<Processor>, sets: Processor -> set<string>, key: string, bound: int)
    requires forall i :: 0 <= i < |ps| ==> Priority(ps[i]) >= bound
    ensures forall i :: 0 <= i < |Listing(ps, sets, key)| ==> Priority(Listing(ps, sets, key)[i]) >= bound
    decreases |ps|
  {
    if ps != [] {
      var n := |ps| - 1;
      ListingBounded(ps[..n], sets, key, bound);
    }
  }

  /** A listing of the priority-sorted processors is in priority order. */
  lemma {:induction false} ListingSorted(ps: seq<Processor>, sets: Processor -> set<string>, key: string)
    requires PriorityOrder.Sorted(Priority, ps)
    ensures PriorityOrder.Sorted(Priority, Listing(ps, sets, key))
    decreases |ps|
  {
    if ps != [] {
      var n := |ps| - 1;
      assert PriorityOrder.Sorted(Priority, ps[..n]);
      ListingSorted(ps[..n], sets, key);
      if key in sets(ps[n]) {
        ListingBounded(ps[..n], sets, key, Priority(ps[n]));
        PriorityOrder.SnocSorted(Priority, Listing(ps[..n], sets, key), ps[n]);
      }
    }
  }

  /** `getAllSupportedExtensions` and `getAllSupportedMimeTypes`: the union of the processors' sets. */
  function UnionOf(ps: seq<Processor>, sets: Processor -> set<string>): set<string>
  {
    if ps == [] then {} else UnionOf(ps[..|ps| - 1], sets) + sets(ps[|ps| - 1])
  }

  /** A type is in the union exactly when some registered processor supports it. */
  lemma {:induction false} UnionOfSpec(ps: seq<Processor>, sets: Processor -> set<string>)
    ensures forall x :: x in UnionOf(ps, sets) <==> exists i :: 0 <= i < |ps| && x in sets(ps[i])
    decreases |ps|
  {
    if ps != [] {
      var n := |ps| - 1;
      UnionOfSpec(ps[..n], sets);
      assert forall i :: 0 <= i < n ==> ps[..n][i] == ps[i];
    }
  }

  // ------------------------------------------------------------ validation

  function NoProcessorError(filename: Option<string>, mimeType: Option<string>): string
  {
    "No processor found for file: " + JavaString(filename) + " (MIME: " + JavaString(mimeType) + ")"
  }

  /** The errors of the chosen processor's `validate`. */
  function ExpectedErrors(p: Processor, m: PlaceholderMap): seq<string>
  {
    match p
    case Text(_) => PlaceholderEngines.ValidationErrors(m)
    case Archive(_) => PlaceholderEngines.ValidationErrors(m)
    case Image => []
    case Document => []
  }

  /** The warnings of the chosen processor's `validate`. */
  function ExpectedWarnings(p: Processor, filename: Option<string>, m: PlaceholderMap): seq<string>
  {
    match p
    case Text(_) =>
      PlaceholderEngines.ValidationWarnings(m)
        + (if TextFileProcessors.IsJsonName(filename) then TextFileProcessors.JsonWarnings(m) else [])
    case Archive(_) => PlaceholderEngines.ValidationWarnings(m) + ArchiveFileProcessors.LargeValueWarnings(m)
    case Image => if |m| > 0 then [ImageFileProcessors.IGNORED_WARNING] else []
    case Document =>
      (if |m| > 0 then [DocumentFileProcessors.LIMITED_SUPPORT_WARNING] else []) + DocumentFileProcessors.LargeValueWarnings(m)
  }

  /** The text and archive processors reject a blank key; the image and document processors reject nothing. */
  lemma ExpectedValidity(p: Processor, m: PlaceholderMap)
    ensures ExpectedErrors(p, m) == [] <==> ((p.Text? || p.Archive?) ==> forall i :: 0 <= i < |m| ==> !IsBlank(m[i].key))
  {
    PlaceholderEngines.ValidIffNoBlankKey(m);
  }

  // ------------------------------------------------------------ the registry

  class FileProcessorRegistry {
    const processors: seq<Processor>
    var extensionCache: map<string, Processor>
    var mimeTypeCache: map<string, Processor>

    ghost predicate Valid()
      reads this
    {
      PriorityOrder.Sorted(Priority, processors) && Registered(Caches(extensionCache, mimeTypeCache), processors)
    }

    /** The processors sorted by descending priority (stable), and empty caches. */
    constructor (processors: seq<Processor>)
      ensures Valid()
      ensures this.processors == PriorityOrder.Sort(Priority, processors)
      ensures extensionCache == map[] && mimeTypeCache == map[]
    {
      this.processors := PriorityOrder.Sort(Priority, processors);
      extensionCache := map[];
      mimeTypeCache := map[];
    }

    /** `findProcessor`. */
    method FindProcessor(filename: Option<string>, mimeType: Option<string>) returns (r: Option<Processor>)
      requires Valid()
      modifies this`extensionCache, this`mimeTypeCache
      ensures Valid()
      ensures (r, Caches(extensionCache, mimeTypeCache)) == FindStep(old(Caches(extensionCache, mimeTypeCache)), processors, filename, mimeType)
    {
      FindStepRegistered(Caches(extensionCache, mimeTypeCache), processors, filename, mimeType);
      var extension := ToLower(AfterLastDot(filename));
      if extension != [] && extension in extensionCache {
        return Some(extensionCache[extension]);
      }
      if mimeType.Some? && ToLower(mimeType.value) in mimeTypeCache {
        return Some(mimeTypeCache[ToLower(mimeType.value)]);
      }
      var found := Scan(processors, filename, mimeType);
      if found.Some? {
        if extension != [] {
          extensionCache := extensionCache[extension := found.value];
        }
        if mimeType.Some? {
          mimeTypeCache := mimeTypeCache[ToLower(mimeType.value) := found.value];
        }
      }
      return found;
    }

    /** `getProcessorsForExtension`. */
    method GetProcessorsForExtension(extension: string) returns (result: seq<Processor>)
      ensures result == Listing(processors, SupportedExtensions, ToLower(extension))
    {
      result := [];
      var lowerExt := ToLower(extension);
      var i := 0;
      while i < |processors|
        invariant 0 <= i <= |processors|
        invariant result == Listing(processors[..i], SupportedExtensions, lowerExt)
      {
        assert processors[..i + 1][..i] == processors[..i];
        if lowerExt in SupportedExtensions(processors[i]) {
          result := result + [processors[i]];
        }
        i := i + 1;
      }
      assert processors[..i] == processors;
    }

    /** `getProcessorsForMimeType`. */
    method GetProcessorsForMimeType(mimeType: string) returns (result: seq<Processor>)
      ensures result == Listing(processors, SupportedMimeTypes, ToLower(mimeType))
    {
      result := [];
      var lowerMime := ToLower(mimeType);
      var i := 0;
      while i < |processors|
        invariant 0 <= i <= |processors|
        invariant result == Listing(processors[..i], SupportedMimeTypes, lowerMime)
      {
        assert processors[..i + 1][..i] == processors[..i];
        if lowerMime in SupportedMimeTypes(processors[i]) {
          result := result + [processors[i]];
        }
        i := i + 1;
      }
      assert processors[..i] == processors;
    }

    /**
     * `validateFile`: exactly one error naming the file and MIME type when no
     * processor is found, otherwise the chosen processor's validation.
     */
    method ValidateFile(filename: Option<string>, mimeType: Option<string>, m: PlaceholderMap) returns (result: ValidationResult)
      requires Valid()
      modifies this`extensionCache, this`mimeTypeCache
      ensures Valid() && fresh(result)
      ensures var (p, c) := FindStep(old(Caches(extensionCache, mimeTypeCache)), processors, filename, mimeType);
        && Caches(extensionCache, mimeTypeCache) == c
        && (p.None? ==> result.errors == [NoProcessorError(filename, mimeType)] && result.warnings == [])
        && (p.Some? ==> result.errors == ExpectedErrors(p.value, m) && result.warnings == ExpectedWarnings(p.value, filename, m))
    {
      var processor := FindProcessor(filename, mimeType);
      match processor {
        case None =>
          result := new ValidationResult();
          result.AddError(NoProcessorError(filename, mimeType));
        case Some(Text(t)) =>
          result := t.Validate(filename, m);
        case Some(Image) =>
          result := ImageFileProcessors.Validate(filename, m);
        case Some(Document) =>
          result := DocumentFileProcessors.Validate(filename, m);
        case Some(Archive(a)) =>
          result := a.Validate(m);
      }
    }

    /** `getAllSupportedExtensions`. */
    method GetAllSupportedExtensions() returns (extensions: set<string>)
      ensures extensions == UnionOf(processors, SupportedExtensions)
    {
      extensions := {};
      var i := 0;
      while i < |processors|
        invariant 0 <= i <= |processors|
        invariant extensions == UnionOf(processors[..i], SupportedExtensions)
      {
        assert processors[..i + 1][..i] == processors[..i];
        extensions := extensions + SupportedExtensions(processors[i]);
        i := i + 1;
      }
      assert processors[..i] == processors;
    }

    /** `getAllSupportedMimeTypes`. */
    method GetAllSupportedMimeTypes() returns (mimeTypes: set<string>)
      ensures mimeTypes == UnionOf(processors, SupportedMimeTypes)
    {
      mimeTypes := {};
      var i := 0;
      while i < |processors|
        invariant 0 <= i <= |processors|
        invariant mimeTypes == UnionOf(processors[..i], SupportedMimeTypes)
      {
        assert processors[..i + 1][..i] == processors[..i];
        mimeTypes := mimeTypes + SupportedMimeTypes(processors[i]);
        i := i + 1;
      }
      assert processors[..i] == processors;
    }

    /** `clearCache`: both caches emptied, nothing else changed. */
    method ClearCache()
      requires Valid()
      modifies this`extensionCache, this`mimeTypeCache
      ensures Valid() && extensionCache == map[] && mimeTypeCache == map[]
    {
      extensionCache := map[];
      mimeTypeCache := map[];
    }
  }
}

=== FILE: file_transform_service.dfy ===
/**
 * The file transform service: a file is classified by the lower-cased text
 * after its last dot as an archive, an image, a document or text, and handed
 * to the archive processor, the image processor, the document processor or
 * the text stream; any exception becomes an IOException naming the file.
 * Its own support test is a fixed list of 31 extensions.
 */
module FileTransformServices {
  import opened JavaLang
  import opened JavaText
  import opened Placeholders
  import opened FileNames
  import opened MemoCaches
  import ArchiveProcessors
  import DocumentProcessors
  import ImageProcessors
  import StreamProcessor

  /** The four answers of `determineFileType`. */
  datatype FileType = ArchiveFile | ImageFile | DocumentFile | TextFile

  const ARCHIVE_EXTENSIONS: set<string> := {"zip", "jar", "war", "ear"}
  const IMAGE_EXTENSIONS: set<string> := {"jpg", "jpeg", "png", "gif", "bmp", "tiff", "webp"}
  const DOCUMENT_EXTENSIONS: set<string> := {"pdf", "doc", "docx", "xls", "xlsx", "ppt", "pptx"}
  /** The first line of the `isSupportedFileType` pattern: the text formats it names. */
  const TEXT_EXTENSIONS: set<string> :=
    {"txt", "json", "xml", "html", "css", "js", "java", "kt", "py", "yaml", "yml", "properties", "md"}
  /** The whole `isSupportedFileType` pattern, one group per line. */
  const SUPPORTED_EXTENSIONS: set<string> :=
    TEXT_EXTENSIONS + ARCHIVE_EXTENSIONS + IMAGE_EXTENSIONS + DOCUMENT_EXTENSIONS
  const FAILURE_PREFIX: string := "Failed to process file: "

  /** `getFileExtension(filename).toLowerCase()`. */
  function LowerExtension(filename: string): string
  {
    ToLower(AfterLastDot(Some(filename)))
  }

  /**
   * `determineFileType`: "text" for a null name; otherwise the first of the
   * archive, image and document patterns the whole lower-cased extension
   * matches, and "text" when none does.
   */
  function DetermineFileType(filename: Option<string>): FileType
  {
    if filename.None? then TextFile
    else
      var extension := LowerExtension(filename.value);
      if extension in ARCHIVE_EXTENSIONS then ArchiveFile
      else if extension in IMAGE_EXTENSIONS then ImageFile
      else if extension in DOCUMENT_EXTENSIONS then DocumentFile
      else TextFile
  }

  /** `isSupportedFileType`: a non-null, non-blank name whose lower-cased extension is listed. */
  predicate IsSupportedFileType(filename: Option<string>)
  {
    filename.Some? && !IsBlank(filename.value) && LowerExtension(filename.value) in SUPPORTED_EXTENSIONS
  }

  /** No extension is listed under two kinds, so the order of the three tests does not matter. */
  lemma ExtensionListsDisjoint()
    ensures ARCHIVE_EXTENSIONS * IMAGE_EXTENSIONS == {}
    ensures ARCHIVE_EXTENSIONS * DOCUMENT_EXTENSIONS == {}
    ensures IMAGE_EXTENSIONS * DOCUMENT_EXTENSIONS == {}
  {
  }

  lemma TextListDisjoint()
    ensures TEXT_EXTENSIONS * ARCHIVE_EXTENSIONS == {}
    ensures TEXT_EXTENSIONS * IMAGE_EXTENSIONS == {}
    ensures TEXT_EXTENSIONS * DOCUMENT_EXTENSIONS == {}
  {
  }

  /** The 13 text extensions of the support test are all classified as text. */
  lemma ListedTextIsText(filename: Option<string>)
    requires filename.Some? && LowerExtension(filename.value) in TEXT_EXTENSIONS
    ensures DetermineFileType(filename) == TextFile
  {
    TextListDisjoint();
    var extension := LowerExtension(filename.value);
    assert extension !in ARCHIVE_EXTENSIONS && extension !in IMAGE_EXTENSIONS && extension !in DOCUMENT_EXTENSIONS;
  }

  /** Each kind is exactly the names whose extension is in its list; text is everything else, null included. */
  lemma FileTypeSpec(filename: Option<string>)
    ensures DetermineFileType(filename) == ArchiveFile <==> filename.Some? && LowerExtension(filename.value) in ARCHIVE_EXTENSIONS
    ensures DetermineFileType(filename) == ImageFile <==> filename.Some? && LowerExtension(filename.value) in IMAGE_EXTENSIONS
    ensures DetermineFileType(filename) == DocumentFile <==> filename.Some? && LowerExtension(filename.value) in DOCUMENT_EXTENSIONS
    ensures DetermineFileType(filename) == TextFile <==>
              (filename.None? || LowerExtension(filename.value) !in ARCHIVE_EXTENSIONS + IMAGE_EXTENSIONS + DOCUMENT_EXTENSIONS)
  {
    ExtensionListsDisjoint();
    if filename.Some? {
      var extension := LowerExtension(filename.value);
      assert extension in IMAGE_EXTENSIONS ==> extension !in ARCHIVE_EXTENSIONS;
      assert extension in DOCUMENT_EXTENSIONS ==> extension !in ARCHIVE_EXTENSIONS + IMAGE_EXTENSIONS;
    }
  }

  /** A name whose extension ends in a visible character is not blank. */
  lemma VisibleExtensionNotBlank(name: string)
    requires LowerExtension(name) != [] && LowerExtension(name)[|LowerExtension(name)| - 1] > ' '
    ensures !IsBlank(name)
  {
    var after := AfterLastDot(Some(name));
    AfterLastDotSpec(name);
    assert name[|name| - 1] == after[|after| - 1];
    assert ToLowerChar(after[|after| - 1]) > ' ';
  }

  lemma ListedExtensionVisible(e: string)
    requires e in ARCHIVE_EXTENSIONS + IMAGE_EXTENSIONS + DOCUMENT_EXTENSIONS
    ensures |e| >= 3 && e[|e| - 1] > ' '
  {
  }

  /** Every name the service sends to a processor other than the text stream passes its own support test. */
  lemma ClassifiedFilesSupported(filename: Option<string>)
    ensures DetermineFileType(filename) != TextFile ==> IsSupportedFileType(filename)
  {
    if DetermineFileType(filename) != TextFile {
      var extension := LowerExtension(filename.value);
      ListedExtensionVisible(extension);
      VisibleExtensionNotBlank(filename.value);
    }
  }

  /**
   * The support test accepts exactly the archives, images and documents,
   * and, among the names classified as text, the visible names with one of
   * the 13 listed text extensions: any other text name is transformed all
   * the same but reported as unsupported.
   */
  lemma SupportedIffClassifiedOrListedText(filename: Option<string>)
    ensures IsSupportedFileType(filename) <==>
              || DetermineFileType(filename) != TextFile
              || (filename.Some? && !IsBlank(filename.value) && LowerExtension(filename.value) in TEXT_EXTENSIONS)
  {
    ClassifiedFilesSupported(filename);
    FileTypeSpec(filename);
  }

  /** A blank name is never supported, though it has an extension (" .zip" is not blank, " " is). */
  lemma BlankNamesUnsupported(name: string)
    requires IsBlank(name)
    ensures !IsSupportedFileType(Some(name))
    ensures DetermineFileType(Some(name)) == TextFile
  {
    ClassifiedFilesSupported(Some(name));
  }

  /**
   * Every name routed to the archive processor is one that processor
   * recognises: its own, dotted extension rule gives the same family of
   * names (".zip" for "zip", ".jar" for "jar", ...).
   */
  lemma ArchiveTypeHasFamily(name: string)
    requires DetermineFileType(Some(name)) == ArchiveFile
    ensures ArchiveProcessors.FamilyOf(name).Some?
  {
    var after := AfterLastDot(Some(name));
    var extension := LowerExtension(name);
    assert extension in ARCHIVE_EXTENSIONS;
    ArchiveIsDotPlusAfterDot(name);
    assert ToLower("." + after) == "." + extension;
    assert ArchiveProcessors.ExtensionOf(name) == "." + extension;
    if extension == "zip" {
      assert "." + extension == ".zip";
    } else if extension == "jar" {
      assert "." + extension == ".jar";
    } else if extension == "war" {
      assert "." + extension == ".war";
    } else {
      assert "." + extension == ".ear";
    }
  }

  /** Classification ignores case: "APP.JAR" is an archive. */
  lemma UpperCaseArchiveExample()
    ensures DetermineFileType(Some("APP.JAR")) == ArchiveFile
  {
    var jar := "APP.JAR";
    assert jar[3] == '.' && forall k :: 4 <= k < |jar| ==> jar[k] != '.';
    assert LastIndexOf(jar, '.') == 3;
    assert ToLower(jar[4..]) == "jar";
  }

  /** A leading dot starts an extension: ".png" is an image. */
  lemma DotfileImageExample()
    ensures DetermineFileType(Some(".png")) == ImageFile
  {
    var png := ".png";
    assert png[0] == '.' && forall k :: 1 <= k < |png| ==> png[k] != '.';
    assert LastIndexOf(png, '.') == 0;
    assert png[1..] == "png" && ToLower("png") == "png";
  }

  /** Only the last dot counts: "report.tar.Docx" is a document. */
  lemma LastDotExample()
    ensures DetermineFileType(Some("report.tar.Docx")) == DocumentFile
  {
    var docx := "report.tar.Docx";
    assert docx[10] == '.' && forall k :: 11 <= k < |docx| ==> docx[k] != '.';
    assert LastIndexOf(docx, '.') == 10;
    assert ToLower(docx[11..]) == "docx";
  }

  /** A name without a dot is text, even when it spells a listed extension. */
  lemma NoDotExample()
    ensures DetermineFileType(Some("jar")) == TextFile
  {
    var bare := "jar";
    assert DotFree(bare);
    assert LastIndexOf(bare, '.') == -1;
  }

  // ------------------------------------------------------------ transformation

  /** What `transformFile` gives back: the transformed bytes, or an IOException's message. */
  datatype Outcome = Transformed(output: Bytes) | Failed(message: string)

  /** A processor's answer, `None` for an exception, as `transformFile` reports it. */
  function Completed(filename: Option<string>, r: Option<Bytes>): Outcome
  {
    if r.Some? then Transformed(r.value) else Failed(FAILURE_PREFIX + JavaString(filename))
  }

  /** `transformTextStream` for a non-empty map: the parallel path over 5 MiB with two or more keys, else the standard one. */
  function TextStreamOutcome(textBytes: Bytes, m: PlaceholderMap, cs: Codec, parallelism: int): Option<Bytes>
    requires parallelism >= 1
  {
    var t := if |textBytes| > StreamProcessor.PARALLEL_THRESHOLD && |m| > 1
             then StreamProcessor.ParallelText(cs.decode(textBytes), m, parallelism)
             else StreamProcessor.StandardText(cs.decode(textBytes), m);
    if t.Some? then Some(cs.encode(t.value)) else None
  }

  class FileTransformService {
    const archiveSetup: ArchiveProcessors.Setup
    const imageProcessor: ImageProcessors.ImageProcessor
    const documentProcessor: DocumentProcessors.DocumentProcessor
    /** The text stream's charset. */
    const cs: Codec
    /** `availableProcessors()`, the text stream's parallelism. */
    const parallelism: int
    /** The bound on archive nesting. */
    const fuel: nat

    ghost predicate Valid()
      reads this, imageProcessor, imageProcessor.imageCache, documentProcessor, documentProcessor.documentCache
    {
      && imageProcessor.Valid() && documentProcessor.Valid() && parallelism >= 1
      && imageProcessor.imageCache as object != documentProcessor.documentCache
    }

    constructor (archiveSetup: ArchiveProcessors.Setup, imageProcessor: ImageProcessors.ImageProcessor,
                 documentProcessor: DocumentProcessors.DocumentProcessor, cs: Codec, parallelism: int, fuel: nat)
      requires imageProcessor.Valid() && documentProcessor.Valid() && parallelism >= 1
      ensures Valid()
      ensures this.archiveSetup == archiveSetup && this.imageProcessor == imageProcessor
      ensures this.documentProcessor == documentProcessor
      ensures this.cs == cs && this.parallelism == parallelism && this.fuel == fuel
    {
      this.archiveSetup := archiveSetup;
      this.imageProcessor := imageProcessor;
      this.documentProcessor := documentProcessor;
      this.cs := cs;
      this.parallelism := parallelism;
      this.fuel := fuel;
    }

    /**
     * `transformFile`: the archive, image or document processor by the
     * file's type, the text stream otherwise. An empty map returns the file
     * unchanged whatever its type; the image and document processors answer
     * through their caches and never fail; an exception from the archive
     * processor or the text stream becomes "Failed to process file: " and
     * the name.
     */
    method TransformFile(filename: Option<string>, fileBytes: Bytes, m: PlaceholderMap) returns (r: Outcome)
      requires Valid()
      modifies imageProcessor.imageCache`entries, imageProcessor.imageCache`sources
      modifies documentProcessor.documentCache`entries, documentProcessor.documentCache`sources
      ensures Valid()
      ensures m == [] ==> r == Transformed(fileBytes)
      ensures r.Failed? ==> r.message == FAILURE_PREFIX + JavaString(filename)
      ensures DetermineFileType(filename) != ImageFile ==> imageProcessor.imageCache.entries == old(imageProcessor.imageCache.entries)
      ensures DetermineFileType(filename) != DocumentFile ==>
                documentProcessor.documentCache.entries == old(documentProcessor.documentCache.entries)
      ensures DetermineFileType(filename) == ArchiveFile && m != [] ==>
                r == Completed(filename, ArchiveProcessors.ArchiveOutcome(archiveSetup, fileBytes, filename.value, m, fuel))
      ensures DetermineFileType(filename) == ImageFile && m != [] ==>
                var input := ImageProcessors.ImageInput(fileBytes, filename.value, m);
                var key := ImageProcessors.ImageKey(input, imageProcessor.mapHash);
                var computed := ImageProcessors.ImageComputed(input, imageProcessor.codec);
                && r == Transformed(Served(old(imageProcessor.imageCache.entries), ImageProcessors.MAX_CACHE_SIZE, key, computed))
                && imageProcessor.imageCache.entries
                   == After(old(imageProcessor.imageCache.entries), ImageProcessors.MAX_CACHE_SIZE, key, computed)
      ensures DetermineFileType(filename) == DocumentFile && m != [] ==>
                var input := DocumentProcessors.DocumentInput(fileBytes, filename.value, m);
                var key := DocumentProcessors.DocumentKey(input, documentProcessor.mapHash);
                var computed := DocumentProcessors.DocumentComputed(input, documentProcessor.office, documentProcessor.cs);
                && r == Transformed(Served(old(documentProcessor.documentCache.entries), DocumentProcessors.MAX_CACHE_SIZE, key, computed))
                && documentProcessor.documentCache.entries
                   == After(old(documentProcessor.documentCache.entries), DocumentProcessors.MAX_CACHE_SIZE, key, computed)
      ensures DetermineFileType(filename) == TextFile && m != [] ==>
                r == Completed(filename, TextStreamOutcome(fileBytes, m, cs, parallelism))
    {
      var out: Option<Bytes>;
      match DetermineFileType(filename) {
        case ArchiveFile =>
          out := ProcessArchive(fileBytes, filename.value, m);
        case ImageFile =>
          var image := ProcessImage(fileBytes, filename.value, m);
          out := Some(image);
        case DocumentFile =>
          var document := ProcessDocument(fileBytes, filename.value, m);
          out := Some(document);
        case TextFile =>
          out := TransformTextStream(fileBytes, m);
      }
      r := Completed(filename, out);
    }

    /** The archive branch: the archive processor's answer, `None` when it throws. */
    method ProcessArchive(fileBytes: Bytes, name: string, m: PlaceholderMap) returns (out: Option<Bytes>)
      ensures m == [] ==> out == Some(fileBytes)
      ensures m != [] ==> out == ArchiveProcessors.ArchiveOutcome(archiveSetup, fileBytes, name, m, fuel)
    {
      out := ArchiveProcessors.ProcessArchive(archiveSetup, fileBytes, Some(name), Some(m), fuel);
    }

    /** The text branch: the text stream's answer, `None` when it throws. */
    method TransformTextStream(fileBytes: Bytes, m: PlaceholderMap) returns (out: Option<Bytes>)
      requires parallelism >= 1
      ensures m == [] ==> out == Some(fileBytes)
      ensures m != [] ==> out == TextStreamOutcome(fileBytes, m, cs, parallelism)
    {
      out := StreamProcessor.TransformTextStream(fileBytes, m, cs, parallelism);
    }

    /** The image branch: the image processor's cached answer; the document cache is untouched. */
    method ProcessImage(fileBytes: Bytes, name: string, m: PlaceholderMap) returns (out: Bytes)
      requires Valid()
      modifies imageProcessor.imageCache`entries, imageProcessor.imageCache`sources
      ensures Valid()
      ensures m == [] ==> out == fileBytes && imageProcessor.imageCache.entries == old(imageProcessor.imageCache.entries)
      ensures m != [] ==>
                var input := ImageProcessors.ImageInput(fileBytes, name, m);
                var key := ImageProcessors.ImageKey(input, imageProcessor.mapHash);
                var computed := ImageProcessors.ImageComputed(input, imageProcessor.codec);
                && out == Served(old(imageProcessor.imageCache.entries), ImageProcessors.MAX_CACHE_SIZE, key, computed)
                && imageProcessor.imageCache.entries
                   == After(old(imageProcessor.imageCache.entries), ImageProcessors.MAX_CACHE_SIZE, key, computed)
    {
      out := imageProcessor.ProcessImage(fileBytes, name, m);
    }

    /** The document branch: the document processor's cached answer; the image cache is untouched. */
    method ProcessDocument(fileBytes: Bytes, name: string, m: PlaceholderMap) returns (out: Bytes)
      requires Valid()
      modifies documentProcessor.documentCache`entries, documentProcessor.documentCache`sources
      ensures Valid()
      ensures m == [] ==> out == fileBytes && documentProcessor.documentCache.entries == old(documentProcessor.documentCache.entries)
      ensures m != [] ==>
                var input := DocumentProcessors.DocumentInput(fileBytes, name, m);
                var key := DocumentProcessors.DocumentKey(input, documentProcessor.mapHash);
                var computed := DocumentProcessors.DocumentComputed(input, documentProcessor.office, documentProcessor.cs);
                && out == Served(old(documentProcessor.documentCache.entries), DocumentProcessors.MAX_CACHE_SIZE, key, computed)
                && documentProcessor.documentCache.entries
                   == After(old(documentProcessor.documentCache.entries), DocumentProcessors.MAX_CACHE_SIZE, key, computed)
    {
      out := documentProcessor.ProcessDocument(fileBytes, name, m);
    }

    /** `isSupportedFileType`. */
    method IsSupported(filename: Option<string>) returns (supported: bool)
      ensures supported == IsSupportedFileType(filename)
    {
      if filename.None? {
        return false;
      }
      BlankIffTrimEmpty(filename.value);
      if Trim(filename.value) == [] {
        return false;
      }
      var extension := ToLower(AfterLastDot(filename));
      supported := extension in SUPPORTED_EXTENSIONS;
    }
  }
}

=== FILE: file_type_detector.dfy ===
/**
 * The file-type detector: five extension sets loaded from resource files,
 * a memoised extension rule, and a memoised text test that trusts a text
 * extension and otherwise sniffs the first 512 bytes.
 */
module FileTypeDetection {
  import opened JavaLang
  import opened JavaText
  import opened FileNames
  import opened CacheKeys

  const TEXT_DETECTION_SAMPLE_SIZE: int := 512

  /** The five sets; every entry is lower-case with a leading dot. */
  datatype ExtensionSets = ExtensionSets(
    text: set<string>, archive: set<string>, image: set<string>, document: set<string>, other: set<string>)
  {
    function All(): set<string>
    {
      text + archive + image + document + other
    }
  }

  /** Which set a resource file feeds. */
  datatype Target = TextSet | ArchiveSet | ImageSet | DocumentSet | OtherSet

  /** A resource under `supported/`: its file name (possibly null) and its lines. */
  datatype Resource = Resource(filename: Option<string>, lines: seq<string>)

  /** `pickTargetSet`: the first of text, archive, image, document whose word the name contains. */
  function PickTargetSet(resourceName: string): Target
  {
    if Contains(resourceName, "text") then TextSet
    else if Contains(resourceName, "archive") || Contains(resourceName, "archives") then ArchiveSet
    else if Contains(resourceName, "image") || Contains(resourceName, "images") then ImageSet
    else if Contains(resourceName, "document") || Contains(resourceName, "documents") then DocumentSet
    else OtherSet
  }

  /** A name containing a plural also contains the singular, so the plural tests never decide. */
  lemma PluralTestsAreRedundant(resourceName: string, word: string)
    requires Contains(resourceName, word + "s")
    ensures Contains(resourceName, word)
  {
    var i :| 0 <= i <= |resourceName| - |word + "s"| && OccursAt(resourceName, word + "s", i);
    assert resourceName[i..i + |word|] == (word + "s")[..|word|];
    assert OccursAt(resourceName, word, i);
  }

  /** The first matching word wins: a name mentioning "text" feeds the text set whatever else it says. */
  lemma TextWinsOverOtherWords(resourceName: string)
    requires Contains(resourceName, "text")
    ensures PickTargetSet(resourceName) == TextSet
  {
  }

  /**
   * One line of a resource: trimmed; blank lines and `//` comments dropped;
   * the rest lower-cased and given a leading dot if it has none.
   */
  function NormalizeLine(raw: string): Option<string>
  {
    NormalizeTrimmed(Trim(raw))
  }

  function NormalizeTrimmed(line: string): Option<string>
  {
    if line == [] || StartsWith(line, "//") then None else Some(WithDot(ToLower(line)))
  }

  function WithDot(lower: string): string
  {
    if StartsWith(lower, ".") then lower else "." + lower
  }

  /** No ASCII upper-case letter. */
  predicate LowerCase(s: string)
  {
    forall k :: 0 <= k < |s| ==> !('A' <= s[k] <= 'Z')
  }

  /** An entry of an extension set: a leading dot, no upper case, no surrounding blanks. */
  predicate WellFormedExtension(e: string)
  {
    e != [] && e[0] == '.' && LowerCase(e) && e[|e| - 1] > ' '
  }

  lemma LoweredKeepsEnd(line: string)
    requires line != [] && line[|line| - 1] > ' '
    ensures LowerCase(ToLower(line)) && ToLower(line)[|line| - 1] > ' '
  {
  }

  lemma WithDotWellFormed(lower: string)
    requires lower != [] && LowerCase(lower) && lower[|lower| - 1] > ' '
    ensures WellFormedExtension(WithDot(lower))
  {
    if !StartsWith(lower, ".") {
      var e := "." + lower;
      assert forall k :: 1 <= k < |e| ==> e[k] == lower[k - 1];
    }
  }

  lemma NormalizedTrimmedWellFormed(line: string)
    requires NormalizeTrimmed(line).Some?
    requires line[|line| - 1] > ' '
    ensures WellFormedExtension(NormalizeTrimmed(line).value)
  {
    LoweredKeepsEnd(line);
    WithDotWellFormed(ToLower(line));
  }

  lemma NormalizedLineWellFormed(raw: string)
    requires NormalizeLine(raw).Some?
    ensures WellFormedExtension(NormalizeLine(raw).value)
  {
    NormalizedTrimmedWellFormed(Trim(raw));
  }

  lemma TrimKeepsWellFormed(e: string)
    requires WellFormedExtension(e)
    ensures Trim(e) == e
  {
    assert TrimStart(e) == e;
    assert TrimEnd(e) == e;
  }

  lemma LowerKeepsWellFormed(e: string)
    requires WellFormedExtension(e)
    ensures ToLower(e) == e
  {
    assert forall k :: 0 <= k < |e| ==> ToLowerChar(e[k]) == e[k];
  }

  /** A well-formed entry normalises to itself. */
  lemma WellFormedIsFixed(e: string)
    requires WellFormedExtension(e)
    ensures NormalizeLine(e) == Some(e)
  {
    TrimKeepsWellFormed(e);
    LowerKeepsWellFormed(e);
    assert !StartsWith(e, "//") by {
      assert e[0] == '.';
    }
    assert StartsWith(e, ".") by {
      assert e[..1] == [e[0]];
    }
  }

  /** Normalising an entry again changes nothing. */
  lemma NormalizeIdempotent(raw: string)
    requires NormalizeLine(raw).Some?
    ensures NormalizeLine(NormalizeLine(raw).value) == NormalizeLine(raw)
  {
    NormalizedLineWellFormed(raw);
    WellFormedIsFixed(NormalizeLine(raw).value);
  }

  /** What the lines of one resource add to its set. */
  function Normalized(lines: seq<string>): set<string>
    decreases |lines|
  {
    if lines == [] then {}
    else
      var entry := NormalizeLine(lines[|lines| - 1]);
      Normalized(lines[..|lines| - 1]) + (if entry.Some? then {entry.value} else {})
  }

  lemma {:induction false} NormalizedWellFormed(lines: seq<string>)
    ensures forall e :: e in Normalized(lines) ==> WellFormedExtension(e)
    decreases |lines|
  {
    if lines != [] {
      NormalizedWellFormed(lines[..|lines| - 1]);
      var raw := lines[|lines| - 1];
      if NormalizeLine(raw).Some? {
        NormalizedLineWellFormed(raw);
      }
    }
  }

  /** `loadExtensionsFromStream`: every normalised line is added to `target`. */
  method LoadExtensionsFromStream(lines: seq<string>, target: set<string>) returns (r: set<string>)
    ensures r == target + Normalized(lines)
  {
    r := target;
    var i := 0;
    while i < |lines|
      invariant 0 <= i <= |lines|
      invariant r == target + Normalized(lines[..i])
    {
      NormalizedSnoc(lines, i);
      var entry := NormalizeLine(lines[i]);
      if entry.Some? {
        r := r + {entry.value};
      }
      i := i + 1;
    }
    assert lines[..i] == lines;
  }

  lemma NormalizedSnoc(lines: seq<string>, i: nat)
    requires i < |lines|
    ensures var entry := NormalizeLine(lines[i]);
            Normalized(lines[..i + 1]) == Normalized(lines[..i]) + (if entry.Some? then {entry.value} else {})
  {
    assert lines[..i + 1][..i] == lines[..i];
  }

  /** The resource's target, from its lower-cased file name ("" when null). */
  function TargetOf(res: Resource): Target
  {
    PickTargetSet(ToLower(if res.filename.Some? then res.filename.value else ""))
  }

  function AddTo(sets: ExtensionSets, t: Target, entries: set<string>): (r: ExtensionSets)
  {
    match t
    case TextSet => sets.(text := sets.text + entries)
    case ArchiveSet => sets.(archive := sets.archive + entries)
    case ImageSet => sets.(image := sets.image + entries)
    case DocumentSet => sets.(document := sets.document + entries)
    case OtherSet => sets.(other := sets.other + entries)
  }

  /** The five sets after loading the resources in order. */
  function LoadedSets(resources: seq<Resource>): ExtensionSets
    decreases |resources|
  {
    if resources == [] then ExtensionSets({}, {}, {}, {}, {})
    else
      var last := resources[|resources| - 1];
      AddTo(LoadedSets(resources[..|resources| - 1]), TargetOf(last), Normalized(last.lines))
  }

  predicate SetsWellFormed(sets: ExtensionSets)
  {
    forall e :: e in sets.All() ==> WellFormedExtension(e)
  }

  lemma AddToWellFormed(sets: ExtensionSets, t: Target, entries: set<string>)
    requires SetsWellFormed(sets)
    requires forall e :: e in entries ==> WellFormedExtension(e)
    ensures SetsWellFormed(AddTo(sets, t, entries))
  {
    assert AddTo(sets, t, entries).All() == sets.All() + entries;
  }

  /** Every loaded entry is lower-case with a leading dot. */
  lemma {:induction false} LoadedSetsWellFormed(resources: seq<Resource>)
    ensures SetsWellFormed(LoadedSets(resources))
    decreases |resources|
  {
    if resources != [] {
      var last := resources[|resources| - 1];
      LoadedSetsWellFormed(resources[..|resources| - 1]);
      NormalizedWellFormed(last.lines);
      AddToWellFormed(LoadedSets(resources[..|resources| - 1]), TargetOf(last), Normalized(last.lines));
    }
  }

  // ------------------------------------------------------------ content sniffing

  /** A control character: a Java (signed) byte below 0x20 other than tab, LF, CR and ESC. */
  predicate IsControl(b: byte)
  {
    var s := Signed(b);
    s < 0x20 && s != 0x09 && s != 0x0A && s != 0x0D && s != 0x1B
  }

  /** Bytes 0x80 to 0xFF are negative as Java bytes, so every one of them counts as control. */
  lemma HighBytesAreControl(b: byte)
    requires b >= 0x80
    ensures IsControl(b)
  {
  }

  /** The control characters among the first `n` bytes. */
  function ControlCount(b: Bytes, n: nat): (c: nat)
    requires n <= |b|
    ensures c <= n
  {
    if n == 0 then 0 else ControlCount(b, n - 1) + (if IsControl(b[n - 1]) then 1 else 0)
  }

  /** Byte `i` is a control character that lifts the running ratio above one tenth. */
  predicate RejectsAt(b: Bytes, i: nat)
    requires i < |b|
  {
    IsControl(b[i]) && 10 * ControlCount(b, i + 1) > i + 1
  }

  function SampleSize(b: Bytes): (n: nat)
    ensures n <= |b| && n <= TEXT_DETECTION_SAMPLE_SIZE
  {
    Min(|b|, TEXT_DETECTION_SAMPLE_SIZE)
  }

  /**
   * What `detectTextContent` decides: empty content is text; otherwise the
   * sample has no NUL, never crosses the one-tenth ratio at a control
   * character, and ends below it. The ratios are compared as integers:
   * with at most 512 bytes no quotient is within a rounding error of 0.1.
   */
  predicate LooksLikeText(b: Bytes)
  {
    var n := SampleSize(b);
    || b == []
    || (&& (forall i :: 0 <= i < n ==> b[i] != 0)
        && (forall i :: 0 <= i < n ==> !RejectsAt(b, i))
        && 10 * ControlCount(b, n) < n)
  }

  /** `detectTextContent`. */
  method DetectTextContent(bytes: Bytes) returns (r: bool)
    ensures r == LooksLikeText(bytes)
  {
    if |bytes| == 0 {
      return true;
    }
    var sampleSize := Min(|bytes|, TEXT_DETECTION_SAMPLE_SIZE);
    var controlChars := 0;
    var i := 0;
    while i < sampleSize
      invariant 0 <= i <= sampleSize
      invariant controlChars == ControlCount(bytes, i)
      invariant forall j :: 0 <= j < i ==> bytes[j] != 0 && !RejectsAt(bytes, j)
    {
      var b := bytes[i];
      if b == 0 {
        return false;
      }
      if IsControl(b) {
        controlChars := controlChars + 1;
        if 10 * controlChars > i + 1 {
          assert RejectsAt(bytes, i);
          return false;
        }
      }
      i := i + 1;
    }
    return 10 * controlChars < sampleSize;
  }

  /** A NUL anywhere in the sample makes the content binary. */
  lemma NulMeansBinary(b: Bytes, i: nat)
    requires i < SampleSize(b) && b[i] == 0
    ensures !LooksLikeText(b)
  {
  }

  lemma {:induction false} ControlCountZero(b: Bytes, n: nat)
    requires n <= |b|
    requires forall i :: 0 <= i < n ==> !IsControl(b[i])
    ensures ControlCount(b, n) == 0
  {
    if n > 0 {
      ControlCountZero(b, n - 1);
    }
  }

  /** A sample of printable ASCII, tabs and line breaks is text. */
  lemma PlainTextIsText(b: Bytes)
    requires forall i :: 0 <= i < SampleSize(b) ==> 0x20 <= b[i] < 0x7F || b[i] == 0x09 || b[i] == 0x0A || b[i] == 0x0D
    ensures LooksLikeText(b)
  {
    var n := SampleSize(b);
    ControlCountZero(b, n);
    forall i | 0 <= i < n
      ensures !RejectsAt(b, i)
    {
      ControlCountZero(b, i + 1);
    }
  }

  /**
   * The running test is stricter than the final ratio: a control character
   * in first position rejects the content although one control character
   * in a full sample is far below one tenth.
   */
  lemma LeadingControlRejects(b: Bytes)
    requires b != [] && b[0] != 0 && IsControl(b[0])
    ensures !LooksLikeText(b)
    ensures |b| >= 11 && (forall i :: 1 <= i < SampleSize(b) ==> !IsControl(b[i])) ==> 10 * ControlCount(b, SampleSize(b)) < SampleSize(b)
  {
    assert RejectsAt(b, 0);
    if |b| >= 11 && (forall i :: 1 <= i < SampleSize(b) ==> !IsControl(b[i])) {
      OneLeadingControl(b, SampleSize(b));
    }
  }

  lemma {:induction false} OneLeadingControl(b: Bytes, n: nat)
    requires 1 <= n <= |b| && IsControl(b[0])
    requires forall i :: 1 <= i < n ==> !IsControl(b[i])
    ensures ControlCount(b, n) == 1
  {
    if n > 1 {
      OneLeadingControl(b, n - 1);
    }
  }

  lemma {:induction false} ControlCountPrefix(b1: Bytes, b2: Bytes, n: nat)
    requires n <= |b1| && n <= |b2| && b1[..n] == b2[..n]
    ensures ControlCount(b1, n) == ControlCount(b2, n)
  {
    if n > 0 {
      assert b1[n - 1] == b1[..n][n - 1] == b2[..n][n - 1] == b2[n - 1];
      assert b1[..n - 1] == b1[..n][..n - 1];
      assert b2[..n - 1] == b2[..n][..n - 1];
      ControlCountPrefix(b1, b2, n - 1);
    }
  }

  /** Only the first 512 bytes are looked at. */
  lemma OnlyTheSampleMatters(b1: Bytes, b2: Bytes)
    requires |b1| >= TEXT_DETECTION_SAMPLE_SIZE && |b2| >= TEXT_DETECTION_SAMPLE_SIZE
    requires b1[..TEXT_DETECTION_SAMPLE_SIZE] == b2[..TEXT_DETECTION_SAMPLE_SIZE]
    ensures LooksLikeText(b1) == LooksLikeText(b2)
  {
    var n := TEXT_DETECTION_SAMPLE_SIZE;
    assert SampleSize(b1) == n && SampleSize(b2) == n;
    forall i | 0 <= i <= n
      ensures ControlCount(b1, i) == ControlCount(b2, i)
    {
      assert b1[..i] == b1[..n][..i];
      assert b2[..i] == b2[..n][..i];
      ControlCountPrefix(b1, b2, i);
    }
    forall i | 0 <= i < n
      ensures b1[i] == b2[i]
    {
      assert b1[i] == b1[..n][i];
    }
    forall i | 0 <= i < n
      ensures RejectsAt(b1, i) == RejectsAt(b2, i)
    {
      assert ControlCount(b1, i + 1) == ControlCount(b2, i + 1);
    }
  }

  // ------------------------------------------------------------ the memo caches

  /** The text verdict for a file: a text extension, or content that looks like text. */
  predicate Classify(sets: ExtensionSets, filename: string, bytes: Bytes)
  {
    DottedExtension(Some(filename)) in sets.text || LooksLikeText(bytes)
  }

  /** Each stored verdict is the verdict for the name and some content of the length in its key. */
  ghost predicate CacheSound(sets: ExtensionSets, cache: map<string, bool>, sources: map<string, (string, Bytes)>)
  {
    && sources.Keys == cache.Keys
    && forall key :: key in cache ==>
         && key == NameLengthKey(sources[key].0, |sources[key].1|)
         && cache[key] == Classify(sets, sources[key].0, sources[key].1)
  }

  /** Storing a fresh verdict under its own key keeps the cache sound. */
  lemma CacheSoundStore(sets: ExtensionSets, cache: map<string, bool>, sources: map<string, (string, Bytes)>, filename: string, bytes: Bytes)
    requires CacheSound(sets, cache, sources)
    ensures var key := NameLengthKey(filename, |bytes|);
            CacheSound(sets, cache[key := Classify(sets, filename, bytes)], sources[key := (filename, bytes)])
  {
  }

  /** What `isTextFile` answers against a given cache: the memo for this name and length, else a fresh verdict. */
  function CachedAnswer(cache: map<string, bool>, sets: ExtensionSets, filename: string, bytes: Bytes): bool
  {
    var key := NameLengthKey(filename, |bytes|);
    if key in cache then cache[key] else Classify(sets, filename, bytes)
  }

  /** The text cache after one `isTextFile` call. */
  function CacheAfter(cache: map<string, bool>, sets: ExtensionSets, filename: string, bytes: Bytes): map<string, bool>
  {
    var key := NameLengthKey(filename, |bytes|);
    if key in cache then cache else cache[key := Classify(sets, filename, bytes)]
  }

  /** A second call with other bytes of the same length gets the first call's answer. */
  lemma SameLengthSameAnswer(cache: map<string, bool>, sets: ExtensionSets, filename: string, b1: Bytes, b2: Bytes)
    requires |b1| == |b2|
    ensures CachedAnswer(CacheAfter(cache, sets, filename, b1), sets, filename, b2) == CachedAnswer(cache, sets, filename, b1)
  {
  }

  /**
   * The memo can be wrong: after the one-byte text "A" is classified, the
   * one-byte NUL under the same name is reported as text too.
   */
  lemma StaleVerdict(sets: ExtensionSets)
    requires DottedExtension(Some("data.bin")) !in sets.text
    ensures CachedAnswer(CacheAfter(map[], sets, "data.bin", [0x41]), sets, "data.bin", [0]) == true
    ensures Classify(sets, "data.bin", [0]) == false
  {
    PlainTextIsText([0x41]);
    NulMeansBinary([0], 0);
  }

  /** Every verdict of a memo keyed by the name and the whole content is the verdict for that key. */
  ghost predicate ContentCacheSound(sets: ExtensionSets, cache: map<(string, Bytes), bool>)
  {
    forall key :: key in cache ==> cache[key] == Classify(sets, key.0, key.1)
  }

  /** `isTextFile` with the memo keyed by the name and the whole content. */
  function ContentKeyedAnswer(cache: map<(string, Bytes), bool>, sets: ExtensionSets, filename: string, bytes: Bytes): (r: bool)
    ensures ContentCacheSound(sets, cache) ==> r == Classify(sets, filename, bytes)
  {
    if (filename, bytes) in cache then cache[(filename, bytes)] else Classify(sets, filename, bytes)
  }

  /** That memo after one call. */
  function ContentKeyedCacheAfter(cache: map<(string, Bytes), bool>, sets: ExtensionSets, filename: string, bytes: Bytes): (r: map<(string, Bytes), bool>)
    ensures (filename, bytes) in r
    ensures ContentCacheSound(sets, cache) ==> ContentCacheSound(sets, r)
  {
    if (filename, bytes) in cache then cache else cache[(filename, bytes) := Classify(sets, filename, bytes)]
  }

  /**
   * With the content in the key, every call answers the verdict for the
   * bytes given, whatever was asked before: the NUL byte after "A" under the
   * same name is binary.
   */
  lemma ContentKeyedAlwaysFresh(cache: map<(string, Bytes), bool>, sets: ExtensionSets, first: Bytes, filename: string, bytes: Bytes)
    requires ContentCacheSound(sets, cache)
    ensures ContentKeyedAnswer(ContentKeyedCacheAfter(cache, sets, filename, first), sets, filename, bytes) == Classify(sets, filename, bytes)
    ensures DottedExtension(Some("data.bin")) !in sets.text ==>
              ContentKeyedAnswer(ContentKeyedCacheAfter(map[], sets, "data.bin", [0x41]), sets, "data.bin", [0]) == false
  {
    NulMeansBinary([0], 0);
  }

  /**
   * The dotted extension is ".jar" exactly when the lower-cased name ends in
   * ".jar" after at least one more character.
   */
  lemma JarExtensionIffSuffix(name: string)
    ensures DottedExtension(Some(name)) == ".jar" <==> EndsWith(ToLower(name), ".jar") && |name| > 4
  {
    var lastDot := LastIndexOf(name, '.');
    var lower := ToLower(name);
    if EndsWith(lower, ".jar") && |name| > 4 {
      var n := |name|;
      assert lower[n - 4] == '.' && lower[n - 3] == 'j' && lower[n - 2] == 'a' && lower[n - 1] == 'r';
      assert name[n - 4] == '.' && name[n - 3] != '.' && name[n - 2] != '.' && name[n - 1] != '.';
      assert lastDot == n - 4;
      assert ToLower(name[lastDot..]) == lower[n - 4..];
    }
    if DottedExtension(Some(name)) == ".jar" {
      assert lastDot > 0;
      assert |name[lastDot..]| == 4;
      assert lower[lastDot..] == ToLower(name[lastDot..]);
      assert lastDot == |name| - 4;
    }
  }

  class FileTypeDetector {
    const sets: ExtensionSets
    var textFileCache: map<string, bool>
    var extensionCache: map<string, string>
    /** For each text-cache key, the name and bytes whose verdict was stored under it. */
    ghost var textSources: map<string, (string, Bytes)>

    /**
     * The extension memo holds the rule's own answers; each text verdict is
     * the verdict for the name and some content of the length in its key.
     */
    ghost predicate Valid()
      reads this
    {
      && SetsWellFormed(sets)
      && (forall name :: name in extensionCache ==> extensionCache[name] == DottedExtension(Some(name)))
      && CacheSound(sets, textFileCache, textSources)
    }

    /** `new FileTypeDetector()`: the sets loaded from the resources, empty caches. */
    constructor (resources: seq<Resource>)
      ensures Valid()
      ensures sets == LoadedSets(resources)
      ensures textFileCache == map[] && extensionCache == map[]
    {
      var text, archive, image, document, other := {}, {}, {}, {}, {};
      var i := 0;
      while i < |resources|
        invariant 0 <= i <= |resources|
        invariant ExtensionSets(text, archive, image, document, other) == LoadedSets(resources[..i])
      {
        var resource := resources[i];
        var target := TargetOf(resource);
        assert resources[..i + 1][..i] == resources[..i];
        match target {
          case TextSet => text := LoadExtensionsFromStream(resource.lines, text);
          case ArchiveSet => archive := LoadExtensionsFromStream(resource.lines, archive);
          case ImageSet => image := LoadExtensionsFromStream(resource.lines, image);
          case DocumentSet => document := LoadExtensionsFromStream(resource.lines, document);
          case OtherSet => other := LoadExtensionsFromStream(resource.lines, other);
        }
        i := i + 1;
      }
      assert resources[..i] == resources;
      LoadedSetsWellFormed(resources);
      sets := ExtensionSets(text, archive, image, document, other);
      textFileCache := map[];
      extensionCache := map[];
      textSources := map[];
    }

    /** `getFileExtension`: the dotted rule, memoised per name; a null name is not memoised. */
    method GetFileExtension(filename: Option<string>) returns (r: string)
      requires Valid()
      modifies this`extensionCache
      ensures Valid()
      ensures r == DottedExtension(filename)
      ensures extensionCache == if filename.None? then old(extensionCache) else old(extensionCache)[filename.value := r]
    {
      if filename.None? {
        return "";
      }
      var name := filename.value;
      if name in extensionCache {
        r := extensionCache[name];
        return;
      }
      var lastDot := LastIndexOf(name, '.');
      r := if lastDot > 0 then ToLower(name[lastDot..]) else "";
      extensionCache := extensionCache[name := r];
    }

    /**
     * `isTextFile`: the memo under `filename:length`, or on a miss the
     * extension test and then the content test, stored under that key.
     */
    method IsTextFile(filename: string, bytes: Bytes) returns (r: bool)
      requires Valid()
      modifies this`textFileCache, this`extensionCache, this`textSources
      ensures Valid()
      ensures r == CachedAnswer(old(textFileCache), sets, filename, bytes)
      ensures textFileCache == CacheAfter(old(textFileCache), sets, filename, bytes)
      ensures extensionCache == if NameLengthKey(filename, |bytes|) in old(textFileCache) then old(extensionCache)
                                else old(extensionCache)[filename := DottedExtension(Some(filename))]
      ensures exists other: Bytes :: |other| == |bytes| && r == Classify(sets, filename, other)
    {
      var cacheKey := NameLengthKey(filename, |bytes|);
      if cacheKey in textFileCache {
        r := textFileCache[cacheKey];
        var source := textSources[cacheKey];
        NameLengthKeyInjective(source.0, |source.1|, filename, |bytes|);
        assert |source.1| == |bytes| && r == Classify(sets, filename, source.1);
        return;
      }
      r := ClassifyUncached(filename, bytes);
      CacheSoundStore(sets, textFileCache, textSources, filename, bytes);
      textFileCache := textFileCache[cacheKey := r];
      textSources := textSources[cacheKey := (filename, bytes)];
    }

    /** The miss path of `isTextFile`: the extension test, then the content test. */
    method ClassifyUncached(filename: string, bytes: Bytes) returns (r: bool)
      requires Valid()
      modifies this`extensionCache
      ensures Valid()
      ensures r == Classify(sets, filename, bytes)
      ensures extensionCache == old(extensionCache)[filename := DottedExtension(Some(filename))]
    {
      var extension := GetFileExtension(Some(filename));
      if extension in sets.text {
        r := true;
      } else {
        r := DetectTextContent(bytes);
      }
    }

    /** `isArchiveFile`: the dotted extension is in the archive set. */
    method IsArchiveFile(filename: Option<string>) returns (r: bool)
      requires Valid()
      modifies this`extensionCache
      ensures Valid()
      ensures r <==> DottedExtension(filename) in sets.archive
    {
      var extension := GetFileExtension(filename);
      r := extension in sets.archive;
    }

    /** `isJarFile`: the dotted extension is ".jar". */
    method IsJarFile(filename: Option<string>) returns (r: bool)
      requires Valid()
      modifies this`extensionCache
      ensures Valid()
      ensures r <==> filename.Some? && EndsWith(ToLower(filename.value), ".jar") && |filename.value| > 4
    {
      var extension := GetFileExtension(filename);
      r := extension == ".jar";
      if filename.Some? {
        JarExtensionIffSuffix(filename.value);
      }
    }

    /** `isSupportedFileType`: false for a null name, else membership of the dotted extension in the union. */
    method IsSupportedFileType(filename: Option<string>) returns (r: bool)
      requires Valid()
      modifies this`extensionCache
      ensures Valid()
      ensures r <==> filename.Some? && DottedExtension(filename) in sets.All()
    {
      if filename.None? {
        return false;
      }
      var extension := GetFileExtension(filename);
      r := extension in sets.archive || extension in sets.text || extension in sets.image
        || extension in sets.document || extension in sets.other;
    }

    /** `clearCaches`. */
    method ClearCaches()
      requires Valid()
      modifies this`textFileCache, this`extensionCache, this`textSources
      ensures Valid() && textFileCache == map[] && extensionCache == map[]
    {
      textFileCache := map[];
      extensionCache := map[];
      textSources := map[];
    }
  }
}

=== FILE: image_file_processor.dfy ===
/**
 * The image file processor: images are copied byte for byte, placeholders
 * ignored; it accepts the common raster formats by extension or by an
 * "image/" MIME type it lists.
 */
module ImageFileProcessors {
  import opened JavaLang
  import opened JavaText
  import opened Placeholders
  import opened ProcessingResults
  import opened ValidationResults
  import opened FileNames

  const SUPPORTED_EXTENSIONS: set<string> := {"jpg", "jpeg", "png", "gif", "bmp", "tiff", "tif", "webp"}
  const SUPPORTED_MIME_TYPES: set<string> :=
    {"image/jpeg", "image/png", "image/gif", "image/bmp", "image/tiff", "image/webp"}
  const IGNORED_WARNING: string := "Image metadata processing not yet implemented - placeholders will be ignored"
  const PRIORITY: int := 300
  const MEMORY_CAP: int := 5 * 1024 * 1024

  /**
   * `canProcess`: a supported extension (after the last dot, any case);
   * failing that, a MIME type that starts with "image/" answers whether it
   * is listed, and any other MIME type is refused.
   */
  predicate CanProcess(filename: Option<string>, mimeType: Option<string>)
  {
    if filename.Some? && ToLower(AfterLastDot(filename)) in SUPPORTED_EXTENSIONS then true
    else if mimeType.Some? && StartsWith(ToLower(mimeType.value), "image/") then ToLower(mimeType.value) in SUPPORTED_MIME_TYPES
    else false
  }

  /** The "image/" test is only a shortcut: acceptance is a listed extension or a listed MIME type. */
  lemma CanProcessIsMembership(filename: Option<string>, mimeType: Option<string>)
    ensures CanProcess(filename, mimeType) <==>
      (|| (filename.Some? && ToLower(AfterLastDot(filename)) in SUPPORTED_EXTENSIONS)
       || (mimeType.Some? && ToLower(mimeType.value) in SUPPORTED_MIME_TYPES))
  {
    if mimeType.Some? {
      var lower := ToLower(mimeType.value);
      assert lower in SUPPORTED_MIME_TYPES <==>
        (|| lower == "image/jpeg" || lower == "image/png" || lower == "image/gif"
         || lower == "image/bmp" || lower == "image/tiff" || lower == "image/webp");
      if lower in SUPPORTED_MIME_TYPES {
        assert lower[..6] == "image/";
      }
    }
  }

  /** `process`: the input copied to the output whatever the map; `transferTo`'s count, 0 replacements, 0 placeholders. */
  method Process(input: Bytes, m: Option<PlaceholderMap>, filename: Option<string>) returns (out: Bytes, result: ProcessingResult)
    ensures out == input
    ensures fresh(result) && result.Counts() == Stats(|input|, 0, 0)
  {
    out := input;
    result := new ProcessingResult(|input|, 0, 0);
  }

  /** `validate`: no errors, and one warning that the placeholders are ignored, when there are any. */
  method Validate(filename: Option<string>, m: PlaceholderMap) returns (result: ValidationResult)
    ensures fresh(result)
    ensures result.errors == []
    ensures result.warnings == if |m| > 0 then [IGNORED_WARNING] else []
  {
    result := new ValidationResult();
    if |m| > 0 {
      result.AddWarning(IGNORED_WARNING);
    }
  }

  /** `estimateMemoryUsage`: a twentieth of the file, truncated, at most 5 MiB. */
  function EstimateMemoryUsage(fileSize: int): (r: int)
    ensures r <= MEMORY_CAP
    ensures fileSize >= 0 ==> 0 <= r && 20 * r <= fileSize
    ensures 0 <= fileSize < 20 * MEMORY_CAP ==> fileSize < 20 * r + 20
  {
    Min(JDiv(fileSize, 20), MEMORY_CAP)
  }
}

=== FILE: image_processor.dfy ===
/**
 * The image service: for the formats whose metadata it edits, decode the
 * image, walk every metadata tree replacing placeholders in text content
 * and attribute values, and encode again; the input on any failure. Wrapped
 * in a memo cache keyed by name, length and map hash. ImageIO's decoder and
 * encoder are opaque functions.
 *
 * The walk starts with `IIOMetadataNode.getTextContent`, which the JDK
 * implements by throwing a DOMException for every node, so as written every
 * walk throws at its root and no metadata is ever rewritten. The walk is
 * modelled over the way it reads a node's text, so that the rewrite it
 * evidently intends (reading the node's value) is stated beside it.
 */
module ImageProcessors {
  import opened JavaLang
  import opened JavaText
  import opened Placeholders
  import opened FileNames
  import opened CacheKeys
  import opened MemoCaches

  const MAX_CACHE_SIZE: nat := 200

  const METADATA_SUPPORTED_FORMATS: set<string> := {"jpeg", "jpg", "png", "tiff", "tif", "gif", "bmp"}

  /** A metadata node: its text content, its attribute values (null where absent) and its child nodes. */
  datatype MetaNode = MetaNode(text: Option<string>, attributes: seq<Option<string>>, children: seq<MetaNode>)

  /** One metadata format's tree, as `getAsTree` returns it. */
  datatype MetaFormat = MetaFormat(formatName: string, root: MetaNode)

  /** What the reader yields: the raster and the image metadata, if any. */
  datatype Decoded = Decoded(raster: Bytes, metadata: Option<seq<MetaFormat>>)

  /**
   * ImageIO: the reader (`None` when no reader accepts the bytes or reading
   * throws) and the writer for a format name (`None` when there is no
   * writer or writing throws).
   */
  datatype ImageCodec = ImageCodec(
    read: Bytes -> Option<Decoded>,
    write: (string, Bytes, Option<seq<MetaFormat>>) -> Option<Bytes>)

  datatype ImageInput = ImageInput(imageBytes: Bytes, filename: string, m: PlaceholderMap)

  /** `isMetadataEditingSupported`. */
  predicate IsMetadataEditingSupported(format: string)
  {
    format in METADATA_SUPPORTED_FORMATS
  }

  /** "jpg" is read as "jpeg", so the "jpg" entry of the format set is never consulted. */
  lemma ImageFormatNeverJpg(filename: Option<string>)
    ensures ImageFormat(filename) != "jpg"
  {
  }

  // ------------------------------------------------------------ the tree walk, as functions

  /**
   * How the walk reads a node's text: `GetTextContent` is the program's
   * call, which always throws; `NodeValue` reads the node's own value.
   */
  datatype TextRead = GetTextContent | NodeValue

  /** Text content is rewritten only when present and not blank. */
  predicate TextRewritten(text: Option<string>)
  {
    text.Some? && !IsBlank(text.value)
  }

  function MapText(text: Option<string>, m: PlaceholderMap): Option<string>
  {
    if TextRewritten(text) then
      match ApplyPlaceholders(text.value, m)
      case Some(t) => Some(t)
      case None => text
    else text
  }

  predicate TextFails(text: Option<string>, m: PlaceholderMap)
  {
    TextRewritten(text) && ApplyPlaceholders(text.value, m).None?
  }

  function MapAttribute(value: Option<string>, m: PlaceholderMap): Option<string>
  {
    if value.Some? then
      match ApplyPlaceholders(value.value, m)
      case Some(t) => Some(t)
      case None => value
    else None
  }

  predicate AttributeFails(value: Option<string>, m: PlaceholderMap)
  {
    value.Some? && ApplyPlaceholders(value.value, m).None?
  }

  /** Every attribute of a node, each rewritten on its own. */
  function MapAttributes(attributes: seq<Option<string>>, m: PlaceholderMap): (r: seq<Option<string>>)
    ensures |r| == |attributes|
    ensures forall k :: 0 <= k < |attributes| ==> r[k] == MapAttribute(attributes[k], m)
  {
    seq(|attributes|, k requires 0 <= k < |attributes| => MapAttribute(attributes[k], m))
  }

  /** `processMetadataNode` on a tree: text, then attributes, then every child. */
  function MapNode(n: MetaNode, m: PlaceholderMap): MetaNode
    decreases n
  {
    MetaNode(
      MapText(n.text, m),
      MapAttributes(n.attributes, m),
      seq(|n.children|, k requires 0 <= k < |n.children| => MapNode(n.children[k], m)))
  }

  /** Some attribute's rewrite throws. */
  predicate AnyAttributeFails(attributes: seq<Option<string>>, m: PlaceholderMap)
  {
    exists k :: 0 <= k < |attributes| && AttributeFails(attributes[k], m)
  }

  /** Reading the text, or some rewrite in the tree, throws, which abandons the whole walk. */
  predicate NodeFails(read: TextRead, n: MetaNode, m: PlaceholderMap)
    decreases n
  {
    || read == GetTextContent
    || TextFails(n.text, m)
    || AnyAttributeFails(n.attributes, m)
    || (exists k :: 0 <= k < |n.children| && NodeFails(read, n.children[k], m))
  }

  /** One format after `processMetadata`: the rewritten tree, or the tree as it was when the walk threw. */
  function ProcessedFormat(read: TextRead, f: MetaFormat, m: PlaceholderMap): MetaFormat
  {
    if NodeFails(read, f.root, m) then f else MetaFormat(f.formatName, MapNode(f.root, m))
  }

  function ProcessedMetadata(read: TextRead, formats: seq<MetaFormat>, m: PlaceholderMap): (r: seq<MetaFormat>)
    ensures |r| == |formats|
  {
    seq(|formats|, k requires 0 <= k < |formats| => ProcessedFormat(read, formats[k], m))
  }

  /** `processImageInternal` with the given text read, every exception turned into the input. */
  function ImageComputedWith(read: TextRead, i: ImageInput, codec: ImageCodec): Bytes
  {
    var format := ImageFormat(Some(i.filename));
    if !IsMetadataEditingSupported(format) then i.imageBytes
    else
      match codec.read(i.imageBytes)
      case None => i.imageBytes
      case Some(d) =>
        var metadata := if d.metadata.Some? then Some(ProcessedMetadata(read, d.metadata.value, i.m)) else None;
        match codec.write(format, d.raster, metadata)
        case None => i.imageBytes
        case Some(out) => out
  }

  /** `processImageInternal` as the program runs it, reading text through `getTextContent`. */
  function ImageComputed(i: ImageInput, codec: ImageCodec): Bytes
  {
    ImageComputedWith(GetTextContent, i, codec)
  }

  /** `createCacheKey`: `filename:length:mapHash`. */
  function ImageKey(i: ImageInput, mapHash: PlaceholderMap -> int): string
  {
    NameLengthHashKey(i.filename, |i.imageBytes|, mapHash(i.m))
  }

  // ------------------------------------------------------------ the tree walk, in place of the DOM edits

  /** The text step of `processMetadataNode`; `getTextContent` throws before anything is rewritten. */
  method ProcessText(read: TextRead, text: Option<string>, m: PlaceholderMap) returns (r: Option<string>, failed: bool)
    ensures failed == (read == GetTextContent || TextFails(text, m))
    ensures !failed ==> r == MapText(text, m)
  {
    if read == GetTextContent {
      return text, true;
    }
    r, failed := text, false;
    if text.Some? && !IsBlank(text.value) {
      var processed := ApplyPlaceholders(text.value, m);
      if processed.None? {
        return text, true;
      }
      if processed.value != text.value {
        r := processed;
      }
    }
  }

  /** One pass of the attribute loop: a non-null value is rewritten, and set back only when the rewrite changed it. */
  method ProcessAttribute(value: Option<string>, m: PlaceholderMap) returns (next: Option<string>, failed: bool)
    ensures failed == AttributeFails(value, m)
    ensures !failed ==> next == MapAttribute(value, m)
  {
    next, failed := value, false;
    if value.Some? {
      var processed := ApplyPlaceholders(value.value, m);
      if processed.None? {
        return value, true;
      }
      if processed.value != value.value {
        next := processed;
      }
    }
  }

  /** One more attribute extends the rewritten prefix by its own rewrite. */
  lemma MapAttributesSnoc(attributes: seq<Option<string>>, m: PlaceholderMap, i: nat)
    requires i < |attributes|
    ensures MapAttributes(attributes[..i + 1], m) == MapAttributes(attributes[..i], m) + [MapAttribute(attributes[i], m)]
  {
    var longer, shorter := MapAttributes(attributes[..i + 1], m), MapAttributes(attributes[..i], m) + [MapAttribute(attributes[i], m)];
    forall k | 0 <= k < |longer|
      ensures longer[k] == shorter[k]
    {
      assert attributes[..i + 1][k] == attributes[k];
      if k < i {
        assert attributes[..i][k] == attributes[k];
      }
    }
  }

  /** The attribute loop of `processMetadataNode`. */
  method ProcessAttributes(attributes: seq<Option<string>>, m: PlaceholderMap) returns (r: seq<Option<string>>, failed: bool)
    ensures failed == AnyAttributeFails(attributes, m)
    ensures !failed ==> r == MapAttributes(attributes, m)
  {
    r := [];
    var i := 0;
    while i < |attributes|
      invariant 0 <= i <= |attributes|
      invariant r == MapAttributes(attributes[..i], m)
      invariant forall k :: 0 <= k < i ==> !AttributeFails(attributes[k], m)
    {
      var next, stepFailed := ProcessAttribute(attributes[i], m);
      MapAttributesSnoc(attributes, m, i);
      if stepFailed {
        assert AttributeFails(attributes[i], m);
        return attributes, true;
      }
      r := r + [next];
      i := i + 1;
    }
    assert attributes[..i] == attributes;
    failed := false;
  }

  /**
   * `processMetadataNode`: the rewritten node, or `failed` when reading its
   * text or a rewrite in it or below it throws.
   */
  method ProcessMetadataNode(read: TextRead, node: MetaNode, m: PlaceholderMap) returns (r: MetaNode, failed: bool)
    ensures failed == NodeFails(read, node, m)
    ensures !failed ==> r == MapNode(node, m)
    ensures read == GetTextContent ==> failed
    decreases node
  {
    var text, textFailed := ProcessText(read, node.text, m);
    if textFailed {
      return node, true;
    }
    var attributes, attributesFailed := ProcessAttributes(node.attributes, m);
    if attributesFailed {
      return node, true;
    }
    var children: seq<MetaNode> := [];
    var i := 0;
    while i < |node.children|
      invariant 0 <= i <= |node.children|
      invariant |children| == i
      invariant forall k :: 0 <= k < i ==> !NodeFails(read, node.children[k], m) && children[k] == MapNode(node.children[k], m)
    {
      var child, childFailed := ProcessMetadataNode(read, node.children[i], m);
      if childFailed {
        return node, true;
      }
      children := children + [child];
      i := i + 1;
    }
    r, failed := MetaNode(text, attributes, children), false;
  }

  /** `processMetadata`: each format's tree is walked and set back; a format whose walk throws is left as it was. */
  method ProcessMetadata(read: TextRead, formats: seq<MetaFormat>, m: PlaceholderMap) returns (r: seq<MetaFormat>)
    ensures r == ProcessedMetadata(read, formats, m)
  {
    r := [];
    var i := 0;
    while i < |formats|
      invariant 0 <= i <= |formats|
      invariant |r| == i
      invariant forall k :: 0 <= k < i ==> r[k] == ProcessedFormat(read, formats[k], m)
    {
      var format := ProcessFormat(read, formats[i], m);
      r := r + [format];
      i := i + 1;
    }
  }

  /** One pass of the loop in `processMetadata`. */
  method ProcessFormat(read: TextRead, f: MetaFormat, m: PlaceholderMap) returns (r: MetaFormat)
    ensures r == ProcessedFormat(read, f, m)
  {
    var root, failed := ProcessMetadataNode(read, f.root, m);
    if failed {
      r := f;
    } else {
      r := MetaFormat(f.formatName, root);
    }
  }

  /** `processImageInternal`. */
  method ProcessImageInternal(read: TextRead, imageBytes: Bytes, filename: string, m: PlaceholderMap, codec: ImageCodec) returns (r: Bytes)
    ensures r == ImageComputedWith(read, ImageInput(imageBytes, filename, m), codec)
  {
    var format := ImageFormat(Some(filename));
    if !IsMetadataEditingSupported(format) {
      return imageBytes;
    }
    var decoded := codec.read(imageBytes);
    if decoded.None? {
      return imageBytes;
    }
    var metadata := decoded.value.metadata;
    if metadata.Some? {
      var processed := ProcessMetadata(read, metadata.value, m);
      metadata := Some(processed);
    }
    var written := codec.write(format, decoded.value.raster, metadata);
    r := if written.Some? then written.value else imageBytes;
  }

  // ------------------------------------------------------------ properties of the walk

  /** The walk keeps the tree's shape: attribute and child counts, null attributes, absent and blank text. */
  lemma {:induction false} MapNodeKeepsShape(n: MetaNode, m: PlaceholderMap)
    ensures |MapNode(n, m).attributes| == |n.attributes| && |MapNode(n, m).children| == |n.children|
    ensures forall k :: 0 <= k < |n.attributes| ==> (MapNode(n, m).attributes[k].None? <==> n.attributes[k].None?)
    ensures !TextRewritten(n.text) ==> MapNode(n, m).text == n.text
    ensures n.text.Some? <==> MapNode(n, m).text.Some?
  {
  }

  /** No text content or attribute value anywhere in the tree contains a key. */
  predicate NodeKeyFree(n: MetaNode, m: PlaceholderMap)
    decreases n
  {
    && (n.text.Some? ==> NoKeyOccurs(n.text.value, m))
    && (forall k :: 0 <= k < |n.attributes| && n.attributes[k].Some? ==> NoKeyOccurs(n.attributes[k].value, m))
    && (forall k :: 0 <= k < |n.children| ==> NodeKeyFree(n.children[k], m))
  }

  /** With the node value read, a tree without keys is walked without change. */
  lemma {:induction false} KeyFreeNodeKept(n: MetaNode, m: PlaceholderMap)
    requires NodeKeyFree(n, m)
    ensures MapNode(n, m) == n && !NodeFails(NodeValue, n, m)
    decreases n
  {
    if n.text.Some? {
      ApplyPlaceholdersKeyFree(n.text.value, m);
    }
    forall k | 0 <= k < |n.attributes| && n.attributes[k].Some?
      ensures ApplyPlaceholders(n.attributes[k].value, m) == Some(n.attributes[k].value)
    {
      ApplyPlaceholdersKeyFree(n.attributes[k].value, m);
    }
    forall k | 0 <= k < |n.children|
      ensures MapNode(n.children[k], m) == n.children[k] && !NodeFails(NodeValue, n.children[k], m)
    {
      KeyFreeNodeKept(n.children[k], m);
    }
    assert MapNode(n, m).attributes == n.attributes;
    assert MapNode(n, m).children == n.children;
  }

  /** With the node value read, a map without null values never makes the walk throw. */
  lemma {:induction false} NoNullNodeSucceeds(n: MetaNode, m: PlaceholderMap)
    requires NoNullValues(m)
    ensures !NodeFails(NodeValue, n, m)
    decreases n
  {
    if n.text.Some? {
      ApplyPlaceholdersNoNull(n.text.value, m);
    }
    forall k | 0 <= k < |n.attributes| && n.attributes[k].Some?
      ensures ApplyPlaceholders(n.attributes[k].value, m).Some?
    {
      ApplyPlaceholdersNoNull(n.attributes[k].value, m);
    }
    forall k | 0 <= k < |n.children|
      ensures !NodeFails(NodeValue, n.children[k], m)
    {
      NoNullNodeSucceeds(n.children[k], m);
    }
  }

  /**
   * With the node value read and no null value, each format's tree is set
   * back rewritten: non-blank text becomes its longest-first substitution.
   */
  lemma CorrectedFormatRewritten(f: MetaFormat, m: PlaceholderMap)
    requires NoNullValues(m)
    ensures ProcessedFormat(NodeValue, f, m) == MetaFormat(f.formatName, MapNode(f.root, m))
    ensures TextRewritten(f.root.text) ==> ProcessedFormat(NodeValue, f, m).root.text == Some(LongestFirst(f.root.text.value, m))
  {
    NoNullNodeSucceeds(f.root, m);
    if TextRewritten(f.root.text) {
      ApplyPlaceholdersNoNull(f.root.text.value, m);
    }
  }

  /** Formats without keys are set back unchanged, however text is read. */
  lemma KeyFreeMetadataKept(read: TextRead, formats: seq<MetaFormat>, m: PlaceholderMap)
    requires forall k :: 0 <= k < |formats| ==> NodeKeyFree(formats[k].root, m)
    ensures ProcessedMetadata(read, formats, m) == formats
  {
    forall k | 0 <= k < |formats|
      ensures ProcessedFormat(read, formats[k], m) == formats[k]
    {
      KeyFreeNodeKept(formats[k].root, m);
    }
  }

  /**
   * As written, every walk throws at its root's `getTextContent`, so each
   * format is set back exactly as it was read, whatever the tree and the map.
   */
  lemma MetadataNeverRewritten(formats: seq<MetaFormat>, m: PlaceholderMap)
    ensures ProcessedMetadata(GetTextContent, formats, m) == formats
  {
    assert forall k :: 0 <= k < |formats| ==> ProcessedMetadata(GetTextContent, formats, m)[k] == formats[k];
  }

  /**
   * As written, the map plays no part in the image result: a readable image
   * is decoded and written again with the metadata as it was read.
   */
  lemma ImageIgnoresMap(i: ImageInput, codec: ImageCodec, other: PlaceholderMap)
    ensures ImageComputed(i, codec) == ImageComputed(ImageInput(i.imageBytes, i.filename, other), codec)
    ensures IsMetadataEditingSupported(ImageFormat(Some(i.filename))) && codec.read(i.imageBytes).Some? ==>
              var d := codec.read(i.imageBytes).value;
              var written := codec.write(ImageFormat(Some(i.filename)), d.raster, d.metadata);
              ImageComputed(i, codec) == if written.Some? then written.value else i.imageBytes
  {
    if codec.read(i.imageBytes).Some? {
      var d := codec.read(i.imageBytes).value;
      if d.metadata.Some? {
        MetadataNeverRewritten(d.metadata.value, i.m);
        MetadataNeverRewritten(d.metadata.value, other);
      }
    }
  }

  /**
   * A format whose root text is a key with a value: as written it is set
   * back as read, while reading the node value rewrites it to the value.
   */
  lemma MetadataKeyKeptAsWritten()
    ensures var f := MetaFormat("javax_imageio_1.0", MetaNode(Some("${name}"), [], []));
            var m := [Placeholder("${name}", Some("Placy"))];
            && ProcessedFormat(GetTextContent, f, m) == f
            && ProcessedFormat(NodeValue, f, m).root.text == Some("Placy")
  {
    var f := MetaFormat("javax_imageio_1.0", MetaNode(Some("${name}"), [], []));
    var m := [Placeholder("${name}", Some("Placy"))];
    assert NoNullValues(m);
    CorrectedFormatRewritten(f, m);
    assert SortByKeyLength(m) == m;
    assert OccursAt("${name}", "${name}", 0);
    assert IndexOf("${name}", "${name}", 0) == 0;
    assert IndexOf([], "${name}", 0) == -1;
    assert ReplaceAll("${name}", "${name}", "Placy") == "Placy";
    assert SubstituteAll("${name}", m) == "Placy" by {
      assert Contains("${name}", "${name}");
      assert m[..0] == [];
    }
    assert !IsBlank("${name}") by {
      assert "${name}"[0] == '$';
    }
  }

  /** An unsupported format, or bytes no reader accepts, come back unchanged. */
  lemma UnreadableUnchanged(read: TextRead, i: ImageInput, codec: ImageCodec)
    requires !IsMetadataEditingSupported(ImageFormat(Some(i.filename))) || codec.read(i.imageBytes).None?
    ensures ImageComputedWith(read, i, codec) == i.imageBytes
  {
  }

  /**
   * An image whose metadata holds no key is still decoded and encoded again
   * (with compression quality 0.9 where the writer compresses), so the
   * result is the writer's output, not the input.
   */
  lemma KeyFreeImageReencoded(read: TextRead, i: ImageInput, codec: ImageCodec)
    requires IsMetadataEditingSupported(ImageFormat(Some(i.filename)))
    requires codec.read(i.imageBytes).Some?
    requires var d := codec.read(i.imageBytes).value;
             d.metadata.Some? ==> forall k :: 0 <= k < |d.metadata.value| ==> NodeKeyFree(d.metadata.value[k].root, i.m)
    requires codec.write(ImageFormat(Some(i.filename)), codec.read(i.imageBytes).value.raster, codec.read(i.imageBytes).value.metadata).Some?
    ensures var d := codec.read(i.imageBytes).value;
            ImageComputedWith(read, i, codec) == codec.write(ImageFormat(Some(i.filename)), d.raster, d.metadata).value
  {
    var d := codec.read(i.imageBytes).value;
    if d.metadata.Some? {
      KeyFreeMetadataKept(read, d.metadata.value, i.m);
    }
  }

  // ------------------------------------------------------------ the cache wrapper

  class ImageProcessor {
    const codec: ImageCodec
    /** `Map.hashCode`, left uninterpreted. */
    const mapHash: PlaceholderMap -> int
    const imageCache: MemoCache<ImageInput, string, Bytes>

    ghost predicate Valid()
      reads this, imageCache
    {
      && imageCache.Valid()
      && imageCache.maxSize == MAX_CACHE_SIZE
      && (forall i :: imageCache.keyOf(i) == ImageKey(i, mapHash))
      && (forall i :: imageCache.compute(i) == ImageComputed(i, codec))
    }

    constructor (codec: ImageCodec, mapHash: PlaceholderMap -> int)
      ensures Valid() && fresh(imageCache)
      ensures this.codec == codec && this.mapHash == mapHash
      ensures imageCache.entries == map[]
    {
      this.codec := codec;
      this.mapHash := mapHash;
      imageCache := new MemoCache(MAX_CACHE_SIZE,
        (i: ImageInput) => ImageKey(i, mapHash),
        (i: ImageInput) => ImageComputed(i, codec));
    }

    /**
     * `processImage`: the input for an empty map; otherwise the cached bytes
     * under `filename:length:mapHash`, computed and stored on a miss, after
     * clearing a cache of more than 200 entries. The answer is the result
     * for some image with the same name and length.
     */
    method ProcessImage(imageBytes: Bytes, filename: string, m: PlaceholderMap) returns (r: Bytes)
      requires Valid()
      modifies imageCache`entries, imageCache`sources
      ensures Valid()
      ensures m == [] ==> r == imageBytes && imageCache.entries == old(imageCache.entries)
      ensures m != [] ==>
        var input := ImageInput(imageBytes, filename, m);
        var key := ImageKey(input, mapHash);
        && r == Served(old(imageCache.entries), MAX_CACHE_SIZE, key, ImageComputed(input, codec))
        && imageCache.entries == After(old(imageCache.entries), MAX_CACHE_SIZE, key, ImageComputed(input, codec))
      ensures m != [] ==> exists j: ImageInput ::
        && j.filename == filename && |j.imageBytes| == |imageBytes| && mapHash(j.m) == mapHash(m)
        && r == ImageComputed(j, codec)
    {
      if m == [] {
        return imageBytes;
      }
      var input := ImageInput(imageBytes, filename, m);
      r := imageCache.Lookup(input);
      ghost var j: ImageInput :| imageCache.keyOf(j) == imageCache.keyOf(input) && r == imageCache.compute(j);
      NameLengthHashKeyInjective(j.filename, |j.imageBytes|, mapHash(j.m), filename, |imageBytes|, mapHash(m));
    }
  }

  /**
   * The key ignores the content: once one image is stored, a different image
   * with the same name, length and map is answered with the first one's
   * result, which is wrong whenever their results differ.
   */
  lemma SameNameAndLengthServedStale(codec: ImageCodec, mapHash: PlaceholderMap -> int, first: ImageInput, second: ImageInput)
    requires first.m != [] && second.m == first.m && second.filename == first.filename
    requires |second.imageBytes| == |first.imageBytes|
    requires ImageComputed(first, codec) != ImageComputed(second, codec)
    ensures var cache := After(map[], MAX_CACHE_SIZE, ImageKey(first, mapHash), ImageComputed(first, codec));
            Served(cache, MAX_CACHE_SIZE, ImageKey(second, mapHash), ImageComputed(second, codec)) != ImageComputed(second, codec)
  {
    SecondLookupServed(map[], MAX_CACHE_SIZE, ImageKey(first, mapHash), ImageComputed(first, codec), ImageComputed(second, codec));
  }

  /** A cache keyed by the whole input: its answer is always the result for the image given. */
  class ContentKeyedImageProcessor {
    const codec: ImageCodec
    const imageCache: MemoCache<ImageInput, ImageInput, Bytes>

    ghost predicate Valid()
      reads this, imageCache
    {
      && imageCache.Valid()
      && imageCache.maxSize == MAX_CACHE_SIZE
      && (forall i :: imageCache.keyOf(i) == i)
      && (forall i :: imageCache.compute(i) == ImageComputed(i, codec))
    }

    constructor (codec: ImageCodec)
      ensures Valid() && fresh(imageCache)
      ensures this.codec == codec
    {
      this.codec := codec;
      imageCache := new MemoCache(MAX_CACHE_SIZE, (i: ImageInput) => i, (i: ImageInput) => ImageComputed(i, codec));
    }

    method ProcessImage(imageBytes: Bytes, filename: string, m: PlaceholderMap) returns (r: Bytes)
      requires Valid()
      modifies imageCache`entries, imageCache`sources
      ensures Valid()
      ensures r == if m == [] then imageBytes else ImageComputed(ImageInput(imageBytes, filename, m), codec)
    {
      if m == [] {
        return imageBytes;
      }
      r := imageCache.Lookup(ImageInput(imageBytes, filename, m));
    }
  }
}

=== FILE: java_lang.dfy ===
/**
 * Java-level primitives shared by every component: Option, bytes, the
 * charset codec (an abstract pair of functions), Java's truncating integer
 * division, and concatenation of written pieces.
 */
module JavaLang {

  datatype Option<T> = None | Some(value: T)

  /** Java's string conversion of a possibly null string. */
  function JavaString(s: Option<string>): string
  {
    if s.Some? then s.value else "null"
  }

  /** A byte as an unsigned value; Java's signed reading is `Signed`. */
  type byte = b: int | 0 <= b < 256
  type Bytes = seq<byte>

  /** The value a Java `byte` holds for this bit pattern. */
  function Signed(b: byte): (r: int)
    ensures -128 <= r < 128
    ensures r < 0 <==> b >= 0x80
    ensures (r - b) % 256 == 0
  {
    if b >= 128 then b - 256 else b
  }

  /**
   * A charset: decoding bytes to text and encoding text to bytes. UTF-8 is
   * passed around as such a value; its round trip on a particular input is
   * stated where it is needed, as `RoundTrips`.
   */
  datatype Codec = Codec(decode: Bytes -> string, encode: string -> Bytes)

  predicate RoundTrips(cs: Codec, b: Bytes)
  {
    cs.encode(cs.decode(b)) == b
  }

  function Min(a: int, b: int): (r: int)
    ensures r <= a && r <= b && (r == a || r == b)
  {
    if a <= b then a else b
  }

  const LONG_MIN: int := -0x8000_0000_0000_0000
  const LONG_MAX: int := 0x7FFF_FFFF_FFFF_FFFF

  /** Java `long` arithmetic: the exact value wrapped into 64-bit two's complement. */
  function WrapLong(x: int): (r: int)
    ensures LONG_MIN <= r <= LONG_MAX
    ensures LONG_MIN <= x <= LONG_MAX ==> r == x
    ensures (r - x) % 0x1_0000_0000_0000_0000 == 0
  {
    (x - LONG_MIN) % 0x1_0000_0000_0000_0000 + LONG_MIN
  }

  /** Wrapping a partial sum first does not change the wrapped total. */
  lemma WrapLongAdd(a: int, b: int)
    ensures WrapLong(WrapLong(a) + b) == WrapLong(a + b)
  {
    var k := (WrapLong(a) - a) / 0x1_0000_0000_0000_0000;
    assert WrapLong(a) == a + k * 0x1_0000_0000_0000_0000;
    ModShift(a + b - LONG_MIN, k);
  }

  /** Adding a multiple of 2^64 keeps the remainder modulo 2^64. */
  lemma ModShift(x: int, k: int)
    ensures (x + k * 0x1_0000_0000_0000_0000) % 0x1_0000_0000_0000_0000 == x % 0x1_0000_0000_0000_0000
  {
    var q, r := x / 0x1_0000_0000_0000_0000, x % 0x1_0000_0000_0000_0000;
    assert x + k * 0x1_0000_0000_0000_0000 == (q + k) * 0x1_0000_0000_0000_0000 + r;
  }

  function Max(a: int, b: int): (r: int)
    ensures r >= a && r >= b && (r == a || r == b)
  {
    if a >= b then a else b
  }

  lemma MulMono(y: int, q: int)
    requires y > 0
    ensures q >= 1 ==> y * q >= y
    ensures q <= -1 ==> y * q <= -y
  {
  }

  /** Cancelling a positive factor keeps a strict order. */
  lemma MulStrict(a: int, b: int, d: int)
    requires d > 0 && a * d < b * d
    ensures a < b
  {
  }

  /** Facts about `/` on naturals that the solver does not find alone. */
  lemma NatDiv(x: nat, y: nat)
    requires y > 0
    ensures x < y ==> x / y == 0
    ensures x >= y ==> x / y >= 1
  {
    var q, r := x / y, x % y;
    assert x == y * q + r;
    MulMono(y, q);
  }

  /** Java's `/` on `int`/`long`: the quotient truncated toward zero. */
  function JDiv(a: int, b: int): (q: int)
    requires b != 0
    ensures a >= 0 && b > 0 ==> q == a / b
    ensures Abs(a) < Abs(b) ==> q == 0
    ensures Abs(a) >= Abs(b) ==> (q < 0 <==> (a < 0) != (b < 0))
  {
    NatDiv(Abs(a), Abs(b));
    if (a < 0) == (b < 0) then Abs(a) / Abs(b) else -(Abs(a) / Abs(b))
  }

  function Abs(x: int): (r: nat)
    ensures r == x || r == -x
  {
    if x < 0 then -x else x
  }

  /** The text a sequence of `write` calls produces, in call order. */
  function ConcatStrings(pieces: seq<string>): (r: string)
    ensures |r| == TotalLength(pieces)
  {
    if pieces == [] then [] else ConcatStrings(pieces[..|pieces| - 1]) + pieces[|pieces| - 1]
  }

  function TotalLength(pieces: seq<string>): nat
  {
    if pieces == [] then 0 else TotalLength(pieces[..|pieces| - 1]) + |pieces[|pieces| - 1]|
  }

  function ConcatBytes(chunks: seq<Bytes>): (r: Bytes)
    ensures |r| == ByteCount(chunks)
  {
    if chunks == [] then [] else ConcatBytes(chunks[..|chunks| - 1]) + chunks[|chunks| - 1]
  }

  function ByteCount(chunks: seq<Bytes>): nat
  {
    if chunks == [] then 0 else ByteCount(chunks[..|chunks| - 1]) + |chunks[|chunks| - 1]|
  }

  lemma ConcatStringsSnoc(pieces: seq<string>, x: string)
    ensures ConcatStrings(pieces + [x]) == ConcatStrings(pieces) + x
    ensures TotalLength(pieces + [x]) == TotalLength(pieces) + |x|
  {
    assert (pieces + [x])[..|pieces|] == pieces;
  }

  lemma ConcatBytesSnoc(chunks: seq<Bytes>, x: Bytes)
    ensures ConcatBytes(chunks + [x]) == ConcatBytes(chunks) + x
    ensures ByteCount(chunks + [x]) == ByteCount(chunks) + |x|
  {
    assert (chunks + [x])[..|chunks|] == chunks;
  }

  lemma {:induction false} ConcatBytesCons(x: Bytes, chunks: seq<Bytes>)
    ensures ConcatBytes([x] + chunks) == x + ConcatBytes(chunks)
    decreases |chunks|
  {
    if chunks != [] {
      var p := chunks[..|chunks| - 1];
      ConcatBytesCons(x, p);
      assert ([x] + chunks)[..|chunks|] == [x] + p;
    }
  }

  lemma {:induction false} ConcatStringsCons(x: string, pieces: seq<string>)
    ensures ConcatStrings([x] + pieces) == x + ConcatStrings(pieces)
    decreases |pieces|
  {
    if pieces != [] {
      var p := pieces[..|pieces| - 1];
      ConcatStringsCons(x, p);
      assert ([x] + pieces)[..|pieces|] == [x] + p;
    }
  }
}

=== FILE: java_text.dfy ===
/**
 * The parts of java.lang.String the rewriter relies on: `contains`,
 * `indexOf`, `lastIndexOf`, `replace` (all non-overlapping occurrences from
 * the left; an empty target inserts the replacement around every
 * character), `trim`, `startsWith`/`endsWith`, and case folding restricted
 * to ASCII. A string is a sequence of characters and indices count
 * characters, not UTF-16 code units.
 */
module JavaText {

  /** `key` occurs in `s` starting at index `i`. */
  predicate OccursAt(s: string, key: string, i: int)
  {
    0 <= i && i + |key| <= |s| && s[i..i + |key|] == key
  }

  /** `String.contains`. */
  predicate Contains(s: string, key: string)
  {
    exists i | 0 <= i <= |s| - |key| :: OccursAt(s, key, i)
  }

  /**
   * `String.indexOf(key, from)`: the first occurrence at or after `from`,
   * or -1. (Java answers `|s|` for an empty key searched past the end; the
   * model never searches for an empty key there.)
   */
  function IndexOf(s: string, key: string, from: nat): (r: int)
    ensures r == -1 || from <= r <= |s| - |key|
    decreases |s| - from
  {
    if from + |key| > |s| then -1
    else if OccursAt(s, key, from) then from
    else IndexOf(s, key, from + 1)
  }

  /** `IndexOf` finds the first occurrence at or after `from`, and -1 means there is none. */
  lemma {:induction false} IndexOfSpec(s: string, key: string, from: nat)
    ensures var r := IndexOf(s, key, from);
            && (r >= 0 ==> OccursAt(s, key, r))
            && (r == -1 ==> forall j :: from <= j ==> !OccursAt(s, key, j))
            && (r >= 0 ==> forall j :: from <= j < r ==> !OccursAt(s, key, j))
    decreases |s| - from
  {
    if from + |key| <= |s| && s[from..from + |key|] != key {
      IndexOfSpec(s, key, from + 1);
    }
  }

  /** `String.lastIndexOf(char)`. */
  function LastIndexOf(s: string, c: char): (r: int)
    ensures -1 <= r < |s|
    ensures r >= 0 ==> s[r] == c
    ensures forall j :: r < j < |s| ==> s[j] != c
  {
    if s == [] then -1
    else if s[|s| - 1] == c then |s| - 1
    else LastIndexOf(s[..|s| - 1], c)
  }

  predicate StartsWith(s: string, prefix: string)
  {
    |prefix| <= |s| && s[..|prefix|] == prefix
  }

  predicate EndsWith(s: string, suffix: string)
  {
    |suffix| <= |s| && s[|s| - |suffix|..] == suffix
  }

  /** `Character.toLowerCase` on the ASCII range; other characters are kept. */
  function ToLowerChar(c: char): char
  {
    if 'A' <= c <= 'Z' then (c as int + 32) as char else c
  }

  function ToLower(s: string): (r: string)
    ensures |r| == |s|
    ensures forall i :: 0 <= i < |s| ==> r[i] == ToLowerChar(s[i])
  {
    seq(|s|, i requires 0 <= i < |s| => ToLowerChar(s[i]))
  }

  /** `String.equalsIgnoreCase` on the ASCII range. */
  predicate EqualsIgnoreCase(a: string, b: string)
  {
    ToLower(a) == ToLower(b)
  }

  /** `String.trim`: drops leading and trailing characters <= U+0020. */
  function Trim(s: string): (r: string)
    ensures |r| <= |s|
    ensures r == [] || (r[0] > ' ' && r[|r| - 1] > ' ')
  {
    TrimEnd(TrimStart(s))
  }

  function TrimStart(s: string): (r: string)
    ensures |r| <= |s| && r == s[|s| - |r|..]
    ensures r == [] || r[0] > ' '
    ensures forall k :: 0 <= k < |s| - |r| ==> s[k] <= ' '
  {
    if s != [] && s[0] <= ' ' then TrimStart(s[1..]) else s
  }

  function TrimEnd(s: string): (r: string)
    ensures |r| <= |s| && r == s[..|r|]
    ensures r == [] || r[|r| - 1] > ' '
    ensures forall k :: |r| <= k < |s| ==> s[k] <= ' '
  {
    if s != [] && s[|s| - 1] <= ' ' then TrimEnd(s[..|s| - 1]) else s
  }

  /** Every character is at most U+0020, the characters `trim` removes. */
  predicate IsBlank(s: string)
  {
    forall k :: 0 <= k < |s| ==> s[k] <= ' '
  }

  /** `IsBlank` is exactly `s.trim().isEmpty()`. */
  lemma BlankIffTrimEmpty(s: string)
    ensures IsBlank(s) <==> Trim(s) == []
  {
    var t := TrimStart(s);
    assert t == [] || t[0] == s[|s| - |t|];
    assert t != [] ==> TrimEnd(t) != [];
  }

  /** `String.replace(key, value)` with an empty `key`: value, c0, value, c1, ..., value. */
  function InsertAround(s: string, value: string): string
  {
    if s == [] then value else value + [s[0]] + InsertAround(s[1..], value)
  }

  /**
   * `String.replace(key, value)`: substitute the first occurrence, then
   * continue searching just after it, so occurrences never overlap and a
   * value containing the key is not rescanned.
   */
  function ReplaceAll(s: string, key: string, value: string): string
  {
    if key == [] then InsertAround(s, value) else ReplaceMatches(s, key, value)
  }

  /** `ReplaceAll` for a non-empty key. */
  function ReplaceMatches(s: string, key: string, value: string): string
    requires key != []
    decreases |s|
  {
    var p := IndexOf(s, key, 0);
    if p < 0 then s else s[..p] + value + ReplaceMatches(s[p + |key|..], key, value)
  }

  /** How many occurrences `ReplaceAll` substitutes (for an empty key, one per gap). */
  function MatchCount(s: string, key: string): nat
  {
    if key == [] then |s| + 1 else CountMatches(s, key)
  }

  /** `MatchCount` for a non-empty key. */
  function CountMatches(s: string, key: string): nat
    requires key != []
    decreases |s|
  {
    var p := IndexOf(s, key, 0);
    if p < 0 then 0 else 1 + CountMatches(s[p + |key|..], key)
  }

  lemma OccursAtShift(a: string, b: string, key: string, j: int)
    requires j >= 0
    ensures OccursAt(a + b, key, |a| + j) <==> OccursAt(b, key, j)
  {
    if j + |key| <= |b| {
      assert (a + b)[|a| + j..|a| + j + |key|] == b[j..j + |key|];
    }
  }

  /** Searching `a + b` from index `|a| + k` is searching `b` from `k`, shifted by `|a|`. */
  lemma {:induction false} IndexOfShift(a: string, b: string, key: string, k: nat)
    ensures var q := IndexOf(b, key, k);
            IndexOf(a + b, key, |a| + k) == if q < 0 then -1 else |a| + q
    decreases |b| - k
  {
    if k + |key| <= |b| {
      assert (a + b)[|a| + k..|a| + k + |key|] == b[k..k + |key|];
      if b[k..k + |key|] != key {
        IndexOfShift(a, b, key, k + 1);
      }
    }
  }

  /** Searching from `index` is searching the suffix that starts there, shifted by `index`. */
  lemma IndexOfSuffix(s: string, key: string, index: nat)
    requires index <= |s|
    ensures var q := IndexOf(s[index..], key, 0);
            IndexOf(s, key, index) == if q < 0 then -1 else index + q
  {
    assert s == s[..index] + s[index..];
    IndexOfShift(s[..index], s[index..], key, 0);
  }

  /** One step of counting from `index`: the next match `f`, if any, and the count after it. */
  lemma CountMatchesFrom(s: string, key: string, index: nat, f: int)
    requires key != [] && index <= |s| && f == IndexOf(s, key, index)
    ensures f == -1 ==> CountMatches(s[index..], key) == 0
    ensures f != -1 ==> index <= f && f + |key| <= |s|
    ensures f != -1 ==> CountMatches(s[index..], key) == 1 + CountMatches(s[f + |key|..], key)
  {
    var t := s[index..];
    var q := IndexOf(t, key, 0);
    IndexOfSuffix(s, key, index);
    if q >= 0 {
      assert t[q + |key|..] == s[f + |key|..];
    }
  }

  /** One step of replacing from `index`: the next match `f`, if any, and the text after it. */
  lemma ReplaceMatchesFrom(s: string, key: string, value: string, index: nat, f: int)
    requires key != [] && index <= |s| && f == IndexOf(s, key, index)
    ensures f == -1 ==> ReplaceMatches(s[index..], key, value) == s[index..]
    ensures f != -1 ==> index <= f && f + |key| <= |s|
    ensures f != -1 ==> ReplaceMatches(s[index..], key, value)
                        == s[index..f] + value + ReplaceMatches(s[f + |key|..], key, value)
  {
    var t := s[index..];
    var q := IndexOf(t, key, 0);
    IndexOfSuffix(s, key, index);
    if q >= 0 {
      ReplaceMatchesAt(t, key, value, q);
      assert t[q + |key|..] == s[f + |key|..];
      assert t[..q] == s[index..f];
    }
  }

  /** `ReplaceMatches` unfolded at its first match `q`. */
  lemma ReplaceMatchesAt(t: string, key: string, value: string, q: int)
    requires key != [] && q == IndexOf(t, key, 0) && q >= 0
    ensures q + |key| <= |t|
    ensures ReplaceMatches(t, key, value) == t[..q] + value + ReplaceMatches(t[q + |key|..], key, value)
  {
  }

  /** A key that does not occur is neither replaced nor counted. */
  lemma ReplaceAllAbsent(s: string, key: string, value: string)
    requires key != [] && !Contains(s, key)
    ensures ReplaceAll(s, key, value) == s
    ensures MatchCount(s, key) == 0
  {
    IndexOfSpec(s, key, 0);
  }

  /** For a non-empty key, `contains` holds exactly when `replace` has something to substitute. */
  lemma ContainsIffMatches(s: string, key: string)
    requires key != []
    ensures Contains(s, key) <==> MatchCount(s, key) > 0
  {
    IndexOfSpec(s, key, 0);
  }

  lemma {:induction false} InsertAroundLength(s: string, value: string)
    ensures |InsertAround(s, value)| == |s| + (|s| + 1) * |value|
  {
    if s != [] {
      InsertAroundLength(s[1..], value);
    }
  }

  lemma LengthStep(p: int, k: int, v: int, n: int, m: int)
    ensures p + v + (n + m * (v - k)) == (p + k + n) + (1 + m) * (v - k)
  {
    assert (1 + m) * (v - k) == (v - k) + m * (v - k);
  }

  /** Each substitution changes the length by `|value| - |key|`. */
  lemma {:induction false} ReplaceAllLength(s: string, key: string, value: string)
    ensures |ReplaceAll(s, key, value)| == |s| + MatchCount(s, key) * (|value| - |key|)
    decreases |s|
  {
    if key == [] {
      InsertAroundLength(s, value);
    } else {
      var p := IndexOf(s, key, 0);
      if p >= 0 {
        var rest := s[p + |key|..];
        ReplaceAllLength(rest, key, value);
        assert |s| == p + |key| + |rest|;
        assert |ReplaceAll(s, key, value)| == p + |value| + |ReplaceAll(rest, key, value)|;
        LengthStep(p, |key|, |value|, |rest|, MatchCount(rest, key));
      }
    }
  }

  /** Replacing a non-empty key by itself changes nothing. */
  lemma {:induction false} ReplaceAllSelf(s: string, key: string)
    requires key != []
    ensures ReplaceAll(s, key, key) == s
    decreases |s|
  {
    var p := IndexOf(s, key, 0);
    if p >= 0 {
      ReplaceAllSelf(s[p + |key|..], key);
      IndexOfSpec(s, key, 0);
      assert s == s[..p] + s[p..p + |key|] + s[p + |key|..];
    }
  }

  /** An occurrence inside a slice is an occurrence in the whole text. */
  lemma ContainsInSlice(s: string, i: int, j: int, key: string)
    requires 0 <= i <= j <= |s| && Contains(s[i..j], key)
    ensures Contains(s, key)
  {
    var k :| 0 <= k <= j - i - |key| && OccursAt(s[i..j], key, k);
    forall m | 0 <= m < |key| ensures s[i + k + m] == key[m] {
      assert s[i..j][k..k + |key|][m] == key[m];
    }
    assert s[i + k..i + k + |key|] == key;
    assert OccursAt(s, key, i + k);
  }

  /** `contains` of a one-character string is membership of the character. */
  lemma ContainsChar(s: string, c: char)
    ensures Contains(s, [c]) <==> c in s
  {
    if c in s {
      var i :| 0 <= i < |s| && s[i] == c;
      assert s[i..i + 1] == [c];
      assert OccursAt(s, [c], i);
    }
    if Contains(s, [c]) {
      var i :| 0 <= i <= |s| - 1 && OccursAt(s, [c], i);
      assert s[i] == s[i..i + 1][0];
    }
  }

  /** `indexOf` of a one-character string: the first index holding the character, or -1 when there is none. */
  lemma IndexOfChar(s: string, c: char)
    ensures var r := IndexOf(s, [c], 0);
            && (r >= 0 <==> c in s)
            && (r >= 0 ==> s[r] == c)
            && forall j :: 0 <= j < r ==> s[j] != c
  {
    IndexOfSpec(s, [c], 0);
    var r := IndexOf(s, [c], 0);
    if r >= 0 {
      assert s[r] == s[r..r + 1][0];
    }
    forall j | 0 <= j < |s| && s[j] == c
      ensures 0 <= r <= j
    {
      assert s[j..j + 1] == [c];
      assert OccursAt(s, [c], j);
    }
  }

  /** `startsWith` of a one-character string tests the first character. */
  lemma StartsWithChar(s: string, c: char)
    ensures StartsWith(s, [c]) <==> s != [] && s[0] == c
  {
    if s != [] {
      assert s[..1] == [s[0]];
    }
  }
}

=== FILE: memo_cache.dfy ===
/**
 * The memo caches of the class, document and image services: a map from a
 * key derived from the input to a computed result, emptied whole before a
 * lookup once it holds more than a maximum number of entries, and filled by
 * `computeIfAbsent`.
 */
module MemoCaches {

  /** The entries a lookup sees: none when the size check cleared the map. */
  function Kept<K, V>(entries: map<K, V>, maxSize: nat): (r: map<K, V>)
    ensures r == entries || r == map[]
    ensures |entries| <= maxSize ==> r == entries
  {
    if |entries| > maxSize then map[] else entries
  }

  /** What a lookup under `k` answers when `computed` is what computing would give. */
  function Served<K, V>(entries: map<K, V>, maxSize: nat, k: K, computed: V): V
  {
    var kept := Kept(entries, maxSize);
    if k in kept then kept[k] else computed
  }

  /** The entries after that lookup. */
  function After<K, V>(entries: map<K, V>, maxSize: nat, k: K, computed: V): (r: map<K, V>)
    ensures k in r && r[k] == Served(entries, maxSize, k, computed)
  {
    var kept := Kept(entries, maxSize);
    if k in kept then kept else kept[k := computed]
  }

  /** A second lookup under the same key gets the first one's answer, whatever it would compute. */
  lemma SecondLookupServed<K, V>(entries: map<K, V>, maxSize: nat, k: K, first: V, second: V)
    requires |entries| < maxSize
    ensures Served(After(entries, maxSize, k, first), maxSize, k, second) == Served(entries, maxSize, k, first)
  {
    var kept := Kept(entries, maxSize);
    if k !in kept {
      assert |kept[k := first]| == |kept| + 1;
    }
  }

  class MemoCache<I, K(==), V> {
    const maxSize: nat
    const keyOf: I -> K
    const compute: I -> V
    var entries: map<K, V>
    /** The input each entry was computed from. */
    ghost var sources: map<K, I>

    /** Every entry is the computed result for an input with that key. */
    ghost predicate Valid()
      reads this
    {
      && sources.Keys == entries.Keys
      && (forall k :: k in entries ==> keyOf(sources[k]) == k && entries[k] == compute(sources[k]))
    }

    constructor (maxSize: nat, keyOf: I -> K, compute: I -> V)
      ensures Valid()
      ensures this.maxSize == maxSize && this.keyOf == keyOf && this.compute == compute
      ensures entries == map[]
    {
      this.maxSize := maxSize;
      this.keyOf := keyOf;
      this.compute := compute;
      entries := map[];
      sources := map[];
    }

    /**
     * The size check and `computeIfAbsent`: the stored result under the
     * input's key, or the result computed now and stored. The answer is
     * always the result for some input with the same key, and so it is the
     * result for this input whenever the key determines the input.
     */
    method Lookup(i: I) returns (r: V)
      requires Valid()
      modifies this`entries, this`sources
      ensures Valid()
      ensures r == Served(old(entries), maxSize, keyOf(i), compute(i))
      ensures entries == After(old(entries), maxSize, keyOf(i), compute(i))
      ensures exists j :: keyOf(j) == keyOf(i) && r == compute(j)
      ensures (forall a, b :: keyOf(a) == keyOf(b) ==> a == b) ==> r == compute(i)
    {
      if |entries| > maxSize {
        entries := map[];
        sources := map[];
      }
      var k := keyOf(i);
      if k in entries {
        r := entries[k];
        assert keyOf(sources[k]) == keyOf(i) && r == compute(sources[k]);
      } else {
        r := compute(i);
        entries := entries[k := r];
        sources := sources[k := i];
      }
    }

    /** `clearCache`. */
    method Clear()
      requires Valid()
      modifies this`entries, this`sources
      ensures Valid() && entries == map[]
    {
      entries := map[];
      sources := map[];
    }
  }
}

=== FILE: parallel_strategy.dfy ===
/**
 * The chunk-parallel replacement strategy. Text longer than the chunk size
 * is cut into overlapping chunks (see `Chunking`), each chunk is substituted
 * longest key first by its own task, every chunk but the last is trimmed by
 * the overlap, and task outputs are appended in chunk order. Shorter
 * text, and any failure of the parallel path, goes through one sequential
 * pass in the map's own order.
 *
 * These tasks run one after another here; whether the pool fails (its
 * 30-second wait expires) is a parameter.
 */
module ParallelStrategy {
  import opened JavaLang
  import opened JavaText
  import opened Placeholders
  import opened ProcessingResults
  import opened Chunking
  import StreamingStrategy

  const DEFAULT_CHUNK_SIZE: int := 1024 * 1024
  const MIN_CHUNK_SIZE: int := 64 * 1024
  const MAX_OVERLAP_SIZE: int := 1024

  /** Every key of the map, null-valued or not, is non-empty. */
  predicate KeysNonEmpty(m: PlaceholderMap)
  {
    forall i :: 0 <= i < |m| ==> m[i].key != []
  }

  /** What `processSequential` computes: the null-checked chain in the map's order. */
  method ProcessSequential(content: string, m: PlaceholderMap) returns (r: string)
    ensures r == SubstituteAll(content, m)
  {
    r := content;
    var i := 0;
    while i < |m|
      invariant 0 <= i <= |m|
      invariant r == SubstituteAll(content, m[..i])
    {
      assert m[..i + 1][..i] == m[..i];
      if m[i].value.Some? && Contains(r, m[i].key) {
        r := ReplaceAll(r, m[i].key, m[i].value.value);
      }
      i := i + 1;
    }
    assert m[..|m|] == m;
  }

  /** `processChunk`: the same loop over the entries sorted longest key first. */
  method ProcessChunk(chunk: string, m: PlaceholderMap) returns (r: string)
    ensures r == LongestFirst(chunk, m)
  {
    r := ProcessSequential(chunk, SortByKeyLength(m));
  }

  /** `countOccurrences`: scan from the left, resuming after each match. The index would not advance for an empty key. */
  method CountOccurrences(text: string, sub: string) returns (count: int)
    requires sub != []
    ensures count == MatchCount(text, sub)
    ensures count > 0 <==> Contains(text, sub)
  {
    count := 0;
    var index: nat := 0;
    while true
      invariant index <= |text|
      invariant count + CountMatches(text[index..], sub) == CountMatches(text, sub)
      decreases |text| - index
    {
      var found := IndexOf(text, sub, index);
      CountMatchesFrom(text, sub, index, found);
      if found == -1 {
        break;
      }
      count := count + 1;
      index := found + |sub|;
    }
    ContainsIffMatches(text, sub);
  }

  /** The per-key drop in occurrences is what the stream path reports; an unchanged text reports 0. */
  lemma {:induction false} UnchangedDeltaIsZero(text: string, m: PlaceholderMap)
    ensures StreamingStrategy.KeyDelta(text, text, m) == 0
    decreases |m|
  {
    if m != [] {
      UnchangedDeltaIsZero(text, m[..|m| - 1]);
    }
  }

  /**
   * `countReplacements`: both byte arrays decoded, then for every key the
   * occurrences before minus the occurrences after.
   */
  method CountReplacements(original: Bytes, processed: Bytes, m: PlaceholderMap, cs: Codec) returns (count: int)
    requires KeysNonEmpty(m)
    ensures count == StreamingStrategy.KeyDelta(cs.decode(original), cs.decode(processed), m)
  {
    var originalText := cs.decode(original);
    var processedText := cs.decode(processed);
    count := 0;
    var i := 0;
    while i < |m|
      invariant 0 <= i <= |m|
      invariant count == StreamingStrategy.KeyDelta(originalText, processedText, m[..i])
    {
      assert m[..i + 1][..i] == m[..i];
      var originalCount := CountOccurrences(originalText, m[i].key);
      var processedCount := CountOccurrences(processedText, m[i].key);
      count := count + (originalCount - processedCount);
      i := i + 1;
    }
    assert m[..|m|] == m;
  }

  /** One round of appending task outputs, as sequence arithmetic. */
  lemma AppendPiece(pieces: seq<string>, i: nat)
    requires i < |pieces|
    ensures ConcatStrings(pieces[..i + 1]) == ConcatStrings(pieces[..i]) + pieces[i]
  {
    assert pieces[..i + 1][..i] == pieces[..i];
  }

  /** The strategy's configuration, fixed at construction; `parallelism` is the pool's. */
  datatype ParallelReplacementStrategy = ParallelReplacementStrategy(chunkSize: int, overlapSize: int, parallelism: int)
  {
    predicate Valid()
    {
      chunkSize >= MIN_CHUNK_SIZE && overlapSize == Min(MAX_OVERLAP_SIZE, chunkSize / 4) && parallelism >= 1
    }

    /** `max(length / parallelism, chunkSize)`: never below the chunk size, so the step between chunks is positive. */
    function EffectiveChunkSize(len: nat): (eff: int)
      requires Valid()
      ensures eff >= chunkSize && eff > overlapSize >= 0
      ensures eff >= len / parallelism
    {
      Max(len / parallelism, chunkSize)
    }

    function GeometryFor(len: nat): (g: Geometry)
      requires Valid()
      ensures g.Valid() && g.len == len && g.overlap == overlapSize
    {
      Geometry(len, EffectiveChunkSize(len), overlapSize)
    }

    /**
     * `createProcessingTasks`: one task per chunk, `numChunks` of them; task
     * `i` substitutes chunk `i` longest key first and drops the last
     * `overlapSize` characters unless it is the last task.
     */
    method CreateProcessingTasks(content: string, m: PlaceholderMap, eff: int) returns (futures: array<string>)
      requires Valid() && eff >= chunkSize
      ensures fresh(futures)
      ensures futures[..] == Pieces(content, SortByKeyLength(m), Geometry(|content|, eff, overlapSize))
    {
      var g := Geometry(|content|, eff, overlapSize);
      var numChunks := (|content| + eff - overlapSize - 1) / (eff - overlapSize);
      assert numChunks == g.Count();
      futures := new string[numChunks];
      var i := 0;
      while i < numChunks
        invariant 0 <= i <= numChunks
        invariant forall j :: 0 <= j < i ==> futures[j] == Piece(content, SortByKeyLength(m), g, j)
      {
        var start := i * (eff - overlapSize);
        StartIsProduct(g, i);
        ChunkBounds(g, i);
        var end := Min(start + eff, |content|);
        var chunk := content[start..end];
        assert chunk == Chunk(content, g, i);
        var isLastChunk := i == numChunks - 1;
        futures[i] := RunTask(chunk, m, isLastChunk);
        i := i + 1;
      }
    }

    /** The body of one task: substitute the chunk, then trim it unless it is the last. */
    method RunTask(chunk: string, m: PlaceholderMap, isLastChunk: bool) returns (processedChunk: string)
      requires Valid()
      ensures processedChunk == TrimChunk(LongestFirst(chunk, m), isLastChunk, overlapSize)
    {
      processedChunk := ProcessChunk(chunk, m);
      if !isLastChunk && |processedChunk| > overlapSize {
        processedChunk := processedChunk[..|processedChunk| - overlapSize];
      }
    }

    /** `processParallel`: task outputs appended in chunk order. */
    method ProcessParallel(content: string, m: PlaceholderMap) returns (r: string)
      requires Valid()
      ensures r == ConcatStrings(Pieces(content, SortByKeyLength(m), GeometryFor(|content|)))
    {
      var effectiveChunkSize := Max(|content| / parallelism, chunkSize);
      var futures := CreateProcessingTasks(content, m, effectiveChunkSize);
      ghost var pieces := futures[..];
      r := [];
      var i := 0;
      while i < futures.Length
        invariant 0 <= i <= futures.Length
        invariant futures[..] == pieces
        invariant r == ConcatStrings(pieces[..i])
      {
        AppendPiece(pieces, i);
        r := r + futures[i];
        i := i + 1;
      }
      assert pieces[..futures.Length] == pieces;
    }

    /** The text the byte path produces before re-encoding. */
    function ReplacedText(text: string, m: PlaceholderMap, parallelFails: bool): string
      requires Valid()
    {
      if |text| <= chunkSize || parallelFails then SubstituteAll(text, m)
      else ConcatStrings(Pieces(text, SortByKeyLength(m), GeometryFor(|text|)))
    }

    /**
     * `replace(byte[], ...)`: an empty map gives a copy; text no longer than
     * the chunk size, or a failed parallel run, gives the sequential result.
     */
    method ReplaceBytes(content: Bytes, m: PlaceholderMap, cs: Codec, parallelFails: bool) returns (r: Bytes)
      requires Valid()
      ensures m == [] ==> r == content
      ensures m != [] ==> r == cs.encode(ReplacedText(cs.decode(content), m, parallelFails))
    {
      if m == [] {
        return content;
      }
      var text := cs.decode(content);
      if |text| <= chunkSize {
        var sequential := ProcessSequential(text, m);
        return cs.encode(sequential);
      }
      if parallelFails {
        var sequential := ProcessSequential(text, m);
        return cs.encode(sequential);
      }
      var result := ProcessParallel(text, m);
      r := cs.encode(result);
    }

    /**
     * `replace(InputStream, OutputStream, ...)`: an empty map copies the
     * input; otherwise the whole input is read, replaced as a byte array and
     * written, and the replacements are counted by comparing the two texts.
     */
    method ReplaceStream(input: Bytes, m: PlaceholderMap, cs: Codec, parallelFails: bool) returns (out: Bytes, stats: Stats)
      requires Valid() && KeysNonEmpty(m)
      ensures m == [] ==> out == input && stats == Stats(|input|, 0, 0)
      ensures m != [] ==> out == cs.encode(ReplacedText(cs.decode(input), m, parallelFails))
      ensures m != [] ==> stats == Stats(|input|, StreamingStrategy.KeyDelta(cs.decode(input), cs.decode(out), m), |m|)
    {
      if m == [] {
        return input, Stats(|input|, 0, 0);
      }
      out := ReplaceBytes(input, m, cs, parallelFails);
      var count := CountReplacements(input, out, m, cs);
      stats := Stats(|input|, count, |m|);
    }
  }

  /** `new ParallelReplacementStrategy(chunkSize, pool)`: at least 64 KiB, overlap a quarter of it capped at 1024. */
  function Create(requested: int, parallelism: int): (s: ParallelReplacementStrategy)
    requires parallelism >= 1
    ensures s.Valid()
    ensures s.chunkSize == Max(MIN_CHUNK_SIZE, requested)
    ensures 0 < s.overlapSize <= MAX_OVERLAP_SIZE && s.overlapSize < s.chunkSize
  {
    var c := Max(MIN_CHUNK_SIZE, requested);
    ParallelReplacementStrategy(c, Min(MAX_OVERLAP_SIZE, c / 4), parallelism)
  }

  /**
   * Text in which no key occurs comes back unchanged from the sequential
   * path, and from the parallel path when the chunk before the last is a
   * full chunk.
   */
  lemma KeyFreeTextUnchanged(s: ParallelReplacementStrategy, text: string, m: PlaceholderMap, parallelFails: bool)
    requires s.Valid() && NoKeyOccurs(text, m)
    requires var g := s.GeometryFor(|text|); g.Count() <= 1 || g.Start(g.Count() - 2) + g.eff <= g.len
    ensures s.ReplacedText(text, m, parallelFails) == text
  {
    SubstituteAllAbsent(text, m);
    NoKeyOccursSorted(text, m);
    PiecesKeepText(text, SortByKeyLength(m), s.GeometryFor(|text|));
  }

  /**
   * The converse: on the parallel path, text in which no key occurs comes
   * back shorter whenever the chunk before the last is cut short, since the
   * overlap is at most a quarter of the chunk.
   */
  lemma ShortChunkTextShortened(s: ParallelReplacementStrategy, text: string, m: PlaceholderMap)
    requires s.Valid() && NoKeyOccurs(text, m) && |text| > s.chunkSize
    requires var g := s.GeometryFor(|text|); g.Count() >= 2 && g.Start(g.Count() - 2) + g.eff > g.len
    ensures |s.ReplacedText(text, m, false)| < |text|
  {
    NoKeyOccursSorted(text, m);
    ShortChunkLosesText(text, SortByKeyLength(m), s.GeometryFor(|text|));
  }

  /**
   * The default strategy on a two-thread pool loses text: 2095204
   * characters in which no key occurs come back 924 characters shorter.
   */
  lemma DefaultStrategyLosesText(text: string, m: PlaceholderMap)
    requires |text| == 2095204 && NoKeyOccurs(text, m)
    ensures var s := Create(DEFAULT_CHUNK_SIZE, 2);
            |s.ReplacedText(text, m, false)| == 2094280 < |text|
  {
    var s := Create(DEFAULT_CHUNK_SIZE, 2);
    assert s.GeometryFor(|text|) == Geometry(2095204, 1048576, 1024);
    NoKeyOccursSorted(text, m);
    TrimLosesText(text, SortByKeyLength(m));
  }
}

=== FILE: placeholder_engine.dfy ===
/**
 * The engine every processor calls: it rejects null arguments, copies the
 * input when the map is empty, otherwise hands the work to its replacement
 * strategy, and keeps a profiler and a small map of running metrics.
 */
module PlaceholderEngines {
  import opened JavaLang
  import opened JavaText
  import opened Placeholders
  import opened ProcessingResults
  import opened ValidationResults
  import opened Profiler
  import StreamingStrategy
  import ParallelStrategy

  const EMPTY_KEY_ERROR: string := "Empty placeholder key found"
  const NULL_VALUE_WARNING: string := "Null value for placeholder: "
  const CIRCULAR_WARNING: string := "Potential circular reference in placeholder: "

  const TOTAL_BYTES: string := "totalBytesProcessed"
  const TOTAL_REPLACEMENTS: string := "totalReplacements"
  const TOTAL_OPERATIONS: string := "totalOperations"
  const AVERAGE_TIME: string := "averageProcessingTimeNanos"

  /** The two replacement strategies an engine can be built with. */
  datatype Strategy =
    | Streaming(streaming: StreamingStrategy.StreamingReplacementStrategy)
    | Parallel(parallel: ParallelStrategy.ParallelReplacementStrategy)
  {
    predicate Valid()
    {
      match this
      case Streaming(s) => s.Valid()
      case Parallel(p) => p.Valid()
    }

    /** What the stream `replace` needs in order to finish on these reads. */
    predicate StreamFinishes(chunks: seq<Bytes>, m: PlaceholderMap, cs: Codec)
    {
      match this
      case Streaming(s) => s.Valid() && StreamingStrategy.WindowsTerminate(chunks, SortByKeyLength(m), cs, s.overlapSize)
      case Parallel(_) => ParallelStrategy.KeysNonEmpty(m)
    }

    /** The bytes the stream `replace` writes for a non-empty map, and the counts it reports. */
    function StreamOutput(chunks: seq<Bytes>, m: PlaceholderMap, cs: Codec, parallelFails: bool): (Bytes, Stats)
      requires Valid()
    {
      match this
      case Streaming(s) =>
        var run := StreamingStrategy.RunPrefix(chunks, SortByKeyLength(m), cs, s.overlapSize, |chunks|);
        (run.out, Stats(run.bytesProcessed, run.replacements, |m|))
      case Parallel(p) =>
        var input := ConcatBytes(chunks);
        var out := cs.encode(p.ReplacedText(cs.decode(input), m, parallelFails));
        (out, Stats(|input|, StreamingStrategy.KeyDelta(cs.decode(input), cs.decode(out), m), |m|))
    }

    /** `replacementStrategy.replace(input, output, placeholders, charset)`. */
    method ReplaceStream(chunks: seq<Bytes>, m: PlaceholderMap, cs: Codec, parallelFails: bool) returns (out: Bytes, stats: Stats)
      requires Valid() && StreamFinishes(chunks, m, cs)
      ensures m == [] ==> out == ConcatBytes(chunks) && stats == Stats(ByteCount(chunks), 0, 0)
      ensures m != [] ==> (out, stats) == StreamOutput(chunks, m, cs, parallelFails)
      ensures stats.bytesProcessed == ByteCount(chunks)
    {
      match this
      case Streaming(s) =>
        out, stats := s.ReplaceStream(chunks, m, cs);
      case Parallel(p) =>
        out, stats := p.ReplaceStream(ConcatBytes(chunks), m, cs, parallelFails);
    }

    /** What the byte `replace` needs in order to finish on this content. */
    predicate BytesFinish(content: Bytes, m: PlaceholderMap, cs: Codec)
    {
      match this
      case Streaming(s) =>
        && s.Valid()
        && (|content| > s.bufferSize ==>
              StreamingStrategy.WindowsTerminate(StreamingStrategy.GreedyChunks(content, s.bufferSize), SortByKeyLength(m), cs, s.overlapSize))
        && (|content| <= s.bufferSize && |cs.decode(content)| > StreamingStrategy.BUILDER_THRESHOLD ==> NonEmptyKeys(m))
      case Parallel(_) => true
    }

    /** The bytes the byte `replace` returns for a non-empty map. */
    function BytesOutput(content: Bytes, m: PlaceholderMap, cs: Codec, parallelFails: bool): Bytes
      requires Valid()
    {
      match this
      case Streaming(s) =>
        if |content| > s.bufferSize then
          var chunks := StreamingStrategy.GreedyChunks(content, s.bufferSize);
          StreamingStrategy.RunPrefix(chunks, SortByKeyLength(m), cs, s.overlapSize, |chunks|).out
        else cs.encode(SubstituteAll(cs.decode(content), m))
      case Parallel(p) => cs.encode(p.ReplacedText(cs.decode(content), m, parallelFails))
    }

    /** `replacementStrategy.replace(content, placeholders, charset)`. */
    method ReplaceBytes(content: Bytes, m: PlaceholderMap, cs: Codec, parallelFails: bool) returns (r: Bytes)
      requires Valid() && BytesFinish(content, m, cs)
      ensures m == [] ==> r == content
      ensures m != [] ==> r == BytesOutput(content, m, cs, parallelFails)
    {
      match this
      case Streaming(s) =>
        r := s.ReplaceBytes(content, m, cs);
      case Parallel(p) =>
        r := p.ReplaceBytes(content, m, cs, parallelFails);
    }
  }

  /** `new PlaceholderEngine()`: the streaming strategy with its default buffer. */
  function DefaultStrategy(): (s: Strategy)
    ensures s.Valid() && s.Streaming?
    ensures s.streaming.bufferSize == StreamingStrategy.DEFAULT_BUFFER_SIZE
  {
    Streaming(StreamingStrategy.Create(StreamingStrategy.DEFAULT_BUFFER_SIZE))
  }

  /** The strategy behind `new PlaceholderEngine(new ParallelReplacementStrategy())`. */
  function DefaultParallelStrategy(parallelism: int): (s: Strategy)
    requires parallelism >= 1
    ensures s.Valid() && s.Parallel?
    ensures s.parallel.chunkSize == ParallelStrategy.DEFAULT_CHUNK_SIZE
  {
    Parallel(ParallelStrategy.Create(ParallelStrategy.DEFAULT_CHUNK_SIZE, parallelism))
  }

  // ---------------------------------------------------------------- validation

  /** The errors one entry contributes: exactly one for a blank key. */
  function EntryErrors(p: Placeholder): (r: seq<string>)
    ensures |r| == (if IsBlank(p.key) then 1 else 0)
  {
    if IsBlank(p.key) then [EMPTY_KEY_ERROR] else []
  }

  /** The warnings one entry contributes; a blank key skips these checks. */
  function EntryWarnings(p: Placeholder): seq<string>
  {
    if IsBlank(p.key) then [] else ValueWarnings(p.key, p.value)
  }

  /** The warnings about the value of an entry whose key is not blank. */
  function ValueWarnings(key: string, value: Option<string>): seq<string>
  {
    if value.None? then [NULL_VALUE_WARNING + key]
    else if Contains(value.value, key) then [CIRCULAR_WARNING + key]
    else []
  }

  /** The errors `validatePlaceholders` collects, in iteration order. */
  function ValidationErrors(m: PlaceholderMap): seq<string>
  {
    if m == [] then [] else ValidationErrors(m[..|m| - 1]) + EntryErrors(m[|m| - 1])
  }

  /** The warnings `validatePlaceholders` collects, in iteration order. */
  function ValidationWarnings(m: PlaceholderMap): seq<string>
  {
    if m == [] then [] else ValidationWarnings(m[..|m| - 1]) + EntryWarnings(m[|m| - 1])
  }

  /** The number of entries whose key is blank. */
  function BlankKeys(m: PlaceholderMap): nat
  {
    if m == [] then 0 else BlankKeys(m[..|m| - 1]) + (if IsBlank(m[|m| - 1].key) then 1 else 0)
  }

  /** One error per blank key, and nothing else is an error. */
  lemma {:induction false} ErrorsCountBlankKeys(m: PlaceholderMap)
    ensures |ValidationErrors(m)| == BlankKeys(m)
    ensures forall i :: 0 <= i < |ValidationErrors(m)| ==> ValidationErrors(m)[i] == EMPTY_KEY_ERROR
    decreases |m|
  {
    if m != [] {
      ErrorsCountBlankKeys(m[..|m| - 1]);
    }
  }

  /** A map validates iff none of its keys is blank. */
  lemma {:induction false} ValidIffNoBlankKey(m: PlaceholderMap)
    ensures ValidationErrors(m) == [] <==> forall i :: 0 <= i < |m| ==> !IsBlank(m[i].key)
    decreases |m|
  {
    if m != [] {
      var p := m[..|m| - 1];
      ValidIffNoBlankKey(p);
      assert ValidationErrors(m) == ValidationErrors(p) + EntryErrors(m[|m| - 1]);
      if forall i :: 0 <= i < |m| ==> !IsBlank(m[i].key) {
        forall i | 0 <= i < |p|
          ensures !IsBlank(p[i].key)
        {
          assert p[i] == m[i];
        }
      }
      if ValidationErrors(m) == [] {
        assert |EntryErrors(m[|m| - 1])| == 0;
        assert forall i :: 0 <= i < |p| ==> !IsBlank(p[i].key);
        forall i | 0 <= i < |m|
          ensures !IsBlank(m[i].key)
        {
          if i < |p| {
            assert m[i] == p[i];
            assert !IsBlank(p[i].key);
          } else {
            assert i == |m| - 1;
            assert !IsBlank(m[|m| - 1].key);
          }
        }
      }
    }
  }

  /** A map whose keys are all blank gets one error per entry and no warning. */
  lemma {:induction false} BlankKeysOnlyErrors(m: PlaceholderMap)
    requires forall i :: 0 <= i < |m| ==> IsBlank(m[i].key)
    ensures ValidationWarnings(m) == []
    ensures |ValidationErrors(m)| == |m|
    decreases |m|
  {
    if m != [] {
      BlankKeysOnlyErrors(m[..|m| - 1]);
    }
  }

  // ---------------------------------------------------------------- metrics

  /** `metrics.merge(key, v, (a, b) -> (Long) a + (Long) b)`: a `long` sum, which wraps. */
  function Merge(metrics: map<string, int>, key: string, v: int): (r: map<string, int>)
    ensures r.Keys == metrics.Keys + {key}
    ensures key in metrics ==> r[key] == WrapLong(metrics[key] + v)
    ensures key !in metrics ==> r[key] == WrapLong(v)
    ensures forall k :: k in metrics && k != key ==> r[k] == metrics[k]
  {
    if key in metrics then metrics[key := WrapLong(metrics[key] + v)] else metrics[key := WrapLong(v)]
  }

  /**
   * The `totalOperations` merge of one: a count of calls, which would need
   * 2^63 - 1 of them to wrap.
   */
  function CountOperation(metrics: map<string, int>): (r: map<string, int>)
    ensures r.Keys == metrics.Keys + {TOTAL_OPERATIONS}
    ensures r[TOTAL_OPERATIONS] == Metric(metrics, TOTAL_OPERATIONS) + 1
    ensures forall k :: k in metrics && k != TOTAL_OPERATIONS ==> r[k] == metrics[k]
  {
    metrics[TOTAL_OPERATIONS := Metric(metrics, TOTAL_OPERATIONS) + 1]
  }

  /**
   * The shape `updateMetrics` keeps: either no key at all, or all four with
   * at least one operation counted.
   */
  predicate MetricsWellFormed(metrics: map<string, int>)
  {
    || metrics == map[]
    || (&& metrics.Keys == {TOTAL_BYTES, TOTAL_REPLACEMENTS, TOTAL_OPERATIONS, AVERAGE_TIME}
        && metrics[TOTAL_OPERATIONS] >= 1)
  }

  /**
   * The metrics after one more processed stream taking `elapsed` nanoseconds.
   * The new average is computed in `long`: the product and the sum wrap
   * (one wrap of the exact sum, since wrapping keeps values modulo 2^64),
   * then the quotient truncates.
   */
  function UpdatedMetrics(metrics: map<string, int>, stats: Stats, elapsed: int): (r: map<string, int>)
    requires MetricsWellFormed(metrics)
    ensures MetricsWellFormed(r)
  {
    var totals := CountOperation(Merge(Merge(metrics, TOTAL_BYTES, stats.bytesProcessed), TOTAL_REPLACEMENTS, stats.replacementCount));
    if AVERAGE_TIME !in totals then totals[AVERAGE_TIME := elapsed]
    else
      var totalOps := totals[TOTAL_OPERATIONS];
      totals[AVERAGE_TIME := JDiv(WrapLong(totals[AVERAGE_TIME] * (totalOps - 1) + elapsed), totalOps)]
  }

  /** The value a metric has, 0 before its first update. */
  function Metric(metrics: map<string, int>, key: string): int
  {
    if key in metrics then metrics[key] else 0
  }

  /** Each update adds the stream's bytes and replacements to the totals as `long` sums, and one operation. */
  lemma UpdateAddsTotals(metrics: map<string, int>, stats: Stats, elapsed: int)
    requires MetricsWellFormed(metrics)
    ensures Metric(UpdatedMetrics(metrics, stats, elapsed), TOTAL_BYTES) == WrapLong(Metric(metrics, TOTAL_BYTES) + stats.bytesProcessed)
    ensures Metric(UpdatedMetrics(metrics, stats, elapsed), TOTAL_REPLACEMENTS) == WrapLong(Metric(metrics, TOTAL_REPLACEMENTS) + stats.replacementCount)
    ensures Metric(UpdatedMetrics(metrics, stats, elapsed), TOTAL_OPERATIONS) == Metric(metrics, TOTAL_OPERATIONS) + 1
  {
  }

  /** The first update records its own time as the average. */
  lemma FirstUpdateSetsAverage(stats: Stats, elapsed: int)
    ensures UpdatedMetrics(map[], stats, elapsed)[AVERAGE_TIME] == elapsed
    ensures UpdatedMetrics(map[], stats, elapsed)[TOTAL_OPERATIONS] == 1
  {
  }

  /** An integer quotient of a value between `lo*d` and `hi*d` lies between `lo` and `hi`. */
  lemma QuotientBetween(n: int, d: int, lo: int, hi: int)
    requires d > 0 && lo * d <= n <= hi * d
    ensures lo <= n / d <= hi
  {
    var q, r := n / d, n % d;
    assert n == q * d + r && 0 <= r < d;
    assert (lo - q) * d == lo * d - q * d;
    MulStrict(lo - q, 1, d);
    assert (hi + 1) * d == hi * d + d;
    MulStrict(q, hi + 1, d);
  }

  /** The value `updateMetrics` stores as the new average once there is one. */
  lemma AverageFormula(metrics: map<string, int>, stats: Stats, elapsed: int)
    requires MetricsWellFormed(metrics) && AVERAGE_TIME in metrics
    ensures var n := metrics[TOTAL_OPERATIONS] + 1;
            UpdatedMetrics(metrics, stats, elapsed)[AVERAGE_TIME] == JDiv(WrapLong(metrics[AVERAGE_TIME] * (n - 1) + elapsed), n)
  {
  }

  /** Multiplying by a non-negative factor keeps a weak order. */
  lemma MulLe(a: int, b: int, k: int)
    requires k >= 0 && a <= b
    ensures a * k <= b * k
  {
  }

  /** The weighted mean of `n - 1` copies of `avg` and one `t`, all in `[lo, hi]`, is in `[lo, hi]`. */
  lemma WeightedMeanBetween(avg: int, t: int, n: int, lo: int, hi: int)
    requires n >= 2 && 0 <= lo <= avg <= hi && lo <= t <= hi
    ensures lo <= JDiv(avg * (n - 1) + t, n) <= hi
  {
    var k := n - 1;
    MulLe(lo, avg, k);
    MulLe(avg, hi, k);
    MulLe(0, lo, k);
    var sum := avg * k + t;
    assert lo * n == lo * k + lo by {
      assert n == k + 1;
    }
    assert hi * n == hi * k + hi by {
      assert n == k + 1;
    }
    QuotientBetween(sum, n, lo, hi);
  }

  /**
   * The running average never leaves the range of the recorded times while
   * `hi` times the operation count fits in a `long`: with every time so far
   * between `lo` and `hi`, a new time in that range keeps the average in it
   * (in particular, equal times keep the average equal to them).
   */
  lemma AverageStaysInRange(metrics: map<string, int>, stats: Stats, elapsed: int, lo: int, hi: int)
    requires MetricsWellFormed(metrics) && 0 <= lo <= elapsed <= hi
    requires AVERAGE_TIME in metrics ==> lo <= metrics[AVERAGE_TIME] <= hi
    requires hi * (Metric(metrics, TOTAL_OPERATIONS) + 1) <= LONG_MAX
    ensures lo <= UpdatedMetrics(metrics, stats, elapsed)[AVERAGE_TIME] <= hi
  {
    if AVERAGE_TIME in metrics {
      var avg, n := metrics[AVERAGE_TIME], metrics[TOTAL_OPERATIONS] + 1;
      AverageFormula(metrics, stats, elapsed);
      MulLe(avg, hi, n - 1);
      MulLe(0, avg, n - 1);
      assert hi * n == hi * (n - 1) + hi;
      assert WrapLong(avg * (n - 1) + elapsed) == avg * (n - 1) + elapsed;
      WeightedMeanBetween(avg, elapsed, n, lo, hi);
    }
  }

  /**
   * Past that bound the average leaves the range: two operations averaging
   * 2^62 nanoseconds and a third of 0 give a negative average, because
   * 2^62 * 2 wraps to `Long.MIN_VALUE`.
   */
  lemma AverageWrapsNegative()
    ensures var metrics := map[TOTAL_BYTES := 0, TOTAL_REPLACEMENTS := 0, TOTAL_OPERATIONS := 2, AVERAGE_TIME := 0x4000_0000_0000_0000];
            UpdatedMetrics(metrics, Stats(0, 0, 0), 0)[AVERAGE_TIME] < 0
  {
    var metrics := map[TOTAL_BYTES := 0, TOTAL_REPLACEMENTS := 0, TOTAL_OPERATIONS := 2, AVERAGE_TIME := 0x4000_0000_0000_0000];
    assert metrics.Keys == {TOTAL_BYTES, TOTAL_REPLACEMENTS, TOTAL_OPERATIONS, AVERAGE_TIME};
    AverageFormula(metrics, Stats(0, 0, 0), 0);
    assert WrapLong(0x4000_0000_0000_0000 * 2 + 0) == LONG_MIN;
  }

  // ---------------------------------------------------------------- the engine

  class PlaceholderEngine {
    const strategy: Strategy
    const profiler: PerformanceProfiler
    var metrics: map<string, int>

    ghost predicate Valid()
      reads this, profiler
    {
      strategy.Valid() && profiler.Valid() && MetricsWellFormed(metrics)
    }

    /** `new PlaceholderEngine(strategy)`: a fresh profiler and no metrics. */
    constructor (strategy: Strategy)
      requires strategy.Valid()
      ensures Valid() && this.strategy == strategy
      ensures metrics == map[] && fresh(profiler) && profiler.history == []
    {
      this.strategy := strategy;
      profiler := new PerformanceProfiler();
      metrics := map[];
    }

    /**
     * `processStream`: a null map throws before anything is read or written;
     * an empty map copies the input with 0 replacements and records nothing;
     * otherwise the strategy runs, the result gets the elapsed time, and the
     * profiler and metrics take one more sample.
     */
    method ProcessStream(chunks: seq<Bytes>, m: Option<PlaceholderMap>, cs: Codec, elapsed: int, parallelFails: bool)
      returns (out: Bytes, result: ProcessingResult?)
      requires Valid()
      requires m.Some? ==> strategy.StreamFinishes(chunks, m.value, cs)
      modifies this, profiler
      ensures Valid()
      ensures result == null <==> m.None?
      ensures m.None? ==> out == [] && metrics == old(metrics) && profiler.history == old(profiler.history)
      ensures m == Some([]) ==>
                && out == ConcatBytes(chunks) && result.Counts() == Stats(ByteCount(chunks), 0, 0)
                && metrics == old(metrics) && profiler.history == old(profiler.history)
      ensures m.Some? && m.value != [] ==>
                && (out, result.Counts()) == strategy.StreamOutput(chunks, m.value, cs, parallelFails)
                && result.processingTimeNanos == elapsed
                && profiler.history == old(profiler.history) + [Sample(elapsed, ByteCount(chunks), |m.value|)]
                && metrics == UpdatedMetrics(old(metrics), result.Counts(), elapsed)
      ensures result != null ==> fresh(result) && result.warnings == [] && result.errors == []
    {
      if m.None? {
        return [], null;
      }
      var placeholders := m.value;
      if placeholders == [] {
        var stats;
        out, stats := StreamingStrategy.CopyStreamDirect(chunks);
        result := new ProcessingResult(stats.bytesProcessed, stats.replacementCount, stats.placeholderCount);
        return;
      }
      var stats;
      out, stats := strategy.ReplaceStream(chunks, placeholders, cs, parallelFails);
      result := new ProcessingResult(stats.bytesProcessed, stats.replacementCount, stats.placeholderCount);
      result.SetProcessingTimeNanos(elapsed);
      profiler.RecordProcessing(elapsed, result.bytesProcessed, |placeholders|);
      UpdateMetrics(result.Counts(), elapsed);
    }

    /** `updateMetrics(result)`. */
    method UpdateMetrics(stats: Stats, elapsed: int)
      requires MetricsWellFormed(metrics)
      modifies this`metrics
      ensures metrics == UpdatedMetrics(old(metrics), stats, elapsed)
    {
      metrics := Merge(metrics, TOTAL_BYTES, stats.bytesProcessed);
      metrics := Merge(metrics, TOTAL_REPLACEMENTS, stats.replacementCount);
      metrics := CountOperation(metrics);
      if AVERAGE_TIME !in metrics {
        metrics := metrics[AVERAGE_TIME := elapsed];
      } else {
        var avgProcessingTime := metrics[AVERAGE_TIME];
        var totalOps := metrics[TOTAL_OPERATIONS];
        // the product and the sum both wrap; one wrap of the exact sum is the same (`WrapLongAdd`)
        var newAvg := JDiv(WrapLong(avgProcessingTime * (totalOps - 1) + elapsed), totalOps);
        metrics := metrics[AVERAGE_TIME := newAvg];
      }
    }

    /** `resetMetrics`: no metrics and a profiler back at its initial state. */
    method ResetMetrics()
      requires Valid()
      modifies this`metrics, profiler
      ensures Valid() && metrics == map[] && profiler.history == [] && profiler.operationCounts == map[]
    {
      metrics := map[];
      profiler.Reset();
    }

    /**
     * `processBytes`: a null content or map throws (`None`); an empty map gives
     * an equal copy; otherwise the strategy's byte `replace`.
     */
    method ProcessBytes(content: Option<Bytes>, m: Option<PlaceholderMap>, cs: Codec, parallelFails: bool)
      returns (r: Option<Bytes>)
      requires strategy.Valid()
      requires content.Some? && m.Some? ==> strategy.BytesFinish(content.value, m.value, cs)
      ensures r.None? <==> content.None? || m.None?
      ensures content.Some? && m == Some([]) ==> r == content
      ensures content.Some? && m.Some? && m.value != [] ==> r == Some(strategy.BytesOutput(content.value, m.value, cs, parallelFails))
    {
      if content.None? || m.None? {
        return None;
      }
      if m.value == [] {
        return content;
      }
      var out := strategy.ReplaceBytes(content.value, m.value, cs, parallelFails);
      r := Some(out);
    }

    /** The body of `validatePlaceholders`' loop for one entry. */
    static method ValidateEntry(result: ValidationResult, entry: Placeholder)
      modifies result
      ensures result.errors == old(result.errors) + EntryErrors(entry)
      ensures result.warnings == old(result.warnings) + EntryWarnings(entry)
    {
      if IsBlank(entry.key) {
        result.AddError(EMPTY_KEY_ERROR);
        return;
      }
      WarnValue(result, entry.key, entry.value);
      assert old(result.errors) + [] == old(result.errors);
    }

    /** The two value checks for an entry whose key is not blank. */
    static method WarnValue(result: ValidationResult, key: string, value: Option<string>)
      modifies result`warnings
      ensures result.warnings == old(result.warnings) + ValueWarnings(key, value)
    {
      if value == None {
        result.AddWarning(NULL_VALUE_WARNING + key);
      }
      if value != None && Contains(value.value, key) {
        result.AddWarning(CIRCULAR_WARNING + key);
      }
    }

    /**
     * `validatePlaceholders`: a null map throws (`null`); otherwise one error
     * per blank key and the null-value and circular-reference warnings, in
     * iteration order.
     */
    method ValidatePlaceholders(m: Option<PlaceholderMap>) returns (result: ValidationResult?)
      ensures result == null <==> m.None?
      ensures result != null ==> fresh(result)
      ensures result != null ==> result.errors == ValidationErrors(m.value) && result.warnings == ValidationWarnings(m.value)
      ensures result != null ==> (result.IsValid() <==> forall i :: 0 <= i < |m.value| ==> !IsBlank(m.value[i].key))
    {
      if m.None? {
        return null;
      }
      var placeholders := m.value;
      result := new ValidationResult();
      var i := 0;
      while i < |placeholders|
        invariant 0 <= i <= |placeholders|
        invariant result.errors == ValidationErrors(placeholders[..i])
        invariant result.warnings == ValidationWarnings(placeholders[..i])
      {
        assert placeholders[..i + 1][..i] == placeholders[..i];
        ValidateEntry(result, placeholders[i]);
        i := i + 1;
      }
      assert placeholders[..i] == placeholders;
      ValidIffNoBlankKey(placeholders);
    }
  }

}

=== FILE: placeholder_transform_service.dfy ===
/**
 * The transform service behind the upload endpoint: validate the file and
 * the map through the registry, look the processor up again, run it, and
 * wrap its output, or the reason it was not run, in a transformation result.
 */
module PlaceholderTransformServices {
  import opened JavaLang
  import opened JavaText
  import opened Placeholders
  import opened ProcessingResults
  import opened ValidationResults
  import opened TransformationResults
  import opened FileProcessorRegistries
  import opened FileNames
  import TextFileProcessors
  import Profiler

  /** An uploaded file: the client's name for it, its declared content type, and its bytes. */
  datatype Upload = Upload(originalFilename: Option<string>, contentType: Option<string>, content: Bytes)

  /** What a processor's `process` does with a file: its output and result, or an exception and its message. */
  datatype Outcome = Processed(output: Bytes, result: ProcessingResult) | Failed(message: Option<string>)

  /** A processor's `process`, with the processor, the input bytes, the map and the file name. */
  type ProcessFn = (Processor, Bytes, PlaceholderMap, Option<string>) -> Outcome

  const VALIDATION_FAILED: string := "Validation failed: "
  const NO_PROCESSOR: string := "No processor found for file type"
  const PROCESSING_FAILED: string := "Processing failed: "

  /** `List.toString`: the elements between brackets, separated by a comma and a space. */
  function ListString(xs: seq<string>): string
  {
    "[" + Joined(xs) + "]"
  }

  function Joined(xs: seq<string>): string
  {
    if xs == [] then "" else if |xs| == 1 then xs[0] else xs[0] + ", " + Joined(xs[1..])
  }

  /** The errors `validateFile` reports for the processor its lookup chose. */
  function FileErrors(chosen: Option<Processor>, filename: Option<string>, mimeType: Option<string>, m: PlaceholderMap): seq<string>
  {
    if chosen.None? then [NoProcessorError(filename, mimeType)] else ExpectedErrors(chosen.value, m)
  }

  /**
   * `transformFile` on a cache state: the result and the caches after the
   * validating lookup and the second lookup.
   */
  function Transform(c: Caches, ps: seq<Processor>, file: Upload, m: PlaceholderMap, process: ProcessFn)
    : (TransformationResult, Caches)
  {
    var name, mime := file.originalFilename, file.contentType;
    var (chosen, c1) := FindStep(c, ps, name, mime);
    var errors := FileErrors(chosen, name, mime, m);
    if errors != [] then (Error(name, VALIDATION_FAILED + ListString(errors)), c1)
    else
      var (p, c2) := FindStep(c1, ps, name, mime);
      if p.None? then (Error(name, NO_PROCESSOR), c2)
      else
        match process(p.value, file.content, m, name)
        case Processed(output, result) => (Success(name, output, result), c2)
        case Failed(message) => (Error(name, PROCESSING_FAILED + JavaString(message)), c2)
  }

  /**
   * A file that fails validation is never handed to a processor: the result
   * is the same whatever `process` would do, and it is the validation error.
   */
  lemma ValidationFailureNeverProcesses(c: Caches, ps: seq<Processor>, file: Upload, m: PlaceholderMap, process1: ProcessFn, process2: ProcessFn)
    requires FileErrors(FindStep(c, ps, file.originalFilename, file.contentType).0, file.originalFilename, file.contentType, m) != []
    ensures Transform(c, ps, file, m, process1) == Transform(c, ps, file, m, process2)
    ensures var r := Transform(c, ps, file, m, process1).0;
      && !r.success
      && r.errorMessage == Some(VALIDATION_FAILED + ListString(FileErrors(FindStep(c, ps, file.originalFilename, file.contentType).0, file.originalFilename, file.contentType, m)))
  {
  }

  /**
   * The second lookup answers what the validating one chose and leaves the
   * caches as that one left them; so the processor run is the one that
   * validated the file.
   */
  lemma SecondLookupAgrees(c: Caches, ps: seq<Processor>, file: Upload)
    ensures var (chosen, c1) := FindStep(c, ps, file.originalFilename, file.contentType);
      FindStep(c1, ps, file.originalFilename, file.contentType) == (chosen, c1)
  {
    FindStepIdempotent(c, ps, file.originalFilename, file.contentType);
  }

  /**
   * A file passes validation only when a processor was found, so the
   * "No processor found for file type" answer is never given.
   */
  lemma NoProcessorAnswerUnreachable(c: Caches, ps: seq<Processor>, file: Upload, m: PlaceholderMap, process: ProcessFn)
    ensures Transform(c, ps, file, m, process).0.errorMessage != Some(NO_PROCESSOR)
    ensures Transform(c, ps, file, m, process).1 == FindStep(c, ps, file.originalFilename, file.contentType).1
  {
    SecondLookupAgrees(c, ps, file);
    var r := Transform(c, ps, file, m, process).0;
    if r.errorMessage.Some? {
      var message := r.errorMessage.value;
      assert message[0] == 'V' || message[0] == 'P';
      assert NO_PROCESSOR[0] == 'N';
    }
  }

  /**
   * The transformation succeeds exactly when a processor was found, the map
   * passes its validation and its `process` returns; the result then holds
   * that output and that processing result. Otherwise it is an error.
   */
  lemma TransformSucceedsIff(c: Caches, ps: seq<Processor>, file: Upload, m: PlaceholderMap, process: ProcessFn)
    ensures var chosen := FindStep(c, ps, file.originalFilename, file.contentType).0;
      var r := Transform(c, ps, file, m, process).0;
      && (r.success <==> chosen.Some? && ExpectedErrors(chosen.value, m) == []
                         && process(chosen.value, file.content, m, file.originalFilename).Processed?)
      && (r.success ==> var out := process(chosen.value, file.content, m, file.originalFilename);
                        r.content == Some(out.output) && r.processingResult == Some(out.result))
      && (!r.success ==> r.content.None? && r.errorMessage.Some?)
      && r.filename == file.originalFilename
  {
    SecondLookupAgrees(c, ps, file);
  }

  /** A processor that throws gives an error result carrying its message. */
  lemma ProcessingFailureReported(c: Caches, ps: seq<Processor>, file: Upload, m: PlaceholderMap, process: ProcessFn)
    requires var chosen := FindStep(c, ps, file.originalFilename, file.contentType).0;
      && chosen.Some? && ExpectedErrors(chosen.value, m) == []
      && process(chosen.value, file.content, m, file.originalFilename).Failed?
    ensures var chosen := FindStep(c, ps, file.originalFilename, file.contentType).0;
      Transform(c, ps, file, m, process).0.errorMessage
        == Some(PROCESSING_FAILED + JavaString(process(chosen.value, file.content, m, file.originalFilename).message))
  {
    SecondLookupAgrees(c, ps, file);
  }

  /**
   * With the text processor as the only registered processor and no cached
   * answers, "test.txt" as "text/plain" is supported.
   */
  lemma TextPlainSupported(t: TextFileProcessors.TextFileProcessor, name: string, mime: string)
    requires name == "test.txt" && mime == "text/plain"
    ensures FindStep(Caches(map[], map[]), [Text(t)], Some(name), Some(mime)).0.Some?
  {
    TextPlainAccepted(name, mime);
    TextOnlyLookup(t, Some(name), Some(mime));
  }

  /** In the same registry, "test.unknown" as "application/unknown" is not supported. */
  lemma UnknownUnsupported(t: TextFileProcessors.TextFileProcessor, name: string, mime: string)
    requires name == "test.unknown" && mime == "application/unknown"
    ensures FindStep(Caches(map[], map[]), [Text(t)], Some(name), Some(mime)).0.None?
  {
    UnknownRejected(name, mime);
    TextOnlyLookup(t, Some(name), Some(mime));
  }

  /** With the text processor alone and no cached answers, a file is supported exactly when the text processor accepts it. */
  lemma TextOnlyLookup(t: TextFileProcessors.TextFileProcessor, filename: Option<string>, mimeType: Option<string>)
    ensures FindStep(Caches(map[], map[]), [Text(t)], filename, mimeType).0.Some? <==> TextFileProcessors.CanProcess(filename, mimeType)
  {
    EmptyCachesScan([Text(t)], filename, mimeType);
    assert [Text(t)][1..] == [];
  }

  lemma TextPlainAccepted(name: string, mime: string)
    requires name == "test.txt" && mime == "text/plain"
    ensures TextFileProcessors.CanProcess(Some(name), Some(mime))
  {
    assert ToLower(mime)[..5] == "text/" by { TextPlainLower(mime); }
    TextFileProcessors.TextMimeTypeAccepted(Some(name), mime);
  }

  lemma TextPlainLower(mime: string)
    requires mime == "text/plain"
    ensures StartsWith(ToLower(mime), "text/")
  {
    assert ToLower(mime)[..5] == "text/";
  }

  lemma UnknownRejected(name: string, mime: string)
    requires name == "test.unknown" && mime == "application/unknown"
    ensures !TextFileProcessors.CanProcess(Some(name), Some(mime))
  {
    UnknownExtension(name);
    assert ToLower(mime)[..5][0] == 'a';
    RejectedByLength(name, mime);
  }

  lemma UnknownExtension(name: string)
    requires name == "test.unknown"
    ensures AfterLastDot(Some(name)) == "unknown"
  {
    assert name[4] == '.' && forall k :: 5 <= k < |name| ==> name[k] != '.';
    assert LastIndexOf(name, '.') == 4;
  }

  /**
   * No supported extension has seven letters and no listed MIME type
   * nineteen characters; a "text/" type is accepted at any length, so that
   * prefix is the one other fact the rejection needs.
   */
  lemma RejectedByLength(name: string, mime: string)
    requires |AfterLastDot(Some(name))| == 7
    requires |mime| == 19 && !StartsWith(ToLower(mime), "text/")
    ensures !TextFileProcessors.CanProcess(Some(name), Some(mime))
  {
    TextFileProcessors.NoSupportedExtensionOfLength7();
    TextFileProcessors.NoSupportedMimeTypeOfLength19();
  }

  class PlaceholderTransformService {
    const registry: FileProcessorRegistry
    const profiler: Profiler.PerformanceProfiler

    ghost predicate Valid()
      reads this, registry, profiler
    {
      registry.Valid() && profiler.Valid()
    }

    /** A service over the given registry, with a profiler of its own. */
    constructor (registry: FileProcessorRegistry)
      requires registry.Valid()
      ensures Valid() && this.registry == registry && fresh(profiler)
      ensures profiler.history == []
    {
      this.registry := registry;
      profiler := new Profiler.PerformanceProfiler();
    }

    /** `transformFile`: the result, and the registry's caches after its lookups. */
    method TransformFile(file: Upload, m: PlaceholderMap, process: ProcessFn) returns (r: TransformationResult)
      requires Valid()
      modifies registry`extensionCache, registry`mimeTypeCache
      ensures Valid()
      ensures (r, Caches(registry.extensionCache, registry.mimeTypeCache))
           == Transform(old(Caches(registry.extensionCache, registry.mimeTypeCache)), registry.processors, file, m, process)
    {
      var filename := file.originalFilename;
      var validation := ValidateTransformation(filename, file.contentType, m);
      if !validation.IsValid() {
        return Error(filename, VALIDATION_FAILED + ListString(validation.errors));
      }
      var processor := registry.FindProcessor(filename, file.contentType);
      if processor.None? {
        return Error(filename, NO_PROCESSOR);
      }
      var outcome := process(processor.value, file.content, m, filename);
      match outcome {
        case Processed(output, result) =>
          r := Success(filename, output, result);
        case Failed(message) =>
          r := Error(filename, PROCESSING_FAILED + JavaString(message));
      }
    }

    /** `validateTransformation`: the registry's `validateFile`. */
    method ValidateTransformation(filename: Option<string>, mimeType: Option<string>, m: PlaceholderMap) returns (result: ValidationResult)
      requires Valid()
      modifies registry`extensionCache, registry`mimeTypeCache
      ensures Valid() && fresh(result)
      ensures var (p, c) := FindStep(old(Caches(registry.extensionCache, registry.mimeTypeCache)), registry.processors, filename, mimeType);
        && Caches(registry.extensionCache, registry.mimeTypeCache) == c
        && result.errors == FileErrors(p, filename, mimeType, m)
        && (p.None? ==> result.warnings == [])
        && (p.Some? ==> result.warnings == ExpectedWarnings(p.value, filename, m))
    {
      result := registry.ValidateFile(filename, mimeType, m);
    }

    /** `isFileSupported`: whether the registry finds a processor. */
    method IsFileSupported(filename: Option<string>, mimeType: Option<string>) returns (supported: bool)
      requires Valid()
      modifies registry`extensionCache, registry`mimeTypeCache
      ensures Valid()
      ensures var (p, c) := FindStep(old(Caches(registry.extensionCache, registry.mimeTypeCache)), registry.processors, filename, mimeType);
        supported == p.Some? && Caches(registry.extensionCache, registry.mimeTypeCache) == c
    {
      var processor := registry.FindProcessor(filename, mimeType);
      supported := processor.Some?;
    }

    /** `getSupportedExtensions`: every extension some registered processor lists. */
    method GetSupportedExtensions() returns (extensions: set<string>)
      ensures forall x :: x in extensions <==> exists i :: 0 <= i < |registry.processors| && x in SupportedExtensions(registry.processors[i])
    {
      extensions := registry.GetAllSupportedExtensions();
      UnionOfSpec(registry.processors, SupportedExtensions);
    }

    /** `getSupportedMimeTypes`: every MIME type some registered processor lists. */
    method GetSupportedMimeTypes() returns (mimeTypes: set<string>)
      ensures forall x :: x in mimeTypes <==> exists i :: 0 <= i < |registry.processors| && x in SupportedMimeTypes(registry.processors[i])
    {
      mimeTypes := registry.GetAllSupportedMimeTypes();
      UnionOfSpec(registry.processors, SupportedMimeTypes);
    }

    /** `resetPerformanceMetrics`: an empty profiler and empty registry caches. */
    method ResetPerformanceMetrics()
      requires Valid()
      modifies profiler, registry`extensionCache, registry`mimeTypeCache
      ensures Valid()
      ensures profiler.history == [] && profiler.operationCounts == map[]
      ensures registry.extensionCache == map[] && registry.mimeTypeCache == map[]
    {
      profiler.Reset();
      registry.ClearCache();
    }
  }
}

=== FILE: placeholders.dfy ===
/**
 * The placeholder map every component receives, and the substitution chain
 * they all run over it: for each entry, in a given order, replace every
 * occurrence of the key by the value when the text contains the key.
 * Components differ in the order (map iteration order or longest key first)
 * and in whether they check for a null value before calling `replace`.
 */
module Placeholders {
  import opened JavaLang
  import opened JavaText
  import opened PriorityOrder

  /** One map entry; a null value is `None`. */
  datatype Placeholder = Placeholder(key: string, value: Option<string>)

  /** A placeholder map, listed in its iteration order. */
  type PlaceholderMap = seq<Placeholder>

  predicate UniqueKeys(m: PlaceholderMap)
  {
    forall i, j :: 0 <= i < j < |m| ==> m[i].key != m[j].key
  }

  /** Every entry that would be substituted has a non-empty key. */
  predicate NonEmptyKeys(m: PlaceholderMap)
  {
    forall i :: 0 <= i < |m| && m[i].value.Some? ==> m[i].key != []
  }

  /** No key of the map occurs in `s` (an empty key always occurs). */
  predicate NoKeyOccurs(s: string, m: PlaceholderMap)
  {
    forall i :: 0 <= i < |m| ==> !Contains(s, m[i].key)
  }

  /** `if (value != null && s.contains(key)) s = s.replace(key, value)`. */
  function SubstituteOne(s: string, p: Placeholder): string
  {
    if p.value.Some? && Contains(s, p.key) then ReplaceAll(s, p.key, p.value.value) else s
  }

  /** The null-checked chain over the entries in the order given. */
  function SubstituteAll(s: string, m: PlaceholderMap): string
    decreases |m|
  {
    if m == [] then s else SubstituteOne(SubstituteAll(s, m[..|m| - 1]), m[|m| - 1])
  }

  /**
   * `if (s.contains(key)) s = s.replace(key, value)` with no null check:
   * `replace` with a null value throws NullPointerException, modelled as `None`.
   */
  function SubstituteOneStrict(s: string, p: Placeholder): Option<string>
  {
    if !Contains(s, p.key) then Some(s)
    else if p.value.None? then None
    else Some(ReplaceAll(s, p.key, p.value.value))
  }

  function SubstituteAllStrict(s: string, m: PlaceholderMap): Option<string>
    decreases |m|
  {
    if m == [] then Some(s)
    else
      match SubstituteAllStrict(s, m[..|m| - 1])
      case None => None
      case Some(t) => SubstituteOneStrict(t, m[|m| - 1])
  }

  /** The key's length, the priority the longest-first order sorts by. */
  function KeyLength(p: Placeholder): int
  {
    |p.key|
  }

  predicate SortedByKeyLength(m: PlaceholderMap)
  {
    forall i, j :: 0 <= i < j < |m| ==> |m[i].key| >= |m[j].key|
  }

  /** A first entry whose key is at least as long as the head's keeps the order. */
  lemma ConsSortedByKeyLength(q: Placeholder, rest: PlaceholderMap)
    requires SortedByKeyLength(rest)
    requires rest != [] ==> |rest[0].key| <= |q.key|
    ensures SortedByKeyLength([q] + rest)
  {
    forall i, j | 0 <= i < j < |[q] + rest|
      ensures |([q] + rest)[i].key| >= |([q] + rest)[j].key|
    {
      if i > 0 {
        assert ([q] + rest)[i] == rest[i - 1];
      }
      assert ([q] + rest)[j] == rest[j - 1];
      assert |rest[j - 1].key| <= |rest[0].key|;
    }
  }

  /**
   * One step of the sort: `p` goes after every entry whose key is at least
   * as long. It is `PriorityOrder.Insert` by key length
   * (`InsertByKeyLengthIsInsert`), written out on placeholders.
   */
  function InsertByKeyLength(p: Placeholder, sorted: PlaceholderMap): (r: PlaceholderMap)
    requires SortedByKeyLength(sorted)
    ensures SortedByKeyLength(r)
    ensures multiset(r) == multiset(sorted) + multiset{p}
    ensures |r| == |sorted| + 1
    ensures r[0] == p || (sorted != [] && r[0] == sorted[0])
  {
    if sorted == [] then [p]
    else if |sorted[0].key| >= |p.key| then
      var rest := InsertByKeyLength(p, sorted[1..]);
      ConsSortedByKeyLength(sorted[0], rest);
      assert sorted == [sorted[0]] + sorted[1..];
      [sorted[0]] + rest
    else
      ConsSortedByKeyLength(p, sorted);
      [p] + sorted
  }

  /**
   * `entrySet().stream().sorted(comparing key length, reversed)`: the entries
   * ordered by descending key length; `SortByKeyLengthStable` states that
   * entries with equally long keys keep their iteration order, since the
   * stream's sort is stable.
   */
  function SortByKeyLength(m: PlaceholderMap): (r: PlaceholderMap)
    ensures SortedByKeyLength(r)
    ensures multiset(r) == multiset(m)
    ensures |r| == |m|
  {
    if m == [] then []
    else
      assert m == m[..|m| - 1] + [m[|m| - 1]];
      var r := InsertByKeyLength(m[|m| - 1], SortByKeyLength(m[..|m| - 1]));
      assert |r| == |multiset(r)|;
      r
  }

  lemma {:induction false} InsertByKeyLengthIsInsert(p: Placeholder, sorted: PlaceholderMap)
    requires SortedByKeyLength(sorted)
    ensures Sorted(KeyLength, sorted)
    ensures InsertByKeyLength(p, sorted) == Insert(KeyLength, p, sorted)
    decreases |sorted|
  {
    if sorted != [] && |sorted[0].key| >= |p.key| {
      InsertByKeyLengthIsInsert(p, sorted[1..]);
    }
  }

  /** The sort on placeholders is the generic stable sort by key length. */
  lemma {:induction false} SortByKeyLengthIsSort(m: PlaceholderMap)
    ensures SortByKeyLength(m) == Sort(KeyLength, m)
    decreases |m|
  {
    if m != [] {
      SortByKeyLengthIsSort(m[..|m| - 1]);
      InsertByKeyLengthIsInsert(m[|m| - 1], SortByKeyLength(m[..|m| - 1]));
    }
  }

  /** The sort is stable: the entries of each key length come out in the order they went in. */
  lemma SortByKeyLengthStable(m: PlaceholderMap, n: int)
    ensures WithKey(KeyLength, SortByKeyLength(m), n) == WithKey(KeyLength, m, n)
  {
    SortByKeyLengthIsSort(m);
    SortStable(KeyLength, m, n);
  }

  /** The chain every longest-key-first component runs. */
  function LongestFirst(s: string, m: PlaceholderMap): string
  {
    SubstituteAll(s, SortByKeyLength(m))
  }

  function LongestFirstStrict(s: string, m: PlaceholderMap): Option<string>
  {
    SubstituteAllStrict(s, SortByKeyLength(m))
  }

  /** Text in which no key occurs comes out of the chain unchanged. */
  lemma {:induction false} SubstituteAllAbsent(s: string, m: PlaceholderMap)
    requires NoKeyOccurs(s, m)
    ensures SubstituteAll(s, m) == s
    ensures SubstituteAllStrict(s, m) == Some(s)
    decreases |m|
  {
    if m != [] {
      SubstituteAllAbsent(s, m[..|m| - 1]);
      assert !Contains(s, m[|m| - 1].key);
    }
  }

  /** A map whose values are all null substitutes nothing. */
  lemma {:induction false} SubstituteAllNullValues(s: string, m: PlaceholderMap)
    requires forall i :: 0 <= i < |m| ==> m[i].value.None?
    ensures SubstituteAll(s, m) == s
    decreases |m|
  {
    if m != [] {
      SubstituteAllNullValues(s, m[..|m| - 1]);
    }
  }

  /** Without null values, the unchecked chain never throws and agrees with the checked one. */
  lemma {:induction false} StrictAgrees(s: string, m: PlaceholderMap)
    requires forall i :: 0 <= i < |m| ==> m[i].value.Some?
    ensures SubstituteAllStrict(s, m) == Some(SubstituteAll(s, m))
    decreases |m|
  {
    if m != [] {
      StrictAgrees(s, m[..|m| - 1]);
    }
  }

  /** The unchecked chain throws only because some value is null. */
  lemma {:induction false} StrictFailsOnNull(s: string, m: PlaceholderMap)
    requires SubstituteAllStrict(s, m).None?
    ensures exists i :: 0 <= i < |m| && m[i].value.None?
    decreases |m|
  {
    if SubstituteAllStrict(s, m[..|m| - 1]).None? {
      StrictFailsOnNull(s, m[..|m| - 1]);
      var i :| 0 <= i < |m| - 1 && m[..|m| - 1][i].value.None?;
      assert m[i].value.None?;
    } else {
      assert m[|m| - 1].value.None?;
    }
  }

  /**
   * The `contains` guard only saves work: with a non-empty key (or any key,
   * since the empty key is always contained) a non-null value gives the same
   * text as calling `replace` unconditionally.
   */
  lemma GuardIsRedundant(s: string, p: Placeholder)
    requires p.value.Some?
    ensures SubstituteOne(s, p) == ReplaceAll(s, p.key, p.value.value)
  {
    if p.key == [] {
      assert OccursAt(s, p.key, 0);
    } else if !Contains(s, p.key) {
      ReplaceAllAbsent(s, p.key, p.value.value);
    }
  }

  /** Sorting keeps exactly the map's entries, so the sorted chain sees every key. */
  lemma SortKeepsEntries(m: PlaceholderMap, i: int)
    requires 0 <= i < |m|
    ensures m[i] in SortByKeyLength(m)
  {
    assert m[i] in multiset(m);
  }

  /** A text in which no key of the map occurs contains no key of the sorted map either. */
  lemma NoKeyOccursSorted(s: string, m: PlaceholderMap)
    requires NoKeyOccurs(s, m)
    ensures NoKeyOccurs(s, SortByKeyLength(m))
  {
    var sorted := SortByKeyLength(m);
    forall i | 0 <= i < |sorted|
      ensures !Contains(s, sorted[i].key)
    {
      assert sorted[i] in multiset(sorted);
      var j :| 0 <= j < |m| && m[j] == sorted[i];
    }
  }

  /** When the unchecked chain does not throw, it computes what the checked chain computes. */
  lemma {:induction false} StrictSomeAgrees(s: string, m: PlaceholderMap)
    requires SubstituteAllStrict(s, m).Some?
    ensures SubstituteAllStrict(s, m) == Some(SubstituteAll(s, m))
    decreases |m|
  {
    if m != [] {
      StrictSomeAgrees(s, m[..|m| - 1]);
    }
  }
  /**
   * `applyReplacements` / `applyPlaceholders` of the class, document and
   * image services: an empty map leaves the text alone; otherwise the
   * unchecked longest-key-first chain, which throws (`None`) on a null value
   * whose key occurs.
   */
  function ApplyPlaceholders(s: string, m: PlaceholderMap): Option<string>
  {
    if m == [] then Some(s) else LongestFirstStrict(s, m)
  }

  /** The empty-map guard only saves work: the result is the chain's in every case. */
  lemma ApplyPlaceholdersIsChain(s: string, m: PlaceholderMap)
    ensures ApplyPlaceholders(s, m) == LongestFirstStrict(s, m)
  {
  }

  /** A text in which no key occurs is returned unchanged. */
  lemma ApplyPlaceholdersKeyFree(s: string, m: PlaceholderMap)
    requires NoKeyOccurs(s, m)
    ensures ApplyPlaceholders(s, m) == Some(s)
  {
    NoKeyOccursSorted(s, m);
    SubstituteAllAbsent(s, SortByKeyLength(m));
  }

  /** When it does not throw, the result is the null-checked longest-first chain. */
  lemma ApplyPlaceholdersSucceeds(s: string, m: PlaceholderMap)
    requires ApplyPlaceholders(s, m).Some?
    ensures ApplyPlaceholders(s, m) == Some(LongestFirst(s, m))
  {
    StrictSomeAgrees(s, SortByKeyLength(m));
  }

  /** It throws only when the map holds a null value. */
  lemma ApplyPlaceholdersFails(s: string, m: PlaceholderMap)
    requires ApplyPlaceholders(s, m).None?
    ensures exists i :: 0 <= i < |m| && m[i].value.None?
  {
    var sorted := SortByKeyLength(m);
    StrictFailsOnNull(s, sorted);
    var j :| 0 <= j < |sorted| && sorted[j].value.None?;
    assert sorted[j] in multiset(m) by {
      assert sorted[j] in multiset(sorted);
    }
  }

  /** No value of the map is null. */
  predicate NoNullValues(m: PlaceholderMap)
  {
    forall i :: 0 <= i < |m| ==> m[i].value.Some?
  }

  /** Without null values the chain never throws. */
  lemma ApplyPlaceholdersNoNull(s: string, m: PlaceholderMap)
    requires NoNullValues(m)
    ensures ApplyPlaceholders(s, m) == Some(LongestFirst(s, m))
  {
    var sorted := SortByKeyLength(m);
    forall j | 0 <= j < |sorted|
      ensures sorted[j].value.Some?
    {
      assert sorted[j] in multiset(m) by {
        assert sorted[j] in multiset(sorted);
      }
    }
    StrictAgrees(s, sorted);
  }
}

=== FILE: priority_order.dfy ===
/**
 * `List.sort` with a comparator on a priority, highest first: an insertion
 * sort that keeps elements of equal priority in their original order, as
 * the stable sort of the Java collections does.
 */
module PriorityOrder {

  /** Non-increasing priorities. */
  predicate Sorted<T>(key: T -> int, xs: seq<T>)
  {
    forall i, j :: 0 <= i < j < |xs| ==> key(xs[i]) >= key(xs[j])
  }

  /** The elements of priority `v`, in list order. */
  function WithKey<T>(key: T -> int, xs: seq<T>, v: int): seq<T>
  {
    if xs == [] then [] else (if key(xs[0]) == v then [xs[0]] else []) + WithKey(key, xs[1..], v)
  }

  /** `x` goes after every element of at least its priority. */
  function Insert<T>(key: T -> int, x: T, sorted: seq<T>): (r: seq<T>)
    requires Sorted(key, sorted)
    ensures Sorted(key, r)
    ensures multiset(r) == multiset(sorted) + multiset{x}
    ensures |r| == |sorted| + 1
    ensures r[0] == x || (sorted != [] && r[0] == sorted[0])
  {
    if sorted == [] then [x]
    else if key(sorted[0]) >= key(x) then
      var rest := Insert(key, x, sorted[1..]);
      ConsSorted(key, sorted[0], rest);
      assert sorted == [sorted[0]] + sorted[1..];
      [sorted[0]] + rest
    else
      ConsSorted(key, x, sorted);
      [x] + sorted
  }

  /** A first element of at least the priority of the head keeps the order. */
  lemma ConsSorted<T>(key: T -> int, q: T, rest: seq<T>)
    requires Sorted(key, rest)
    requires rest != [] ==> key(rest[0]) <= key(q)
    ensures Sorted(key, [q] + rest)
  {
    forall i, j | 0 <= i < j < |[q] + rest|
      ensures key(([q] + rest)[i]) >= key(([q] + rest)[j])
    {
      if i > 0 {
        assert ([q] + rest)[i] == rest[i - 1];
      }
      assert ([q] + rest)[j] == rest[j - 1];
      assert key(rest[j - 1]) <= key(rest[0]);
    }
  }

  /** A last element of at most every priority keeps the order. */
  lemma SnocSorted<T>(key: T -> int, xs: seq<T>, x: T)
    requires Sorted(key, xs)
    requires forall i :: 0 <= i < |xs| ==> key(x) <= key(xs[i])
    ensures Sorted(key, xs + [x])
  {
    forall i, j | 0 <= i < j < |xs + [x]|
      ensures key((xs + [x])[i]) >= key((xs + [x])[j])
    {
      assert (xs + [x])[i] == xs[i];
    }
  }

  /** The sort: sorted, and a permutation of the input. */
  function Sort<T>(key: T -> int, xs: seq<T>): (r: seq<T>)
    ensures Sorted(key, r)
    ensures multiset(r) == multiset(xs)
  {
    if xs == [] then []
    else
      assert xs == xs[..|xs| - 1] + [xs[|xs| - 1]];
      Insert(key, xs[|xs| - 1], Sort(key, xs[..|xs| - 1]))
  }

  lemma {:induction false} WithKeyConcat<T>(key: T -> int, a: seq<T>, b: seq<T>, v: int)
    ensures WithKey(key, a + b, v) == WithKey(key, a, v) + WithKey(key, b, v)
    decreases |a|
  {
    if a != [] {
      WithKeyConcat(key, a[1..], b, v);
      assert (a + b)[1..] == a[1..] + b;
    } else {
      assert a + b == b;
    }
  }

  /** A list whose every priority lies below `v` has nothing of priority `v`. */
  lemma {:induction false} NoneWithKey<T>(key: T -> int, xs: seq<T>, v: int)
    requires forall i :: 0 <= i < |xs| ==> key(xs[i]) < v
    ensures WithKey(key, xs, v) == []
    decreases |xs|
  {
    if xs != [] {
      NoneWithKey(key, xs[1..], v);
    }
  }

  /** An element of no higher priority than any other goes last. */
  lemma {:induction false} InsertLowest<T>(key: T -> int, x: T, sorted: seq<T>)
    requires Sorted(key, sorted)
    requires forall i :: 0 <= i < |sorted| ==> key(x) <= key(sorted[i])
    ensures Insert(key, x, sorted) == sorted + [x]
    decreases |sorted|
  {
    if sorted != [] {
      assert Sorted(key, sorted[1..]);
      InsertLowest(key, x, sorted[1..]);
      assert sorted == [sorted[0]] + sorted[1..];
    }
  }

  lemma ConcatAssoc<T>(a: seq<T>, b: seq<T>, c: seq<T>)
    ensures a + (b + c) == (a + b) + c
  {
  }

  /** The inserted element comes after every element of its own priority. */
  lemma {:induction false} InsertStable<T>(key: T -> int, x: T, sorted: seq<T>, v: int)
    requires Sorted(key, sorted)
    ensures WithKey(key, Insert(key, x, sorted), v) == WithKey(key, sorted, v) + (if key(x) == v then [x] else [])
    decreases |sorted|
  {
    var tail := if key(x) == v then [x] else [];
    if sorted == [] {
      assert Insert(key, x, sorted) == [x];
      assert [x][1..] == [];
    } else if key(sorted[0]) >= key(x) {
      var head := if key(sorted[0]) == v then [sorted[0]] else [];
      var rest := Insert(key, x, sorted[1..]);
      assert Insert(key, x, sorted) == [sorted[0]] + rest;
      InsertStable(key, x, sorted[1..], v);
      assert ([sorted[0]] + rest)[1..] == rest;
      assert WithKey(key, sorted, v) == head + WithKey(key, sorted[1..], v);
      assert WithKey(key, [sorted[0]] + rest, v) == head + WithKey(key, rest, v);
      ConcatAssoc(head, WithKey(key, sorted[1..], v), tail);
    } else {
      assert Insert(key, x, sorted) == [x] + sorted;
      assert ([x] + sorted)[1..] == sorted;
      assert WithKey(key, [x] + sorted, v) == tail + WithKey(key, sorted, v);
      if key(x) == v {
        forall i | 0 <= i < |sorted| ensures key(sorted[i]) < v {
          assert i == 0 || key(sorted[i]) <= key(sorted[0]);
        }
        NoneWithKey(key, sorted, v);
      }
    }
  }

  /** The sort of a non-empty list inserts its last element into the sort of the rest. */
  lemma SortLast<T>(key: T -> int, xs: seq<T>)
    requires xs != []
    ensures Sort(key, xs) == Insert(key, xs[|xs| - 1], Sort(key, xs[..|xs| - 1]))
  {
  }

  /** The elements of a priority in a non-empty list: those before the last, then the last if it has that priority. */
  lemma WithKeyLast<T>(key: T -> int, xs: seq<T>, v: int)
    requires xs != []
    ensures WithKey(key, xs, v) == WithKey(key, xs[..|xs| - 1], v) + (if key(xs[|xs| - 1]) == v then [xs[|xs| - 1]] else [])
  {
    var front, x := xs[..|xs| - 1], xs[|xs| - 1];
    assert front + [x] == xs;
    WithKeyConcat(key, front, [x], v);
    assert [x][1..] == [];
  }

  /** The last element keeps the sort stable. */
  lemma SortStableStep<T>(key: T -> int, xs: seq<T>, v: int)
    requires xs != []
    requires WithKey(key, Sort(key, xs[..|xs| - 1]), v) == WithKey(key, xs[..|xs| - 1], v)
    ensures WithKey(key, Sort(key, xs), v) == WithKey(key, xs, v)
  {
    SortLast(key, xs);
    InsertStable(key, xs[|xs| - 1], Sort(key, xs[..|xs| - 1]), v);
    WithKeyLast(key, xs, v);
  }

  /**
   * The sort is stable: the elements of each priority keep their original
   * order. With sortedness and the permutation this fixes the result.
   */
  lemma {:induction false} SortStable<T>(key: T -> int, xs: seq<T>, v: int)
    ensures WithKey(key, Sort(key, xs), v) == WithKey(key, xs, v)
    decreases |xs|
  {
    if xs != [] {
      SortStable(key, xs[..|xs| - 1], v);
      SortStableStep(key, xs, v);
    }
  }
}

=== FILE: processing_result.dfy ===
/**
 * The statistics a processor reports for one file: byte, replacement and
 * placeholder counts fixed at construction, a settable processing time, and
 * ordered warning and error lists.
 */
module ProcessingResults {

  /** The three counts a strategy hands to `new ProcessingResult(...)`. */
  datatype Stats = Stats(bytesProcessed: int, replacementCount: int, placeholderCount: int)

  class ProcessingResult {
    const bytesProcessed: int
    const replacementCount: int
    const placeholderCount: int
    var processingTimeNanos: int
    var warnings: seq<string>
    var errors: seq<string>

    constructor (bytesProcessed: int, replacementCount: int, placeholderCount: int)
      ensures this.bytesProcessed == bytesProcessed
      ensures this.replacementCount == replacementCount
      ensures this.placeholderCount == placeholderCount
      ensures processingTimeNanos == 0
      ensures warnings == [] && errors == []
      ensures IsSuccessful() && !HasWarnings()
    {
      this.bytesProcessed := bytesProcessed;
      this.replacementCount := replacementCount;
      this.placeholderCount := placeholderCount;
      processingTimeNanos := 0;
      warnings := [];
      errors := [];
    }

    function Counts(): (s: Stats)
      ensures s.bytesProcessed == bytesProcessed
      ensures s.replacementCount == replacementCount
      ensures s.placeholderCount == placeholderCount
    {
      Stats(bytesProcessed, replacementCount, placeholderCount)
    }

    /** Only the time field changes. */
    method SetProcessingTimeNanos(nanos: int)
      modifies this`processingTimeNanos
      ensures processingTimeNanos == nanos
    {
      processingTimeNanos := nanos;
    }

    /** Appends a warning; success is unaffected. */
    method AddWarning(warning: string)
      modifies this`warnings
      ensures warnings == old(warnings) + [warning]
      ensures HasWarnings()
      ensures IsSuccessful() == old(IsSuccessful())
    {
      warnings := warnings + [warning];
    }

    /** Appends an error; the result is unsuccessful from now on. */
    method AddError(error: string)
      modifies this`errors
      ensures errors == old(errors) + [error]
      ensures HasErrors() && !IsSuccessful()
    {
      errors := errors + [error];
    }

    predicate HasErrors()
      reads this
    {
      errors != []
    }

    predicate HasWarnings()
      reads this
    {
      warnings != []
    }

    predicate IsSuccessful()
      reads this
    {
      !HasErrors()
    }
  }
}

=== FILE: profiler.dfy ===
/**
 * Running totals over every processing call: operation count, summed time,
 * bytes and placeholder counts, running minimum and maximum time, the best
 * throughput seen, and a per-operation-type counter. The ghost `history`
 * records the samples so that each field can be stated as a function of it.
 */
module Profiler {
  import opened JavaLang

  /** One `recordProcessing(processingTimeNanos, bytesProcessed, placeholderCount)` call. */
  datatype Sample = Sample(timeNanos: int, bytes: int, placeholderCount: int)

  const NANOS_PER_SECOND: int := 1_000_000_000

  /** A `LongAdder` total: every `add` is a `long` sum, which wraps. */
  function SumTime(h: seq<Sample>): int
  {
    if h == [] then 0 else WrapLong(SumTime(h[..|h| - 1]) + h[|h| - 1].timeNanos)
  }

  function SumBytes(h: seq<Sample>): int
  {
    if h == [] then 0 else WrapLong(SumBytes(h[..|h| - 1]) + h[|h| - 1].bytes)
  }

  function SumPlaceholders(h: seq<Sample>): int
  {
    if h == [] then 0 else WrapLong(SumPlaceholders(h[..|h| - 1]) + h[|h| - 1].placeholderCount)
  }

  /** The running minimum, starting from `Long.MAX_VALUE`. */
  function MinTime(h: seq<Sample>): int
  {
    if h == [] then LONG_MAX else Min(MinTime(h[..|h| - 1]), h[|h| - 1].timeNanos)
  }

  /** The running maximum, starting from 0. */
  function MaxTime(h: seq<Sample>): int
  {
    if h == [] then 0 else Max(MaxTime(h[..|h| - 1]), h[|h| - 1].timeNanos)
  }

  /**
   * Bytes per second of one sample, in long arithmetic: the product
   * `bytesProcessed * 1_000_000_000L` wraps, then the division truncates.
   */
  function Throughput(s: Sample): int
    requires s.timeNanos > 0
  {
    JDiv(WrapLong(s.bytes * NANOS_PER_SECOND), s.timeNanos)
  }

  /** Up to `Long.MAX_VALUE / 10^9` bytes (about 9.2 GB) the product fits and the figure is the true rate. */
  lemma ThroughputExactBelowWrap(s: Sample)
    requires s.timeNanos > 0 && 0 <= s.bytes <= LONG_MAX / NANOS_PER_SECOND
    ensures Throughput(s) == s.bytes * NANOS_PER_SECOND / s.timeNanos
    ensures Throughput(s) >= 0
  {
  }

  /** Ten gigabytes in one second: the product wraps and the throughput comes out negative. */
  lemma TenGigabytesPerSecondNegative()
    ensures Throughput(Sample(NANOS_PER_SECOND, 10_000_000_000, 0)) < 0
  {
    assert WrapLong(10_000_000_000 * NANOS_PER_SECOND) == 10_000_000_000_000_000_000 - 0x1_0000_0000_0000_0000;
  }

  /** Nine gigabytes in a second report a higher throughput than ten: the wrapped figure is not monotone in the bytes. */
  lemma ThroughputNotMonotone()
    ensures Throughput(Sample(NANOS_PER_SECOND, 9_000_000_000, 0)) > Throughput(Sample(NANOS_PER_SECOND, 10_000_000_000, 0))
  {
    TenGigabytesPerSecondNegative();
    ThroughputExactBelowWrap(Sample(NANOS_PER_SECOND, 9_000_000_000, 0));
  }

  /** The throughput without the wrap: the truncated rate, saturated at the bounds of a long. */
  function CorrectedThroughput(s: Sample): (r: int)
    requires s.timeNanos > 0
    ensures LONG_MIN <= r <= LONG_MAX
    ensures 0 <= s.bytes <= LONG_MAX / NANOS_PER_SECOND ==> r == Throughput(s)
    ensures s.bytes >= 0 ==> r >= 0
  {
    var q := JDiv(s.bytes * NANOS_PER_SECOND, s.timeNanos);
    if q > LONG_MAX then LONG_MAX else if q < LONG_MIN then LONG_MIN else q
  }

  /** Over the same time, more bytes never report a lower corrected throughput. */
  lemma CorrectedThroughputMonotone(s: Sample, t: Sample)
    requires s.timeNanos == t.timeNanos > 0
    requires 0 <= s.bytes <= t.bytes
    ensures CorrectedThroughput(s) <= CorrectedThroughput(t)
  {
    var a, b := s.bytes * NANOS_PER_SECOND, t.bytes * NANOS_PER_SECOND;
    assert a <= b;
    DivMonotone(a, b, s.timeNanos);
  }

  /** Truncating division by a positive number keeps the order of non-negative numerators. */
  lemma DivMonotone(a: int, b: int, d: int)
    requires 0 <= a <= b && d > 0
    ensures a / d <= b / d
  {
    var qa, qb := a / d, b / d;
    assert qa * d <= a && b < qb * d + d;
    assert qb * d + d == (qb + 1) * d;
    MulStrict(qa, qb + 1, d);
  }

  /** The running maximum throughput over the samples with a positive time. */
  function MaxThroughput(h: seq<Sample>): int
  {
    if h == [] then 0
    else if h[|h| - 1].timeNanos > 0 then Max(MaxThroughput(h[..|h| - 1]), Throughput(h[|h| - 1]))
    else MaxThroughput(h[..|h| - 1])
  }

  /** The minimum lies below every recorded time and is one of them unless nothing below `Long.MAX_VALUE` was recorded. */
  lemma {:induction false} MinTimeIsMinimum(h: seq<Sample>)
    ensures forall i :: 0 <= i < |h| ==> MinTime(h) <= h[i].timeNanos
    ensures MinTime(h) == LONG_MAX || exists i :: 0 <= i < |h| && MinTime(h) == h[i].timeNanos
  {
    if h != [] {
      var p := h[..|h| - 1];
      MinTimeIsMinimum(p);
      assert forall i :: 0 <= i < |p| ==> h[i] == p[i];
    }
  }

  /** The maximum lies above every recorded time and is one of them unless all were <= 0. */
  lemma {:induction false} MaxTimeIsMaximum(h: seq<Sample>)
    ensures MaxTime(h) >= 0
    ensures forall i :: 0 <= i < |h| ==> MaxTime(h) >= h[i].timeNanos
    ensures MaxTime(h) == 0 || exists i :: 0 <= i < |h| && MaxTime(h) == h[i].timeNanos
  {
    if h != [] {
      var p := h[..|h| - 1];
      MaxTimeIsMaximum(p);
      assert forall i :: 0 <= i < |p| ==> h[i] == p[i];
    }
  }

  /** Samples with no positive time never move the maximum throughput. */
  lemma {:induction false} MaxThroughputIgnoresZeroTime(h: seq<Sample>)
    requires forall i :: 0 <= i < |h| ==> h[i].timeNanos <= 0
    ensures MaxThroughput(h) == 0
  {
    if h != [] {
      MaxThroughputIgnoresZeroTime(h[..|h| - 1]);
    }
  }

  class PerformanceProfiler {
    var totalOperations: int
    var totalProcessingTime: int
    var totalBytesProcessed: int
    var totalReplacements: int
    var minProcessingTime: int
    var maxProcessingTime: int
    var maxThroughput: int
    var operationCounts: map<string, int>
    ghost var history: seq<Sample>

    /**
     * Every counter is the fold of its samples over the history; the three
     * `LongAdder` sums wrap to 64 bits, and the operation count (one per
     * call) is not wrapped.
     */
    ghost predicate Valid()
      reads this
    {
      && totalOperations == |history|
      && totalProcessingTime == SumTime(history)
      && totalBytesProcessed == SumBytes(history)
      && totalReplacements == SumPlaceholders(history)
      && minProcessingTime == MinTime(history)
      && maxProcessingTime == MaxTime(history)
      && maxThroughput == MaxThroughput(history)
    }

    constructor ()
      ensures Valid() && history == [] && operationCounts == map[]
    {
      totalOperations, totalProcessingTime, totalBytesProcessed, totalReplacements := 0, 0, 0, 0;
      minProcessingTime, maxProcessingTime, maxThroughput := LONG_MAX, 0, 0;
      operationCounts := map[];
      history := [];
    }

    /**
     * One more operation; "totalReplacements" accumulates the placeholder
     * count the caller passes, not a replacement count.
     */
    method RecordProcessing(processingTimeNanos: int, bytesProcessed: int, placeholderCount: int)
      requires Valid()
      modifies this
      ensures Valid()
      ensures history == old(history) + [Sample(processingTimeNanos, bytesProcessed, placeholderCount)]
      ensures totalOperations == old(totalOperations) + 1
      ensures totalReplacements == WrapLong(old(totalReplacements) + placeholderCount)
      ensures operationCounts == old(operationCounts)
    {
      var s := Sample(processingTimeNanos, bytesProcessed, placeholderCount);
      assert (history + [s])[..|history|] == history;
      AddToTotals(processingTimeNanos, bytesProcessed, placeholderCount);
      UpdateExtremes(processingTimeNanos, bytesProcessed);
      history := history + [s];
    }

    /** The four `LongAdder` updates of `recordProcessing`. */
    method AddToTotals(processingTimeNanos: int, bytesProcessed: int, placeholderCount: int)
      modifies this`totalOperations, this`totalProcessingTime, this`totalBytesProcessed, this`totalReplacements
      ensures totalOperations == old(totalOperations) + 1
      ensures totalProcessingTime == WrapLong(old(totalProcessingTime) + processingTimeNanos)
      ensures totalBytesProcessed == WrapLong(old(totalBytesProcessed) + bytesProcessed)
      ensures totalReplacements == WrapLong(old(totalReplacements) + placeholderCount)
    {
      totalOperations := totalOperations + 1;
      totalProcessingTime := WrapLong(totalProcessingTime + processingTimeNanos);
      totalBytesProcessed := WrapLong(totalBytesProcessed + bytesProcessed);
      totalReplacements := WrapLong(totalReplacements + placeholderCount);
    }

    /** The running minimum, maximum and best throughput of `recordProcessing`. */
    method UpdateExtremes(processingTimeNanos: int, bytesProcessed: int)
      modifies this`minProcessingTime, this`maxProcessingTime, this`maxThroughput
      ensures minProcessingTime == Min(old(minProcessingTime), processingTimeNanos)
      ensures maxProcessingTime == Max(old(maxProcessingTime), processingTimeNanos)
      ensures processingTimeNanos > 0 ==> maxThroughput == Max(old(maxThroughput), Throughput(Sample(processingTimeNanos, bytesProcessed, 0)))
      ensures processingTimeNanos <= 0 ==> maxThroughput == old(maxThroughput)
    {
      minProcessingTime := Min(minProcessingTime, processingTimeNanos);
      maxProcessingTime := Max(maxProcessingTime, processingTimeNanos);
      if processingTimeNanos > 0 {
        var throughput := JDiv(WrapLong(bytesProcessed * NANOS_PER_SECOND), processingTimeNanos);
        maxThroughput := Max(maxThroughput, throughput);
      }
    }

    /** Adds one to the counter of `operationType`, creating it at 0 first. */
    method RecordOperation(operationType: string)
      modifies this`operationCounts
      ensures OperationCount(operationType) == old(OperationCount(operationType)) + 1
      ensures forall t :: t != operationType ==> OperationCount(t) == old(OperationCount(t))
    {
      operationCounts := operationCounts[operationType := OperationCount(operationType) + 1];
    }

    /** 0 for a type never recorded. */
    function OperationCount(operationType: string): (r: int)
      reads this
      ensures operationType !in operationCounts ==> r == 0
    {
      if operationType in operationCounts then operationCounts[operationType] else 0
    }

    /** The truncated mean time, or 0 before any operation. */
    function AverageProcessingTimeNanos(): (r: int)
      reads this
      ensures totalOperations <= 0 ==> r == 0
      ensures totalOperations > 0 && totalProcessingTime >= 0 ==> r == totalProcessingTime / totalOperations
      ensures totalOperations > 0 && totalProcessingTime < 0 ==> r == -((-totalProcessingTime) / totalOperations)
    {
      if totalOperations > 0 then JDiv(totalProcessingTime, totalOperations) else 0
    }

    /**
     * Bytes per second over the summed time, or 0 when no time was recorded;
     * the long product wraps once the bytes pass about 9.2 GB.
     */
    function AverageThroughputBytesPerSecond(): (r: int)
      reads this
      ensures totalProcessingTime <= 0 ==> r == 0
      ensures totalProcessingTime > 0 && 0 <= totalBytesProcessed <= LONG_MAX / NANOS_PER_SECOND ==>
                r == totalBytesProcessed * NANOS_PER_SECOND / totalProcessingTime
      ensures LONG_MIN <= r <= LONG_MAX
    {
      if totalProcessingTime > 0 then JDiv(WrapLong(totalBytesProcessed * NANOS_PER_SECOND), totalProcessingTime) else 0
    }

    /** The running minimum, reported as 0 while it still holds the sentinel. */
    function MinProcessingTimeNanos(): (r: int)
      reads this
      ensures minProcessingTime == LONG_MAX ==> r == 0
      ensures minProcessingTime != LONG_MAX ==> r == minProcessingTime
    {
      if minProcessingTime == LONG_MAX then 0 else minProcessingTime
    }

    /** Back to the state of a fresh profiler. */
    method Reset()
      modifies this
      ensures Valid() && history == [] && operationCounts == map[]
      ensures MinProcessingTimeNanos() == 0 && AverageProcessingTimeNanos() == 0
    {
      totalOperations, totalProcessingTime, totalBytesProcessed, totalReplacements := 0, 0, 0, 0;
      minProcessingTime, maxProcessingTime, maxThroughput := LONG_MAX, 0, 0;
      operationCounts := map[];
      history := [];
    }
  }

  /** A profiler that has seen ten gigabytes in one second of processing reports a negative average throughput. */
  lemma AverageThroughputWraps(p: PerformanceProfiler)
    requires p.totalBytesProcessed == 10_000_000_000 && p.totalProcessingTime == NANOS_PER_SECOND
    ensures p.AverageThroughputBytesPerSecond() < 0
  {
    assert WrapLong(10_000_000_000 * NANOS_PER_SECOND) == 10_000_000_000_000_000_000 - 0x1_0000_0000_0000_0000;
  }

  /** With nothing recorded, every reported figure is 0. */
  lemma EmptyProfilerReportsZero(p: PerformanceProfiler)
    requires p.Valid() && p.history == []
    ensures p.MinProcessingTimeNanos() == 0 && p.maxProcessingTime == 0
    ensures p.AverageProcessingTimeNanos() == 0 && p.AverageThroughputBytesPerSecond() == 0
  {
  }
}

=== FILE: secret_key_filter.dfy ===
/**
 * The request filter that guards the API with a shared secret: exempt
 * paths and a disabled key pass straight on; otherwise the "X-Secret-Key"
 * header must equal the configured key exactly, and a request without it
 * or with a different one is answered 401 with a JSON error body. The
 * client address, logged on each rejection, comes from "X-Forwarded-For",
 * then "X-Real-IP", then the connection.
 */
module SecretKeyFilters {
  import opened JavaLang
  import opened JavaText
  import opened EnvironmentSetup

  const SC_UNAUTHORIZED: int := 401
  const JSON_CONTENT_TYPE: string := "application/json"
  const ERROR_BODY: string := "{\"error\":\"Missing or invalid secret key\"}"

  /** What the filter reads of a request: its path and three headers (`None` when absent), and the peer address. */
  datatype Request = Request(
    uri: string,
    secretKey: Option<string>,
    forwardedFor: Option<string>,
    realIp: Option<string>,
    remoteAddr: string)

  /** The chain is invoked; or the filter answers itself; or an exception escapes the filter. */
  datatype Response = PassedOn | Rejected(status: int, contentType: string, body: string) | Threw

  // ------------------------------------------------------------ String.split

  /** The pieces of `s` between occurrences of `c`, empty ones included. */
  function Fields(s: string, c: char): (r: seq<string>)
    ensures |r| >= 1
    ensures forall i :: 0 <= i < |r| ==> c !in r[i]
    decreases |s|
  {
    if s == [] then [""]
    else
      var rest := Fields(s[1..], c);
      if s[0] == c then [""] + rest else [[s[0]] + rest[0]] + rest[1..]
  }

  /** `String.join` of a non-empty list with the one-character separator `c`. */
  function Join(pieces: seq<string>, c: char): string
    requires |pieces| >= 1
  {
    pieces[0] + JoinTail(pieces[1..], c)
  }

  /** Each piece after the first, preceded by the separator. */
  function JoinTail(pieces: seq<string>, c: char): string
  {
    if pieces == [] then [] else [c] + pieces[0] + JoinTail(pieces[1..], c)
  }

  /** Joining the fields back with the separator gives the string again. */
  lemma {:induction false} FieldsJoin(s: string, c: char)
    ensures Join(Fields(s, c), c) == s
    decreases |s|
  {
    if s != [] {
      var rest := Fields(s[1..], c);
      FieldsJoin(s[1..], c);
      if s[0] == c {
        assert Fields(s, c)[1..] == rest;
      } else {
        assert Fields(s, c)[1..] == rest[1..];
      }
    }
  }

  /** A string without the separator is its own single field. */
  lemma {:induction false} FieldsWithoutSeparator(s: string, c: char)
    requires c !in s
    ensures Fields(s, c) == [s]
    decreases |s|
  {
    if s != [] {
      assert c !in s[1..] by {
        assert forall k :: 0 <= k < |s| - 1 ==> s[1..][k] == s[k + 1];
      }
      FieldsWithoutSeparator(s[1..], c);
      assert [s[0]] + s[1..] == s;
    }
  }

  /** Every field is empty exactly when every character is the separator. */
  lemma {:induction false} FieldsAllEmpty(s: string, c: char)
    ensures (forall i :: 0 <= i < |Fields(s, c)| ==> Fields(s, c)[i] == []) <==> (forall k :: 0 <= k < |s| ==> s[k] == c)
    decreases |s|
  {
    if s != [] {
      var rest := Fields(s[1..], c);
      FieldsAllEmpty(s[1..], c);
      if s[0] == c {
        assert forall i :: 0 <= i < |rest| ==> Fields(s, c)[i + 1] == rest[i];
        assert forall k :: 1 <= k < |s| ==> s[k] == s[1..][k - 1];
      } else {
        assert Fields(s, c)[0] != [];
      }
    }
  }

  /** The list without its trailing empty strings. */
  function DropTrailingEmpty(pieces: seq<string>): (r: seq<string>)
    ensures |r| <= |pieces| && r == pieces[..|r|]
    ensures r == [] || r[|r| - 1] != []
    ensures r == [] <==> forall i :: 0 <= i < |pieces| ==> pieces[i] == []
  {
    if pieces != [] && pieces[|pieces| - 1] == [] then DropTrailingEmpty(pieces[..|pieces| - 1]) else pieces
  }

  /**
   * `s.split(",")` for a one-character separator: the string itself when
   * the separator does not occur; otherwise the fields with trailing empty
   * ones removed.
   */
  function JavaSplit(s: string, c: char): seq<string>
  {
    if c !in s then [s] else DropTrailingEmpty(Fields(s, c))
  }

  /**
   * The split is a prefix of the fields, so it starts with the first
   * field when it is not empty; it is empty exactly for a non-empty string
   * made only of separators.
   */
  lemma JavaSplitSpec(s: string, c: char)
    ensures var r := JavaSplit(s, c);
            && |r| <= |Fields(s, c)| && r == Fields(s, c)[..|r|]
            && (r == [] <==> s != [] && forall k :: 0 <= k < |s| ==> s[k] == c)
  {
    if c !in s {
      FieldsWithoutSeparator(s, c);
    } else {
      FieldsAllEmpty(s, c);
    }
  }

  /** The first field is the text of `s` before its first `c`, or all of `s`. */
  lemma FirstField(s: string, c: char)
    ensures var head := Fields(s, c)[0];
            && |head| <= |s| && s[..|head|] == head
            && (|head| < |s| ==> s[|head|] == c)
  {
    var fields := Fields(s, c);
    FieldsJoin(s, c);
    assert s == fields[0] + JoinTail(fields[1..], c);
  }

  // ------------------------------------------------------------ the filter

  /** `isExemptPath`: the root, the error page, the health page, and everything under "/actuator/health". */
  predicate IsExemptPath(path: string)
  {
    path == "/" || path == "/error" || path == "/health" || StartsWith(path, "/actuator/health")
  }

  /** Everything under "/actuator/health" is exempt, whatever follows; "/health" is exempt only as a whole path. */
  lemma ExemptPathScope(rest: string)
    ensures IsExemptPath("/actuator/health" + rest)
    ensures !IsExemptPath("/health/" + rest)
  {
    assert ("/actuator/health" + rest)[..16] == "/actuator/health";
    var p := "/health/" + rest;
    assert p[1] == 'h' && |p| >= 8;
  }

  /**
   * `getClientIpAddress`: the trimmed first entry of a non-empty
   * "X-Forwarded-For", else a non-empty "X-Real-IP", else the peer address.
   * `None` is the ArrayIndexOutOfBoundsException of `split(",")[0]` on a
   * header made only of commas, whose split is empty.
   */
  function ClientIp(req: Request): Option<string>
  {
    if req.forwardedFor.Some? && req.forwardedFor.value != [] then
      var entries := JavaSplit(req.forwardedFor.value, ',');
      if entries == [] then None else Some(Trim(entries[0]))
    else if req.realIp.Some? && req.realIp.value != [] then Some(req.realIp.value)
    else Some(req.remoteAddr)
  }

  /** A non-empty header made only of commas. */
  predicate OnlyCommas(header: string)
  {
    header != [] && forall k :: 0 <= k < |header| ==> header[k] == ','
  }

  /**
   * A non-empty "X-Forwarded-For" decides the address: the trimmed text
   * before its first comma, and no address (an exception) when it is made
   * only of commas; without it, "X-Real-IP" and then the peer address.
   */
  lemma ClientIpSpec(req: Request)
    ensures req.forwardedFor.Some? && req.forwardedFor.value != [] ==>
              (ClientIp(req).None? <==> OnlyCommas(req.forwardedFor.value))
              && (ClientIp(req).Some? ==> ClientIp(req).value == Trim(Fields(req.forwardedFor.value, ',')[0]))
    ensures !(req.forwardedFor.Some? && req.forwardedFor.value != []) ==>
              ClientIp(req) == Some(if req.realIp.Some? && req.realIp.value != [] then req.realIp.value else req.remoteAddr)
  {
    if req.forwardedFor.Some? && req.forwardedFor.value != [] {
      JavaSplitSpec(req.forwardedFor.value, ',');
    }
  }

  /** The answer to a rejected request; logging the client address comes first, and may throw. */
  function Reject(req: Request): Response
  {
    if ClientIp(req).None? then Threw else Rejected(SC_UNAUTHORIZED, JSON_CONTENT_TYPE, ERROR_BODY)
  }

  /**
   * `doFilterInternal`, given the value `getSecretKey` returns: exempt
   * paths and a disabled key pass; a missing or blank header is rejected;
   * a header not exactly equal to the key is rejected; the rest pass.
   */
  function DoFilter(req: Request, secretKey: Option<string>): Response
  {
    if IsExemptPath(req.uri) then PassedOn
    else if !KeyEnabled(secretKey) then PassedOn
    else if req.secretKey.None? || IsBlank(req.secretKey.value) then Reject(req)
    else if secretKey.value != req.secretKey.value then Reject(req)
    else PassedOn
  }

  /**
   * A request reaches the chain exactly when its path is exempt, or no key
   * is configured, or its header equals the configured key character for
   * character (no trimming, no case folding).
   */
  lemma PassesIff(req: Request, secretKey: Option<string>)
    ensures DoFilter(req, secretKey) == PassedOn <==> IsExemptPath(req.uri) || !KeyEnabled(secretKey) || req.secretKey == secretKey
  {
    if !IsExemptPath(req.uri) && KeyEnabled(secretKey) && req.secretKey == secretKey {
      assert !IsBlank(req.secretKey.value);
    }
  }

  /** Every request that does not reach the chain is answered 401 with the JSON error body, unless logging it throws. */
  lemma RejectionIsUnauthorized(req: Request, secretKey: Option<string>)
    ensures DoFilter(req, secretKey) != PassedOn ==>
              DoFilter(req, secretKey) == Threw || DoFilter(req, secretKey) == Rejected(401, "application/json", ERROR_BODY)
  {
  }

  /**
   * The filter throws exactly for a request it would reject whose
   * "X-Forwarded-For" header is made only of commas.
   */
  lemma ThrowsIff(req: Request, secretKey: Option<string>)
    ensures DoFilter(req, secretKey) == Threw <==>
              && !IsExemptPath(req.uri) && KeyEnabled(secretKey) && req.secretKey != secretKey
              && req.forwardedFor.Some? && OnlyCommas(req.forwardedFor.value)
  {
    PassesIff(req, secretKey);
    ClientIpSpec(req);
  }

  /** A header padded with a blank is refused although it trims to the key. */
  lemma PaddedKeyRefused(req: Request)
    requires !IsExemptPath(req.uri) && req.forwardedFor.None?
    requires req.secretKey == Some(" s3cret")
    ensures DoFilter(req, Some("s3cret")) == Rejected(401, "application/json", ERROR_BODY)
  {
    assert !IsBlank("s3cret") by {
      assert "s3cret"[0] == 's';
    }
    assert " s3cret" != "s3cret" by {
      assert |" s3cret"| != |"s3cret"|;
    }
  }

  /** A request for "/api/transform" without a key, behind a proxy that sent ","; the filter throws instead of answering 401. */
  lemma CommaOnlyForwardedThrows()
    ensures DoFilter(Request("/api/transform", None, Some(","), None, "10.0.0.1"), Some("s3cret")) == Threw
  {
    var req := Request("/api/transform", None, Some(","), None, "10.0.0.1");
    assert !IsExemptPath(req.uri) by {
      assert |"/api/transform"| < |"/actuator/health"|;
      assert |"/api/transform"| != |"/error"|;
      assert |"/api/transform"| != |"/health"|;
    }
    assert !IsBlank("s3cret") by {
      assert "s3cret"[0] == 's';
    }
    assert OnlyCommas(",");
    ClientIpSpec(req);
  }

  // ------------------------------------------------------------ the intended address

  /** The client address as evidently intended: the trimmed text before the first comma, whatever follows. */
  function CorrectedClientIp(req: Request): string
  {
    if req.forwardedFor.Some? && req.forwardedFor.value != [] then Trim(Fields(req.forwardedFor.value, ',')[0])
    else if req.realIp.Some? && req.realIp.value != [] then req.realIp.value
    else req.remoteAddr
  }

  /** The address `getClientIpAddress` finds, whenever it finds one, is the intended address. */
  lemma CorrectedClientIpAgrees(req: Request)
    ensures ClientIp(req).Some? ==> ClientIp(req).value == CorrectedClientIp(req)
  {
    ClientIpSpec(req);
  }

  /** The filter with the intended address: the same decision, and every refusal answered 401. */
  function CorrectedDoFilter(req: Request, secretKey: Option<string>): Response
  {
    if IsExemptPath(req.uri) then PassedOn
    else if !KeyEnabled(secretKey) then PassedOn
    else if req.secretKey.None? || IsBlank(req.secretKey.value) then Rejected(SC_UNAUTHORIZED, JSON_CONTENT_TYPE, ERROR_BODY)
    else if secretKey.value != req.secretKey.value then Rejected(SC_UNAUTHORIZED, JSON_CONTENT_TYPE, ERROR_BODY)
    else PassedOn
  }

  /**
   * The corrected filter never throws, passes exactly the requests the
   * filter passes, and answers 401 to every other request; it differs from
   * the filter only where the filter throws.
   */
  lemma CorrectedFilterAnswers(req: Request, secretKey: Option<string>)
    ensures CorrectedDoFilter(req, secretKey) != Threw
    ensures CorrectedDoFilter(req, secretKey) == PassedOn <==> DoFilter(req, secretKey) == PassedOn
    ensures CorrectedDoFilter(req, secretKey) != PassedOn ==> CorrectedDoFilter(req, secretKey) == Rejected(401, "application/json", ERROR_BODY)
    ensures DoFilter(req, secretKey) != Threw ==> CorrectedDoFilter(req, secretKey) == DoFilter(req, secretKey)
  {
  }

  /** For the request of `CommaOnlyForwardedThrows` the corrected filter answers 401. */
  lemma CorrectedCommaOnlyForwardedRejected()
    ensures CorrectedDoFilter(Request("/api/transform", None, Some(","), None, "10.0.0.1"), Some("s3cret"))
              == Rejected(401, "application/json", ERROR_BODY)
  {
    CommaOnlyForwardedThrows();
  }
}

=== FILE: stream_processor.dfy ===
/**
 * The text transformer used for plain files and archive entries. Small
 * inputs are decoded, substituted longest key first and re-encoded; inputs
 * over 5 MiB with more than one key are cut into chunks overlapping by the
 * longest key's length, each chunk substituted in the map's own order,
 * trimmed and appended; any exception on that path falls back to the
 * small-input path.
 *
 * Neither path checks for a null value: `String.replace` then throws
 * NullPointerException, modelled as `None`. The small-input path called as
 * the fallback is outside the `try`, so its exception reaches the caller.
 */
module StreamProcessor {
  import opened JavaLang
  import opened JavaText
  import opened Placeholders
  import opened Chunking

  const PARALLEL_THRESHOLD: int := 5 * 1024 * 1024
  const MIN_CHUNK_SIZE: int := 16 * 1024
  /** The overlap used when the map is empty (never reached: the parallel path needs two keys). */
  const DEFAULT_OVERLAP: int := 100

  /** The longest key length of the map, or 100 for an empty map. */
  function MaxKeyLength(m: PlaceholderMap): (r: nat)
    ensures m == [] ==> r == DEFAULT_OVERLAP
    ensures forall i :: 0 <= i < |m| ==> |m[i].key| <= r
    ensures m != [] ==> exists i :: 0 <= i < |m| && |m[i].key| == r
  {
    if m == [] then DEFAULT_OVERLAP
    else if |m| == 1 then |m[0].key|
    else
      var rest := MaxKeyLength(m[1..]);
      assert forall i :: 1 <= i < |m| ==> m[i] == m[1..][i - 1];
      Max(|m[0].key|, rest)
  }

  /** What `transformTextStandard` produces from the decoded text, or `None` when it throws. */
  function StandardText(text: string, m: PlaceholderMap): Option<string>
  {
    LongestFirstStrict(text, m)
  }

  /** The chunk size: the text split evenly over the pool, but at least 16 KiB. */
  function ChunkSizeFor(len: nat, parallelism: int): (c: int)
    requires parallelism >= 1
    ensures c >= MIN_CHUNK_SIZE && c >= len / parallelism
  {
    Max(len / parallelism, MIN_CHUNK_SIZE)
  }

  /** Every chunk's task finishes: the unchecked chain in map order meets no null value it would use. */
  predicate ChunksSucceed(content: string, m: PlaceholderMap, g: Geometry)
    requires g.Valid() && g.len == |content|
  {
    forall i :: 0 <= i < g.Count() ==> SubstituteAllStrict(Chunk(content, g, i), m).Some?
  }

  /**
   * What `transformTextParallel` produces from the decoded text. A zero
   * step divides by zero and a negative task count is a negative array
   * size: both fall back. A task count of zero gives an empty text.
   */
  function ParallelText(text: string, m: PlaceholderMap, parallelism: int): Option<string>
    requires parallelism >= 1
  {
    var chunkSize := ChunkSizeFor(|text|, parallelism);
    if |text| <= chunkSize then StandardText(text, m)
    else
      var overlapSize := MaxKeyLength(m);
      if chunkSize == overlapSize then StandardText(text, m)
      else if chunkSize < overlapSize then
        // the number of tasks is never positive here (`NegativeStepNoTasks`)
        var count := JDiv(|text| + chunkSize - overlapSize - 1, chunkSize - overlapSize);
        if count < 0 then StandardText(text, m) else Some([])
      else
        var g := Geometry(|text|, chunkSize, overlapSize);
        if ChunksSucceed(text, m, g) then Some(ConcatStrings(Pieces(text, m, g))) else StandardText(text, m)
  }

  /** With chunks overlapping by more than the chunk size, no task is created. */
  lemma NegativeStepNoTasks(len: nat, chunkSize: int, overlapSize: int)
    requires len > chunkSize > 0 && chunkSize < overlapSize
    ensures JDiv(len + chunkSize - overlapSize - 1, chunkSize - overlapSize) <= 0
  {
    var a, b := len + chunkSize - overlapSize - 1, chunkSize - overlapSize;
    if a < 0 {
      assert Abs(a) < Abs(b);
    }
  }

  /** With a positive step and a non-empty text, the number of tasks is the chunk count of the geometry. */
  lemma PositiveStepCount(text: string, chunkSize: int, overlapSize: nat)
    requires 0 <= overlapSize < chunkSize && |text| > 0
    ensures JDiv(|text| + chunkSize - overlapSize - 1, chunkSize - overlapSize) == Geometry(|text|, chunkSize, overlapSize).Count()
  {
  }

  /** The `forEach` of `transformTextStandard`, over the entries sorted longest key first. */
  method SubstituteStrict(content: string, m: PlaceholderMap) returns (r: Option<string>)
    ensures r == SubstituteAllStrict(content, m)
  {
    var current := content;
    var i := 0;
    while i < |m|
      invariant 0 <= i <= |m|
      invariant SubstituteAllStrict(content, m[..i]) == Some(current)
    {
      assert m[..i + 1][..i] == m[..i];
      if Contains(current, m[i].key) {
        if m[i].value.None? {
          StrictStaysFailed(content, m, i + 1);
          return None;
        }
        current := ReplaceAll(current, m[i].key, m[i].value.value);
      }
      i := i + 1;
    }
    assert m[..|m|] == m;
    r := Some(current);
  }

  /** Once the unchecked chain has thrown, the longer chains throw too. */
  lemma {:induction false} StrictStaysFailed(content: string, m: PlaceholderMap, k: nat)
    requires k <= |m| && SubstituteAllStrict(content, m[..k]).None?
    ensures SubstituteAllStrict(content, m).None?
    decreases |m| - k
  {
    if k < |m| {
      assert m[..k + 1][..k] == m[..k];
      StrictStaysFailed(content, m, k + 1);
    } else {
      assert m[..k] == m;
    }
  }

  /** `transformTextStandard`: decode, substitute longest key first, encode. */
  method TransformTextStandard(textBytes: Bytes, m: PlaceholderMap, cs: Codec) returns (r: Option<Bytes>)
    ensures r.None? <==> StandardText(cs.decode(textBytes), m).None?
    ensures r.Some? ==> r.value == cs.encode(StandardText(cs.decode(textBytes), m).value)
  {
    var content := cs.decode(textBytes);
    var processed := SubstituteStrict(content, SortByKeyLength(m));
    if processed.None? {
      return None;
    }
    r := Some(cs.encode(processed.value));
  }

  /**
   * `transformTextParallel`: the chunk tasks run in order; a task that
   * throws makes the whole path fall back, as `join` would.
   */
  method TransformTextParallel(textBytes: Bytes, m: PlaceholderMap, cs: Codec, parallelism: int) returns (r: Option<Bytes>)
    requires parallelism >= 1
    ensures var t := ParallelText(cs.decode(textBytes), m, parallelism);
            (r.None? <==> t.None?) && (r.Some? ==> r.value == cs.encode(t.value))
  {
    var content := cs.decode(textBytes);
    var chunkSize := Max(|content| / parallelism, MIN_CHUNK_SIZE);
    if |content| <= chunkSize {
      r := TransformTextStandard(textBytes, m, cs);
      return;
    }
    var overlapSize := MaxKeyLength(m);
    if chunkSize - overlapSize == 0 {
      r := TransformTextStandard(textBytes, m, cs);
      return;
    }
    var count := JDiv(|content| + chunkSize - overlapSize - 1, chunkSize - overlapSize);
    if overlapSize < chunkSize {
      PositiveStepCount(content, chunkSize, overlapSize);
      CountCovers(Geometry(|content|, chunkSize, overlapSize));
    } else {
      NegativeStepNoTasks(|content|, chunkSize, overlapSize);
    }
    if count < 0 {
      r := TransformTextStandard(textBytes, m, cs);
      return;
    }
    if count == 0 {
      return Some(cs.encode([]));
    }
    if overlapSize > chunkSize {
      assert false;
    }
    var g := Geometry(|content|, chunkSize, overlapSize);
    var ok, futures := CreateTasks(content, m, g);
    if !ok {
      r := TransformTextStandard(textBytes, m, cs);
      return;
    }
    var result := AppendAll(futures);
    r := Some(cs.encode(result));
  }

  /**
   * The loop over tasks: chunk `i` is `[i * step, min(i * step + chunkSize, length))`;
   * `ok` is false when some task throws.
   */
  method CreateTasks(content: string, m: PlaceholderMap, g: Geometry) returns (ok: bool, futures: array<string>)
    requires g.Valid() && g.len == |content|
    ensures ok <==> ChunksSucceed(content, m, g)
    ensures ok ==> futures[..] == Pieces(content, m, g)
  {
    var count := g.Count();
    futures := new string[count];
    var i := 0;
    while i < count
      invariant 0 <= i <= count
      invariant forall j :: 0 <= j < i ==> SubstituteAllStrict(Chunk(content, g, j), m).Some?
      invariant forall j :: 0 <= j < i ==> futures[j] == Piece(content, m, g, j)
    {
      var start := i * (g.eff - g.overlap);
      StartIsProduct(g, i);
      ChunkBounds(g, i);
      var end := Min(start + g.eff, |content|);
      var chunk := content[start..end];
      assert chunk == Chunk(content, g, i);
      var processedChunk := RunTask(chunk, m, i == count - 1, g.overlap);
      if processedChunk.None? {
        return false, futures;
      }
      futures[i] := processedChunk.value;
      i := i + 1;
    }
    ok := true;
  }

  /** The body of one task: the unchecked chain in map order, then the trim unless it is the last chunk. */
  method RunTask(chunk: string, m: PlaceholderMap, isLastChunk: bool, overlapSize: nat) returns (r: Option<string>)
    ensures r.None? <==> SubstituteAllStrict(chunk, m).None?
    ensures r.Some? ==> r.value == TrimChunk(SubstituteAll(chunk, m), isLastChunk, overlapSize)
  {
    var processed := SubstituteStrict(chunk, m);
    if processed.None? {
      return None;
    }
    StrictSomeAgrees(chunk, m);
    var processedChunk := processed.value;
    if !isLastChunk && |processedChunk| > overlapSize {
      processedChunk := processedChunk[..|processedChunk| - overlapSize];
    }
    r := Some(processedChunk);
  }

  /** The `StringBuilder` loop: every task output, in order. */
  method AppendAll(futures: array<string>) returns (result: string)
    ensures result == ConcatStrings(futures[..])
  {
    result := [];
    var i := 0;
    while i < futures.Length
      invariant 0 <= i <= futures.Length
      invariant result == ConcatStrings(futures[..i])
    {
      assert futures[..i + 1][..i] == futures[..i];
      result := result + futures[i];
      i := i + 1;
    }
    assert futures[..futures.Length] == futures[..];
  }

  /**
   * `transformTextStream`: an empty map returns the input itself; more than
   * 5 MiB with at least two keys takes the parallel path; anything else the
   * standard one.
   */
  method TransformTextStream(textBytes: Bytes, m: PlaceholderMap, cs: Codec, parallelism: int) returns (r: Option<Bytes>)
    requires parallelism >= 1
    ensures m == [] ==> r == Some(textBytes)
    ensures m != [] ==>
              var t := if |textBytes| > PARALLEL_THRESHOLD && |m| > 1
                       then ParallelText(cs.decode(textBytes), m, parallelism)
                       else StandardText(cs.decode(textBytes), m);
              (r.None? <==> t.None?) && (r.Some? ==> r.value == cs.encode(t.value))
  {
    if m == [] {
      return Some(textBytes);
    }
    if |textBytes| > PARALLEL_THRESHOLD && |m| > 1 {
      r := TransformTextParallel(textBytes, m, cs, parallelism);
      return;
    }
    r := TransformTextStandard(textBytes, m, cs);
  }

  /** Without null values the standard path never throws and computes the longest-first chain. */
  lemma StandardWithoutNulls(text: string, m: PlaceholderMap)
    requires forall i :: 0 <= i < |m| ==> m[i].value.Some?
    ensures StandardText(text, m) == Some(LongestFirst(text, m))
  {
    var sorted := SortByKeyLength(m);
    forall i | 0 <= i < |sorted|
      ensures sorted[i].value.Some?
    {
      assert sorted[i] in multiset(sorted);
      var j :| 0 <= j < |m| && m[j] == sorted[i];
    }
    StrictAgrees(text, sorted);
  }

  /**
   * A 6000000-character text split over four threads, with a key of
   * 4500000 characters, creates no task at all: the output is empty.
   */
  lemma ParallelEmptiesText(text: string, m: PlaceholderMap)
    requires |text| == 6000000 && MaxKeyLength(m) == 4500000
    ensures ParallelText(text, m, 4) == Some([])
  {
    assert ChunkSizeFor(|text|, 4) == 1500000;
  }

  /**
   * The corrected parallel path: a step that is not positive falls back to
   * the standard path, and each chunk is trimmed by what it shares with the
   * next one.
   */
  function CorrectedParallelText(text: string, m: PlaceholderMap, parallelism: int): Option<string>
    requires parallelism >= 1
  {
    var chunkSize := ChunkSizeFor(|text|, parallelism);
    var overlapSize := MaxKeyLength(m);
    if |text| <= chunkSize || chunkSize <= overlapSize then StandardText(text, m)
    else
      var g := Geometry(|text|, chunkSize, overlapSize);
      if ChunksSucceed(text, m, g) then Some(ConcatStrings(CorrectedPieces(text, m, g))) else StandardText(text, m)
  }

  /** With the correction, a text in which no key occurs always comes back unchanged. */
  lemma CorrectedParallelKeepsText(text: string, m: PlaceholderMap, parallelism: int)
    requires parallelism >= 1 && NoKeyOccurs(text, m)
    ensures CorrectedParallelText(text, m, parallelism) == Some(text)
  {
    NoKeyOccursSorted(text, m);
    SubstituteAllAbsent(text, SortByKeyLength(m));
    var chunkSize := ChunkSizeFor(|text|, parallelism);
    var overlapSize := MaxKeyLength(m);
    if |text| > chunkSize && chunkSize > overlapSize {
      var g := Geometry(|text|, chunkSize, overlapSize);
      forall i | 0 <= i < g.Count()
        ensures SubstituteAllStrict(Chunk(text, g, i), m).Some?
      {
        UntouchedChunk(text, m, g, i);
      }
      CorrectedPiecesKeepText(text, m, g);
    }
  }
}

=== FILE: streaming_strategy.dfy ===
/**
 * The default replacement strategy. A stream is processed window by window:
 * each window is the text carried over from the previous one followed by
 * the decoded bytes of one read; the window is substituted, and all but its
 * last `overlapSize` characters are written, the rest being carried into
 * the next window so that a key straddling two reads is still found. A byte
 * array no larger than the buffer is decoded, substituted and re-encoded in
 * one piece.
 *
 * The input stream is given as the sequence of chunks its successive reads
 * deliver; the output stream is the byte sequence written to it.
 */
module StreamingStrategy {
  import opened JavaLang
  import opened JavaText
  import opened Placeholders
  import opened ProcessingResults

  const DEFAULT_BUFFER_SIZE: int := 2 * 1024 * 1024
  const MIN_BUFFER_SIZE: int := 256 * 1024
  const MAX_OVERLAP_SIZE: int := 64 * 1024
  /** Texts longer than this are rewritten through a builder rather than `String.replace`. */
  const BUILDER_THRESHOLD: int := 50000

  /** The requested buffer size, raised to at least 256 KiB. */
  function ClampBufferSize(requested: int): (b: int)
    ensures b >= MIN_BUFFER_SIZE
    ensures b == MIN_BUFFER_SIZE || b == requested
    ensures requested >= MIN_BUFFER_SIZE ==> b == requested
  {
    Max(MIN_BUFFER_SIZE, requested)
  }

  /** An eighth of the buffer, capped at 64 KiB: always positive and smaller than the buffer. */
  function OverlapFor(bufferSize: int): (o: int)
    requires bufferSize >= MIN_BUFFER_SIZE
    ensures 0 < o < bufferSize
    ensures o <= MAX_OVERLAP_SIZE && o <= bufferSize / 8
    ensures o == MAX_OVERLAP_SIZE || o == bufferSize / 8
  {
    Min(MAX_OVERLAP_SIZE, bufferSize / 8)
  }

  /** How many times `sub` occurs as `countOccurrencesOptimized` counts: never in an empty text or for an empty key. */
  function Occurrences(text: string, sub: string): nat
  {
    if text == [] || sub == [] then 0 else CountMatches(text, sub)
  }

  /** The sum over every key of the map of its occurrences before minus its occurrences after. */
  function KeyDelta(original: string, processed: string, m: PlaceholderMap): int
  {
    if m == [] then 0
    else
      var key := m[|m| - 1].key;
      KeyDelta(original, processed, m[..|m| - 1]) + (Occurrences(original, key) - Occurrences(processed, key))
  }

  /** The replacement count reported for one window. */
  function ReplacementDelta(original: string, processed: string, m: PlaceholderMap): int
  {
    if original == processed then 0 else KeyDelta(original, processed, m)
  }

  /**
   * Splits a processed window into the part written now and the part
   * carried into the next window.
   */
  function SplitWindow(processed: string, isLast: bool, overlapSize: nat): (w: (string, string))
    ensures w.0 + w.1 == processed
    ensures isLast ==> w.1 == []
    ensures |w.1| <= overlapSize
    ensures !isLast && |processed| > overlapSize ==> |w.1| == overlapSize
    ensures isLast || |processed| <= overlapSize ==> w.0 == processed
  {
    if !isLast && |processed| > overlapSize then
      (processed[..|processed| - overlapSize], processed[|processed| - overlapSize..])
    else
      (processed, [])
  }

  /** The state of the window loop after some reads. */
  datatype Run = Run(out: Bytes, written: string, carry: string, bytesProcessed: int, replacements: int)

  /** The window loop's state after the first `n` reads; read `n` is the last one when `n == |chunks|`. */
  function RunPrefix(chunks: seq<Bytes>, m: PlaceholderMap, cs: Codec, overlapSize: nat, n: nat): Run
    requires n <= |chunks|
  {
    if n == 0 then Run([], [], [], 0, 0)
    else
      var prev := RunPrefix(chunks, m, cs, overlapSize, n - 1);
      var content := prev.carry + cs.decode(chunks[n - 1]);
      var processed := SubstituteAll(content, m);
      var w := SplitWindow(processed, n == |chunks|, overlapSize);
      Run(prev.out + cs.encode(w.0), prev.written + w.0, w.1,
          prev.bytesProcessed + |chunks[n - 1]|,
          prev.replacements + ReplacementDelta(content, processed, m))
  }

  /** The text window `n` substitutes: the carried text followed by read `n - 1`, decoded. */
  function WindowContent(chunks: seq<Bytes>, m: PlaceholderMap, cs: Codec, overlapSize: nat, n: nat): string
    requires 1 <= n <= |chunks|
  {
    RunPrefix(chunks, m, cs, overlapSize, n - 1).carry + cs.decode(chunks[n - 1])
  }

  /**
   * The builder path rewrites an empty key forever; it is taken only for a
   * window longer than the threshold, so the loop terminates when no such
   * window meets an empty key.
   */
  predicate WindowsTerminate(chunks: seq<Bytes>, m: PlaceholderMap, cs: Codec, overlapSize: nat)
  {
    NonEmptyKeys(m) || forall n | 1 <= n <= |chunks| :: |WindowContent(chunks, m, cs, overlapSize, n)| <= BUILDER_THRESHOLD
  }

  function DecodedReads(chunks: seq<Bytes>, cs: Codec): (r: seq<string>)
    ensures |r| == |chunks|
    ensures forall i :: 0 <= i < |chunks| ==> r[i] == cs.decode(chunks[i])
  {
    seq(|chunks|, i requires 0 <= i < |chunks| => cs.decode(chunks[i]))
  }

  /**
   * The carry never exceeds `overlapSize`, it is empty after the last read,
   * and the bytes counted are exactly the bytes read. Nothing is dropped or
   * duplicated at a window boundary: what has been written, followed by the
   * carry, is the previous output followed by the whole substituted window.
   */
  lemma {:induction false} RunInvariants(chunks: seq<Bytes>, m: PlaceholderMap, cs: Codec, overlapSize: nat, n: nat)
    requires n <= |chunks|
    ensures var run := RunPrefix(chunks, m, cs, overlapSize, n);
            && |run.carry| <= overlapSize
            && (n == |chunks| ==> run.carry == [])
            && run.bytesProcessed == ByteCount(chunks[..n])
    ensures n >= 1 ==>
              var run := RunPrefix(chunks, m, cs, overlapSize, n);
              run.written + run.carry
              == RunPrefix(chunks, m, cs, overlapSize, n - 1).written
                 + SubstituteAll(WindowContent(chunks, m, cs, overlapSize, n), m)
  {
    if n > 0 {
      RunInvariants(chunks, m, cs, overlapSize, n - 1);
      assert chunks[..n - 1] == chunks[..n][..n - 1];
    }
  }

  /** The text decoded from the first `n` reads begins the text decoded from the first `k`. */
  lemma {:induction false} DecodedPrefix(chunks: seq<Bytes>, cs: Codec, n: nat, k: nat)
    requires n <= k <= |chunks|
    ensures ConcatStrings(DecodedReads(chunks[..n], cs)) <= ConcatStrings(DecodedReads(chunks[..k], cs))
  {
    if n < k {
      DecodedPrefix(chunks, cs, n, k - 1);
      assert DecodedReads(chunks[..k], cs) == DecodedReads(chunks[..k - 1], cs) + [cs.decode(chunks[k - 1])];
      ConcatStringsSnoc(DecodedReads(chunks[..k - 1], cs), cs.decode(chunks[k - 1]));
    }
  }

  /** Nothing in the stream is substituted: every value is null, or no key occurs in the decoded text. */
  predicate NothingToSubstitute(chunks: seq<Bytes>, m: PlaceholderMap, cs: Codec)
  {
    || (forall i :: 0 <= i < |m| ==> m[i].value.None?)
    || NoKeyOccurs(ConcatStrings(DecodedReads(chunks, cs)), m)
  }

  /** One more read adds its decoded text to the decoded prefix and its length to the byte count. */
  lemma ReadsSnoc(chunks: seq<Bytes>, cs: Codec, i: nat)
    requires i < |chunks|
    ensures ConcatStrings(DecodedReads(chunks[..i + 1], cs)) == ConcatStrings(DecodedReads(chunks[..i], cs)) + cs.decode(chunks[i])
    ensures ByteCount(chunks[..i + 1]) == ByteCount(chunks[..i]) + |chunks[i]|
  {
    assert DecodedReads(chunks[..i + 1], cs) == DecodedReads(chunks[..i], cs) + [cs.decode(chunks[i])];
    ConcatStringsSnoc(DecodedReads(chunks[..i], cs), cs.decode(chunks[i]));
    ConcatBytesSnoc(chunks[..i], chunks[i]);
    assert chunks[..i + 1] == chunks[..i] + [chunks[i]];
  }

  /** With nothing to substitute, any piece of the decoded prefix comes out of the chain unchanged. */
  lemma PassThroughPiece(chunks: seq<Bytes>, m: PlaceholderMap, cs: Codec, n: nat, before: string, piece: string)
    requires n <= |chunks| && NothingToSubstitute(chunks, m, cs)
    requires before + piece == ConcatStrings(DecodedReads(chunks[..n], cs))
    ensures SubstituteAll(piece, m) == piece
  {
    if forall i :: 0 <= i < |m| ==> m[i].value.None? {
      SubstituteAllNullValues(piece, m);
    } else {
      DecodedPrefix(chunks, cs, n, |chunks|);
      assert chunks[..|chunks|] == chunks;
      KeyFreeInside(ConcatStrings(DecodedReads(chunks, cs)), before, piece, m);
      SubstituteAllAbsent(piece, m);
    }
  }

  /**
   * With nothing to substitute, the windows pass the text through: the text
   * written, followed by the carry, is all the text decoded so far, so once
   * the input ends every decoded character has been written exactly once,
   * however the reads split the text.
   */
  lemma {:induction false} PassThroughKeepsText(chunks: seq<Bytes>, m: PlaceholderMap, cs: Codec, overlapSize: nat, n: nat)
    requires n <= |chunks|
    requires NothingToSubstitute(chunks, m, cs)
    ensures var run := RunPrefix(chunks, m, cs, overlapSize, n);
            run.written + run.carry == ConcatStrings(DecodedReads(chunks[..n], cs))
    ensures n == |chunks| ==> RunPrefix(chunks, m, cs, overlapSize, n).written == ConcatStrings(DecodedReads(chunks, cs))
  {
    if n > 0 {
      PassThroughKeepsText(chunks, m, cs, overlapSize, n - 1);
      var prev := RunPrefix(chunks, m, cs, overlapSize, n - 1);
      var content := WindowContent(chunks, m, cs, overlapSize, n);
      ReadsSnoc(chunks, cs, n - 1);
      assert prev.written + content == ConcatStrings(DecodedReads(chunks[..n], cs));
      PassThroughPiece(chunks, m, cs, n, prev.written, content);
      RunInvariants(chunks, m, cs, overlapSize, n);
    }
    if n == |chunks| {
      RunInvariants(chunks, m, cs, overlapSize, n);
      assert chunks[..n] == chunks;
    }
  }

  /** A piece of a text in which no key occurs holds no key either. */
  lemma KeyFreeInside(whole: string, before: string, piece: string, m: PlaceholderMap)
    requires before + piece <= whole && NoKeyOccurs(whole, m)
    ensures NoKeyOccurs(piece, m)
  {
    assert piece == whole[|before|..|before| + |piece|];
    forall i | 0 <= i < |m|
      ensures !Contains(piece, m[i].key)
    {
      if Contains(piece, m[i].key) {
        ContainsInSlice(whole, |before|, |before| + |piece|, m[i].key);
      }
    }
  }

  /** A stream that arrives in one read is written as the substitution of its whole text. */
  lemma OneReadIsWhole(chunk: Bytes, m: PlaceholderMap, cs: Codec, overlapSize: nat)
    ensures var run := RunPrefix([chunk], m, cs, overlapSize, 1);
            && run.written == SubstituteAll(cs.decode(chunk), m)
            && run.out == cs.encode(SubstituteAll(cs.decode(chunk), m))
  {
    assert [] + cs.decode(chunk) == cs.decode(chunk);
  }

  /** A text without the key's first character does not contain the key. */
  lemma NoLeadNoKey(s: string, key: string)
    requires key != [] && forall j :: 0 <= j < |s| ==> s[j] != key[0]
    ensures !Contains(s, key)
  {
    forall j | 0 <= j <= |s| - |key|
      ensures !OccursAt(s, key, j)
    {
      assert s[j..j + |key|][0] == s[j];
    }
  }

  /** `replace` of a key that occurs only at `p`: the text around it with the value in between. */
  lemma ReplaceOnce(s: string, key: string, value: string, p: nat)
    requires key != [] && OccursAt(s, key, p)
    requires forall j :: 0 <= j < p ==> !OccursAt(s, key, j)
    requires !Contains(s[p + |key|..], key)
    ensures ReplaceAll(s, key, value) == s[..p] + value + s[p + |key|..]
  {
    IndexOfSpec(s, key, 0);
    ReplaceAllAbsent(s[p + |key|..], key, value);
  }

  /**
   * A key found right after a run of 'y' characters, and nowhere after it,
   * is replaced there and only there.
   */
  lemma ReplaceAfterPad(pad: string, key: string, value: string, tail: string)
    requires key != [] && key[0] != 'y'
    requires forall j :: 0 <= j < |pad| ==> pad[j] == 'y'
    requires !Contains(tail, key)
    ensures SubstituteOne(pad + key + tail, Placeholder(key, Some(value))) == pad + value + tail
  {
    var s := pad + key + tail;
    assert OccursAt(s, key, |pad|) by {
      assert s[|pad|..|pad| + |key|] == key;
    }
    forall j | 0 <= j < |pad|
      ensures !OccursAt(s, key, j)
    {
      assert s[j..j + |key|][0] == s[j] == 'y' || j + |key| > |s|;
    }
    assert s[|pad| + |key|..] == tail;
    assert s[..|pad|] == pad;
    ReplaceOnce(s, key, value, |pad|);
  }

  /** The keys of the counterexample, longest first. */
  function ChainedKeys(): PlaceholderMap
  {
    [Placeholder("BB", Some("X")), Placeholder("A", Some("B"))]
  }

  lemma ChainedKeysChain(s: string)
    ensures SubstituteAll(s, ChainedKeys()) == SubstituteOne(SubstituteOne(s, Placeholder("BB", Some("X"))), Placeholder("A", Some("B")))
  {
    var m := ChainedKeys();
    assert m[..1] == [m[0]] && m[..1][..0] == [];
  }

  /** A run of 'y' characters, the padding that fills the carry in the counterexample. */
  predicate AllY(pad: string)
  {
    forall j :: 0 <= j < |pad| ==> pad[j] == 'y'
  }

  lemma PadAKeepsBB(pad: string)
    requires AllY(pad)
    ensures SubstituteOne(pad + "A", Placeholder("BB", Some("X"))) == pad + "A"
  {
    NoLeadNoKey(pad + "A", "BB");
  }

  lemma PadAToB(pad: string)
    requires AllY(pad)
    ensures SubstituteOne(pad + "A", Placeholder("A", Some("B"))) == pad + "B"
  {
    NoLeadNoKey([], "A");
    ReplaceAfterPad(pad, "A", "B", []);
    assert pad + "A" + [] == pad + "A" && pad + "B" + [] == pad + "B";
  }

  /** `pad` followed by "A" becomes `pad` followed by "B". */
  lemma PadA(pad: string)
    requires AllY(pad)
    ensures SubstituteAll(pad + "A", ChainedKeys()) == pad + "B"
  {
    ChainedKeysChain(pad + "A");
    PadAKeepsBB(pad);
    PadAToB(pad);
  }

  lemma PadBBToX(pad: string)
    requires AllY(pad)
    ensures SubstituteOne(pad + "BB", Placeholder("BB", Some("X"))) == pad + "X"
  {
    NoLeadNoKey([], "BB");
    ReplaceAfterPad(pad, "BB", "X", []);
    assert pad + "BB" + [] == pad + "BB" && pad + "X" + [] == pad + "X";
  }

  lemma PadXKeepsA(pad: string)
    requires AllY(pad)
    ensures SubstituteOne(pad + "X", Placeholder("A", Some("B"))) == pad + "X"
  {
    NoLeadNoKey(pad + "X", "A");
  }

  /** `pad` followed by "BB" becomes `pad` followed by "X". */
  lemma PadBB(pad: string)
    requires AllY(pad)
    ensures SubstituteAll(pad + "BB", ChainedKeys()) == pad + "X"
  {
    ChainedKeysChain(pad + "BB");
    PadBBToX(pad);
    PadXKeepsA(pad);
  }

  lemma PadABKeepsBB(pad: string)
    requires AllY(pad)
    ensures SubstituteOne(pad + "AB", Placeholder("BB", Some("X"))) == pad + "AB"
  {
    var s := pad + "AB";
    forall j | 0 <= j <= |s| - 2
      ensures !OccursAt(s, "BB", j)
    {
      assert s[j..j + 2][0] == s[j] != 'B';
    }
  }

  lemma PadABToBB(pad: string)
    requires AllY(pad)
    ensures SubstituteOne(pad + "AB", Placeholder("A", Some("B"))) == pad + "BB"
  {
    NoLeadNoKey("B", "A");
    ReplaceAfterPad(pad, "A", "B", "B");
    assert pad + "A" + "B" == pad + "AB" && pad + "B" + "B" == pad + "BB";
  }

  /** `pad` followed by "AB" becomes `pad` followed by "BB". */
  lemma PadAB(pad: string)
    requires AllY(pad)
    ensures SubstituteAll(pad + "AB", ChainedKeys()) == pad + "BB"
  {
    ChainedKeysChain(pad + "AB");
    PadABKeepsBB(pad);
    PadABToBB(pad);
  }

  /** The first of the two reads writes one 'y' and carries the rest of the substituted window. */
  lemma FirstWindow(cs: Codec, first: Bytes, second: Bytes, overlapSize: nat, pad: string)
    requires overlapSize > 0 && |pad| == overlapSize && AllY(pad)
    requires cs.decode(first) == pad + "A"
    ensures var run := RunPrefix([first, second], ChainedKeys(), cs, overlapSize, 1);
            run.written == (pad + "B")[..1] && run.carry == pad[1..] + "B"
  {
    PadA(pad);
    assert RunPrefix([first, second], ChainedKeys(), cs, overlapSize, 0).carry == [];
    assert [] + (pad + "A") == pad + "A";
    assert SplitWindow(pad + "B", false, overlapSize) == ((pad + "B")[..1], (pad + "B")[1..]);
    assert (pad + "B")[1..] == pad[1..] + "B";
  }

  /** Read in two, the first window's "A" becomes a carried "B" that meets the second read's "B". */
  lemma TwoReadsChain(cs: Codec, first: Bytes, second: Bytes, overlapSize: nat, pad: string)
    requires overlapSize > 0 && |pad| == overlapSize && AllY(pad)
    requires cs.decode(first) == pad + "A" && cs.decode(second) == "B"
    ensures RunPrefix([first, second], ChainedKeys(), cs, overlapSize, 2).written == pad + "X"
  {
    FirstWindow(cs, first, second, overlapSize, pad);
    assert pad[1..] + "B" + "B" == pad[1..] + "BB";
    PadBB(pad[1..]);
    assert (pad + "B")[..1] + (pad[1..] + "X") == pad + "X";
  }

  /** The two reads decode, together, to `pad` followed by "AB". */
  lemma TwoReadsText(cs: Codec, first: Bytes, second: Bytes, pad: string)
    requires cs.decode(first) == pad + "A" && cs.decode(second) == "B"
    ensures ConcatStrings(DecodedReads([first, second], cs)) == pad + "AB"
  {
    assert DecodedReads([first, second], cs) == [pad + "A", "B"];
    ConcatStringsSnoc([pad + "A"], "B");
    ConcatStringsSnoc([], pad + "A");
    assert [] + [pad + "A"] == [pad + "A"] && [pad + "A"] + ["B"] == [pad + "A", "B"];
    assert pad + "A" + "B" == pad + "AB";
  }

  /**
   * The carry is a slice of text already substituted, and the next window
   * substitutes it again, so the output depends on how the reads split the
   * text. With the keys "BB" and "A" (values "X" and "B") and a text of
   * `overlapSize` 'y' characters followed by "AB": split before the final
   * "B", the first window's "A" becomes a "B" that is carried and meets the
   * second read's "B", giving "X"; in one read the text becomes "...BB",
   * which is also the substitution of the whole decoded text.
   */
  lemma CarryResubstituted(cs: Codec, first: Bytes, second: Bytes, overlapSize: nat, pad: string)
    requires overlapSize > 0 && |pad| == overlapSize
    requires forall j :: 0 <= j < |pad| ==> pad[j] == 'y'
    requires cs.decode(first) == pad + "A" && cs.decode(second) == "B" && cs.decode(first + second) == pad + "AB"
    ensures RunPrefix([first, second], ChainedKeys(), cs, overlapSize, 2).written == pad + "X"
    ensures RunPrefix([first + second], ChainedKeys(), cs, overlapSize, 1).written == pad + "BB"
    ensures SubstituteAll(ConcatStrings(DecodedReads([first, second], cs)), ChainedKeys()) == pad + "BB"
  {
    TwoReadsChain(cs, first, second, overlapSize, pad);
    OneReadIsWhole(first + second, ChainedKeys(), cs, overlapSize);
    PadAB(pad);
    TwoReadsText(cs, first, second, pad);
  }

  /** For a non-empty text and key, a positive count means the key occurs. */
  lemma OccurrencesIffContains(text: string, sub: string)
    ensures text == [] || sub == [] ==> Occurrences(text, sub) == 0
    ensures text != [] && sub != [] ==> (Occurrences(text, sub) > 0 <==> Contains(text, sub))
  {
    if sub != [] {
      ContainsIffMatches(text, sub);
    }
  }

  /** A window in which no key occurs is left as it is and adds nothing to the count. */
  lemma UntouchedWindowCountsZero(content: string, m: PlaceholderMap)
    requires NoKeyOccurs(content, m)
    ensures SubstituteAll(content, m) == content
    ensures ReplacementDelta(content, SubstituteAll(content, m), m) == 0
  {
    SubstituteAllAbsent(content, m);
  }

  /** `countOccurrencesOptimized`: scan from the left, resuming after each match. */
  method CountOccurrencesOptimized(text: string, sub: string) returns (count: int)
    ensures count == Occurrences(text, sub)
  {
    if text == [] || sub == [] {
      return 0;
    }
    count := 0;
    var index: nat := 0;
    while true
      invariant index <= |text|
      invariant count + CountMatches(text[index..], sub) == CountMatches(text, sub)
      decreases |text| - index
    {
      var found := IndexOf(text, sub, index);
      CountMatchesFrom(text, sub, index, found);
      if found == -1 {
        break;
      }
      count := count + 1;
      index := found + |sub|;
    }
  }

  /**
   * `replaceInStringBuilder`: replaces occurrences in place, resuming the
   * search just after the inserted replacement, so a replacement that
   * contains the key is never rescanned and the loop ends.
   */
  method ReplaceInStringBuilder(sb: string, placeholder: string, replacement: string) returns (r: string)
    requires placeholder != []
    ensures r == ReplaceAll(sb, placeholder, replacement)
  {
    r := sb;
    var index: nat := 0;
    while true
      invariant index <= |r|
      invariant ReplaceMatches(sb, placeholder, replacement) == r[..index] + ReplaceMatches(r[index..], placeholder, replacement)
      decreases |r| - index
    {
      var found := IndexOf(r, placeholder, index);
      ReplaceMatchesFrom(r, placeholder, replacement, index, found);
      if found == -1 {
        assert r[..index] + r[index..] == r;
        break;
      }
      BuilderStep(r, index, found, |placeholder|, replacement, ReplaceMatches(sb, placeholder, replacement),
                  ReplaceMatches(r[index..], placeholder, replacement),
                  ReplaceMatches(r[found + |placeholder|..], placeholder, replacement));
      r := r[..found] + replacement + r[found + |placeholder|..];
      index := found + |replacement|;
    }
  }

  /**
   * One iteration of the builder loop, as sequence arithmetic: if `whole` is
   * the done prefix of `r` followed by `rest`, and `rest` is the skipped text,
   * the value and `tail`, then after the splice `whole` is the new done
   * prefix followed by `tail`, and `tail` is what follows the new index.
   */
  lemma BuilderStep(r: string, index: nat, found: nat, keyLength: nat, value: string,
                    whole: string, rest: string, tail: string)
    requires index <= found && found + keyLength <= |r|
    requires whole == r[..index] + rest && rest == r[index..found] + value + tail
    ensures var r' := r[..found] + value + r[found + keyLength..];
            && found + |value| <= |r'|
            && whole == r'[..found + |value|] + tail
            && r'[found + |value|..] == r[found + keyLength..]
  {
    var r' := r[..found] + value + r[found + keyLength..];
    assert r'[..found + |value|] == r[..index] + r[index..found] + value;
  }

  /**
   * `processPlaceholdersOptimized`: every entry with a non-null value, in
   * the map's order; a long text goes through the builder, a short one
   * through `contains` and `String.replace`. Both give the null-checked chain.
   */
  method ProcessPlaceholdersOptimized(content: string, m: PlaceholderMap) returns (r: string)
    requires |content| > BUILDER_THRESHOLD ==> NonEmptyKeys(m)
    ensures r == SubstituteAll(content, m)
  {
    if m == [] {
      return content;
    }
    r := content;
    var i := 0;
    if |content| > BUILDER_THRESHOLD {
      while i < |m|
        invariant 0 <= i <= |m|
        invariant r == SubstituteAll(content, m[..i])
      {
        assert m[..i + 1][..i] == m[..i];
        if m[i].value.Some? {
          GuardIsRedundant(r, m[i]);
          r := ReplaceInStringBuilder(r, m[i].key, m[i].value.value);
        }
        i := i + 1;
      }
    } else {
      while i < |m|
        invariant 0 <= i <= |m|
        invariant r == SubstituteAll(content, m[..i])
      {
        assert m[..i + 1][..i] == m[..i];
        if m[i].value.Some? && Contains(r, m[i].key) {
          r := ReplaceAll(r, m[i].key, m[i].value.value);
        }
        i := i + 1;
      }
    }
    assert m[..|m|] == m;
  }

  /** `countReplacementsDelta`: 0 for an unchanged text, else the per-key drop in occurrences. */
  method CountReplacementsDelta(original: string, processed: string, m: PlaceholderMap) returns (count: int)
    ensures count == ReplacementDelta(original, processed, m)
  {
    if original == processed {
      return 0;
    }
    count := 0;
    var i := 0;
    while i < |m|
      invariant 0 <= i <= |m|
      invariant count == KeyDelta(original, processed, m[..i])
    {
      assert m[..i + 1][..i] == m[..i];
      var originalCount := CountOccurrencesOptimized(original, m[i].key);
      var processedCount := CountOccurrencesOptimized(processed, m[i].key);
      count := count + (originalCount - processedCount);
      i := i + 1;
    }
    assert m[..|m|] == m;
  }

  /** `copyStreamDirect`: every read is written as it arrives, and nothing is replaced. */
  method CopyStreamDirect(chunks: seq<Bytes>) returns (out: Bytes, stats: Stats)
    ensures out == ConcatBytes(chunks)
    ensures stats == Stats(|out|, 0, 0)
  {
    out := [];
    var totalBytes := 0;
    var i := 0;
    while i < |chunks|
      invariant 0 <= i <= |chunks|
      invariant out == ConcatBytes(chunks[..i]) && totalBytes == |out|
    {
      ConcatBytesSnoc(chunks[..i], chunks[i]);
      assert chunks[..i + 1] == chunks[..i] + [chunks[i]];
      out := out + chunks[i];
      totalBytes := totalBytes + |chunks[i]|;
      i := i + 1;
    }
    assert chunks[..|chunks|] == chunks;
    stats := Stats(totalBytes, 0, 0);
  }

  /**
   * What successive reads of `size` bytes deliver from an in-memory array:
   * full chunks and a shorter last one.
   */
  function GreedyChunks(content: Bytes, size: nat): (r: seq<Bytes>)
    requires size > 0
    ensures ConcatBytes(r) == content
    ensures forall i :: 0 <= i < |r| ==> 0 < |r[i]| <= size
    ensures forall i :: 0 <= i < |r| - 1 ==> |r[i]| == size
    decreases |content|
  {
    if content == [] then []
    else if |content| <= size then
      assert [content] == [] + [content];
      [content]
    else
      var rest := GreedyChunks(content[size..], size);
      ConcatBytesCons(content[..size], rest);
      assert content == content[..size] + content[size..];
      [content[..size]] + rest
  }

  /** The strategy's configuration, fixed at construction. */
  datatype StreamingReplacementStrategy = StreamingReplacementStrategy(bufferSize: int, overlapSize: int)
  {
    predicate Valid()
    {
      bufferSize >= MIN_BUFFER_SIZE && overlapSize == OverlapFor(bufferSize)
    }

    /**
     * `processStreamOptimized`: the window loop. The flush of a leftover
     * carry after the loop never runs, because the window of the last read
     * always clears the carry.
     */
    method ProcessStreamOptimized(chunks: seq<Bytes>, m: PlaceholderMap, cs: Codec) returns (out: Bytes, stats: Stats)
      requires Valid() && WindowsTerminate(chunks, m, cs, overlapSize)
      ensures var run := RunPrefix(chunks, m, cs, overlapSize, |chunks|);
              out == run.out && stats == Stats(run.bytesProcessed, run.replacements, |m|)
    {
      var totalBytesProcessed, totalReplacements := 0, 0;
      var overlap: string := [];
      out := [];
      ghost var written: string := [];
      var i := 0;
      while i < |chunks|
        invariant 0 <= i <= |chunks|
        invariant RunPrefix(chunks, m, cs, overlapSize, i) == Run(out, written, overlap, totalBytesProcessed, totalReplacements)
      {
        var bytesRead := chunks[i];
        totalBytesProcessed := totalBytesProcessed + |bytesRead|;
        var content := overlap + cs.decode(bytesRead);
        assert content == WindowContent(chunks, m, cs, overlapSize, i + 1);
        var processed := ProcessPlaceholdersOptimized(content, m);
        var delta := CountReplacementsDelta(content, processed, m);
        totalReplacements := totalReplacements + delta;
        var isLastChunk := i + 1 == |chunks|;
        if !isLastChunk && |processed| > overlapSize {
          var writeLength := |processed| - overlapSize;
          out := out + cs.encode(processed[..writeLength]);
          written := written + processed[..writeLength];
          overlap := processed[writeLength..];
        } else {
          out := out + cs.encode(processed);
          written := written + processed;
          overlap := [];
        }
        i := i + 1;
      }
      RunInvariants(chunks, m, cs, overlapSize, |chunks|);
      if overlap != [] {
        assert false;
      }
      stats := Stats(totalBytesProcessed, totalReplacements, |m|);
    }

    /**
     * `replace(InputStream, OutputStream, ...)`: an empty map copies the
     * stream; otherwise the keys are ordered longest first and the window
     * loop runs over them.
     */
    method ReplaceStream(chunks: seq<Bytes>, m: PlaceholderMap, cs: Codec) returns (out: Bytes, stats: Stats)
      requires Valid() && WindowsTerminate(chunks, SortByKeyLength(m), cs, overlapSize)
      ensures m == [] ==> out == ConcatBytes(chunks) && stats == Stats(ByteCount(chunks), 0, 0)
      ensures m != [] ==>
                var run := RunPrefix(chunks, SortByKeyLength(m), cs, overlapSize, |chunks|);
                out == run.out && stats == Stats(run.bytesProcessed, run.replacements, |m|)
      ensures stats.bytesProcessed == ByteCount(chunks)
    {
      if m == [] {
        out, stats := CopyStreamDirect(chunks);
        return;
      }
      var sortedPlaceholders := SortByKeyLength(m);
      out, stats := ProcessStreamOptimized(chunks, sortedPlaceholders, cs);
      RunInvariants(chunks, sortedPlaceholders, cs, overlapSize, |chunks|);
      assert chunks[..|chunks|] == chunks;
    }

    /**
     * `replace(byte[], ...)`: an empty map gives a copy; content larger than
     * the buffer goes through the stream path; smaller content is decoded,
     * substituted in the caller's own order and re-encoded.
     */
    method ReplaceBytes(content: Bytes, m: PlaceholderMap, cs: Codec) returns (r: Bytes)
      requires Valid()
      requires |content| > bufferSize ==> WindowsTerminate(GreedyChunks(content, bufferSize), SortByKeyLength(m), cs, overlapSize)
      requires |content| <= bufferSize && |cs.decode(content)| > BUILDER_THRESHOLD ==> NonEmptyKeys(m)
      ensures m == [] ==> r == content
      ensures m != [] && |content| > bufferSize ==>
                var chunks := GreedyChunks(content, bufferSize);
                r == RunPrefix(chunks, SortByKeyLength(m), cs, overlapSize, |chunks|).out
      ensures m != [] && |content| <= bufferSize ==> r == cs.encode(SubstituteAll(cs.decode(content), m))
    {
      if m == [] {
        return content;
      }
      if |content| > bufferSize {
        var stats;
        r, stats := ReplaceStream(GreedyChunks(content, bufferSize), m, cs);
        return;
      }
      var text := cs.decode(content);
      var processed := ProcessPlaceholdersOptimized(text, m);
      r := cs.encode(processed);
    }
  }

  /** `new StreamingReplacementStrategy(bufferSize)`. */
  function Create(requested: int): (s: StreamingReplacementStrategy)
    ensures s.Valid()
    ensures s.bufferSize == ClampBufferSize(requested)
    ensures 0 < s.overlapSize < s.bufferSize
  {
    var b := ClampBufferSize(requested);
    StreamingReplacementStrategy(b, OverlapFor(b))
  }

  /**
   * The stream replacement with the output independent of how the reads
   * split the input: the decoded reads are gathered and the whole text is
   * substituted once, so nothing already substituted is substituted again.
   * It holds the whole text instead of one window.
   */
  method CorrectedProcessStream(chunks: seq<Bytes>, m: PlaceholderMap, cs: Codec) returns (out: Bytes, stats: Stats)
    requires NonEmptyKeys(m) || |ConcatStrings(DecodedReads(chunks, cs))| <= BUILDER_THRESHOLD
    ensures var text := ConcatStrings(DecodedReads(chunks, cs));
            && out == cs.encode(SubstituteAll(text, m))
            && stats == Stats(ByteCount(chunks), ReplacementDelta(text, SubstituteAll(text, m), m), |m|)
  {
    var text: string := [];
    var totalBytesProcessed := 0;
    var i := 0;
    while i < |chunks|
      invariant 0 <= i <= |chunks|
      invariant text == ConcatStrings(DecodedReads(chunks[..i], cs))
      invariant totalBytesProcessed == ByteCount(chunks[..i])
    {
      ReadsSnoc(chunks, cs, i);
      text := text + cs.decode(chunks[i]);
      totalBytesProcessed := totalBytesProcessed + |chunks[i]|;
      i := i + 1;
    }
    assert chunks[..|chunks|] == chunks;
    var processed := ProcessPlaceholdersOptimized(text, m);
    var delta := CountReplacementsDelta(text, processed, m);
    out := cs.encode(processed);
    stats := Stats(totalBytesProcessed, delta, |m|);
  }

  /** The small-content byte path leaves bytes alone when no key occurs and the charset round-trips them. */
  lemma SmallPathKeepsUntouchedBytes(content: Bytes, m: PlaceholderMap, cs: Codec)
    requires RoundTrips(cs, content) && NoKeyOccurs(cs.decode(content), m)
    ensures cs.encode(SubstituteAll(cs.decode(content), m)) == content
  {
    SubstituteAllAbsent(cs.decode(content), m);
  }
}

=== FILE: text_file_processor.dfy ===
/**
 * The text file processor: source, markup, configuration and plain-text
 * files streamed through a placeholder engine of its own, with a warning,
 * for a JSON file, about each value that would break a JSON string.
 */
module TextFileProcessors {
  import opened JavaLang
  import opened JavaText
  import opened Placeholders
  import opened ProcessingResults
  import opened ValidationResults
  import opened FileNames
  import opened Profiler
  import PlaceholderEngines

  /** The supported extensions, one group per line of the declaration. */
  const SUPPORTED_EXTENSIONS: set<string> :=
    SOURCE_EXTENSIONS + WEB_EXTENSIONS + CONFIG_EXTENSIONS + DOC_EXTENSIONS + SCRIPT_EXTENSIONS + TABLE_EXTENSIONS
  const SOURCE_EXTENSIONS: set<string> :=
    {"java", "kt", "py", "js", "ts", "cpp", "c", "h", "hpp", "cs", "go", "rs", "php", "rb", "swift"}
  const WEB_EXTENSIONS: set<string> := {"html", "htm", "css", "scss", "sass", "jsx", "tsx", "vue"}
  const CONFIG_EXTENSIONS: set<string> := {"json", "xml", "yaml", "yml", "toml", "ini", "conf", "config", "properties"}
  const DOC_EXTENSIONS: set<string> := {"md", "txt", "rst", "adoc", "tex"}
  const SCRIPT_EXTENSIONS: set<string> := {"sh", "bash", "bat", "ps1", "sql", "hbs", "mustache", "jinja", "twig"}
  const TABLE_EXTENSIONS: set<string> := {"log", "csv", "tsv"}
  /** The supported MIME types: five of the "text/" family and five application types. */
  const SUPPORTED_MIME_TYPES: set<string> := TEXT_MIME_TYPES + APPLICATION_MIME_TYPES
  const TEXT_MIME_TYPES: set<string> := {"text/plain", "text/html", "text/css", "text/javascript", "text/xml"}
  const APPLICATION_MIME_TYPES: set<string> :=
    {"application/json", "application/xml", "application/javascript", "application/x-yaml", "application/x-toml"}
  const JSON_WARNING: string := "Placeholder value may break JSON syntax: "
  const PRIORITY: int := 100

  /**
   * `canProcess`: a supported extension (after the last dot, any case), or
   * a MIME type that is listed or starts with "text/" (any case).
   */
  predicate CanProcess(filename: Option<string>, mimeType: Option<string>)
  {
    || (filename.Some? && ToLower(AfterLastDot(filename)) in SUPPORTED_EXTENSIONS)
    || (mimeType.Some? && (ToLower(mimeType.value) in SUPPORTED_MIME_TYPES || StartsWith(ToLower(mimeType.value), "text/")))
  }

  /** By MIME type alone: every "text/" type, and of the other types exactly the five listed application types. */
  lemma MimeTypeAccepted(mimeType: string)
    ensures CanProcess(None, Some(mimeType)) <==> StartsWith(ToLower(mimeType), "text/") || ToLower(mimeType) in APPLICATION_MIME_TYPES
  {
    ListedTextMimeTypes();
  }

  /** The listed "text/" types need no listing: the prefix alone admits them. */
  lemma ListedTextMimeTypes()
    ensures forall m :: m in TEXT_MIME_TYPES ==> StartsWith(m, "text/")
  {
    forall m | m in TEXT_MIME_TYPES ensures StartsWith(m, "text/") {
      assert m[..5] == "text/";
    }
  }

  /** Every "text/" MIME type is accepted, whatever the file name. */
  lemma TextMimeTypeAccepted(filename: Option<string>, mimeType: string)
    requires StartsWith(ToLower(mimeType), "text/")
    ensures CanProcess(filename, Some(mimeType))
  {
  }

  /** No supported extension is seven characters long (one lemma per group keeps each proof small). */
  lemma NoSupportedExtensionOfLength7()
    ensures forall e :: e in SUPPORTED_EXTENSIONS ==> |e| != 7
  {
    NoSourceExtensionOfLength7();
    NoWebExtensionOfLength7();
    NoConfigExtensionOfLength7();
    NoDocExtensionOfLength7();
    NoScriptExtensionOfLength7();
    NoTableExtensionOfLength7();
  }

  lemma NoSourceExtensionOfLength7() ensures forall e :: e in SOURCE_EXTENSIONS ==> |e| != 7 {}
  lemma NoWebExtensionOfLength7() ensures forall e :: e in WEB_EXTENSIONS ==> |e| != 7 {}
  lemma NoConfigExtensionOfLength7() ensures forall e :: e in CONFIG_EXTENSIONS ==> |e| != 7 {}
  lemma NoDocExtensionOfLength7() ensures forall e :: e in DOC_EXTENSIONS ==> |e| != 7 {}
  lemma NoScriptExtensionOfLength7() ensures forall e :: e in SCRIPT_EXTENSIONS ==> |e| != 7 {}
  lemma NoTableExtensionOfLength7() ensures forall e :: e in TABLE_EXTENSIONS ==> |e| != 7 {}

  /** No listed MIME type is nineteen characters long. */
  lemma NoSupportedMimeTypeOfLength19()
    ensures forall m :: m in SUPPORTED_MIME_TYPES ==> |m| != 19
  {
  }

  /** `validate` looks for JSON trouble in a name that ends in ".json", any case. */
  predicate IsJsonName(filename: Option<string>)
  {
    filename.Some? && EndsWith(ToLower(filename.value), ".json")
  }

  /** A name `validate` treats as JSON is one the processor accepts, whatever the MIME type. */
  lemma JsonNamesAccepted(filename: string, mimeType: Option<string>)
    ensures IsJsonName(Some(filename)) ==> CanProcess(Some(filename), mimeType)
  {
    if IsJsonName(Some(filename)) {
      JsonNameExtension(filename);
      JsonListed();
    }
  }

  lemma JsonNameExtension(filename: string)
    requires IsJsonName(Some(filename))
    ensures ToLower(AfterLastDot(Some(filename))) == "json"
  {
    assert "." + "json" == ".json";
    SuffixGivesExtension(filename, "json");
  }

  lemma JsonListed()
    ensures "json" in SUPPORTED_EXTENSIONS
  {
    assert "json" in CONFIG_EXTENSIONS;
  }

  /** A value with a double quote, a line feed or a carriage return. */
  predicate BreaksJson(p: Placeholder)
  {
    p.value.Some? && (Contains(p.value.value, "\"") || Contains(p.value.value, "\n") || Contains(p.value.value, "\r"))
  }

  /** The test is on single characters: one of the three occurs in the value. */
  lemma BreaksJsonIffSpecialChar(p: Placeholder)
    ensures BreaksJson(p) <==> p.value.Some? && ('"' in p.value.value || '\n' in p.value.value || '\r' in p.value.value)
  {
    if p.value.Some? {
      ContainsChar(p.value.value, '"');
      ContainsChar(p.value.value, '\n');
      ContainsChar(p.value.value, '\r');
    }
  }

  function JsonWarning(p: Placeholder): seq<string>
  {
    if BreaksJson(p) then [JSON_WARNING + p.key] else []
  }

  /** The warnings the ".json" check adds after the engine's, in iteration order. */
  function JsonWarnings(m: PlaceholderMap): (r: seq<string>)
    ensures |r| <= |m|
  {
    if m == [] then [] else JsonWarnings(m[..|m| - 1]) + JsonWarning(m[|m| - 1])
  }

  lemma JsonWarningsSnoc(m: PlaceholderMap, i: nat)
    requires i < |m|
    ensures JsonWarnings(m[..i + 1]) == JsonWarnings(m[..i]) + JsonWarning(m[i])
  {
    assert m[..i + 1][..i] == m[..i];
  }

  /** Each warning names the key of a value that breaks JSON, and each such key is named. */
  lemma {:induction false} JsonWarningsNameKeys(m: PlaceholderMap)
    ensures forall w :: w in JsonWarnings(m) <==> exists i :: 0 <= i < |m| && BreaksJson(m[i]) && w == JSON_WARNING + m[i].key
    decreases |m|
  {
    if m != [] {
      var n := |m| - 1;
      JsonWarningsNameKeys(m[..n]);
      assert forall i :: 0 <= i < n ==> m[..n][i] == m[i];
    }
  }

  /** `estimateMemoryUsage`: a tenth of the file, truncated toward zero. */
  function EstimateMemoryUsage(fileSize: int): (r: int)
    ensures fileSize >= 0 ==> 0 <= r && 10 * r <= fileSize < 10 * r + 10
    ensures fileSize < 0 ==> r <= 0 && fileSize <= 10 * r < fileSize + 10
  {
    JDiv(fileSize, 10)
  }

  class TextFileProcessor {
    const engine: PlaceholderEngines.PlaceholderEngine

    ghost predicate Valid()
      reads this, engine, engine.profiler
    {
      engine.Valid() && engine.strategy == PlaceholderEngines.DefaultStrategy()
    }

    /** A processor with an engine of the default streaming strategy and no history. */
    constructor ()
      ensures Valid() && fresh(engine) && fresh(engine.profiler)
      ensures engine.metrics == map[] && engine.profiler.history == []
    {
      engine := new PlaceholderEngines.PlaceholderEngine(PlaceholderEngines.DefaultStrategy());
    }

    /**
     * `process`: the engine's `processStream` over the input in UTF-8. A null
     * map throws, and the exception is rethrown (`null`); an empty map
     * copies the input; otherwise the streaming strategy's output and
     * counts, and the engine records one more sample. An empty file gives
     * empty output.
     */
    method Process(chunks: seq<Bytes>, m: Option<PlaceholderMap>, utf8: Codec, elapsed: int)
      returns (out: Bytes, result: ProcessingResult?)
      requires Valid()
      requires m.Some? ==> engine.strategy.StreamFinishes(chunks, m.value, utf8)
      modifies engine, engine.profiler
      ensures Valid()
      ensures result == null <==> m.None?
      ensures m == Some([]) ==> out == ConcatBytes(chunks) && result.Counts() == Stats(ByteCount(chunks), 0, 0)
      ensures m.Some? && chunks == [] ==> out == [] && result.Counts().bytesProcessed == 0
      ensures m.Some? && m.value != [] ==>
                && (out, result.Counts()) == engine.strategy.StreamOutput(chunks, m.value, utf8, false)
                && engine.profiler.history == old(engine.profiler.history) + [Sample(elapsed, ByteCount(chunks), |m.value|)]
                && engine.metrics == PlaceholderEngines.UpdatedMetrics(old(engine.metrics), result.Counts(), elapsed)
    {
      out, result := engine.ProcessStream(chunks, m, utf8, elapsed, false);
    }

    /**
     * `validate`: the engine's validation, then, for a ".json" name, one
     * warning per value with a quote or a line break, in iteration order.
     */
    method Validate(filename: Option<string>, m: PlaceholderMap) returns (result: ValidationResult)
      ensures fresh(result)
      ensures result.errors == PlaceholderEngines.ValidationErrors(m)
      ensures result.warnings == PlaceholderEngines.ValidationWarnings(m) + (if IsJsonName(filename) then JsonWarnings(m) else [])
      ensures result.IsValid() <==> forall i :: 0 <= i < |m| ==> !IsBlank(m[i].key)
    {
      var validated := engine.ValidatePlaceholders(Some(m));
      result := validated;
      if filename.Some? && EndsWith(ToLower(filename.value), ".json") {
        WarnJsonBreakers(result, m);
      }
    }

    /** The loop over the map that adds a warning per value that breaks JSON. */
    static method WarnJsonBreakers(result: ValidationResult, m: PlaceholderMap)
      modifies result`warnings
      ensures result.warnings == old(result.warnings) + JsonWarnings(m)
    {
      ghost var start := result.warnings;
      var i := 0;
      while i < |m|
        invariant 0 <= i <= |m|
        invariant result.warnings == start + JsonWarnings(m[..i])
      {
        JsonWarningsSnoc(m, i);
        var value := m[i].value;
        if value.Some? && (Contains(value.value, "\"") || Contains(value.value, "\n") || Contains(value.value, "\r")) {
          result.AddWarning(JSON_WARNING + m[i].key);
        }
        i := i + 1;
      }
      assert m[..i] == m;
    }
  }
}

=== FILE: transformation_result.dfy ===
/**
 * The immutable answer of the transform service for one file: either a
 * success carrying content and the processor's statistics, or an error
 * carrying a message.
 */
module TransformationResults {
  import opened JavaLang
  import opened ProcessingResults

  datatype TransformationResult = TransformationResult(
    filename: Option<string>,
    success: bool,
    content: Option<Bytes>,
    errorMessage: Option<string>,
    processingResult: Option<ProcessingResult>)
  {
    /** The content as a fresh copy; a byte sequence is a value, so the copy is the content itself. */
    function GetContent(): (r: Option<Bytes>)
      ensures r == content
    {
      content
    }

    /** Empty without a processing result, otherwise that result's list. */
    function GetWarnings(): (r: seq<string>)
      reads if processingResult.Some? then {processingResult.value} else {}
      ensures processingResult.None? ==> r == []
      ensures processingResult.Some? ==> r == processingResult.value.warnings
    {
      if processingResult.Some? then processingResult.value.warnings else []
    }

    predicate HasWarnings()
      reads if processingResult.Some? then {processingResult.value} else {}
    {
      processingResult.Some? && processingResult.value.HasWarnings()
    }
  }

  function Success(filename: Option<string>, content: Bytes, result: ProcessingResult): (r: TransformationResult)
    ensures r.success && r.errorMessage.None?
    ensures r.filename == filename && r.GetContent() == Some(content)
    ensures r.processingResult == Some(result)
  {
    TransformationResult(filename, true, Some(content), None, Some(result))
  }

  function Error(filename: Option<string>, errorMessage: string): (r: TransformationResult)
    ensures !r.success && r.content.None? && r.processingResult.None?
    ensures r.filename == filename && r.errorMessage == Some(errorMessage)
  {
    TransformationResult(filename, false, None, Some(errorMessage), None)
  }

  /** `hasWarnings` agrees with a non-empty `getWarnings`. */
  lemma HasWarningsIffWarnings(t: TransformationResult)
    ensures t.HasWarnings() <==> t.GetWarnings() != []
  {
  }
}

=== FILE: validation_result.dfy ===
/**
 * The outcome of validating a placeholder map or a file: an ordered list of
 * errors and an ordered list of warnings, both only ever appended to.
 */
module ValidationResults {

  class ValidationResult {
    var errors: seq<string>
    var warnings: seq<string>

    /** A fresh result has no messages and is valid. */
    constructor ()
      ensures errors == [] && warnings == []
      ensures IsValid() && !HasWarnings()
    {
      errors := [];
      warnings := [];
    }

    /** Appends an error; the result is invalid from now on. */
    method AddError(error: string)
      modifies this`errors
      ensures errors == old(errors) + [error]
      ensures HasErrors() && !IsValid()
    {
      errors := errors + [error];
    }

    /** Appends a warning; validity is unchanged. */
    method AddWarning(warning: string)
      modifies this`warnings
      ensures warnings == old(warnings) + [warning]
      ensures HasWarnings()
      ensures IsValid() == old(IsValid())
    {
      warnings := warnings + [warning];
    }

    predicate HasErrors()
      reads this
    {
      errors != []
    }

    predicate HasWarnings()
      reads this
    {
      warnings != []
    }

    /** Valid exactly when no error was ever added. */
    predicate IsValid()
      reads this
    {
      errors == []
    }
  }
}
